=== FILE: README.md ===
# osm-lib core in Dafny

A model of the integer and byte logic of conveyal osm-lib, the Java library that loads OpenStreetMap data into a MapDB store and moves it between formats. The model covers:

- **The VEX interchange format.**
  - `VexCodec` covers the per-entity fields written by `VexOutput` and read by `VexInput`: a ZigZag id delta, the tags, then the node coordinates as deltas, the way references as deltas against a block-wide running reference, or the relation members.
  - `DeflaterStream`, `BlockOutput`, `Framing` and `Inflater` are the buffering and framing layers: the double buffer that keeps message boundaries, the block writer that ends a block near its size threshold, the frame of tag, count and length, and the read-ahead inflater.
  - `VexIo` puts them together end to end.
- **The legacy VEX codec** of `VexFormatCodec` (`Legacy`). It has its own framing: a varint type, a zero id delta that ends a block, and a trailing count.
- **The sibling encoders.**
  - `WaySerializer` is the MapDB value format of a way.
  - `IndexKeys` covers the store's tile-index keys.
  - `Pbf` covers `PBFOutput`: blocks, string tables, delta coding and blob framing.
- **The entity-stream logic.**
  - `OsmStore` is the `OSM` store as a sink and as a source.
  - `TileSource` is the tile-range source.
  - `Postgres` is the Postgres sink's phase machine and row text.
  - `Changeset` is the osmChange handler.
- **Replication.** `Replication` covers the diff paths, the parsing of state files, the selection of diffs in both `Updater` and `MinutelyUpdater`, the application of diffs, and the polling loop.

Shared definitions:

- `Wrappers` holds `Option` and `Result`.
- `Bytes` holds Java `int`/`long` with explicit wrap-around, and big-endian encodings.
- `Utf8` and `VarInt` hold the string and varint primitives.
- `Osm` holds the entity datatypes and the sink call trace.
- `Errors` holds the exceptions.
- `Numerals` and `Text` hold decimal text and splitting.

Modelling choices:

- Every operation is a pure function over immutable values. A stateful Java object becomes a state record plus step functions.
- A sink is modelled as the trace of calls it receives.
- A thrown exception becomes an `Err` of `Errors.Error`.

Assumed primitives (their sources are not part of this model):

- The varint and ZigZag primitives of `VarIntOutputStream`/`VarIntInputStream` and `serializer.VarInt` follow the "Base 128 Varints" and "Signed Integers" sections of the Protocol Buffers encoding guide.
- Strings follow UTF-8.
- Guava's `Ints` and MapDB's `DataIO.putLong`/`getLong` are big-endian.
- PBF's `StringTable` reserves the empty string at code 0.
- The tile index orders its keys as unsigned byte strings, compared byte by byte (`Bytes.LexLess`). That order is MapDB's `BTreeKeySerializer.BYTE_ARRAY` comparator, whose source is not part of this model. The comment at src/main/java/com/conveyal/osmlib/OSM.java:344-345 relies on it. `IndexKeys.KeyOrder` and `TileSource` depend on it.

A VEX file has no end block. `VexOutput.writeEnd` (src/main/java/com/conveyal/osmlib/VexOutput.java:127) only ends the open block. `DeflatedBlockReader.readHeader` (src/main/java/com/conveyal/osmlib/DeflatedBlockReader.java:66-77) throws on any tag other than `VEXN`, `VEXW` and `VEXR`, which is what `Framing.NoneTagRejected` states.

## Model

| member | source | states |
|---|---|---|
| Bytes.WrapDelta | src/main/java/com/conveyal/osmlib/VexInput.java:87-88 | adding the long difference written by the writer back to the previous id, with Java wrap-around, restores the id |
| Bytes.Wrap64Mod | src/main/java/com/conveyal/osmlib/VexOutput.java:72 | a Java long difference is the true difference modulo 2^64 |
| Bytes.BigEndian | src/main/java/com/conveyal/osmlib/OSM.java:350 | the fixed-width big-endian form has exactly the requested width |
| Bytes.FromToBigEndian | src/main/java/com/conveyal/osmlib/DeflatedBlockReader.java:78-81 | reading back a fixed-width big-endian field gives the value written |
| Bytes.ToFromBigEndian | src/main/java/com/conveyal/osmlib/DeflatedBlockReader.java:78-81 | every byte string of a given width is the big-endian form of the value it reads as |
| Bytes.BigEndianInjective | src/main/java/com/conveyal/osmlib/OSM.java:350 | two values of the same width have equal big-endian forms only if they are equal |
| Bytes.IntToBytes | src/main/java/com/conveyal/osmlib/DeflatedBlockWriter.java:45-46 | an int is written as exactly four bytes |
| Bytes.IntBytesRoundTrip | src/main/java/com/conveyal/osmlib/DeflatedBlockReader.java:78-81 | the four bytes written for an int read back as that int, negative values included |
| Bytes.Wrap32Unsigned | src/main/java/com/conveyal/osmlib/VexInput.java:72 | the unsigned 32-bit pattern of an int narrows back to that int |
| Bytes.LongToBytes | src/main/java/com/conveyal/osmlib/OSM.java:350 | a long key field is exactly eight bytes |
| Bytes.LexLessConcat | src/main/java/com/conveyal/osmlib/OSM.java:343-352 | keys made of equal-width fields compare field by field, first field first |
| Bytes.BigEndianOrder | src/main/java/com/conveyal/osmlib/OSM.java:343-352 | big-endian encoding of a fixed width keeps the order of the values it encodes |
| Utf8.EncodeChar | src/main/java/com/conveyal/osmlib/VexOutput.java:111-112 | each character takes one to four bytes, the first of which is not a continuation byte |
| Utf8.DecodeEncodeChar | src/main/java/com/conveyal/osmlib/VexInput.java:77-78 | decoding the bytes of one character returns it and leaves what follows untouched |
| Utf8.DecodeEncode | src/main/java/com/conveyal/osmlib/VexInput.java:77-78 | every string is recovered from its UTF-8 bytes |
| VarInt.EncodeVarint | src/main/java/com/conveyal/osmlib/VexOutput.java:106-108 | a varint takes at least one byte |
| VarInt.VarintRoundTrip | src/main/java/com/conveyal/osmlib/VexInput.java:72 | decoding a varint returns the value written and consumes exactly its bytes |
| VarInt.DecodeVarintConsumes | src/main/java/com/conveyal/osmlib/VexInput.java:72 | every varint read consumes at least one byte |
| VarInt.ZigZag | src/main/java/com/conveyal/osmlib/VexOutput.java:76 | the zigzag code of a long fits 64 bits and is even exactly for values that are not negative |
| VarInt.ZigZagRoundTrip | src/main/java/com/conveyal/osmlib/VexInput.java:87 | zigzag decoding undoes zigzag encoding for every long |
| VarInt.SInt64RoundTrip | src/main/java/com/conveyal/osmlib/VexInput.java:87 | a signed long written as zigzag varint reads back unchanged, consuming exactly its bytes |
| VarInt.UInt32RoundTrip | src/main/java/com/conveyal/osmlib/VexInput.java:103 | an int written as an unsigned 32-bit varint reads back as the same int, negative values included |
| VarInt.UInt64RoundTrip | src/main/java/com/conveyal/osmlib/VexFormatCodec.java:80 | a non-negative long written as a varint reads back unchanged |
| VarInt.StringRoundTrip | src/main/java/com/conveyal/osmlib/VexInput.java:77-78 | a length-prefixed UTF-8 string reads back unchanged, consuming exactly its bytes |
| VarInt.ReadSInt64Consumes | src/main/java/com/conveyal/osmlib/VexInput.java:87 | a successful signed read consumes at least one byte |
| VarInt.ReadUInt32Consumes | src/main/java/com/conveyal/osmlib/VexInput.java:103 | a successful unsigned read consumes at least one byte |
| VarInt.ReadStringConsumes | src/main/java/com/conveyal/osmlib/VexInput.java:77 | a successful string read consumes at least one byte |
| Osm.TypeForOrdinal | src/main/java/com/conveyal/osmlib/VexInput.java:112-124 | indexing the entity-type values succeeds exactly for 0, 1 and 2, and gives the type with that ordinal |
| Osm.VexCode | src/main/java/com/conveyal/osmlib/VexFormat.java:6-9 | the block code of an entity type is its ordinal, and never the NONE code |
| VexCodec.EncodeRefs | src/main/java/com/conveyal/osmlib/VexOutput.java:154-158 | way references are written as differences from a running reference; after the loop the running reference is the way's last node, and an empty way leaves it unchanged |
| VexCodec.EncodeRun | src/main/java/com/conveyal/osmlib/VexOutput.java:135-173 | every entity written adds at least one byte to the block |
| VexCodec.DecodeTagPairs | src/main/java/com/conveyal/osmlib/VexInput.java:76-80 | the loop reads exactly the declared number of key/value pairs, none for a count of zero or less |
| VexCodec.DecodeTags | src/main/java/com/conveyal/osmlib/VexInput.java:70-82 | a tag list that is read successfully never has more than 500 tags |
| VexCodec.DecodeBody | src/main/java/com/conveyal/osmlib/VexInput.java:84-130 | the type-specific fields give an entity of the block's type carrying the tags already read, and leave the running id alone |
| VexCodec.DecodeEntities | src/main/java/com/conveyal/osmlib/VexInput.java:52-66 | the block loop yields exactly the declared number of entities, each of the block's type |
| VexCodec.TypeForVexCode | src/main/java/com/conveyal/osmlib/VexInput.java:53-65 | only the codes 0, 1 and 2 name an entity type, and the type named has that code |
| VexCodec.ReadBlock | src/main/java/com/conveyal/osmlib/VexInput.java:48-68 | a count of zero or less yields nothing even for an unknown type; an unknown type with a positive count is rejected; otherwise exactly the declared number of entities, all of the block's type |
| VexCodec.TagPairsRoundTrip | src/main/java/com/conveyal/osmlib/VexInput.java:76-80 | key/value pairs written by the writer's tag loop are read back in order, consuming exactly their bytes |
| VexCodec.TagsRoundTrip | src/main/java/com/conveyal/osmlib/VexInput.java:70-82 | a tag list of at most 500 tags, written with its count, reads back unchanged and in order |
| VexCodec.TooManyTagsRejected | src/main/java/com/conveyal/osmlib/VexInput.java:72-75 | the writer puts no limit on tags but the reader rejects a count above 500, so such an entity is written and then cannot be read |
| VexCodec.RefsRoundTrip | src/main/java/com/conveyal/osmlib/VexInput.java:103-108 | the reader's running reference undoes the writer's deltas for any list of references, with the same final running reference |
| VexCodec.MemberRoundTrip | src/main/java/com/conveyal/osmlib/VexInput.java:121-126 | a member written as id, type ordinal and role reads back as the same member |
| VexCodec.MembersRoundTrip | src/main/java/com/conveyal/osmlib/VexInput.java:120-127 | a relation's member list reads back unchanged and in order |
| VexCodec.DeltaRestores32 | src/main/java/com/conveyal/osmlib/VexInput.java:90-91 | adding a coordinate delta to the previous coordinate in long arithmetic and narrowing to int restores the coordinate |
| VexCodec.NodeBodyRoundTrip | src/main/java/com/conveyal/osmlib/VexInput.java:84-95 | a node's coordinates, delta-coded against the previous node, read back exactly and update the same running values as the writer |
| VexCodec.WayBodyRoundTrip | src/main/java/com/conveyal/osmlib/VexInput.java:97-110 | a way's node list reads back exactly, with the running reference the writer left |
| VexCodec.RelationBodyRoundTrip | src/main/java/com/conveyal/osmlib/VexInput.java:114-130 | a relation's members read back exactly and the running values are unchanged |
| VexCodec.BodyRoundTrip | src/main/java/com/conveyal/osmlib/VexOutput.java:135-173 | for every entity type the type-specific fields written by the writer read back as the same entity and leave reader and writer in the same delta state |
| VexCodec.EntityRoundTrip | src/main/java/com/conveyal/osmlib/VexOutput.java:71-79 | one entity message (id delta, tags, fields) decoded from the writer's delta state returns the same id and entity, ends in the writer's state and consumes exactly the message |
| VexCodec.RunRoundTrip | src/main/java/com/conveyal/osmlib/VexInput.java:52-66 | a run of same-type entities decodes from the same starting state to the same entities in order |
| VexCodec.EncodeRunSnoc | src/main/java/com/conveyal/osmlib/VexOutput.java:27-28 | the delta state persists between entities: appending an entity appends its message coded against the state the previous entities left |
| VexCodec.BlockRoundTrip | src/main/java/com/conveyal/osmlib/VexInput.java:48-50 | a block written from zeroed delta fields reads back, with its declared count and type, as the same entities whatever bytes pad the buffer after them |
| VexIo.BeginBlock | src/main/java/com/conveyal/osmlib/VexOutput.java:37-57 | beginning a block zeroes the four delta fields and sets the header the next handed-off block will carry; nothing already written changes |
| VexIo.CheckBlockTransition | src/main/java/com/conveyal/osmlib/VexOutput.java:86-100 | the same type changes nothing; a new type ends the current block (unless no block was begun) and begins one with zeroed deltas; no committed byte or message is lost |
| VexIo.WriteOne | src/main/java/com/conveyal/osmlib/VexOutput.java:135-173 | a successful entity write leaves the block of the entity's type open and counts exactly one more message |
| VexIo.WriteOneCut | src/main/java/com/conveyal/osmlib/AsyncBufferedDeflaterOutputStream.java:58-62 | the corrected writer also leaves a block of the entity's type open and counts exactly one more message |
| VexIo.WriteEntities | src/main/java/com/conveyal/osmlib/VexOutput.java:135-173 | writing a list of entities counts one message per entity |
| VexIo.WriteEntitiesCut | src/main/java/com/conveyal/osmlib/VexOutput.java:135-173 | the corrected writer counts one message per entity as well |
| VexIo.Finish | src/main/java/com/conveyal/osmlib/VexOutput.java:127-132 | at the end every committed byte has left in blocks, each holding at least one message and at most one buffer |
| VexIo.ReadBlocks | src/main/java/com/conveyal/osmlib/VexInput.java:39-43 | the reader's block loop reports only entity writes |
| VexIo.Read | src/main/java/com/conveyal/osmlib/VexInput.java:35-46 | a successful read reports writeBegin first, writeEnd last and entity writes in between |
| VexIo.StreamBlocks | src/main/java/com/conveyal/osmlib/AsyncBufferedDeflaterOutputStream.java:86-102 | a layout of runs becomes one non-empty block per run, none larger than the buffer |
| VexIo.DownstreamFrames | src/main/java/com/conveyal/osmlib/DeflatedBlockWriter.java:38-53 | the bytes sent downstream for the writer's blocks are exactly the frames of the runs' blocks |
| VexIo.RunBlockDecodes | src/main/java/com/conveyal/osmlib/VexInput.java:40-41 | a block of the layout, inflated into the zero-padded buffer, decodes to its run |
| VexIo.ReadBlocksRuns | src/main/java/com/conveyal/osmlib/VexInput.java:39-43 | an inflater that delivers the frames of a layout makes the reader yield the runs' entities in order |
| VexIo.LayoutRoundTrip | src/main/java/com/conveyal/osmlib/VexInput.java:35-46 | the framed bytes of a layout read back as writeBegin, the runs' entities in order, writeEnd |
| VexIo.Step | src/main/java/com/conveyal/osmlib/VexOutput.java:135-173 | one corrected write keeps the layout invariant and appends the entity to what the layout holds |
| VexIo.Steps | src/main/java/com/conveyal/osmlib/VexOutput.java:135-173 | a sequence of corrected writes never fails on entities that each fit a block, and lays them out in order |
| VexIo.FinishRuns | src/main/java/com/conveyal/osmlib/VexOutput.java:127-132 | writeEnd hands off the run still in the buffer, so the output is the layout of all runs |
| VexIo.CutLayout | src/main/java/com/conveyal/osmlib/VexOutput.java:119-173 | the corrected writer's output is the framed layout of runs that together hold the entities in order |
| VexIo.CutRoundTrip | src/main/java/com/conveyal/osmlib/VexInput.java:35-46 | corrected writer then reader: every entity sequence whose entities each fit a block reads back as writeBegin, the same entities in order, writeEnd |
| VexIo.SameWithoutCut | src/main/java/com/conveyal/osmlib/AsyncBufferedDeflaterOutputStream.java:58-62 | when no block must be cut for size, the writer as written and the corrected writer do the same |
| VexIo.AgreeWithoutCut | src/main/java/com/conveyal/osmlib/AsyncBufferedDeflaterOutputStream.java:58-62 | over a whole list of entities with no size cut, both writers agree |
| VexIo.RoundTrip | src/main/java/com/conveyal/osmlib/VexOutput.java:119-173 | as written, the round trip holds whenever no block outgrows its buffer: same entities, same order |
| VexIo.LongWayFillsBlock | src/main/java/com/conveyal/osmlib/AsyncBufferedDeflaterOutputStream.java:28 | a way of 2 MiB minus its header bytes worth of references to node 0 fills a block exactly, and a short second way fits the next |
| VexIo.Misread | src/main/java/com/conveyal/osmlib/VexInput.java:48-50 | the reader reports the continuation block's first way with id 1 (its delta against zero) |
| VexIo.CutLosesId | src/main/java/com/conveyal/osmlib/AsyncBufferedDeflaterOutputStream.java:58-62 | as written, a way that fills the buffer followed by way 2 is read back with way 2's id as 1: the stream cuts the block under the writer, whose deltas are not reset |
| VexIo.CutKeepsId | src/main/java/com/conveyal/osmlib/VexOutput.java:37-38 | with the corrected writer the same two ways read back unchanged |
| DeflaterStream.SetHeader | src/main/java/com/conveyal/osmlib/VexOutput.java:55-56 | setting the header changes nothing already handed off, committed or pending |
| DeflaterStream.EndMessage | src/main/java/com/conveyal/osmlib/AsyncBufferedDeflaterOutputStream.java:66-70 | ending a message commits the pending fragment and counts one more message |
| DeflaterStream.EndBlock | src/main/java/com/conveyal/osmlib/AsyncBufferedDeflaterOutputStream.java:77-103 | with no committed message nothing changes; otherwise the committed bytes leave as one block under the current header and the fragment moves to the front of the other buffer |
| DeflaterStream.Write | src/main/java/com/conveyal/osmlib/AsyncBufferedDeflaterOutputStream.java:57-64 | a byte write succeeds exactly when the pending fragment is shorter than the buffer, and appends the byte to it; a full buffer first ends the block |
| DeflaterStream.WriteAll | src/main/java/com/conveyal/osmlib/AsyncBufferedDeflaterOutputStream.java:57-64 | writing a message byte by byte keeps the stream well formed and its header |
| DeflaterStream.WriteAllSpec | src/main/java/com/conveyal/osmlib/AsyncBufferedDeflaterOutputStream.java:53-64 | a message's bytes are written exactly when the fragment still fits one buffer, and then appended to it, with committed data and message count untouched |
| DeflaterStream.WriteAllNoRotation | src/main/java/com/conveyal/osmlib/AsyncBufferedDeflaterOutputStream.java:58-63 | while there is room the bytes only go into the buffer: no block is cut |
| DeflaterStream.MessageTooLarge | src/main/java/com/conveyal/osmlib/AsyncBufferedDeflaterOutputStream.java:53-55 | a single message longer than the buffer cannot be written |
| DeflaterStream.WriteFull | src/main/java/com/conveyal/osmlib/AsyncBufferedDeflaterOutputStream.java:59-62 | a write on a full buffer behaves as if endBlock had come just before it |
| DeflaterStream.WriteAllFull | src/main/java/com/conveyal/osmlib/AsyncBufferedDeflaterOutputStream.java:59-62 | so a message started on a full buffer goes, whole, to the front of a new block |
| BlockOutput.Open | src/main/java/com/conveyal/osmlib/AsyncBlockOutputStream.java:28-42 | a new stream has handed off nothing and holds an empty buffer |
| BlockOutput.SetEntityType | src/main/java/com/conveyal/osmlib/AsyncBlockOutputStream.java:55-58 | setting the entity type changes nothing already buffered or handed off |
| BlockOutput.Write | src/main/java/com/conveyal/osmlib/AsyncBlockOutputStream.java:60-65 | a byte write succeeds exactly when the buffer has room, and appends the byte |
| BlockOutput.EndBlock | src/main/java/com/conveyal/osmlib/AsyncBlockOutputStream.java:84-103 | with messages pending the buffer leaves as one block under the current entity type and a fresh buffer starts; with none nothing changes |
| BlockOutput.EndMessage | src/main/java/com/conveyal/osmlib/AsyncBlockOutputStream.java:71-77 | ending a message counts it, and ends the block exactly when fewer than 16 KiB remain in the buffer |
| BlockOutput.Close | src/main/java/com/conveyal/osmlib/AsyncBlockOutputStream.java:44-53 | closing hands off the end marker after every earlier block |
| BlockOutput.WriteAllSpec | src/main/java/com/conveyal/osmlib/AsyncBlockOutputStream.java:60-65 | a message's bytes are written exactly when the buffer has room for all of them |
| BlockOutput.MessageAfterEndFits | src/main/java/com/conveyal/osmlib/AsyncBlockOutputStream.java:20-24 | after any endMessage a following message of at most 16 KiB always fits |
| BlockOutput.CloseDropsBuffered | src/main/java/com/conveyal/osmlib/AsyncBlockOutputStream.java:44-53 | close does not end the open block, so buffered messages are never handed off |
| Framing.BlockTag | src/main/java/com/conveyal/osmlib/VexOutput.java:37-57 | every block code gets a four-byte tag, and only codes other than node, way and relation get NONE |
| Framing.TagCode | src/main/java/com/conveyal/osmlib/DeflatedBlockReader.java:66-77 | a recognised tag yields a node, way or relation code whose tag it is |
| Framing.TagCodeInverse | src/main/java/com/conveyal/osmlib/DeflatedBlockReader.java:68-77 | the reader recovers every code the writer tags, and not NONE |
| Framing.Deflate | src/main/java/com/conveyal/osmlib/DeflatedBlockWriter.java:55-67 | an empty block compresses to nothing |
| Framing.WriteFrame | src/main/java/com/conveyal/osmlib/DeflatedBlockWriter.java:43-47 | a frame is the header, two four-byte big-endian ints and the data |
| Framing.ReadFrame | src/main/java/com/conveyal/osmlib/DeflatedBlockReader.java:37-90 | an unknown tag is the only error; input ending inside a header is end of input; a declared size outside 0 to 2 MiB leaves the block without a buffer; a read block has a node, way or relation code and a 2 MiB buffer |
| Framing.FrameRoundTrip | src/main/java/com/conveyal/osmlib/DeflatedBlockReader.java:37-61 | a frame written for a node, way or relation block reads back as its code, count and bytes padded to the buffer size, leaving exactly what follows |
| Framing.NoneTagRejected | src/main/java/com/conveyal/osmlib/DeflatedBlockReader.java:74-77 | a block tagged NONE by the writer is rejected by the reader |
| Framing.TruncatedHeaderIsEnd | src/main/java/com/conveyal/osmlib/DeflatedBlockReader.java:82-86 | input ending inside a header after a recognised tag is end of input, not an error |
| Framing.FramesRoundTrip | src/main/java/com/conveyal/osmlib/DeflatedBlockReader.java:37-90 | frames written back to back read back in order, then end of input |
| Inflater.RunInBackground | src/main/java/com/conveyal/osmlib/AsyncBufferedInflater.java:60-63 | a read run on its own thread never grows the input, and a delivered block consumes some |
| Inflater.Fetch | src/main/java/com/conveyal/osmlib/AsyncBufferedInflater.java:41-54 | fetching a block consumes input unless it was already read ahead |
| Inflater.NextBlock | src/main/java/com/conveyal/osmlib/AsyncBufferedInflater.java:41-67 | only the first, synchronous read can raise; the result is true exactly when a block is current, and the count of blocks read goes up with it |
| Inflater.EndIsSticky | src/main/java/com/conveyal/osmlib/AsyncBufferedInflater.java:56-59 | once nextBlock has said there are no more blocks it keeps saying so |
| Inflater.FirstBlockFailure | src/main/java/com/conveyal/osmlib/AsyncBufferedInflater.java:42-46 | a bad first tag is the caller's exception |
| Inflater.LaterBlockFailure | src/main/java/com/conveyal/osmlib/AsyncBufferedInflater.java:60-63 | a later bad tag ends only the background thread: the caller is told a block is ready but it has no buffer |
| Inflater.NextBlockDelivers | src/main/java/com/conveyal/osmlib/AsyncBufferedInflater.java:55-66 | each nextBlock hands out the next frame in stream order, or reports the end when none is left |
| Inflater.AheadDelivers | src/main/java/com/conveyal/osmlib/AsyncBufferedInflater.java:60-63 | starting the read-ahead on input that parses to some frames leaves an inflater that delivers those frames |
| Legacy.ReadEntity | src/main/java/com/conveyal/osmlib/VexFormatCodec.java:256-286 | a zero id delta ends the block and consumes nothing after it; any entity read is of the block's type and is stored under the new running id; every read consumes input |
| Legacy.ReadBlock | src/main/java/com/conveyal/osmlib/VexFormatCodec.java:215-242 | a NONE type ends reading; a type that is neither node, way nor relation never leaves the read loop; a block that is read consumes input |
| Legacy.CheckCount | src/main/java/com/conveyal/osmlib/VexFormatCodec.java:236-240 | a block is accepted exactly when the number of reads, terminator included, equals the recorded count plus one in 32-bit arithmetic, and a mismatch reports both numbers |
| Legacy.ReadVex | src/main/java/com/conveyal/osmlib/VexFormatCodec.java:64-71 | input shorter than the header ends in EOF, and input whose first six bytes are not "VEXFMT" is a corrupt header |
| Legacy.CheckBlockTransition | src/main/java/com/conveyal/osmlib/VexFormatCodec.java:305-317 | nothing is written while the type stays the same; on a change the open block (if any) is ended with its count, the counter is reset and a block of the new type begins with zeroed deltas |
| Legacy.Handle | src/main/java/com/conveyal/osmlib/VexFormatCodec.java:320-350 | an entity of the open block's type is written as its message alone and bumps the count by one; the count stays positive and grows by at most one |
| Legacy.AscendingNoRepeat | src/main/java/com/conveyal/osmlib/VexFormatCodec.java:102-112 | entries written in ascending id order, the first differing from the state before it, never repeat the previous id, so no zero id delta is written inside a block |
| Legacy.EntityRoundTrip | src/main/java/com/conveyal/osmlib/VexFormatCodec.java:146-157 | the reader, in the writer's delta state, reads an entity message back as the same id and entity and ends in the writer's state, whenever the id differs from the previous one |
| Legacy.EntriesRoundTrip | src/main/java/com/conveyal/osmlib/VexFormatCodec.java:106-115 | the entity messages of a block, followed by the terminator, read back as the same entries in the same order when no id repeats the previous one |
| Legacy.BlockRead | src/main/java/com/conveyal/osmlib/VexFormatCodec.java:215-242 | a written block with any recorded count reads back as its entries, accepted exactly when the count check passes |
| Legacy.BlockRoundTrip | src/main/java/com/conveyal/osmlib/VexFormatCodec.java:106-137 | a block as writeNodeBlock/writeWayBlock/writeRelationBlock write it reads back as its entries with no length mismatch |
| Legacy.EndRecordRead | src/main/java/com/conveyal/osmlib/VexFormatCodec.java:56-59 | the NONE block's end record reads back as the sentinel 0 and the block count 4 |
| Legacy.VexRoundTrip | src/main/java/com/conveyal/osmlib/VexFormatCodec.java:45-88 | reading what writeVex wrote puts every entry of each map into the map of its type, counts four blocks as recorded, and logs no sentinel or block-count error |
| Legacy.PutAllAscending | src/main/java/com/conveyal/osmlib/VexFormatCodec.java:267 | putting entries in ascending id order leaves the store's keys the old keys plus the entries' ids, each mapped to its entity |
| Legacy.PutAllKeeps | src/main/java/com/conveyal/osmlib/VexFormatCodec.java:284 | putting entries of other ids leaves an existing entry unchanged |
| Legacy.ZeroIdEndsBlock | src/main/java/com/conveyal/osmlib/VexFormatCodec.java:256-260 | an entity with id 0 first in a block is read as the block's end: the reader stops before its tags and puts nothing |
| Legacy.CountMismatch | src/main/java/com/conveyal/osmlib/VexFormatCodec.java:237-240 | a block whose recorded count disagrees with the entities it holds is rejected with a length mismatch |
| Legacy.ConvertRun | src/main/java/com/conveyal/osmlib/VexFormatCodec.java:319-350 | a run of same-type entities fed to a converter with that block open writes exactly their messages and counts them |
| Legacy.OpenRun | src/main/java/com/conveyal/osmlib/VexFormatCodec.java:305-328 | a run of same-type entities that starts a new block writes the transition, then their messages from zeroed deltas, and counts exactly them |
| Legacy.ConverterBlocks | src/main/java/com/conveyal/osmlib/VexFormatCodec.java:292-351 | fed nodes then ways, the streaming converter has written the node block exactly as writeVex writes it and holds the way block open with the way messages |
| WaySerializer.Deserialize | src/main/java/com/conveyal/osmlib/serializer/WaySerializer.java:29-40 | a way that is read has exactly as many references as the count read first, and a negative count is a negative-array-size error |
| WaySerializer.RefsLength | src/main/java/com/conveyal/osmlib/serializer/WaySerializer.java:34-37 | the reference loop fills exactly the number of slots asked for |
| WaySerializer.RoundTrip | src/main/java/com/conveyal/osmlib/serializer/WaySerializer.java:18-40 | a serialized way reads back with the same references in the same order, whether they rise, fall or repeat, and the same tags, leaving what follows untouched |
| WaySerializer.AllRoundTrip | src/main/java/com/conveyal/osmlib/serializer/WaySerializer.java:20-33 | because the running reference restarts at 0 for every way, a sequence of serialized ways reads back as those ways |
| IndexKeys.SetInt | src/main/java/com/conveyal/osmlib/OSM.java:334-339 | the four bytes at pos..pos+3 become the int's bytes, most significant first, and every other byte of the buffer is unchanged |
| IndexKeys.ShiftBytesBigEndian | src/main/java/com/conveyal/osmlib/OSM.java:334-339 | the shifts and masks of setInt give the big-endian two's-complement bytes of the int, negative ints included |
| IndexKeys.GetIntBytes | src/main/java/com/conveyal/osmlib/OSM.java:325-332 | getInt reads the four bytes at pos as a big-endian two's-complement int |
| IndexKeys.GetSetInt | src/main/java/com/conveyal/osmlib/OSM.java:325-339 | reading an int back with getInt where setInt just stored it yields the same int |
| IndexKeys.IndexMake | src/main/java/com/conveyal/osmlib/OSM.java:341-352 | a key is refused exactly when the way id is negative, and otherwise is sixteen bytes long |
| IndexKeys.IndexMakeFields | src/main/java/com/conveyal/osmlib/OSM.java:347-350 | the key is x, then y, as four big-endian bytes each, then the way id as eight big-endian bytes |
| IndexKeys.IndexMakeReads | src/main/java/com/conveyal/osmlib/OSM.java:341-352 | x and y read back from a key with getInt at offsets 0 and 4, and the way id from its last eight bytes |
| IndexKeys.KeyOrder | src/main/java/com/conveyal/osmlib/OSM.java:341-352 | for non-negative fields, the unsigned byte order of keys is the order of the (x, y, way id) tuples |
| IndexKeys.KeyBelowWrappedRow | src/main/java/com/conveyal/osmlib/OSM.java:341-352 | the key of row Integer.MIN_VALUE (bytes 80 00 00 00) in column x sorts above every key with non-negative fields in columns up to x, and below those of later columns |
| OsmStore.Begin | src/main/java/com/conveyal/osmlib/OSM.java:265-270 | loading is refused exactly when the store already holds a node, a way or a relation, and otherwise changes nothing |
| OsmStore.WriteNode | src/main/java/com/conveyal/osmlib/OSM.java:279-281 | the node is stored under its id, replacing any earlier one, and every other node and all other state are unchanged |
| OsmStore.WriteRelation | src/main/java/com/conveyal/osmlib/OSM.java:308-310 | the relation is stored under its id, replacing any earlier one, and every other relation and all other state are unchanged |
| OsmStore.TileForWay | src/main/java/com/conveyal/osmlib/OSM.java:247-260 | there is no tile exactly when the way is neither given nor stored or its first node is not stored |
| OsmStore.IndexWay | src/main/java/com/conveyal/osmlib/OSM.java:223-232 | a way that cannot be located leaves the store unchanged; a located way adds exactly the key `indexMake(x, y, wayId)` of its tile, a negative way id or a way without nodes fails, and nothing but the index changes |
| OsmStore.UnIndexWay | src/main/java/com/conveyal/osmlib/OSM.java:234-244 | a way that is not stored leaves the store unchanged; a stored, located way removes exactly the key `indexMake(x, y, wayId)` of its tile, a negative way id or a way without nodes fails, and nothing but the index changes |
| OsmStore.UnIndexUndoesIndex | src/main/java/com/conveyal/osmlib/OSM.java:223-244 | un-indexing a stored way right after indexing it gives back the store, when the index held no key of that way before |
| OsmStore.WriteWay | src/main/java/com/conveyal/osmlib/OSM.java:284-305 | the way is stored under its id and every other way, node, relation and the timestamp are unchanged; without tile indexing it never fails and leaves the index alone; with tile indexing it fails exactly for a way without nodes, or a negative id whose first node is stored, and it adds exactly the key of the first node's tile when that node is stored; without intersection detection the referenced and intersection sets are unchanged |
| OsmStore.TrackCounts | src/main/java/com/conveyal/osmlib/OSM.java:290-297 | the detection loop keeps the referenced set equal to the nodes seen at least once and the intersection set equal to those seen at least twice |
| OsmStore.IntersectionsReferenced | src/main/java/com/conveyal/osmlib/OSM.java:292-296 | every intersection node is also a referenced node |
| OsmStore.WriteWayTracks | src/main/java/com/conveyal/osmlib/OSM.java:284-298 | with detection on, writing a way keeps both sets in step with the references of every way written so far, overwritten ways included |
| OsmStore.SortedKeys | src/main/java/com/conveyal/osmlib/OSM.java:106-119 | a B-tree map's keys are iterated in strictly ascending order, each key once |
| OsmStore.Preamble | src/main/java/com/conveyal/osmlib/OSM.java:199-203 | copyTo sets the timestamp, calls writeBegin second, and sets the timestamp again only when it is positive |
| OsmStore.TableOrder | src/main/java/com/conveyal/osmlib/OSM.java:204-212 | copying a table writes each stored entity exactly once, under its own id, in ascending id order |
| OsmStore.CopyToShape | src/main/java/com/conveyal/osmlib/OSM.java:197-214 | copyTo makes one write per stored entity between its preamble, whose second call is writeBegin, and writeEnd, which comes last |
| OsmStore.CopyToTables | src/main/java/com/conveyal/osmlib/OSM.java:204-213 | copyTo writes the node table, then the way table, then the relation table |
| TileSource.SetTileRange | src/main/java/com/conveyal/osmlib/TileOSMSource.java:23-31 | a range whose minimum exceeds its maximum on either axis is refused with an illegal-argument error; otherwise the four bounds are stored as given |
| TileSource.ColumnSelects | src/main/java/com/conveyal/osmlib/TileOSMSource.java:57-60 | for non-negative fields, the column subset for x holds exactly the indexed keys of tile column x whose row lies in minY..maxY, also when maxY is Integer.MAX_VALUE and the exclusive bound maxY + 1 wraps to Integer.MIN_VALUE (`IndexKeys.KeyBelowWrappedRow`) |
| TileSource.ColumnsFromMembers | src/main/java/com/conveyal/osmlib/TileOSMSource.java:50-60 | the column loop visits a key exactly when it lies in the column subset of some x between the current x and maxX |
| TileSource.KeyWayId | src/main/java/com/conveyal/osmlib/TileOSMSource.java:62 | reading the way id of a key fails exactly when the key is shorter than sixteen bytes |
| TileSource.KeyWayIdMake | src/main/java/com/conveyal/osmlib/TileOSMSource.java:62 | the way id read from a key is the one indexMake put there |
| TileSource.WayNodesSpec | src/main/java/com/conveyal/osmlib/TileOSMSource.java:69-78 | one way's node loop writes stored nodes only, each at most once and none already seen, marks exactly what it writes, and afterwards every stored node the way refers to is marked |
| TileSource.NodePassOk | src/main/java/com/conveyal/osmlib/TileOSMSource.java:61-67 | the node pass fails exactly when a visited key is too short to hold a way id |
| TileSource.NodePassSpec | src/main/java/com/conveyal/osmlib/TileOSMSource.java:61-78 | the node pass writes stored nodes only, each at most once and none seen before, and marks exactly what it writes |
| TileSource.NodePassCovers | src/main/java/com/conveyal/osmlib/TileOSMSource.java:61-78 | after the node pass every stored node of every visited stored way is marked |
| TileSource.WayPassSpec | src/main/java/com/conveyal/osmlib/TileOSMSource.java:61-81 | the way pass writes stored ways only, and every stored way of a visited key |
| TileSource.WayPassOk | src/main/java/com/conveyal/osmlib/TileOSMSource.java:61-81 | the way pass fails exactly when a visited key is too short to hold a way id |
| TileSource.CopyToOrder | src/main/java/com/conveyal/osmlib/TileOSMSource.java:42-89 | writeBegin comes first and writeEnd last, every node write precedes every way write, no node is written twice, and each write carries the stored entity of its id |
| TileSource.CopyToOk | src/main/java/com/conveyal/osmlib/TileOSMSource.java:47-88 | copyTo fails only when maxX is the largest int, so the column loop cannot end, or a visited key is too short |
| TileSource.CopyToCovers | src/main/java/com/conveyal/osmlib/TileOSMSource.java:42-89 | every stored way of a visited key is written, and so is every stored node it refers to |
| TileSource.VisitedSelects | src/main/java/com/conveyal/osmlib/TileOSMSource.java:49-61 | with non-negative tiles, the key of tile (x, y) and way w is visited exactly when it is indexed and the tile lies in the range, for every maxY up to Integer.MAX_VALUE |
| Pbf.GetCode | src/main/java/com/conveyal/osmlib/PBFOutput.java:180-181 | the code handed out names the string in the grown table, the table only grows by at most one string, and with code 0 reserved a string gets code 0 exactly when it is empty |
| Pbf.LookupGrown | src/main/java/com/conveyal/osmlib/PBFOutput.java:180-181 | a code handed out earlier in a block still names the same string once the block's table has grown |
| Pbf.TagCodesLookup | src/main/java/com/conveyal/osmlib/PBFOutput.java:178-184 | every key/value code pair the tag loop hands out names its tag in any table the block's table later grows into |
| Pbf.TagCodesKeysNonZero | src/main/java/com/conveyal/osmlib/PBFOutput.java:178-186 | with code 0 reserved, a non-empty key never gets code 0, so it cannot be mistaken for the end-of-node delimiter |
| Pbf.DeltaRoundTrip | src/main/java/com/conveyal/osmlib/PBFOutput.java:163-174 | delta coding in long arithmetic is lossless: running sums of the deltas give back the values in order |
| Pbf.DeltasSnoc | src/main/java/com/conveyal/osmlib/PBFOutput.java:163-164 | appending a value appends its wrapped difference from the previous one |
| Pbf.KeysValsRoundTrip | src/main/java/com/conveyal/osmlib/PBFOutput.java:176-186 | one node's key/value codes followed by the 0 delimiter read back as those codes |
| Pbf.BeginBlock | src/main/java/com/conveyal/osmlib/PBFOutput.java:48-55 | a new block starts with zero id and coordinate bases, a zero counter, a cleared string table and empty groups |
| Pbf.EndBlock | src/main/java/com/conveyal/osmlib/PBFOutput.java:58-66 | the open group is written out exactly when the counter is positive, and nothing else changes |
| Pbf.Transition | src/main/java/com/conveyal/osmlib/PBFOutput.java:114-122 | the current type becomes the entity's type; a type change or a full block starts a fresh block, ending the open one unless there is none; otherwise only the counter changes, and as written it is incremented there |
| Pbf.EndBlockKeeps | src/main/java/com/conveyal/osmlib/PBFOutput.java:58-66 | ending a block moves the open group's entities into the output and keeps every block within the limit |
| Pbf.TransitionKeeps | src/main/java/com/conveyal/osmlib/PBFOutput.java:114-122 | counting every entity, the transition leaves room for one more entity and loses none |
| Pbf.EntityKeeps | src/main/java/com/conveyal/osmlib/PBFOutput.java:158-254 | counting every entity, one write adds exactly one entity to what is emitted or open |
| Pbf.AllKeep | src/main/java/com/conveyal/osmlib/PBFOutput.java:158-254 | counting every entity, a run of writes adds one entity per write |
| Pbf.PerEntityKeepsAll | src/main/java/com/conveyal/osmlib/PBFOutput.java:143-156 | counting every entity, a PBF file holds as many entities as were written and no block holds more than 8000 of them |
| Pbf.PerEntityCarriesAll | src/main/java/com/conveyal/osmlib/PBFOutput.java:58-254 | counting every entity, a reader of the file gets back every entity written, with its id, tags, coordinates, references and members, in the order written |
| Pbf.EntityCarries | src/main/java/com/conveyal/osmlib/PBFOutput.java:114-254 | counting every entity, one write leaves the blobs written plus the open group decoding to everything before it followed by the new entity |
| Pbf.DenseAppend | src/main/java/com/conveyal/osmlib/PBFOutput.java:159-189 | a node appended to a dense group reads back after the earlier nodes, from the running sums of the id and coordinate columns and from its tag codes after the earlier nodes' |
| Pbf.LoneEntityLost | src/main/java/com/conveyal/osmlib/PBFOutput.java:114-122 | as written, a file holding one node carries the header block and no node at all, and a reader gets no entity back |
| Pbf.NodeDeltaStep | src/main/java/com/conveyal/osmlib/PBFOutput.java:163-174 | a node written into the open node block extends the id, latitude and longitude columns by its deltas |
| Pbf.NodeDeltaOpen | src/main/java/com/conveyal/osmlib/PBFOutput.java:48-49 | a node that opens a block is coded against zero bases |
| Pbf.DenseDecodes | src/main/java/com/conveyal/osmlib/PBFOutput.java:163-174 | running sums over a block's dense columns give back every id and coordinate |
| Pbf.NodeTagsRead | src/main/java/com/conveyal/osmlib/PBFOutput.java:176-186 | a node's keysVals entries follow the earlier nodes' untouched and read back, up to the 0 after them, as codes naming the node's tags, as long as no key is empty |
| Pbf.WayRoundTrip | src/main/java/com/conveyal/osmlib/PBFOutput.java:190-215 | a way message reads back as the way; references restart from 0 for every way, so decreasing and repeated references survive |
| Pbf.RoleCodesLookup | src/main/java/com/conveyal/osmlib/PBFOutput.java:234-237 | every role code names its role in any table the block's table grows into |
| Pbf.RelationRoundTrip | src/main/java/com/conveyal/osmlib/PBFOutput.java:217-254 | a relation message reads back as the relation: its tags and its member ids, types and roles in order |
| Pbf.MakeBlob | src/main/java/com/conveyal/osmlib/PBFOutput.java:82-92 | a block is stored raw exactly when it is non-empty and compressing does not make it strictly smaller; otherwise it is stored compressed with its raw size |
| Pbf.BlobRoundTrip | src/main/java/com/conveyal/osmlib/PBFOutput.java:82-92 | whichever way a block is stored, a reader gets the serialized block back |
| Pbf.BlobType | src/main/java/com/conveyal/osmlib/PBFOutput.java:73-80 | a header block's blob type is OSMHeader and a data block's is OSMData |
| Pbf.FrameRoundTrip | src/main/java/com/conveyal/osmlib/PBFOutput.java:98-102 | a frame, the header length as four big-endian bytes then the header, splits back into its header and what follows |
| Pbf.OneBlobReads | src/main/java/com/conveyal/osmlib/PBFOutput.java:69-107 | a reader that splits the frame and decodes the header finds the blob type and, in the next datasize bytes, exactly the serialized blob |
| Numerals.Digits | src/main/java/com/conveyal/osmlib/PostgresSink.java:177 | a non-negative number prints as at least one digit and with no leading zero |
| Numerals.DigitsValue | src/main/java/com/conveyal/osmlib/PostgresSink.java:177 | reading back the digits of a number gives the number |
| Numerals.DigitsInjective | src/main/java/com/conveyal/osmlib/PostgresSink.java:177 | two numbers with the same digits are the same number |
| Numerals.Decimal | src/main/java/com/conveyal/osmlib/PostgresSink.java:144 | a long prints as its digits, preceded by a minus sign when negative |
| Numerals.DigitsLength | src/main/java/com/conveyal/osmlib/Updater.java:80 | a number of 1000 or more has at least four digits, and a smaller one at most three |
| Numerals.Pad3 | src/main/java/com/conveyal/osmlib/Updater.java:80 | %03d prints the digits padded with zeros to at least three, exactly three below 1000 |
| Numerals.Pad3Value | src/main/java/com/conveyal/osmlib/Updater.java:80 | the zero-padded text still reads as the number |
| Numerals.ParseBounded | src/main/java/com/conveyal/osmlib/ChangesetParser.java:33 | a parsed number lies within the type's range, and any rejection is a number-format error |
| Numerals.ParseDecimal | src/main/java/com/conveyal/osmlib/ChangesetParser.java:33 | printing a number in range and parsing it back gives the number |
| Numerals.ParseLongDecimal | src/main/java/com/conveyal/osmlib/ChangesetParser.java:55 | Long.parseLong of Long.toString gives back the long |
| Numerals.JavaRem | src/main/java/com/conveyal/osmlib/Updater.java:197 | Java's remainder takes the sign of the dividend and agrees with truncating division |
| Text.FieldsCons | src/main/java/com/conveyal/osmlib/Updater.java:96 | a separator after a piece without separators cuts exactly there |
| Text.JoinWithFields | src/main/java/com/conveyal/osmlib/PostgresSink.java:177 | pieces without the separator, joined with it, are cut back into exactly those pieces |
| Text.JoinWithFree | src/main/java/com/conveyal/osmlib/PostgresSink.java:177 | joining adds no character other than the separator |
| Postgres.Clean | src/main/java/com/conveyal/osmlib/PostgresSink.java:302-308 | cleaning replaces each tab, line feed, carriage return and backslash by one space and keeps every other character in place |
| Postgres.CleanPlain | src/main/java/com/conveyal/osmlib/PostgresSink.java:269 | no tab, line feed, carriage return or backslash survives cleaning |
| Postgres.CleanKeepsPlain | src/main/java/com/conveyal/osmlib/PostgresSink.java:302-308 | a string is left unchanged by cleaning exactly when it holds none of the four special characters |
| Postgres.CleanIdempotent | src/main/java/com/conveyal/osmlib/PostgresSink.java:302-308 | cleaning twice is cleaning once |
| Postgres.NextPhase | src/main/java/com/conveyal/osmlib/PostgresSink.java:135-143 | an entity is accepted exactly when it continues the current phase or opens the next one in the order nodes, ways, relations; otherwise it is out of order |
| Postgres.Write | src/main/java/com/conveyal/osmlib/PostgresSink.java:134-217 | an entity out of the standard order is refused; otherwise exactly one row of its table is appended (plus one member row per member for a relation), the other tables are unchanged, and the insert counter restarts at 1 when the phase changes |
| Postgres.WriteAllOk | src/main/java/com/conveyal/osmlib/PostgresSink.java:134-217 | a run of writes succeeds exactly when every step keeps the standard order |
| Postgres.LoadsIffStandard | src/main/java/com/conveyal/osmlib/PostgresSink.java:34-35 | from a fresh sink, loading succeeds exactly when the entities come as nodes, then ways, then relations |
| Postgres.RowsPerEntity | src/main/java/com/conveyal/osmlib/PostgresSink.java:134-217 | every entity written becomes exactly one row, every relation member one member row, and the phase invariant holds throughout |
| Postgres.JoinRoundTrip | src/main/java/com/conveyal/osmlib/PostgresSink.java:176-178 | the comma-joined node ids of a way read back as the nodes |
| Postgres.LineColumns | src/main/java/com/conveyal/osmlib/PostgresSink.java:144-151 | a row whose columns hold no tab is cut back at its tabs into exactly those columns, and ends with a line feed |
| Postgres.WayRowColumns | src/main/java/com/conveyal/osmlib/PostgresSink.java:170-179 | a way row is one line of three columns: the id, which reads back as the id, the cleaned tags, and the braced array of node ids, which reads back as the nodes |
| Postgres.MemberRowColumns | src/main/java/com/conveyal/osmlib/PostgresSink.java:205-212 | a member row is one line of four columns: relation id, member type, member id, which reads back as the member's id, and the cleaned role |
| Postgres.HumanSmall | src/main/java/com/conveyal/osmlib/PostgresSink.java:314 | a count below 1000 prints as its decimal form and reads back exactly |
| Postgres.HumanThousands | src/main/java/com/conveyal/osmlib/PostgresSink.java:313 | a count in the thousands prints as whole thousands with a k suffix, rounded down |
| Changeset.NameIsCases | src/main/java/com/conveyal/osmlib/ChangesetParser.java:35-54 | an element name matches its handler name in upper case and in lower case |
| Changeset.Exclusive | src/main/java/com/conveyal/osmlib/ChangesetParser.java:35-56 | an element name matches at most one of the handler's names, so every name it matches is the class it is handled as |
| Changeset.AddTag | src/main/java/com/conveyal/osmlib/ChangesetParser.java:53 | the entity keeps its kind and gains the tag after its existing tags |
| Changeset.StartElement | src/main/java/com/conveyal/osmlib/ChangesetParser.java:29-57 | every opening element leaves the database alone and sets the last id from its id attribute, or to -1 without one; an unparsable id is a number-format error; add and modify leave delete mode, delete enters it, anything else keeps it; a tag outside an entity fails; a tag inside one succeeds only with both `k` and `v` and appends that pair; an `nd` with no way open fails |
| Changeset.EndElement | src/main/java/com/conveyal/osmlib/ChangesetParser.java:59-91 | a closing delete leaves delete mode; in delete mode a closing node, way or relation removes the entry under the key, otherwise it stores the entity of that kind (a way with its collected references); a closing element with no entity open fails, and other names change nothing |
| Changeset.RunAppend | src/main/java/com/conveyal/osmlib/ChangesetParser.java:29-91 | handling two event runs in a row is handling the second from the state the first leaves, and an error stops the run |
| Changeset.ChildrenRun | src/main/java/com/conveyal/osmlib/ChangesetParser.java:52-56 | the children of an entity are taken in document order: tags are appended to the entity's tags and references to the way's node list |
| Changeset.WayElementRun | src/main/java/com/conveyal/osmlib/ChangesetParser.java:45-83 | a way element outside any delete block files the way, with its tags and its node references in document order, under the key the handler computes |
| Changeset.WayFiledUnderMinusOne | src/main/java/com/conveyal/osmlib/ChangesetParser.java:32-33 | as written, a way with any child element is filed under -1, not its own id, and its own entry is left as it was |
| Changeset.OneNodeWayMisfiled | src/main/java/com/conveyal/osmlib/ChangesetParser.java:76-83 | as written, way 7 with one node reference, loaded into an empty database, ends up stored under -1 only |
| Changeset.WayFiledUnderOwnId | src/main/java/com/conveyal/osmlib/ChangesetParser.java:76-83 | keyed by the id of the entity's own element, every way is filed under its own id and nothing else changes |
| Changeset.DeleteWayRemoves | src/main/java/com/conveyal/osmlib/ChangesetParser.java:37-38 | a delete block around a childless way removes that way and leaves delete mode |
| Replication.SplitParts | src/main/java/com/conveyal/osmlib/Updater.java:77-79 | the three parts recombine to the sequence number, the millions part at most 2147 and the other two below a thousand |
| Replication.SplitUnique | src/main/java/com/conveyal/osmlib/Updater.java:77-79 | any such decomposition of the sequence number is the one computed |
| Replication.SeqPathRoundTrip | src/main/java/com/conveyal/osmlib/Updater.java:76-80 | the diff path cuts at its slashes into three digit groups that read back as the sequence number, millions first |
| Replication.SeqPathInjective | src/main/java/com/conveyal/osmlib/Updater.java:76-80 | different sequence numbers have different paths |
| Replication.StateUrlBesideDiff | src/main/java/com/conveyal/osmlib/Updater.java:81-89 | cutting six characters off the diff URL keeps the dot, so the state file of a diff is its path with .state.txt |
| Replication.StripTrailing | src/main/java/com/conveyal/osmlib/Updater.java:96 | split's result is a prefix of the pieces that ends in a non-empty piece, and only empty pieces are dropped |
| Replication.SplitPair | src/main/java/com/conveyal/osmlib/Updater.java:96-97 | a key=value line with non-empty value splits into exactly the key and the value |
| Replication.KvsPair | src/main/java/com/conveyal/osmlib/Updater.java:93-99 | a later key=value line sets the key, overwriting an earlier value |
| Replication.KvsIgnores | src/main/java/com/conveyal/osmlib/Updater.java:95-97 | comment lines and lines without an equals sign are ignored |
| Replication.KvsIgnoresThree | src/main/java/com/conveyal/osmlib/Updater.java:96-97 | a line with two equals signs between non-empty parts splits into three fields and is ignored |
| Replication.UnescapeEscape | src/main/java/com/conveyal/osmlib/Updater.java:100 | unescaping the colons a state file escapes gives back the original text |
| Replication.UnescapePlain | src/main/java/com/conveyal/osmlib/Updater.java:100 | a timestamp without backslashes is left as it is |
| Replication.FetchState | src/main/java/com/conveyal/osmlib/Updater.java:70-110 | a state that is read carries the timescale asked for, the diff URL exactly when a positive sequence number was asked for, and comes from a document that was fetched |
| Replication.FetchStateReads | src/main/java/com/conveyal/osmlib/Updater.java:94-107 | a state is read exactly when the document arrives with a parseable timestamp and sequence number; the sequence number is the parsed one and the timestamp is the parsed time in whole seconds, rounded toward zero |
| Replication.ScanShape | src/main/java/com/conveyal/osmlib/Updater.java:128-132 | a successful scan from n is the downward run of states from n, none of which stops the scan, at most n of them, and the scan ended just below it |
| Replication.RunOfDown | src/main/java/com/conveyal/osmlib/Updater.java:136 | read oldest first, the downward run is the ascending run that ends at the top sequence number |
| Replication.ScanSelects | src/main/java/com/conveyal/osmlib/Updater.java:128-136 | a successful scan from n, read oldest first, is the ascending run of states that ends at n, none of which stops the scan, and the state just below it stops the scan or does not exist |
| Replication.Reverse | src/main/java/com/conveyal/osmlib/Updater.java:136 | the reversed list has the same length and holds the elements in the opposite order |
| Replication.FindDiffsSelects | src/main/java/com/conveyal/osmlib/Updater.java:122-137 | findDiffs succeeds only with a latest state; it returns nothing when that state is not newer than the database, and otherwise exactly the diffs newer than the database, in ascending sequence order up to the latest number, the one before them not newer |
| Replication.ScaleDiffsSelects | src/main/java/com/conveyal/osmlib/MinutelyUpdater.java:46-55 | the minutely updater keeps the run of diffs not older than the database, in ascending order up to the latest number, and the one before them is older |
| Replication.RunNewer | src/main/java/com/conveyal/osmlib/Updater.java:130 | every diff found is newer than the database, or for the minutely updater at least as new |
| Replication.EqualTimestampKeptOnlyByMinutely | src/main/java/com/conveyal/osmlib/MinutelyUpdater.java:50 | a diff stamped exactly at the database time ends the updater's scan but is kept by the minutely updater's |
| Replication.ApplyDiffs | src/main/java/com/conveyal/osmlib/Updater.java:139-157 | diffs are applied in order, each moving the timestamp and the last applied diff to its own; the first failure ends the loop and keeps what the diffs before it did |
| Replication.ApplyAllDiffs | src/main/java/com/conveyal/osmlib/Updater.java:145-153 | when every diff applies, the timestamp and the last applied diff are those of the last diff |
| Replication.ApplyNotBack | src/main/java/com/conveyal/osmlib/Updater.java:149-150 | if every diff is at least as new as the database, applying them never moves the timestamp back |
| Replication.ScaleUpdateNotBack | src/main/java/com/conveyal/osmlib/MinutelyUpdater.java:44-56 | one timescale's update never moves the database timestamp back |
| Replication.RunUpdateNotBack | src/main/java/com/conveyal/osmlib/MinutelyUpdater.java:40-58 | the database timestamp never moves back over a whole update of day, hour and minute diffs |
| Replication.ReplicationWindow | src/main/java/com/conveyal/osmlib/Updater.java:35-37 | the window's bounds are 2015-05-01 and 2100-02-01 at midnight UTC, and the minutely updater starts from 2015-05-06 |
| Replication.StartsThread | src/main/java/com/conveyal/osmlib/Updater.java:165-175 | a timestamp no Instant can hold throws; otherwise the thread starts exactly when the timestamp lies inside the window, bounds included |
| Replication.PhaseReference | src/main/java/com/conveyal/osmlib/Updater.java:197 | the polling phase is measured from the last applied diff's timestamp; without one, the source as written dereferences null |
| Replication.Sleep | src/main/java/com/conveyal/osmlib/Updater.java:197-210 | the poller sleeps between 6 and 124 seconds, and without overflow wakes five seconds past a whole minute after the reference time |
| Replication.CurrentDatabaseStopsPolling | src/main/java/com/conveyal/osmlib/Updater.java:194-197 | as written, a database already current on the first poll, with no hour catch-up due, makes the poll fail on the null last applied diff |
| Replication.QuietRemoteStopsPolling | src/main/java/com/conveyal/osmlib/Updater.java:184-197 | as written, a database stamped at 0 and polled at 0 against a server whose latest minute state is not newer finds no diff and fails on the null last applied diff |
| Replication.RoundOk | src/main/java/com/conveyal/osmlib/Updater.java:194 | a round of one timescale fails only when its scan fails |
| Replication.CatchUpOk | src/main/java/com/conveyal/osmlib/Updater.java:188-193 | if every scan succeeds, the day and hour catch-up rounds succeed |
| Replication.PollKeepsRunning | src/main/java/com/conveyal/osmlib/Updater.java:184-212 | measured from the database timestamp when nothing has been applied yet, a poll fails only if a scan fails |

## Left out

- Compression: `Deflater`, `Inflater` and GZIP streams are modelled as the identity on bytes. The framing, lengths and block boundaries around them are modelled exactly.
- Threads: `AsyncBufferedDeflaterOutputStream`, `AsyncBlockOutputStream` and the VEX read-ahead run their worker to completion when it is started. No interleaving and no `join` timing is modelled.
- A failed read or write yields only the error. The partial trace of calls that the sink received before the exception is not kept.
- `setReplicationTimestamp` has no counterpart in `VexOutput`, so the VEX writer models none.
- Logging is not modelled: the duplicate-id warning, block counts, progress messages, `nParsed` in the changeset handler, and the phase-error message of the updater.
- VexIo.CutRoundTrip: the round trip covers entities whose message, coded from zero, is at most 2 MiB (`BUFFER_SIZE`). A longer message overflows the buffer, which is `BufferOverflow` in the model as it is an `ArrayIndexOutOfBoundsException` in the source.
- BlockOutput: the capacity of `AsyncBlockOutputStream`'s buffer is a parameter, not the constant of the source.
- `AsyncBlockInput` is not modelled: the `VEXBlock` and `handOff` types it uses are not part of this model. VEX reading goes through `DeflatedBlockReader` instead.
- Java `null`:
  - a `null` tag key or value read in the changeset handler is `MissingKey`;
  - a `null` put into MapDB is `NullEntity`;
  - the PBF member type that throws on an unknown value is a total enum.
- VexCodec.EncodeTags, Legacy, Pbf.TagCodes: a `null` tag list is represented by the empty list, which the writers encode the same way (count 0 in VEX and the legacy format, only the 0 delimiter or no codes in PBF). A `null` tag value is represented by `""`, which is what all three writers write for it. The writers also store that `""` back into the caller's tag (src/main/java/com/conveyal/osmlib/VexOutput.java:110, src/main/java/com/conveyal/osmlib/VexFormatCodec.java:208, src/main/java/com/conveyal/osmlib/PBFOutput.java:179); this in-place rewrite of the caller's entity is not modelled.
- VarInt.ReadString: bytes that are not UTF-8 are `MalformedUtf8` in the model. Java's `String` constructor replaces malformed input with U+FFFD and does not throw, so a VEX, legacy or way-value read that Java completes can fail in the model. Java also writes `?` for an unpaired surrogate. A Dafny `char` is a Unicode scalar value, so such strings are not represented.
- Pbf.PerEntityCarriesAll: the round trip is stated for nodes whose tag keys are not the empty string. `keysVals` ends each node's tags with code 0, which is also the code of the empty string, so a reader would take such a key for the end of the node.
- Integer limits that only overflow `int` counters (entity counts above 2^31, buffer offsets) are not modelled.
- Legacy: the legacy writer takes the nodes, ways and relations as ordered sequences. The `Iterable` over MapDB maps is not modelled.
- WaySerializer: the layout of tags inside the MapDB value uses `VarInt` and string primitives that are assumed, not modelled from their source.
- OsmStore: the tile projection (`WebMercatorTile`, `setBoundingBox`) is a parameter. Only the key order and the range scans over tile keys are modelled.
- OsmStore: the bounds that `getInt`/`setInt` assume are preconditions.
- OsmStore: MapDB `commit`, `compact` and file handling are not modelled.
- TileSource: the order of ways inside one tile column is that of MapDB's B-tree, which is not modelled. A column is listed in some fixed, unspecified order (`Listing`, a ghost function that picks one), and the properties hold for any such order.
- TileSource.ColumnSelects: tile coordinates are taken to be non-negative, as `WebMercatorTile` produces them. With a negative row the signed check of `setTileRange` (src/main/java/com/conveyal/osmlib/TileOSMSource.java:24) passes. But under the unsigned key order a negative row sorts after every non-negative one, so the `subSet` range can be reversed. `TileSource.ColumnKeys` then yields an empty column. What MapDB does with a reversed range is not modelled.
- TileSource.VisitedSelects: a range whose maxX is Integer.MAX_VALUE is excluded. For that range the column loop `x <= maxX; x++` never ends, and `TileSource.CopyToOk` states that the model's `copyTo` fails there.
- Pbf: the `StringTable` class is not part of this model. It is assumed to reserve the empty string at code 0 and to give each distinct string one code.
- Pbf: the protobuf encoders of the messages are parameters. Messages are modelled as datatypes, and only the blob framing is modelled in bytes.
- Postgres: floating point is not modelled.
  - `lat`/`lon` text goes through the `Renderer` parameter.
  - The `G`/`M` branches of `human` are `None`.
- Postgres: database connections, JDBC I/O and `complicatedClean` are not modelled. The text written to the `COPY` streams is.
- Postgres: `getTagsAsString` is a parameter of `Renderer`.
- Postgres: the enum names of `OSMEntity.Type` are assumed to be `NODE`, `WAY` and `RELATION`.
- Changeset: in Java, a tag that follows a closing element still mutates the object already stored. The model stores values, so the stored entity is unchanged.
- Changeset: `<member>` elements change nothing in the handler, and that is modelled. Relations therefore get no members.
- Changeset: node coordinates and `Double.parseDouble` are the `coords` parameter of the handler.
- Numerals: `Long.parseLong` and `Integer.parseInt` are modelled for ASCII digits only. Java also accepts other Unicode digits.
- Replication: the network is the `fetch` function of the `Remote` parameter. The clock readings are the `now` and `later` arguments of `CatchUp` and `Poll`.
- Replication: the XML date parsing of the state file's timestamp is a parameter.
- Replication: a response arrives as a sequence of lines; `readLine`'s splitting of bytes is not modelled.
- Replication: sleeping is not modelled. `Sleep` gives the number of seconds.
- Replication: `getDateString` is not modelled.
- Replication.ApplyDiffs: a diff that fails midway keeps its partial changes in Java. The model keeps the database from before that diff.
- Replication: `OSMChangeParser` is not part of this model, so applying one diff is the `apply` parameter.
- Replication: `MinutelyUpdater`'s `GregorianCalendar` uses the JVM's default time zone; the model reads it as UTC.
- The command-line `main` methods and the hard-coded input file of `Converter` are not modelled. The converter's block logic is modelled in `Legacy`.

## Findings

| source | as written | input that shows it | evidently intended | confidence | as-written member | corrected member |
|---|---|---|---|---|---|---|
| src/main/java/com/conveyal/osmlib/AsyncBufferedDeflaterOutputStream.java:58-62 | a byte that would overflow the buffer ends the block there, while `VexOutput` (src/main/java/com/conveyal/osmlib/VexOutput.java:37-38,86-100) keeps coding against the previous entity; `VexInput` (src/main/java/com/conveyal/osmlib/VexInput.java:48-50) restarts every block from zero | way 1 with 2097147 references to node 0, whose message fills the buffer exactly, then way 2; way 2 is read back as way 1 | a block cut resets the writer's delta fields, so every entity reads back with its own id | not executed | VexIo.CutLosesId (witness VexIo.LongWayFillsBlock) | VexIo.CutKeepsId, VexIo.CutRoundTrip |
| src/main/java/com/conveyal/osmlib/PBFOutput.java:114-122 | the entity that opens a block is not counted (the `++` is short-circuited), and `endBlock` (src/main/java/com/conveyal/osmlib/PBFOutput.java:58-66) drops a block whose count is 0 | one node, then `writeEnd`: the file holds no node | a reader gets back every entity written, in order | not executed | Pbf.LoneEntityLost | Pbf.PerEntityCarriesAll, Pbf.PerEntityKeepsAll |
| src/main/java/com/conveyal/osmlib/ChangesetParser.java:32-33 | every start element overwrites `id`, and one without an `id` attribute sets it to -1; the closing `</way>` (src/main/java/com/conveyal/osmlib/ChangesetParser.java:70-89) files the way under that id | `<modify><way id="7"><nd ref="5"/></way></modify>` stores the way under -1 | the way is stored under its own id 7 | not executed | Changeset.WayFiledUnderMinusOne, Changeset.OneNodeWayMisfiled | Changeset.WayFiledUnderOwnId |
| src/main/java/com/conveyal/osmlib/Updater.java:197 | the phase error is measured from `lastApplied.timestamp`, and `lastApplied` (src/main/java/com/conveyal/osmlib/Updater.java:41) is null until a diff has been applied | a database that is already current on the first pass of the loop: no diff is found, and the poll dereferences null | with nothing applied yet, measure from the database timestamp and keep polling | not executed | Replication.CurrentDatabaseStopsPolling, Replication.QuietRemoteStopsPolling | Replication.PollKeepsRunning |

=== FILE: blockoutput.dfy ===
/**
 * `AsyncBlockOutputStream`: the buffer counters of the block writer that
 * ends a block once fewer than `MAX_MESSAGE_SIZE` bytes of room remain.
 * The block type `VEXBlock` and its buffer size are not part of this model,
 * so the buffer capacity is a parameter; the hand-off to the writer thread
 * is a list of hand-offs in order.
 */
module BlockOutput {
  import opened Wrappers
  import opened Bytes
  import opened Errors

  /** `MAX_MESSAGE_SIZE`: 16 KiB. */
  const MAX_MESSAGE_SIZE: int := 1024 * 16

  /** A block handed to the writer thread, or the `END_BLOCK` marker that `close` sends. */
  datatype Handoff =
    | DataBlock(entityType: int, nEntities: int, data: seq<byte>)
    | EndMarker

  /** `buffer` is `buf[0, pos)` of a buffer of `capacity` bytes. */
  datatype BlockStream = BlockStream(capacity: int, entityType: int, buffer: seq<byte>, nMessages: int,
                                     handed: seq<Handoff>)

  function Open(capacity: nat): (r: BlockStream)
    ensures Valid(r) && r.handed == [] && r.buffer == []
  {
    BlockStream(capacity, 0, [], 0, [])
  }

  predicate Valid(s: BlockStream) {
    |s.buffer| <= s.capacity && s.nMessages >= 0
  }

  function Flatten(hs: seq<Handoff>): seq<byte>
  {
    if |hs| == 0 then []
    else Flatten(hs[..|hs| - 1]) + (if hs[|hs| - 1].DataBlock? then hs[|hs| - 1].data else [])
  }

  function Count(hs: seq<Handoff>): int
  {
    if |hs| == 0 then 0
    else Count(hs[..|hs| - 1]) + (if hs[|hs| - 1].DataBlock? then hs[|hs| - 1].nEntities else 0)
  }

  lemma FlattenSnoc(hs: seq<Handoff>, h: Handoff)
    ensures Flatten(hs + [h]) == Flatten(hs) + (if h.DataBlock? then h.data else [])
    ensures Count(hs + [h]) == Count(hs) + (if h.DataBlock? then h.nEntities else 0)
  {
    assert (hs + [h])[..|hs|] == hs;
  }

  /** Every byte written so far, in order: handed blocks then the buffer. */
  function Written(s: BlockStream): seq<byte>
  {
    Flatten(s.handed) + s.buffer
  }

  /** Messages ended so far. */
  function Messages(s: BlockStream): int
  {
    Count(s.handed) + s.nMessages
  }

  /** `setEntityType`: nothing already handed off changes. */
  function SetEntityType(s: BlockStream, t: int): (r: BlockStream)
    requires Valid(s)
    ensures Valid(r) && r.handed == s.handed && r.buffer == s.buffer && r.nMessages == s.nMessages
    ensures r.entityType == t
  {
    s.(entityType := t)
  }

  /** `write(b)`: a store past the end of the buffer fails. */
  function Write(s: BlockStream, b: byte): (r: Result<BlockStream, Error>)
    requires Valid(s)
    ensures r.Ok? <==> |s.buffer| < s.capacity
    ensures r.Ok? ==> Valid(r.value) && Written(r.value) == Written(s) + [b] && Messages(r.value) == Messages(s)
                      && r.value.handed == s.handed
  {
    if |s.buffer| >= s.capacity then Err(BufferOverflow)
    else
      AppendAssoc(Flatten(s.handed), s.buffer, [b]);
      Ok(s.(buffer := s.buffer + [b]))
  }

  function WriteAll(s: BlockStream, bs: seq<byte>): Result<BlockStream, Error>
    requires Valid(s)
    decreases |bs|
  {
    if |bs| == 0 then Ok(s)
    else
      var s1 :- Write(s, bs[0]);
      WriteAll(s1, bs[1..])
  }

  /**
   * `endBlock`: with messages pending, the whole buffer `[0, pos)` leaves
   * under the current entity type and a fresh buffer starts; with none it is a no-op.
   */
  function EndBlock(s: BlockStream): (r: BlockStream)
    requires Valid(s)
    ensures Valid(r) && Written(r) == Written(s) && Messages(r) == Messages(s)
    ensures s.nMessages == 0 ==> r == s
    ensures s.nMessages > 0 ==>
              && r.handed == s.handed + [DataBlock(s.entityType, s.nMessages, s.buffer)]
              && r.buffer == [] && r.nMessages == 0
  {
    if s.nMessages > 0 then
      var h := DataBlock(s.entityType, s.nMessages, s.buffer);
      FlattenSnoc(s.handed, h);
      s.(handed := s.handed + [h], buffer := [], nMessages := 0)
    else s
  }

  /** `endMessage`: count the message and end the block once `pos > buf.length - MAX_MESSAGE_SIZE`. */
  function EndMessage(s: BlockStream): (r: BlockStream)
    requires Valid(s)
    ensures Valid(r) && Written(r) == Written(s) && Messages(r) == Messages(s) + 1
    ensures |s.buffer| > s.capacity - MAX_MESSAGE_SIZE <==> |r.handed| == |s.handed| + 1
    ensures |r.buffer| <= s.capacity - MAX_MESSAGE_SIZE || |r.buffer| == 0
  {
    var s1 := s.(nMessages := s.nMessages + 1);
    if |s.buffer| > s.capacity - MAX_MESSAGE_SIZE then EndBlock(s1) else s1
  }

  /** `close`: the end marker is handed off after every earlier block. */
  function Close(s: BlockStream): (r: BlockStream)
    requires Valid(s)
    ensures r.handed == s.handed + [EndMarker]
  {
    s.(handed := s.handed + [EndMarker])
  }

  lemma {:induction false} WriteAllSpec(s: BlockStream, bs: seq<byte>)
    requires Valid(s)
    ensures WriteAll(s, bs).Ok? <==> |s.buffer| + |bs| <= s.capacity
    ensures WriteAll(s, bs).Ok? ==> WriteAll(s, bs) == Ok(s.(buffer := s.buffer + bs))
    decreases |bs|
  {
    if |bs| > 0 {
      var w := Write(s, bs[0]);
      if w.Ok? {
        assert w.value == s.(buffer := s.buffer + [bs[0]]);
        WriteAllSpec(w.value, bs[1..]);
        AppendAssoc(s.buffer, [bs[0]], bs[1..]);
        assert [bs[0]] + bs[1..] == bs;
      }
    } else {
      assert s.buffer + bs == s.buffer;
    }
  }

  /**
   * The threshold's purpose: after any `endMessage`, a following message of
   * at most `MAX_MESSAGE_SIZE` bytes always fits the buffer.
   */
  lemma MessageAfterEndFits(s: BlockStream, bs: seq<byte>)
    requires Valid(s) && s.capacity >= MAX_MESSAGE_SIZE && |bs| <= MAX_MESSAGE_SIZE
    ensures WriteAll(EndMessage(s), bs).Ok?
  {
    WriteAllSpec(EndMessage(s), bs);
  }

  /**
   * `close` does not end the open block: messages still buffered are never
   * handed off, so a caller must call `endBlock` first.
   */
  lemma CloseDropsBuffered(s: BlockStream)
    requires Valid(s) && s.nMessages > 0
    ensures Count(Close(s).handed) == Count(s.handed) < Messages(s)
  {
    FlattenSnoc(s.handed, EndMarker);
  }
}

=== FILE: bytes.dfy ===
/**
 * Bytes and fixed-width Java integers.
 *
 * A byte is modelled by its unsigned value 0..255. Java's `int` and `long`
 * are the subset types `int32` and `int64`; their wrap-around arithmetic is
 * written out with `Wrap32`/`Wrap64`. Big-endian encodings (Guava's
 * `Ints.toByteArray`/`fromByteArray`, MapDB's `DataIO.putLong`, `OSM.setInt`)
 * are all `BigEndian` of the value reduced modulo 2^(8*width).
 */
module Bytes {

  type byte = b: int | 0 <= b < 256

  type int32 = x: int | -0x8000_0000 <= x < 0x8000_0000

  type int64 = x: int | -0x8000_0000_0000_0000 <= x < 0x8000_0000_0000_0000

  const TWO_32: int := 0x1_0000_0000
  const TWO_64: int := 0x1_0000_0000_0000_0000

  /** Java's narrowing cast to `int`: the int32 congruent to `x` modulo 2^32. */
  function Wrap32(x: int): int32
  {
    (x + 0x8000_0000) % TWO_32 - 0x8000_0000
  }

  /** Java `long` arithmetic: the int64 congruent to `x` modulo 2^64. */
  function Wrap64(x: int): int64
  {
    (x + 0x8000_0000_0000_0000) % TWO_64 - 0x8000_0000_0000_0000
  }

  /** Regrouping a concatenation, stated once so that larger proofs need not rediscover it. */
  lemma AppendAssoc<T>(a: seq<T>, b: seq<T>, c: seq<T>)
    ensures (a + b) + c == a + (b + c)
  {
  }

  /** A remainder of a value already below the modulus is the value. */
  lemma SmallMod(x: int, m: int)
    requires 0 <= x < m
    ensures x % m == x
  {
  }

  /** Values already in range are left alone by the casts. */
  lemma Wrap32Id(x: int32)
    ensures Wrap32(x) == x
  {
  }

  lemma Wrap64Id(x: int64)
    ensures Wrap64(x) == x
  {
  }

  /** Two congruent values wrap to the same long. */
  lemma Wrap64Congruent(x: int, y: int)
    requires (x - y) % TWO_64 == 0
    ensures Wrap64(x) == Wrap64(y)
  {
    var k := (x - y) / TWO_64;
    assert x == y + k * TWO_64;
    assert (x + 0x8000_0000_0000_0000) % TWO_64 == (y + 0x8000_0000_0000_0000) % TWO_64 by {
      ModShift64(y + 0x8000_0000_0000_0000, k);
    }
  }

  lemma ModShift64(a: int, k: int)
    ensures (a + k * TWO_64) % TWO_64 == a % TWO_64
  {
    var q := a / TWO_64;
    var r := a % TWO_64;
    assert a + k * TWO_64 == (q + k) * TWO_64 + r;
  }

  /** Java `long` addition, wrapping around. */
  function AddLong(a: int64, b: int64): int64 {
    Wrap64(a + b)
  }

  /** Java `long` subtraction, wrapping around. */
  function SubLong(a: int64, b: int64): int64 {
    Wrap64(a - b)
  }

  /**
   * Delta coding with Java `long` wrap-around is lossless: adding the
   * wrapped difference `b - a` back to `a` (again wrapping) restores `b`.
   */
  lemma WrapDelta(a: int64, b: int64)
    ensures AddLong(a, SubLong(b, a)) == b
  {
    var d := Wrap64(b - a);
    assert (d - (b - a)) % TWO_64 == 0 by {
      Wrap64Mod(b - a);
    }
    assert (a + d - b) % TWO_64 == (d - (b - a)) % TWO_64;
    Wrap64Congruent(a + d, b);
    Wrap64Id(b);
  }

  /** The cast keeps the value modulo 2^64. */
  lemma Wrap64Mod(x: int)
    ensures (Wrap64(x) - x) % TWO_64 == 0
  {
  }

  function Pow256(w: nat): (r: nat)
    ensures r > 0
  {
    if w == 0 then 1 else 256 * Pow256(w - 1)
  }

  /** The `w`-byte big-endian representation of `n`. */
  function BigEndian(n: nat, w: nat): (r: seq<byte>)
    requires n < Pow256(w)
    ensures |r| == w
    decreases w
  {
    if w == 0 then []
    else
      assert n / 256 < Pow256(w - 1);
      BigEndian(n / 256, w - 1) + [n % 256]
  }

  /** The unsigned value of a big-endian byte sequence. */
  function FromBigEndian(s: seq<byte>): (r: nat)
    ensures r < Pow256(|s|)
  {
    if |s| == 0 then 0 else FromBigEndian(s[..|s| - 1]) * 256 + s[|s| - 1]
  }

  lemma {:induction false} FromToBigEndian(n: nat, w: nat)
    requires n < Pow256(w)
    ensures FromBigEndian(BigEndian(n, w)) == n
    decreases w
  {
    if w > 0 {
      var s := BigEndian(n, w);
      assert n / 256 < Pow256(w - 1);
      assert s[..|s| - 1] == BigEndian(n / 256, w - 1);
      FromToBigEndian(n / 256, w - 1);
    }
  }

  lemma {:induction false} ToFromBigEndian(s: seq<byte>)
    ensures BigEndian(FromBigEndian(s), |s|) == s
  {
    if |s| > 0 {
      var p := s[..|s| - 1];
      ToFromBigEndian(p);
      var n := FromBigEndian(s);
      assert n / 256 == FromBigEndian(p);
      assert n % 256 == s[|s| - 1];
      assert s == p + [s[|s| - 1]];
    }
  }

  /** Two values of the same width have equal encodings only if they are equal. */
  lemma BigEndianInjective(x: nat, y: nat, w: nat)
    requires x < Pow256(w) && y < Pow256(w)
    ensures BigEndian(x, w) == BigEndian(y, w) <==> x == y
  {
    if BigEndian(x, w) == BigEndian(y, w) {
      FromToBigEndian(x, w);
      FromToBigEndian(y, w);
    }
  }

  /** Guava `Ints.toByteArray`: four big-endian bytes of the two's-complement value. */
  function IntToBytes(v: int32): (r: seq<byte>)
    ensures |r| == 4
  {
    BigEndian(v % TWO_32, 4)
  }

  /** Guava `Ints.fromByteArray`: the int whose two's-complement bytes these are. */
  function IntFromBytes(s: seq<byte>): int32
    requires |s| == 4
  {
    Wrap32(FromBigEndian(s))
  }

  /** Reading back the four bytes of an int yields that int. */
  lemma IntBytesRoundTrip(v: int32)
    ensures IntFromBytes(IntToBytes(v)) == v
  {
    FromToBigEndian(v % TWO_32, 4);
    Wrap32Unsigned(v);
  }

  /** Casting the unsigned 32-bit pattern of an int back to `int` gives that int. */
  lemma Wrap32Unsigned(v: int32)
    ensures Wrap32(v % TWO_32) == v
  {
    if v >= 0 {
      assert v % TWO_32 == v;
      Wrap32Id(v);
    } else {
      assert v % TWO_32 == v + TWO_32;
      assert (v + TWO_32 + 0x8000_0000) % TWO_32 == v + 0x8000_0000;
    }
  }

  /** MapDB `DataIO.putLong`: eight big-endian bytes of the two's-complement value. */
  function LongToBytes(v: int64): (r: seq<byte>)
    ensures |r| == 8
  {
    BigEndian(v % TWO_64, 8)
  }

  /** Unsigned lexicographic order on byte strings; a proper prefix sorts first. */
  predicate LexLess(a: seq<byte>, b: seq<byte>)
  {
    if |a| == 0 then |b| > 0
    else if |b| == 0 then false
    else a[0] < b[0] || (a[0] == b[0] && LexLess(a[1..], b[1..]))
  }

  /** Concatenations of equal-width fields compare field by field. */
  lemma {:induction false} LexLessConcat(a: seq<byte>, c: seq<byte>, b: seq<byte>, d: seq<byte>)
    requires |a| == |b|
    ensures LexLess(a + c, b + d) <==> LexLess(a, b) || (a == b && LexLess(c, d))
    decreases |a|
  {
    if |a| == 0 {
      assert a + c == c && b + d == d;
    } else {
      assert (a + c)[1..] == a[1..] + c;
      assert (b + d)[1..] == b[1..] + d;
      LexLessConcat(a[1..], c, b[1..], d);
      if a[0] == b[0] && a[1..] == b[1..] {
        assert a == b;
      }
      if a == b {
        assert a[1..] == b[1..];
      }
    }
  }

  lemma DivModOrder(x: nat, y: nat)
    ensures x < y <==> x / 256 < y / 256 || (x / 256 == y / 256 && x % 256 < y % 256)
  {
    assert x == 256 * (x / 256) + x % 256;
    assert y == 256 * (y / 256) + y % 256;
  }

  /** Big-endian encoding of a fixed width preserves the order of the encoded values. */
  lemma {:induction false} BigEndianOrder(x: nat, y: nat, w: nat)
    requires x < Pow256(w) && y < Pow256(w)
    ensures LexLess(BigEndian(x, w), BigEndian(y, w)) <==> x < y
    decreases w
  {
    if w > 0 {
      assert x / 256 < Pow256(w - 1);
      assert y / 256 < Pow256(w - 1);
      var px := BigEndian(x / 256, w - 1);
      var py := BigEndian(y / 256, w - 1);
      LexLessConcat(px, [x % 256], py, [y % 256]);
      BigEndianOrder(x / 256, y / 256, w - 1);
      BigEndianInjective(x / 256, y / 256, w - 1);
      DivModOrder(x, y);
    }
  }
}

=== FILE: changeset.dfy ===
/**
 * The changeset (osmChange diff) handler: SAX start and end events of an
 * `.osc` document put entities into, or remove them from, the node, way
 * and relation maps of the database.
 *
 * The handler keys every put and remove by the `id` attribute of the most
 * recent opening element, and nested `tag` and `nd` elements reset that to
 * -1. `Keying` selects between the handler as written (`LastElement`) and
 * the evidently intended keying by the entity's own element
 * (`EntityElement`).
 */
module Changeset {
  import opened Wrappers
  import opened Bytes
  import opened Errors
  import opened Osm
  import opened Numerals

  /** One SAX event: an opening element with its attributes, or a closing element. */
  datatype XmlEvent = Start(name: string, attrs: map<string, string>) | End(name: string)

  /** The three entity maps of the database the diff is applied to. */
  datatype Db = Db(nodes: map<int64, Entity>, ways: map<int64, Entity>, relations: map<int64, Entity>)

  datatype Keying = LastElement | EntityElement

  /**
   * Behaviour the handler takes from elsewhere: how `lat`/`lon` attributes
   * become fixed-point coordinates, and which id a closing entity is filed under.
   */
  datatype Handler = Handler(coords: map<string, string> -> Result<(int32, int32), Error>, keying: Keying)

  /**
   * The handler's fields: the database, whether it is inside a `delete`, the
   * entity being built, the id of the last opening element, the id of the
   * last entity element, and the way's node references.
   */
  datatype Parser = Parser(
    db: Db,
    inDelete: bool,
    entity: Option<Entity>,
    id: int64,
    entityId: int64,
    nodeRefs: Option<seq<int64>>
  )

  function NewParser(db: Db): Parser {
    Parser(db, false, None, 0, 0, None)
  }

  // ----------------------------------------------------------- element names

  /**
   * `Character.toUpperCase` followed by `toLowerCase`, restricted to what the
   * handler's element names need: ASCII letters fold to lower case, and both
   * the dotted capital I and the dotless small i fold onto `i`.
   */
  function Fold(c: char): char {
    if 'A' <= c <= 'Z' then ((c as int) + 32) as char
    else if c == 'İ' || c == 'ı' then 'i'
    else c
  }

  /** `equalsIgnoreCase` against one of the handler's upper-case ASCII names. */
  predicate NameIs(s: string, name: string)
    decreases |s|
  {
    |s| == |name| && (|s| == 0 || (Fold(s[0]) == Fold(name[0]) && NameIs(s[1..], name[1..])))
  }

  /** ASCII upper-case letters turned to lower case; every other character kept. */
  function Lower(s: string): (r: string)
    ensures |r| == |s|
    decreases |s|
  {
    if |s| == 0 then "" else [if 'A' <= s[0] <= 'Z' then ((s[0] as int) + 32) as char else s[0]] + Lower(s[1..])
  }

  /** A name matches itself, and itself in lower case. */
  lemma {:induction false} NameIsCases(name: string)
    ensures NameIs(name, name) && NameIs(Lower(name), name)
    decreases |name|
  {
    if |name| > 0 {
      NameIsCases(name[1..]);
      assert Lower(name)[1..] == Lower(name[1..]);
    }
  }

  /** The element names the handler tells apart. */
  datatype ElementName =
    AddName | ModifyName | DeleteName | NodeName | WayName | RelationName | TagName | NdName | OtherName

  /** The first of the handler's names an element name matches, in the order it tests them. */
  function Classify(s: string): ElementName {
    if NameIs(s, "ADD") then AddName
    else if NameIs(s, "MODIFY") then ModifyName
    else if NameIs(s, "DELETE") then DeleteName
    else if NameIs(s, "NODE") then NodeName
    else if NameIs(s, "WAY") then WayName
    else if NameIs(s, "RELATION") then RelationName
    else if NameIs(s, "TAG") then TagName
    else if NameIs(s, "ND") then NdName
    else OtherName
  }

  /**
   * An element name matches at most one of the handler's names, so the order
   * of the tests does not matter: every name it matches is the class it gets.
   */
  lemma Exclusive(s: string)
    ensures NameIs(s, "ADD") <==> Classify(s) == AddName
    ensures NameIs(s, "MODIFY") <==> Classify(s) == ModifyName
    ensures NameIs(s, "DELETE") <==> Classify(s) == DeleteName
    ensures NameIs(s, "NODE") <==> Classify(s) == NodeName
    ensures NameIs(s, "WAY") <==> Classify(s) == WayName
    ensures NameIs(s, "RELATION") <==> Classify(s) == RelationName
    ensures NameIs(s, "TAG") <==> Classify(s) == TagName
    ensures NameIs(s, "ND") <==> Classify(s) == NdName
  {
  }

  /** How the names in the documents below classify. */
  lemma ClassifyWay()
    ensures Classify("way") == WayName
  {
  }

  lemma ClassifyTag()
    ensures Classify("tag") == TagName
  {
  }

  lemma ClassifyNd()
    ensures Classify("nd") == NdName
  {
  }

  lemma ClassifyDelete()
    ensures Classify("delete") == DeleteName
  {
  }

  // ------------------------------------------------------------------ events

  /** The entity with one more tag at the end. */
  function AddTag(e: Entity, t: Tag): (r: Entity)
    ensures TypeOf(r) == TypeOf(e) && r.tags == e.tags + [t]
  {
    e.(tags := e.tags + [t])
  }

  function Attr(attrs: map<string, string>, key: string): Option<string> {
    if key in attrs then Some(attrs[key]) else None
  }

  /** `startElement`. */
  function StartElement(h: Handler, p: Parser, name: string, attrs: map<string, string>): (r: Result<Parser, Error>)
    ensures r.Ok? ==> r.value.db == p.db
    ensures r.Ok? ==> "id" in attrs ==> ParseLong(attrs["id"]) == Ok(r.value.id)
    ensures r.Ok? ==> "id" !in attrs ==> r.value.id == -1
    ensures "id" in attrs && ParseLong(attrs["id"]).Err? ==> r == Err(NumberFormat)
    ensures r.Ok? ==> r.value.inDelete == match Classify(name)
      case AddName => false
      case ModifyName => false
      case DeleteName => true
      case _ => p.inDelete
    ensures Classify(name) == TagName && p.entity.None? ==> r.Err? && r.error in {NumberFormat, NullEntity}
    ensures Classify(name) == TagName && p.entity.Some? && r.Ok? ==>
              "k" in attrs && "v" in attrs && r.value.entity == Some(AddTag(p.entity.value, Tag(attrs["k"], attrs["v"])))
    ensures Classify(name) == NdName && p.nodeRefs.None? ==> r.Err?
  {
    var id :- match Attr(attrs, "id") case None => Ok(-1) case Some(s) => ParseLong(s);
    var p := p.(id := id);
    match Classify(name)
    case AddName => Ok(p.(inDelete := false))
    case ModifyName => Ok(p.(inDelete := false))
    case DeleteName => Ok(p.(inDelete := true))
    case NodeName =>
      var ll :- h.coords(attrs);
      Ok(p.(entity := Some(Node([], ll.0, ll.1)), entityId := id))
    case WayName => Ok(p.(entity := Some(Way([], [])), entityId := id, nodeRefs := Some([])))
    case RelationName => Ok(p.(entity := Some(Relation([], [])), entityId := id))
    case TagName =>
      (match (p.entity, Attr(attrs, "k"), Attr(attrs, "v"))
       case (None, _, _) => Err(NullEntity)
       case (Some(e), Some(k), Some(v)) => Ok(p.(entity := Some(AddTag(e, Tag(k, v)))))
       case _ => Err(MissingKey))
    case NdName =>
      var ref :- (match Attr(attrs, "ref") case None => Err(NumberFormat) case Some(s) => ParseLong(s));
      (match p.nodeRefs
       case None => Err(NullEntity)
       case Some(refs) => Ok(p.(nodeRefs := Some(refs + [ref]))))
    case OtherName => Ok(p)
  }

  /** The id a closing entity element is filed under. */
  function Key(h: Handler, p: Parser): int64 {
    match h.keying
    case LastElement => p.id
    case EntityElement => p.entityId
  }

  /** `endElement`. */
  function EndElement(h: Handler, p: Parser, name: string): (r: Result<Parser, Error>)
    ensures Classify(name) == DeleteName ==> r == Ok(p.(inDelete := false))
    ensures Classify(name) !in {NodeName, WayName, RelationName, DeleteName} ==> r == Ok(p)
    ensures p.inDelete && Classify(name) in {NodeName, WayName, RelationName} ==> r.Ok?
    ensures r.Ok? && Classify(name) != DeleteName ==> r.value.inDelete == p.inDelete
    ensures r.Ok? && p.inDelete && Classify(name) == NodeName ==>
      r.value.db == p.db.(nodes := p.db.nodes - {Key(h, p)})
    ensures r.Ok? && p.inDelete && Classify(name) == WayName ==>
      r.value.db == p.db.(ways := p.db.ways - {Key(h, p)})
    ensures r.Ok? && p.inDelete && Classify(name) == RelationName ==>
      r.value.db == p.db.(relations := p.db.relations - {Key(h, p)})
    ensures r.Ok? && !p.inDelete && Classify(name) == NodeName ==>
      p.entity.Some? && p.entity.value.Node?
      && r.value.db == p.db.(nodes := p.db.nodes[Key(h, p) := p.entity.value])
    ensures r.Ok? && !p.inDelete && Classify(name) == WayName ==>
      p.entity.Some? && p.entity.value.Way? && p.nodeRefs.Some?
      && r.value.db == p.db.(ways := p.db.ways[Key(h, p) := Way(p.entity.value.tags, p.nodeRefs.value)])
    ensures r.Ok? && !p.inDelete && Classify(name) == RelationName ==>
      p.entity.Some? && p.entity.value.Relation?
      && r.value.db == p.db.(relations := p.db.relations[Key(h, p) := p.entity.value])
    ensures !p.inDelete && p.entity.None? && Classify(name) in {NodeName, WayName, RelationName} ==>
      r == Err(NullEntity)
  {
    var key := Key(h, p);
    match Classify(name)
    case DeleteName => Ok(p.(inDelete := false))
    case NodeName =>
      if p.inDelete then Ok(p.(db := p.db.(nodes := p.db.nodes - {key})))
      else (match p.entity
        case None => Err(NullEntity)
        case Some(e) => if e.Node? then Ok(p.(db := p.db.(nodes := p.db.nodes[key := e]))) else Err(WrongEntity))
    case WayName =>
      if p.inDelete then Ok(p.(db := p.db.(ways := p.db.ways - {key})))
      else (match (p.entity, p.nodeRefs)
        case (None, _) => Err(NullEntity)
        case (Some(e), refs) =>
          if !e.Way? then Err(WrongEntity)
          else if refs.None? then Err(NullEntity)
          else Ok(p.(db := p.db.(ways := p.db.ways[key := Way(e.tags, refs.value)]))))
    case RelationName =>
      if p.inDelete then Ok(p.(db := p.db.(relations := p.db.relations - {key})))
      else (match p.entity
        case None => Err(NullEntity)
        case Some(e) => if e.Relation? then Ok(p.(db := p.db.(relations := p.db.relations[key := e]))) else Err(WrongEntity))
    case _ => Ok(p)
  }

  function Step(h: Handler, p: Parser, ev: XmlEvent): Result<Parser, Error> {
    match ev
    case Start(name, attrs) => StartElement(h, p, name, attrs)
    case End(name) => EndElement(h, p, name)
  }

  /** A document's events, handled in order; the first exception stops the parse. */
  function Run(h: Handler, p: Parser, evs: seq<XmlEvent>): Result<Parser, Error>
    decreases |evs|
  {
    if |evs| == 0 then Ok(p)
    else
      var q :- Step(h, p, evs[0]);
      Run(h, q, evs[1..])
  }

  lemma {:induction false} RunAppend(h: Handler, p: Parser, a: seq<XmlEvent>, b: seq<XmlEvent>)
    ensures Run(h, p, a).Err? ==> Run(h, p, a + b) == Run(h, p, a)
    ensures Run(h, p, a).Ok? ==> Run(h, p, a + b) == Run(h, Run(h, p, a).value, b)
    decreases |a|
  {
    if |a| > 0 {
      assert (a + b)[0] == a[0] && (a + b)[1..] == a[1..] + b;
      var s := Step(h, p, a[0]);
      if s.Ok? {
        RunAppend(h, s.value, a[1..], b);
        assert Run(h, p, a) == Run(h, s.value, a[1..]);
        assert Run(h, p, a + b) == Run(h, s.value, a[1..] + b);
      }
    } else {
      assert a + b == b;
    }
  }

  // --------------------------------------------------------------- documents

  /** What may sit inside an entity element: a tag, or a way's node reference. */
  datatype Child = TagChild(k: string, v: string) | NdChild(ref: int64)

  function ChildEvents(c: Child): seq<XmlEvent> {
    match c
    case TagChild(k, v) => [Start("tag", map["k" := k, "v" := v]), End("tag")]
    case NdChild(ref) => [Start("nd", map["ref" := Decimal(ref)]), End("nd")]
  }

  function ChildrenEvents(cs: seq<Child>): seq<XmlEvent>
    decreases |cs|
  {
    if |cs| == 0 then [] else ChildEvents(cs[0]) + ChildrenEvents(cs[1..])
  }

  function TagsOf(cs: seq<Child>): (r: seq<Tag>)
    decreases |cs|
  {
    if |cs| == 0 then []
    else (match cs[0] case TagChild(k, v) => [Tag(k, v)] case NdChild(_) => []) + TagsOf(cs[1..])
  }

  function RefsOf(cs: seq<Child>): (r: seq<int64>)
    decreases |cs|
  {
    if |cs| == 0 then []
    else (match cs[0] case TagChild(_, _) => [] case NdChild(ref) => [ref]) + RefsOf(cs[1..])
  }

  /** A way element with its id, children in document order, and closing tag. */
  function WayElement(id: int64, cs: seq<Child>): seq<XmlEvent> {
    [Start("way", map["id" := Decimal(id)])] + ChildrenEvents(cs) + [End("way")]
  }

  lemma RunOne(h: Handler, p: Parser, e: XmlEvent)
    ensures Run(h, p, [e]) == Step(h, p, e)
  {
    assert [e][1..] == [];
    var r := Step(h, p, e);
    if r.Ok? {
      assert Run(h, p, [e]) == Run(h, r.value, []);
    } else {
      assert r.PropagateFailure() == r;
    }
  }

  /** Two events in a row. */
  lemma RunTwo(h: Handler, p: Parser, e1: XmlEvent, e2: XmlEvent)
    requires Step(h, p, e1).Ok?
    ensures Run(h, p, [e1, e2]) == Step(h, Step(h, p, e1).value, e2)
  {
    var q := Step(h, p, e1).value;
    assert [e1, e2][1..] == [e2];
    assert [e2][1..] == [];
    assert Run(h, p, [e1, e2]) == Run(h, q, [e2]);
    RunOne(h, q, e2);
  }

  lemma StartTag(h: Handler, p: Parser, name: string, k: string, v: string)
    requires Classify(name) == TagName && p.entity.Some?
    ensures StartElement(h, p, name, map["k" := k, "v" := v])
      == Ok(p.(entity := Some(AddTag(p.entity.value, Tag(k, v))), id := -1))
  {
    var attrs := map["k" := k, "v" := v];
    assert "id" !in attrs && Attr(attrs, "k") == Some(k) && Attr(attrs, "v") == Some(v);
  }

  lemma StartNd(h: Handler, p: Parser, name: string, ref: int64)
    requires Classify(name) == NdName && p.nodeRefs.Some?
    ensures StartElement(h, p, name, map["ref" := Decimal(ref)])
      == Ok(p.(nodeRefs := Some(p.nodeRefs.value + [ref]), id := -1))
  {
    var attrs := map["ref" := Decimal(ref)];
    ParseLongDecimal(ref);
    assert "id" !in attrs && Attr(attrs, "ref") == Some(Decimal(ref));
  }

  lemma TagStep(h: Handler, p: Parser, k: string, v: string)
    requires p.entity.Some?
    ensures Run(h, p, ChildEvents(TagChild(k, v)))
      == Ok(p.(entity := Some(AddTag(p.entity.value, Tag(k, v))), id := -1))
  {
    ClassifyTag();
    StartTag(h, p, "tag", k, v);
    RunTwo(h, p, Start("tag", map["k" := k, "v" := v]), End("tag"));
  }

  lemma NdStep(h: Handler, p: Parser, ref: int64)
    requires p.nodeRefs.Some?
    ensures Run(h, p, ChildEvents(NdChild(ref))) == Ok(p.(nodeRefs := Some(p.nodeRefs.value + [ref]), id := -1))
  {
    ClassifyNd();
    StartNd(h, p, "nd", ref);
    RunTwo(h, p, Start("nd", map["ref" := Decimal(ref)]), End("nd"));
  }

  /** After a child: the entity's tags and the way's list have grown, and the last id is -1. */
  predicate AfterChildren(p: Parser, q: Parser, tags: seq<Tag>, refs: seq<int64>, last: int64) {
    q.db == p.db && q.inDelete == p.inDelete && q.entityId == p.entityId && q.id == last
    && p.entity.Some? && p.nodeRefs.Some?
    && q.entity == Some(p.entity.value.(tags := p.entity.value.tags + tags))
    && q.nodeRefs == Some(p.nodeRefs.value + refs)
  }

  /** One child: its tag goes onto the entity, its reference onto the way's list, and the last id becomes -1. */
  lemma ChildStep(h: Handler, p: Parser, c: Child)
    requires p.entity.Some? && p.nodeRefs.Some?
    ensures Run(h, p, ChildEvents(c)).Ok?
    ensures AfterChildren(p, Run(h, p, ChildEvents(c)).value, TagsOf([c]), RefsOf([c]), -1)
  {
    assert [c][1..] == [];
    match c
    case TagChild(k, v) =>
      TagStep(h, p, k, v);
      assert TagsOf([c]) == [Tag(k, v)] && RefsOf([c]) == [];
      assert p.nodeRefs.value + [] == p.nodeRefs.value;
    case NdChild(ref) =>
      NdStep(h, p, ref);
      assert TagsOf([c]) == [] && RefsOf([c]) == [ref];
      assert p.entity.value.tags + [] == p.entity.value.tags;
      assert p.entity.value.(tags := p.entity.value.tags) == p.entity.value;
  }

  /** Two runs of children in a row are one run with both children's tags and references. */
  lemma AfterChildrenTrans(p: Parser, q: Parser, r: Parser, t1: seq<Tag>, r1: seq<int64>, t2: seq<Tag>, r2: seq<int64>, last: int64)
    requires AfterChildren(p, q, t1, r1, -1) && AfterChildren(q, r, t2, r2, last)
    ensures AfterChildren(p, r, t1 + t2, r1 + r2, last)
  {
    assert p.entity.value.tags + t1 + t2 == p.entity.value.tags + (t1 + t2);
    assert p.nodeRefs.value + r1 + r2 == p.nodeRefs.value + (r1 + r2);
  }

  lemma OfCons(cs: seq<Child>)
    requires |cs| > 0
    ensures TagsOf(cs) == TagsOf([cs[0]]) + TagsOf(cs[1..])
    ensures RefsOf(cs) == RefsOf([cs[0]]) + RefsOf(cs[1..])
    ensures ChildrenEvents(cs) == ChildEvents(cs[0]) + ChildrenEvents(cs[1..])
  {
    assert [cs[0]][1..] == [];
  }

  /**
   * Children are taken in document order: tags are appended to the entity's
   * tags and references to the way's node list.
   */
  lemma {:induction false} ChildrenRun(h: Handler, p: Parser, cs: seq<Child>)
    requires p.entity.Some? && p.nodeRefs.Some?
    ensures Run(h, p, ChildrenEvents(cs)).Ok?
    ensures AfterChildren(p, Run(h, p, ChildrenEvents(cs)).value, TagsOf(cs), RefsOf(cs), if |cs| == 0 then p.id else -1)
    decreases |cs|
  {
    if |cs| == 0 {
      assert p.entity.value.(tags := p.entity.value.tags + []) == p.entity.value;
      assert p.nodeRefs.value + [] == p.nodeRefs.value;
    } else {
      RunAppend(h, p, ChildEvents(cs[0]), ChildrenEvents(cs[1..]));
      ChildStep(h, p, cs[0]);
      var q := Run(h, p, ChildEvents(cs[0])).value;
      ChildrenRun(h, q, cs[1..]);
      var r := Run(h, q, ChildrenEvents(cs[1..])).value;
      AfterChildrenTrans(p, q, r, TagsOf([cs[0]]), RefsOf([cs[0]]), TagsOf(cs[1..]), RefsOf(cs[1..]), -1);
      OfCons(cs);
    }
  }

  /** The parser state just after a way's opening element. */
  lemma WayOpens(h: Handler, p: Parser, id: int64)
    ensures Run(h, p, [Start("way", map["id" := Decimal(id)])])
      == Ok(p.(id := id, entity := Some(Way([], [])), entityId := id, nodeRefs := Some([])))
  {
    ParseLongDecimal(id);
    ClassifyWay();
    var attrs := map["id" := Decimal(id)];
    assert Attr(attrs, "id") == Some(Decimal(id));
    assert [Start("way", attrs)][1..] == [];
  }

  /**
   * A way element outside any `delete` files the way, with its tags and its
   * node references in document order, under the key the handler computes:
   * `Key` of the state before the closing element.
   */
  lemma WayElementRun(h: Handler, p: Parser, id: int64, cs: seq<Child>)
    requires !p.inDelete
    ensures var r := Run(h, p, WayElement(id, cs));
      var key := if h.keying == EntityElement || |cs| == 0 then id else -1;
      r.Ok? && r.value.db == p.db.(ways := p.db.ways[key := Way(TagsOf(cs), RefsOf(cs))])
  {
    var open := [Start("way", map["id" := Decimal(id)])];
    var body := ChildrenEvents(cs);
    assert WayElement(id, cs) == open + (body + [End("way")]);
    RunAppend(h, p, open, body + [End("way")]);
    WayOpens(h, p, id);
    var q := Run(h, p, open).value;
    RunAppend(h, q, body, [End("way")]);
    ChildrenRun(h, q, cs);
    var q' := Run(h, q, body).value;
    assert q'.entity == Some(Way([] + TagsOf(cs), []));
    assert [] + TagsOf(cs) == TagsOf(cs) && [] + RefsOf(cs) == RefsOf(cs);
    ClassifyWay();
    assert [End("way")][1..] == [];
  }

  /**
   * As written, a way with any child element is filed under -1, not under its
   * own id: the children's opening elements reset the last id.
   */
  lemma WayFiledUnderMinusOne(h: Handler, p: Parser, id: int64, cs: seq<Child>)
    requires h.keying == LastElement && !p.inDelete && |cs| > 0
    ensures var r := Run(h, p, WayElement(id, cs));
      r.Ok? && -1 in r.value.db.ways && r.value.db.ways[-1] == Way(TagsOf(cs), RefsOf(cs))
      && (id != -1 ==> (id in r.value.db.ways <==> id in p.db.ways))
  {
    WayElementRun(h, p, id, cs);
  }

  /** The concrete case: way 7 with one node reference, into an empty database. */
  lemma OneNodeWayMisfiled(h: Handler)
    requires h.keying == LastElement
    ensures var r := Run(h, NewParser(Db(map[], map[], map[])), WayElement(7, [NdChild(5)]));
      r.Ok? && r.value.db.ways == map[-1 := Way([], [5])]
  {
    var cs := [NdChild(5)];
    WayElementRun(h, NewParser(Db(map[], map[], map[])), 7, cs);
    assert TagsOf(cs) == [] && RefsOf(cs) == [5];
  }

  /** Keyed by the entity's own element, every way is filed under its own id. */
  lemma WayFiledUnderOwnId(h: Handler, p: Parser, id: int64, cs: seq<Child>)
    requires h.keying == EntityElement && !p.inDelete
    ensures var r := Run(h, p, WayElement(id, cs));
      r.Ok? && r.value.db.ways == p.db.ways[id := Way(TagsOf(cs), RefsOf(cs))]
      && r.value.db.nodes == p.db.nodes && r.value.db.relations == p.db.relations
  {
    WayElementRun(h, p, id, cs);
  }

  /** A run starting with a successful event continues from that event's state. */
  lemma RunCons(h: Handler, p: Parser, e: XmlEvent, rest: seq<XmlEvent>)
    requires Step(h, p, e).Ok?
    ensures Run(h, p, [e] + rest) == Run(h, Step(h, p, e).value, rest)
  {
    assert ([e] + rest)[0] == e && ([e] + rest)[1..] == rest;
  }

  lemma StartDelete(h: Handler, p: Parser, name: string)
    requires Classify(name) == DeleteName
    ensures StartElement(h, p, name, map[]) == Ok(p.(id := -1, inDelete := true))
  {
  }

  /** A `delete` block around a childless way removes the way, whatever the keying. */
  lemma DeleteWayRemoves(h: Handler, p: Parser, id: int64)
    ensures var r := Run(h, p, [Start("delete", map[])] + WayElement(id, []) + [End("delete")]);
      r.Ok? && r.value.db == p.db.(ways := p.db.ways - {id}) && !r.value.inDelete
  {
    ClassifyDelete();
    ClassifyWay();
    var e1, e2, e3, e4 := Start("delete", map[]), Start("way", map["id" := Decimal(id)]), End("way"), End("delete");
    assert ChildrenEvents([]) == [];
    assert [Start("delete", map[])] + WayElement(id, []) + [End("delete")] == [e1] + ([e2] + ([e3] + [e4]));
    StartDelete(h, p, "delete");
    var p1 := p.(id := -1, inDelete := true);
    RunCons(h, p, e1, [e2] + ([e3] + [e4]));
    WayOpens(h, p1, id);
    RunOne(h, p1, e2);
    var p2 := p1.(id := id, entity := Some(Way([], [])), entityId := id, nodeRefs := Some([]));
    RunCons(h, p1, e2, [e3] + [e4]);
    var p3 := p2.(db := p2.db.(ways := p2.db.ways - {id}));
    assert Key(h, p2) == id;
    assert EndElement(h, p2, "way") == Ok(p3);
    RunCons(h, p2, e3, [e4]);
    RunOne(h, p3, e4);
  }
}

=== FILE: deflaterstream.dfy ===
/**
 * `AsyncBufferedDeflaterOutputStream` as a sequential state machine: the
 * bytes of the current buffer, the committed prefix `[0, count)`, the number
 * of committed messages, and the blocks handed to `DeflatedBlockWriter` so
 * far. The writer thread and the buffer swap's memory reuse are not
 * modelled; only what each block contains and in which order blocks leave.
 */
module DeflaterStream {
  import opened Wrappers
  import opened Bytes
  import opened Errors

  /** `BUFFER_SIZE`: 2 MiB per buffer. */
  const BUFFER_SIZE: int := 1024 * 1024 * 2

  /** What `endBlock` hands to a `DeflatedBlockWriter`: header, message count, the committed bytes. */
  datatype Block = Block(header: seq<byte>, nMessages: int, payload: seq<byte>)

  /**
   * `buffer` is `buf[0, countMessage)`; `count` ends the committed messages;
   * `header` is the public `blockHeader` field.
   */
  datatype Stream = Stream(header: seq<byte>, buffer: seq<byte>, count: int, nMessages: int, handed: seq<Block>)

  /** A freshly constructed stream (the header is set by the first `beginBlock`). */
  const EMPTY: Stream := Stream([], [], 0, 0, [])

  /** 0 <= count <= countMessage <= BUFFER_SIZE, no committed bytes without a committed message, no empty block handed off. */
  predicate Valid(s: Stream) {
    && 0 <= s.count <= |s.buffer| <= BUFFER_SIZE
    && s.nMessages >= 0
    && (s.nMessages == 0 ==> s.count == 0)
    && forall i :: 0 <= i < |s.handed| ==> s.handed[i].nMessages > 0 && |s.handed[i].payload| <= BUFFER_SIZE
  }

  /** The payloads of a sequence of blocks, concatenated in hand-off order. */
  function Payloads(blocks: seq<Block>): seq<byte>
  {
    if |blocks| == 0 then [] else Payloads(blocks[..|blocks| - 1]) + blocks[|blocks| - 1].payload
  }

  /** Messages handed off so far. */
  function HandedMessages(blocks: seq<Block>): int
  {
    if |blocks| == 0 then 0 else HandedMessages(blocks[..|blocks| - 1]) + blocks[|blocks| - 1].nMessages
  }

  /** Every byte of every committed message, in order: handed-off blocks, then `[0, count)`. */
  function Committed(s: Stream): seq<byte>
    requires Valid(s)
  {
    Payloads(s.handed) + s.buffer[..s.count]
  }

  /** The uncommitted fragment `[count, countMessage)` of the message being written. */
  function Pending(s: Stream): seq<byte>
    requires Valid(s)
  {
    s.buffer[s.count..]
  }

  /** Messages committed so far, whether handed off or still buffered. */
  function Messages(s: Stream): int
  {
    HandedMessages(s.handed) + s.nMessages
  }

  lemma PayloadsSnoc(blocks: seq<Block>, b: Block)
    ensures Payloads(blocks + [b]) == Payloads(blocks) + b.payload
    ensures HandedMessages(blocks + [b]) == HandedMessages(blocks) + b.nMessages
  {
    assert (blocks + [b])[..|blocks|] == blocks;
  }

  /** `blockHeader = ...`: only blocks handed off later carry the new header. */
  function SetHeader(s: Stream, h: seq<byte>): (r: Stream)
    requires Valid(s)
    ensures Valid(r) && r.handed == s.handed && Committed(r) == Committed(s) && Pending(r) == Pending(s)
    ensures Messages(r) == Messages(s)
  {
    s.(header := h)
  }

  /** `endMessage`: the fragment becomes part of the committed data. */
  function EndMessage(s: Stream): (r: Stream)
    requires Valid(s)
    ensures Valid(r) && r.handed == s.handed
    ensures Committed(r) == Committed(s) + Pending(s) && Pending(r) == []
    ensures Messages(r) == Messages(s) + 1
  {
    assert s.buffer[..s.count] + s.buffer[s.count..] == s.buffer;
    AppendAssoc(Payloads(s.handed), s.buffer[..s.count], s.buffer[s.count..]);
    s.(count := |s.buffer|, nMessages := s.nMessages + 1)
  }

  /**
   * `endBlock`: with no committed message nothing changes; otherwise the
   * committed bytes leave as one block under the current header, and the
   * fragment moves to the front of the other buffer.
   */
  function EndBlock(s: Stream): (r: Stream)
    requires Valid(s)
    ensures Valid(r)
    ensures Committed(r) == Committed(s) && Pending(r) == Pending(s) && Messages(r) == Messages(s)
    ensures s.nMessages == 0 ==> r == s
    ensures s.nMessages > 0 ==>
              && r.handed == s.handed + [Block(s.header, s.nMessages, s.buffer[..s.count])]
              && r.buffer == Pending(s) && r.count == 0 && r.nMessages == 0 && r.header == s.header
  {
    if s.nMessages > 0 then
      var b := Block(s.header, s.nMessages, s.buffer[..s.count]);
      PayloadsSnoc(s.handed, b);
      s.(handed := s.handed + [b], buffer := s.buffer[s.count..], count := 0, nMessages := 0)
    else s
  }

  /**
   * `write(b)`: a full buffer first ends the block; if the buffer is still
   * full (no committed message to hand off) the store overflows the array.
   */
  function Write(s: Stream, b: byte): (r: Result<Stream, Error>)
    requires Valid(s)
    ensures r.Ok? <==> |Pending(s)| < BUFFER_SIZE
    ensures r.Ok? ==> Valid(r.value) && Committed(r.value) == Committed(s)
                      && Pending(r.value) == Pending(s) + [b] && Messages(r.value) == Messages(s)
    ensures r.Ok? && |s.buffer| < BUFFER_SIZE ==> r.value == s.(buffer := s.buffer + [b])
  {
    var s1 := if |s.buffer| >= BUFFER_SIZE then EndBlock(s) else s;
    if |s1.buffer| >= BUFFER_SIZE then Err(BufferOverflow)
    else
      assert (s1.buffer + [b])[s1.count..] == s1.buffer[s1.count..] + [b];
      assert (s1.buffer + [b])[..s1.count] == s1.buffer[..s1.count];
      Ok(s1.(buffer := s1.buffer + [b]))
  }

  /** The bytes of one message, written one `write` call at a time. */
  function WriteAll(s: Stream, bs: seq<byte>): (r: Result<Stream, Error>)
    requires Valid(s)
    ensures r.Ok? ==> Valid(r.value) && r.value.header == s.header
    decreases |bs|
  {
    if |bs| == 0 then Ok(s)
    else
      var s1 :- Write(s, bs[0]);
      WriteAll(s1, bs[1..])
  }

  /**
   * Writing a message's bytes never loses or reorders anything: it succeeds
   * exactly when the fragment still fits one buffer, and then the bytes are
   * appended to the fragment while committed data and counts stay as they were.
   */
  lemma {:induction false} WriteAllSpec(s: Stream, bs: seq<byte>)
    requires Valid(s)
    ensures WriteAll(s, bs).Ok? <==> |Pending(s)| + |bs| <= BUFFER_SIZE
    ensures WriteAll(s, bs).Ok? ==>
              var r := WriteAll(s, bs).value;
              Valid(r) && Committed(r) == Committed(s) && Pending(r) == Pending(s) + bs && Messages(r) == Messages(s)
    decreases |bs|
  {
    if |bs| > 0 {
      var w := Write(s, bs[0]);
      if w.Ok? {
        WriteAllSpec(w.value, bs[1..]);
        AppendAssoc(Pending(s), [bs[0]], bs[1..]);
        assert [bs[0]] + bs[1..] == bs;
      }
    } else {
      assert Pending(s) + bs == Pending(s);
    }
  }

  /** While there is room, writing only appends to the buffer: no block is cut. */
  lemma {:induction false} WriteAllNoRotation(s: Stream, bs: seq<byte>)
    requires Valid(s) && |s.buffer| + |bs| <= BUFFER_SIZE
    ensures WriteAll(s, bs) == Ok(s.(buffer := s.buffer + bs))
    decreases |bs|
  {
    if |bs| > 0 {
      var s1 := s.(buffer := s.buffer + [bs[0]]);
      assert Write(s, bs[0]) == Ok(s1);
      WriteAllNoRotation(s1, bs[1..]);
      AppendAssoc(s.buffer, [bs[0]], bs[1..]);
      assert [bs[0]] + bs[1..] == bs;
    } else {
      assert s.buffer + bs == s.buffer;
    }
  }

  /** A single message longer than the buffer cannot be written, whatever was committed before it. */
  lemma MessageTooLarge(s: Stream, bs: seq<byte>)
    requires Valid(s) && Pending(s) == [] && |bs| > BUFFER_SIZE
    ensures WriteAll(s, bs).Err?
  {
    WriteAllSpec(s, bs);
  }

  /** `write` on a full buffer first ends the block: the byte lands as if `endBlock` had come just before it. */
  lemma WriteFull(s: Stream, b: byte)
    requires Valid(s) && |s.buffer| >= BUFFER_SIZE
    ensures Write(s, b) == Write(EndBlock(s), b)
  {
  }

  /** So a message started on a full buffer goes, whole, to the front of a new block. */
  lemma WriteAllFull(s: Stream, bs: seq<byte>)
    requires Valid(s) && |s.buffer| >= BUFFER_SIZE && |bs| > 0
    ensures WriteAll(s, bs) == WriteAll(EndBlock(s), bs)
  {
    WriteFull(s, bs[0]);
  }
}

=== FILE: entities.dfy ===
/**
 * The entity model shared by every source and sink: nodes, ways and
 * relations with ordered tags, the push-based sink interface as a trace of
 * calls, and the numeric entity-type codes of the VEX format.
 */
module Osm {
  import opened Wrappers
  import opened Bytes
  import VarInt

  /** `OSMEntity.Type`, in declaration (ordinal) order. */
  datatype EntityType = NodeType | WayType | RelationType

  function Ordinal(t: EntityType): nat {
    match t
    case NodeType => 0
    case WayType => 1
    case RelationType => 2
  }

  /** `OSMEntity.Type.values()[i]`; None where Java indexes out of bounds. */
  function TypeForOrdinal(i: int): (r: Option<EntityType>)
    ensures r.Some? <==> 0 <= i < 3
    ensures r.Some? ==> Ordinal(r.value) == i
  {
    if i == 0 then Some(NodeType)
    else if i == 1 then Some(WayType)
    else if i == 2 then Some(RelationType)
    else None
  }

  /** One key/value pair; keys need not be unique and order is kept. */
  datatype Tag = Tag(key: string, value: string)

  /** `Relation.Member`. */
  datatype Member = Member(kind: EntityType, id: int64, role: string)

  /**
   * A node carries fixed-point coordinates (degrees times 10^7, Java ints),
   * a way its ordered node references, a relation its ordered members.
   */
  datatype Entity =
    | Node(tags: seq<Tag>, fixedLat: int32, fixedLon: int32)
    | Way(tags: seq<Tag>, nodes: seq<int64>)
    | Relation(tags: seq<Tag>, members: seq<Member>)

  function TypeOf(e: Entity): EntityType {
    match e
    case Node(_, _, _) => NodeType
    case Way(_, _) => WayType
    case Relation(_, _) => RelationType
  }

  /** A call made on an `OSMEntitySink`. */
  datatype Event =
    | WriteBegin
    | SetReplicationTimestamp(seconds: int64)
    | WriteEntity(id: int64, entity: Entity)
    | WriteEnd

  /** Block type codes `VexFormat.VEX_NODE` .. `VEX_NONE`. */
  const VEX_NODE: int := 0
  const VEX_WAY: int := 1
  const VEX_RELATION: int := 2
  const VEX_NONE: int := 3

  /** The VEX block code of an entity type; it coincides with the enum ordinal. */
  function VexCode(t: EntityType): (c: int)
    ensures c == Ordinal(t)
    ensures c != VEX_NONE
  {
    match t
    case NodeType => VEX_NODE
    case WayType => VEX_WAY
    case RelationType => VEX_RELATION
  }

  /** "VEXFMT", the magic header of the legacy format. */
  const HEADER: seq<byte> := [86, 69, 88, 70, 77, 84]

  /** Both strings of a tag fit Java's length prefix. */
  predicate WritableTag(t: Tag) {
    VarInt.WritableString(t.key) && VarInt.WritableString(t.value)
  }

  predicate WritableTags(tags: seq<Tag>) {
    |tags| < 0x8000_0000 && forall i :: 0 <= i < |tags| ==> WritableTag(tags[i])
  }

  predicate WritableMembers(ms: seq<Member>) {
    |ms| < 0x8000_0000 && forall i :: 0 <= i < |ms| ==> VarInt.WritableString(ms[i].role)
  }

  /**
   * Sizes Java can represent: every count and string byte length fits an int.
   * Any entity that exists in the Java program satisfies this.
   */
  predicate Representable(e: Entity) {
    && WritableTags(e.tags)
    && (e.Way? ==> |e.nodes| < 0x8000_0000)
    && (e.Relation? ==> WritableMembers(e.members))
  }
}

=== FILE: errors.dfy ===
/** The exceptions the modelled code raises, one constructor per distinct cause. */
module Errors {

  datatype Error =
    | Eof                                   // EOFException: the byte stream ended inside a field
    | MalformedUtf8                         // a string's bytes are not UTF-8
    | NegativeArraySize(n: int)             // `new T[n]` with n < 0
    | TooManyTags(n: int)                   // VexInput.readTags: more than 500 tags
    | BadOrdinal(i: int)                    // member type ordinal outside the enum
    | UnrecognizedBlockType(t: int)         // VexInput.readBlock: no such entity type
    | UnrecognizedBlockTag(tag: seq<int>)   // DeflatedBlockReader.readHeader: not VEXN/VEXW/VEXR
    | MissingBuffer                         // a block whose data was never inflated (null buffer)
    | CorruptHeader                         // VexFormatCodec.readVex: header is not VEXFMT
    | BlockLengthMismatch(nRead: int, expected: int)
    | BufferOverflow                        // ArrayIndexOutOfBoundsException on a buffer write
    | AlreadyPopulated                      // OSM.writeBegin on a non-empty store
    | OutOfOrder                            // PostgresSink: entity order is not nodes, ways, relations
    | InvalidRange                          // TileOSMSource.setTileRange: min greater than max
    | NegativeWayId                         // OSM.indexMake: negative way id
    | EmptyWay                              // way.nodes[0] on a way without nodes
    | NullEntity                            // ChangesetParser: tag or nd outside an entity
    | WrongEntity                           // ChangesetParser: a closing element casts an entity of another kind
    | NumberFormat                          // Long.parseLong / Integer.parseInt rejected a string
    | MissingKey                            // a required key is absent (a null dereference in Java)
    | Diverges                              // a read loop that never ends
    | NullState                             // Updater: a null replication state was dereferenced
    | DateTimeRange                         // Instant.ofEpochSecond: seconds outside the Instant range
}

=== FILE: framing.dfy ===
/**
 * The frame of one VEX block (`DeflatedBlockWriter.run` and
 * `DeflatedBlockReader.run`/`readHeader`): a four-byte type tag, the entity
 * count and the payload length as big-endian ints, then the payload.
 * Compression is modelled as the identity: the payload is the block's bytes
 * themselves, and the reader's inflated buffer is the payload followed by
 * zeros up to the 2 MiB buffer size, as the Java array it fills is.
 */
module Framing {
  import opened Wrappers
  import opened Bytes
  import opened Errors
  import opened Osm

  /** `DeflatedBlockReader.BUFFER_SIZE`: 2 MiB. */
  const BUFFER_SIZE: int := 1024 * 1024 * 2

  /** The ASCII tags "VEXN", "VEXW", "VEXR" and "NONE". */
  const TAG_NODE: seq<byte> := [86, 69, 88, 78]
  const TAG_WAY: seq<byte> := [86, 69, 88, 87]
  const TAG_RELATION: seq<byte> := [86, 69, 88, 82]
  const TAG_NONE: seq<byte> := [78, 79, 78, 69]

  /** `VexOutput.beginBlock`: the header for a block code; anything but a node, way or relation code gets "NONE". */
  function BlockTag(code: int): (r: seq<byte>)
    ensures |r| == 4
    ensures r == TAG_NONE <==> code !in {VEX_NODE, VEX_WAY, VEX_RELATION}
  {
    if code == VEX_NODE then TAG_NODE
    else if code == VEX_WAY then TAG_WAY
    else if code == VEX_RELATION then TAG_RELATION
    else TAG_NONE
  }

  /** `readHeader`'s tag check: the block code for a recognised tag. */
  function TagCode(tag: seq<byte>): (r: Option<int>)
    ensures r.Some? ==> r.value in {VEX_NODE, VEX_WAY, VEX_RELATION} && BlockTag(r.value) == tag
  {
    if tag == TAG_NODE then Some(VEX_NODE)
    else if tag == TAG_WAY then Some(VEX_WAY)
    else if tag == TAG_RELATION then Some(VEX_RELATION)
    else None
  }

  /** Every code the writer can name comes back from its tag; "NONE" does not. */
  lemma TagCodeInverse(code: int)
    ensures TagCode(BlockTag(code)) == if code in {VEX_NODE, VEX_WAY, VEX_RELATION} then Some(code) else None
  {
  }

  /** `deflate` as the identity; the zero-length guard makes an empty block declare size 0. */
  function Deflate(data: seq<byte>, count: int): (r: seq<byte>)
    requires 0 <= count <= |data|
    ensures count == 0 ==> r == []
  {
    data[..count]
  }

  /** `DeflatedBlockWriter.run`: header, BE32 message count, BE32 compressed size, compressed bytes. */
  function WriteFrame(header: seq<byte>, nMessages: int32, data: seq<byte>, count: int): (r: seq<byte>)
    requires 0 <= count <= |data| && count < 0x8000_0000
    ensures |r| == |header| + 8 + count
  {
    var deflated := Deflate(data, count);
    header + IntToBytes(nMessages) + IntToBytes(|deflated|) + deflated
  }

  function Zeros(n: nat): (r: seq<byte>)
    ensures |r| == n && forall i :: 0 <= i < n ==> r[i] == 0
  {
    seq(n, _ => 0)
  }

  /**
   * What a `DeflatedBlockReader` holds after reading one block: the block
   * code, entity count and declared size from the header, and the inflated
   * buffer, which stays null (None) when the declared size was rejected.
   */
  datatype Frame = Frame(entityType: int, nEntities: int32, nBytes: int32, inflated: Option<seq<byte>>)

  /** One `DeflatedBlockReader.run`: end of input, or a block and the input after it. */
  datatype FrameRead = EndOfInput | BlockRead(frame: Frame, rest: seq<byte>)

  /**
   * `readHeader` then `run`. Too few bytes for any header field is end of
   * input; an unknown tag throws; a declared size outside [0, 2 MiB] is
   * only logged, leaving the block without a buffer and the input just after
   * the header; a payload cut short leaves the freshly allocated buffer all
   * zeros and the input exhausted.
   */
  function ReadFrame(s: seq<byte>): (r: Result<FrameRead, Error>)
    ensures r.Err? ==> |s| >= 4 && r.error == UnrecognizedBlockTag(s[..4]) && TagCode(s[..4]).None?
    ensures r.Ok? && r.value.BlockRead? ==> |r.value.rest| + 12 <= |s|
    ensures r.Ok? && r.value.BlockRead? && r.value.frame.inflated.Some? ==>
              |r.value.frame.inflated.value| == BUFFER_SIZE && 0 <= r.value.frame.nBytes <= BUFFER_SIZE
    ensures r.Ok? && r.value.BlockRead? ==> r.value.frame.entityType in {VEX_NODE, VEX_WAY, VEX_RELATION}
    ensures r == Ok(EndOfInput) <==> |s| < 4 || (|s| < 12 && TagCode(s[..4]).Some?)
  {
    if |s| < 4 then Ok(EndOfInput)
    else
      var code := TagCode(s[..4]);
      if code.None? then Err(UnrecognizedBlockTag(s[..4]))
      else if |s| < 12 then Ok(EndOfInput)
      else
        var n := IntFromBytes(s[4..8]);
        var size := IntFromBytes(s[8..12]);
        if size < 0 || size > BUFFER_SIZE then Ok(BlockRead(Frame(code.value, n, size, None), s[12..]))
        else if |s| - 12 < size then Ok(BlockRead(Frame(code.value, n, size, Some(Zeros(BUFFER_SIZE))), []))
        else
          var payload := s[12..12 + size];
          Ok(BlockRead(Frame(code.value, n, size, Some(payload + Zeros(BUFFER_SIZE - size))), s[12 + size..]))
  }

  /**
   * Frame round trip: a frame written for a node, way or relation block,
   * followed by anything, reads back as that block's code, count and bytes
   * (padded to the buffer size), leaving exactly what followed.
   */
  lemma FrameRoundTrip(code: int, n: int32, data: seq<byte>, rest: seq<byte>)
    requires code in {VEX_NODE, VEX_WAY, VEX_RELATION}
    requires |data| <= BUFFER_SIZE
    ensures ReadFrame(WriteFrame(BlockTag(code), n, data, |data|) + rest)
         == Ok(BlockRead(Frame(code, n, |data|, Some(data + Zeros(BUFFER_SIZE - |data|))), rest))
  {
    var s := WriteFrame(BlockTag(code), n, data, |data|) + rest;
    var h := BlockTag(code);
    assert s[..4] == h;
    assert s[4..8] == IntToBytes(n);
    assert s[8..12] == IntToBytes(|data|);
    assert s[12..12 + |data|] == data;
    assert s[12 + |data|..] == rest;
    IntBytesRoundTrip(n);
    IntBytesRoundTrip(|data|);
  }

  /** A block the writer tagged "NONE" is rejected by the reader. */
  lemma NoneTagRejected(s: seq<byte>)
    requires |s| >= 4 && s[..4] == TAG_NONE
    ensures ReadFrame(s) == Err(UnrecognizedBlockTag(TAG_NONE))
  {
  }

  /** Input that ends inside a header after a recognised tag is end of input, not an error. */
  lemma TruncatedHeaderIsEnd(s: seq<byte>)
    requires 4 <= |s| < 12 && TagCode(s[..4]).Some?
    ensures ReadFrame(s) == Ok(EndOfInput)
  {
  }

  /** `readHeader`s one after another until end of input; an error stops the reading. */
  function ReadFrames(s: seq<byte>): (r: Result<seq<Frame>, Error>)
    decreases |s|
  {
    var f :- ReadFrame(s);
    match f
    case EndOfInput => Ok([])
    case BlockRead(frame, rest) =>
      var tail :- ReadFrames(rest);
      Ok([frame] + tail)
  }

  /** A block as handed to `DeflatedBlockWriter`: its type code, message count and bytes. */
  datatype Outgoing = Outgoing(code: int, nMessages: int32, data: seq<byte>)

  predicate Writable(b: Outgoing) {
    b.code in {VEX_NODE, VEX_WAY, VEX_RELATION} && |b.data| <= BUFFER_SIZE
  }

  function Encode(b: Outgoing): seq<byte>
    requires |b.data| <= BUFFER_SIZE
  {
    WriteFrame(BlockTag(b.code), b.nMessages, b.data, |b.data|)
  }

  /** The frames of a sequence of blocks, back to back. */
  function WriteFrames(bs: seq<Outgoing>): seq<byte>
    requires forall i :: 0 <= i < |bs| ==> Writable(bs[i])
  {
    if |bs| == 0 then []
    else
      assert Writable(bs[0]);
      Encode(bs[0]) + WriteFrames(bs[1..])
  }

  /** What the reader should see for a block: its code, count, size and padded bytes. */
  function Expected(b: Outgoing): Frame
    requires |b.data| <= BUFFER_SIZE
  {
    Frame(b.code, b.nMessages, |b.data|, Some(b.data + Zeros(BUFFER_SIZE - |b.data|)))
  }

  function ExpectedAll(bs: seq<Outgoing>): seq<Frame>
    requires forall i :: 0 <= i < |bs| ==> Writable(bs[i])
  {
    if |bs| == 0 then []
    else
      assert Writable(bs[0]);
      [Expected(bs[0])] + ExpectedAll(bs[1..])
  }

  lemma ReadFramesStep(s: seq<byte>, f: Frame, rest: seq<byte>)
    requires ReadFrame(s) == Ok(BlockRead(f, rest))
    ensures ReadFrames(s) == (match ReadFrames(rest) case Ok(tail) => Ok([f] + tail) case Err(e) => Err(e))
  {
  }

  /** Frames written back to back read back in order, then end of input. */
  lemma {:induction false} FramesRoundTrip(bs: seq<Outgoing>)
    requires forall i :: 0 <= i < |bs| ==> Writable(bs[i])
    ensures ReadFrames(WriteFrames(bs)) == Ok(ExpectedAll(bs))
    decreases |bs|
  {
    if |bs| == 0 {
      assert ReadFrame([]) == Ok(EndOfInput);
    } else {
      assert Writable(bs[0]);
      var b := bs[0];
      var rest := WriteFrames(bs[1..]);
      FrameRoundTrip(b.code, b.nMessages, b.data, rest);
      ReadFramesStep(Encode(b) + rest, Expected(b), rest);
      FramesRoundTrip(bs[1..]);
    }
  }
}

=== FILE: indexkeys.dfy ===
/**
 * The byte-array keys of the store's tile index (`OSM.getInt`, `OSM.setInt`,
 * `OSM.indexMake`): 32-bit ints packed big-endian into a byte array, and
 * 16-byte keys made of the tile x, the tile y and the way id, which the
 * index orders as unsigned byte strings.
 */
module IndexKeys {
  import opened Wrappers
  import opened Bytes
  import opened Errors

  /** `(byte) (0xff & (v >> k))`: Java's `>>` on an int floors, like Dafny's division by a power of two. */
  function ShiftByte(v: int32, k: nat): byte {
    (v / Pow2(k)) % 256
  }

  function Pow2(k: nat): (r: nat)
    ensures r > 0
  {
    if k == 0 then 1 else 2 * Pow2(k - 1)
  }

  /** The four bytes `setInt` stores, most significant first. */
  function ShiftBytes(v: int32): (r: seq<byte>)
    ensures |r| == 4
  {
    [ShiftByte(v, 24), ShiftByte(v, 16), ShiftByte(v, 8), ShiftByte(v, 0)]
  }

  /** `setInt`: the four bytes of `v` at `pos`, `pos+1`, `pos+2`, `pos+3`. */
  function SetInt(buf: seq<byte>, pos: int, v: int32): (r: seq<byte>)
    requires 0 <= pos && pos + 4 <= |buf|
    ensures |r| == |buf|
    ensures forall i :: 0 <= i < |buf| && !(pos <= i < pos + 4) ==> r[i] == buf[i]
    ensures forall i :: pos <= i < pos + 4 ==> r[i] == ShiftBytes(v)[i - pos]
  {
    var b := ShiftBytes(v);
    buf[pos := b[0]][pos + 1 := b[1]][pos + 2 := b[2]][pos + 3 := b[3]]
  }

  /** `getInt`: the four bytes at `pos`, shifted into place and or-ed; the top byte lands in the sign bit. */
  function GetInt(buf: seq<byte>, pos: int): int32
    requires 0 <= pos && pos + 4 <= |buf|
  {
    Wrap32(buf[pos] as int * 0x100_0000 + buf[pos + 1] as int * 0x1_0000 + buf[pos + 2] as int * 0x100 + buf[pos + 3] as int)
  }

  /** The shifts and masks of `setInt` are the big-endian two's-complement bytes of the int. */
  lemma ShiftBytesBigEndian(v: int32)
    ensures ShiftBytes(v) == IntToBytes(v)
  {
    var u := v % TWO_32;
    assert Pow2(8) == 0x100 && Pow2(16) == 0x1_0000 && Pow2(24) == 0x100_0000 by {
      assert Pow2(4) == 16;
      assert Pow2(8) == 256;
      assert Pow2(16) == 256 * 256 by { Pow2Add(8, 8); }
      assert Pow2(24) == 256 * 0x1_0000 by { Pow2Add(8, 16); }
    }
    assert IntToBytes(v) == [u / 0x100_0000, (u / 0x1_0000) % 256, (u / 0x100) % 256, u % 256] by {
      BigEndianFour(u);
    }
    SameLowBits(v);
  }

  lemma {:induction false} Pow2Add(a: nat, b: nat)
    ensures Pow2(a + b) == Pow2(a) * Pow2(b)
    decreases a
  {
    if a > 0 {
      Pow2Add(a - 1, b);
    }
  }

  /** The four big-endian bytes of an unsigned 32-bit value, one division each. */
  lemma BigEndianFour(u: nat)
    requires u < TWO_32
    ensures BigEndian(u, 4) == [u / 0x100_0000, (u / 0x1_0000) % 256, (u / 0x100) % 256, u % 256]
  {
    assert u / 256 / 256 == u / 0x1_0000;
    assert u / 256 / 256 / 256 == u / 0x100_0000;
    assert u / 0x100_0000 < 256;
    assert Pow256(3) == 0x100_0000;
    assert BigEndian(u, 4) == BigEndian(u / 256, 3) + [u % 256];
    assert BigEndian(u / 256, 3) == BigEndian(u / 0x1_0000, 2) + [(u / 256) % 256];
    assert BigEndian(u / 0x1_0000, 2) == BigEndian(u / 0x100_0000, 1) + [(u / 0x1_0000) % 256];
    assert BigEndian(u / 0x100_0000, 1) == [u / 0x100_0000];
  }

  /** A negative int and its unsigned pattern agree in every byte. */
  lemma SameLowBits(v: int32)
    ensures (v / 0x100_0000) % 256 == (v % TWO_32) / 0x100_0000
    ensures (v / 0x1_0000) % 256 == ((v % TWO_32) / 0x1_0000) % 256
    ensures (v / 0x100) % 256 == ((v % TWO_32) / 0x100) % 256
    ensures v % 256 == (v % TWO_32) % 256
  {
    if v < 0 {
      NegativePattern(v);
      HighByte(v);
      MiddleByte(v);
      LowByte(v);
      LowestByte(v);
    } else {
      SmallMod(v, TWO_32);
      SmallMod(v / 0x100_0000, 256);
    }
  }

  lemma NegativePattern(v: int)
    requires -0x8000_0000 <= v < 0
    ensures v % TWO_32 == v + TWO_32
  {
    SmallMod(v + TWO_32, TWO_32);
    assert v + TWO_32 == v + 1 * TWO_32;
  }

  lemma LowestByte(v: int)
    ensures v % 256 == (v + TWO_32) % 256
  {
    var q := v / 256;
    assert v + TWO_32 == (q + 0x100_0000) * 256 + v % 256;
  }

  lemma HighByte(v: int)
    requires -0x8000_0000 <= v < 0
    ensures (v / 0x100_0000) % 256 == (v + TWO_32) / 0x100_0000
  {
    var q := v / 0x100_0000;
    var r := v % 0x100_0000;
    assert v + TWO_32 == (q + 256) * 0x100_0000 + r;
    assert -128 <= q < 0;
  }

  lemma MiddleByte(v: int)
    ensures (v / 0x1_0000) % 256 == ((v + TWO_32) / 0x1_0000) % 256
  {
    var q := v / 0x1_0000;
    var r := v % 0x1_0000;
    assert v + TWO_32 == (q + 0x1_0000) * 0x1_0000 + r;
    assert (q + 0x1_0000) % 256 == q % 256;
  }

  lemma LowByte(v: int)
    ensures (v / 0x100) % 256 == ((v + TWO_32) / 0x100) % 256
  {
    var q := v / 0x100;
    var r := v % 0x100;
    assert v + TWO_32 == (q + 0x100_0000) * 0x100 + r;
    assert (q + 0x100_0000) % 256 == q % 256;
  }

  /** `getInt` reads the four bytes as a big-endian int. */
  lemma GetIntBytes(buf: seq<byte>, pos: int)
    requires 0 <= pos && pos + 4 <= |buf|
    ensures GetInt(buf, pos) == IntFromBytes(buf[pos..pos + 4])
  {
    var s := buf[pos..pos + 4];
    var b0, b1, b2, b3 := buf[pos], buf[pos + 1], buf[pos + 2], buf[pos + 3];
    assert s == [b0, b1, b2, b3];
    assert s[..3] == [b0, b1, b2] && [b0, b1, b2][..2] == [b0, b1] && [b0, b1][..1] == [b0] && [b0][..0] == [];
    assert FromBigEndian([b0]) == b0;
    assert FromBigEndian([b0, b1]) == b0 as int * 256 + b1 as int;
    assert FromBigEndian([b0, b1, b2]) == (b0 as int * 256 + b1 as int) * 256 + b2 as int;
  }

  /** Reading back an int just stored at the same place yields it. */
  lemma GetSetInt(buf: seq<byte>, pos: int, v: int32)
    requires 0 <= pos && pos + 4 <= |buf|
    ensures GetInt(SetInt(buf, pos, v), pos) == v
  {
    var r := SetInt(buf, pos, v);
    assert r[pos..pos + 4] == ShiftBytes(v);
    ShiftBytesBigEndian(v);
    GetIntBytes(r, pos);
    IntBytesRoundTrip(v);
  }

  /** The key length: 4 + 4 + 8 bytes. */
  const KEY_SIZE: nat := 16

  /**
   * `indexMake`: x and y as big-endian ints, then the way id as MapDB's
   * `putLong` writes it; a negative way id is refused with an AssertionError.
   */
  function IndexMake(x: int32, y: int32, wayId: int64): (r: Result<seq<byte>, Error>)
    ensures r.Err? <==> wayId < 0
    ensures r.Err? ==> r.error == NegativeWayId
    ensures r.Ok? ==> |r.value| == KEY_SIZE
  {
    if wayId < 0 then Err(NegativeWayId)
    else
      var ret := seq(KEY_SIZE, _ => 0);
      var withX := SetInt(ret, 0, x);
      var withY := SetInt(withX, 4, y);
      Ok(withY[..8] + LongToBytes(wayId))
  }

  /** The key is the three fields' encodings side by side. */
  lemma IndexMakeFields(x: int32, y: int32, wayId: int64)
    requires wayId >= 0
    ensures IndexMake(x, y, wayId) == Ok(IntToBytes(x) + IntToBytes(y) + LongToBytes(wayId))
  {
    var withX := SetInt(seq(KEY_SIZE, _ => 0), 0, x);
    var withY := SetInt(withX, 4, y);
    ShiftBytesBigEndian(x);
    ShiftBytesBigEndian(y);
    assert withY[..4] == ShiftBytes(x);
    assert withY[4..8] == ShiftBytes(y);
    assert withY[..8] == withY[..4] + withY[4..8];
  }

  /** The fields read back from a key: x and y by `getInt`, the way id from its eight bytes. */
  lemma IndexMakeReads(x: int32, y: int32, wayId: int64)
    requires wayId >= 0
    ensures IndexMake(x, y, wayId).Ok?
    ensures GetInt(IndexMake(x, y, wayId).value, 0) == x
    ensures GetInt(IndexMake(x, y, wayId).value, 4) == y
    ensures FromBigEndian(IndexMake(x, y, wayId).value[8..]) == wayId
  {
    IndexMakeFields(x, y, wayId);
    var a, b, c := IntToBytes(x), IntToBytes(y), LongToBytes(wayId);
    SliceThree(a, b, c);
    GetIntAt(a + b + c, 0, x);
    GetIntAt(a + b + c, 4, y);
    SmallMod(wayId, TWO_64);
    FromToBigEndian(wayId, 8);
  }

  lemma SliceThree(a: seq<byte>, b: seq<byte>, c: seq<byte>)
    requires |a| == 4 && |b| == 4
    ensures (a + b + c)[0..4] == a && (a + b + c)[4..8] == b && (a + b + c)[8..] == c
  {
  }

  /** An int's four bytes at `pos` read back as that int. */
  lemma GetIntAt(k: seq<byte>, pos: int, v: int32)
    requires 0 <= pos && pos + 4 <= |k| && k[pos..pos + 4] == IntToBytes(v)
    ensures GetInt(k, pos) == v
  {
    GetIntBytes(k, pos);
    IntBytesRoundTrip(v);
  }

  /** Tuple order on (x, y, way id). */
  predicate TupleLess(x1: int, y1: int, w1: int, x2: int, y2: int, w2: int) {
    x1 < x2 || (x1 == x2 && (y1 < y2 || (y1 == y2 && w1 < w2)))
  }

  /** Three fields side by side compare field by field, when the first two have equal widths on both sides. */
  lemma ThreeFieldOrder(a1: seq<byte>, b1: seq<byte>, c1: seq<byte>, a2: seq<byte>, b2: seq<byte>, c2: seq<byte>)
    requires |a1| == |a2| && |b1| == |b2|
    ensures LexLess(a1 + b1 + c1, a2 + b2 + c2)
        <==> LexLess(a1, a2) || (a1 == a2 && (LexLess(b1, b2) || (b1 == b2 && LexLess(c1, c2))))
  {
    LexLessConcat(a1 + b1, c1, a2 + b2, c2);
    LexLessConcat(a1, b1, a2, b2);
    if a1 + b1 == a2 + b2 {
      assert a1 == (a1 + b1)[..|a1|] && a2 == (a2 + b2)[..|a2|];
      assert b1 == (a1 + b1)[|a1|..] && b2 == (a2 + b2)[|a2|..];
    }
  }

  /** A non-negative field's bytes compare as its value does. */
  lemma FieldOrder(v1: nat, v2: nat, w: nat)
    requires v1 < Pow256(w) && v2 < Pow256(w)
    ensures LexLess(BigEndian(v1, w), BigEndian(v2, w)) <==> v1 < v2
    ensures BigEndian(v1, w) == BigEndian(v2, w) <==> v1 == v2
  {
    BigEndianOrder(v1, v2, w);
    BigEndianInjective(v1, v2, w);
  }

  /**
   * For non-negative fields, the index's unsigned byte order on keys is the
   * order of the (x, y, way id) tuples.
   */
  lemma KeyOrder(x1: int32, y1: int32, w1: int64, x2: int32, y2: int32, w2: int64)
    requires 0 <= x1 && 0 <= y1 && 0 <= w1 && 0 <= x2 && 0 <= y2 && 0 <= w2
    ensures IndexMake(x1, y1, w1).Ok? && IndexMake(x2, y2, w2).Ok?
    ensures LexLess(IndexMake(x1, y1, w1).value, IndexMake(x2, y2, w2).value) <==> TupleLess(x1, y1, w1, x2, y2, w2)
  {
    IndexMakeFields(x1, y1, w1);
    IndexMakeFields(x2, y2, w2);
    NonNegativeBytes(x1, y1, w1);
    NonNegativeBytes(x2, y2, w2);
    ThreeFieldOrder(BigEndian(x1, 4), BigEndian(y1, 4), BigEndian(w1, 8), BigEndian(x2, 4), BigEndian(y2, 4), BigEndian(w2, 8));
    FieldOrder(x1, x2, 4);
    FieldOrder(y1, y2, 4);
    FieldOrder(w1, w2, 8);
  }

  /**
   * The row after `Integer.MAX_VALUE` wraps to `Integer.MIN_VALUE`, whose
   * bytes 80 00 00 00 sort above those of every non-negative row: a key with
   * non-negative fields lies below the key of column `x2` at that wrapped row
   * iff its own column is at most `x2`.
   */
  lemma KeyBelowWrappedRow(x1: int32, y1: int32, w1: int64, x2: int32)
    requires 0 <= x1 && 0 <= y1 && 0 <= w1 && 0 <= x2
    ensures IndexMake(x1, y1, w1).Ok? && IndexMake(x2, -0x8000_0000, 0).Ok?
    ensures LexLess(IndexMake(x1, y1, w1).value, IndexMake(x2, -0x8000_0000, 0).value) <==> x1 <= x2
  {
    IndexMakeFields(x1, y1, w1);
    IndexMakeFields(x2, -0x8000_0000, 0);
    NonNegativeBytes(x1, y1, w1);
    NonNegativeBytes(x2, 0, 0);
    assert IntToBytes(-0x8000_0000) == BigEndian(0x8000_0000, 4);
    ThreeFieldOrder(BigEndian(x1, 4), BigEndian(y1, 4), BigEndian(w1, 8), BigEndian(x2, 4), BigEndian(0x8000_0000, 4), BigEndian(0, 8));
    FieldOrder(x1, x2, 4);
    FieldOrder(y1, 0x8000_0000, 4);
  }

  /** Non-negative values are encoded as their plain big-endian bytes. */
  lemma NonNegativeBytes(x: int32, y: int32, w: int64)
    requires 0 <= x && 0 <= y && 0 <= w
    ensures IntToBytes(x) == BigEndian(x, 4) && IntToBytes(y) == BigEndian(y, 4) && LongToBytes(w) == BigEndian(w, 8)
  {
    SmallMod(x, TWO_32);
    SmallMod(y, TWO_32);
    SmallMod(w, TWO_64);
  }
}

=== FILE: inflater.dfy ===
/**
 * `AsyncBufferedInflater`: the double-buffered read-ahead over frames. The
 * first `nextBlock` reads a frame synchronously; every block it hands out
 * starts the read of the following frame in a background thread, which the
 * next call joins. The thread is modelled as running to completion at the
 * moment it is started, which is what `join` observes.
 */
module Inflater {
  import opened Wrappers
  import opened Bytes
  import opened Errors
  import opened Framing

  /** A finished `DeflatedBlockReader`: it hit end of input, or it holds a block. */
  datatype Fetched = EndReached | Ready(frame: Frame)

  /**
   * The fields a reader keeps when its background thread dies on an
   * unrecognised tag: default type and counts, and no buffer.
   */
  const ABANDONED: Frame := Frame(0, 0, 0, None)

  /**
   * `upstream` is the input not yet consumed; `next` is None until the first
   * call (no inflater thread yet); `curr` is what the accessors read.
   */
  datatype State = State(upstream: seq<byte>, next: Option<Fetched>, curr: Option<Fetched>, nBlocksRead: nat)

  function Start(s: seq<byte>): State {
    State(s, None, None, 0)
  }

  /**
   * A reader run on its own thread: an exception there ends only that thread,
   * leaving the reader with its default fields after consuming the tag.
   */
  function RunInBackground(s: seq<byte>): (r: (Fetched, seq<byte>))
    ensures |r.1| <= |s|
    ensures r.0.Ready? ==> |r.1| < |s|
  {
    match ReadFrame(s)
    case Err(_) => (Ready(ABANDONED), s[4..])
    case Ok(EndOfInput) => (EndReached, [])
    case Ok(BlockRead(f, rest)) => (Ready(f), rest)
  }

  /** What is left to read: the unread input, and a fetched block not yet handed out. */
  function Measure(st: State): nat {
    match st.next
    case None => |st.upstream| + 2
    case Some(EndReached) => |st.upstream|
    case Some(Ready(_)) => |st.upstream| + 1
  }

  /** The block fetched ahead, or, on the first call, the synchronous read of the first one. */
  function Fetch(st: State): (r: Result<(Fetched, seq<byte>), Error>)
    ensures r.Ok? && r.value.0.Ready? ==> |r.value.1| < |st.upstream| || st.next.Some?
    ensures r.Ok? ==> |r.value.1| <= |st.upstream|
  {
    match st.next
    case Some(f) => Ok((f, st.upstream))
    case None =>
      match ReadFrame(st.upstream)
      case Err(e) => Err(e)
      case Ok(EndOfInput) => Ok((EndReached, []))
      case Ok(BlockRead(f, rest)) => Ok((Ready(f), rest))
  }

  /**
   * `nextBlock`: the block fetched ahead becomes current; false at end of
   * input, otherwise the following read starts and the count goes up. An
   * exception of the first, synchronous read reaches the caller.
   */
  function NextBlock(st: State): (r: Result<(bool, State), Error>)
    ensures r.Err? ==> st.next.None? && ReadFrame(st.upstream).Err?
    ensures r.Ok? ==> r.value.1.curr.Some? && (r.value.0 <==> r.value.1.curr.value.Ready?)
    ensures r.Ok? ==> r.value.1.nBlocksRead == st.nBlocksRead + (if r.value.0 then 1 else 0)
    ensures r.Ok? && r.value.0 ==> Measure(r.value.1) < Measure(st)
  {
    var fetched :- Fetch(st);
    var (current, upstream) := fetched;
    if current.EndReached? then
      Ok((false, st.(upstream := upstream, next := Some(current), curr := Some(current))))
    else
      var (ahead, rest) := RunInBackground(upstream);
      Ok((true, State(rest, Some(ahead), Some(current), st.nBlocksRead + 1)))
  }

  /** Once `nextBlock` has said there are no more blocks it keeps saying so, and nothing changes. */
  lemma EndIsSticky(st: State)
    requires NextBlock(st).Ok? && !NextBlock(st).value.0
    ensures NextBlock(NextBlock(st).value.1) == Ok((false, NextBlock(st).value.1))
  {
  }

  /** The first call is synchronous: a bad first tag is the caller's exception. */
  lemma FirstBlockFailure(s: seq<byte>)
    requires |s| >= 4 && TagCode(s[..4]).None?
    ensures NextBlock(Start(s)) == Err(UnrecognizedBlockTag(s[..4]))
  {
  }

  /**
   * A later bad tag kills only the background thread: the caller is told a
   * block is available, but that block has no buffer.
   */
  lemma LaterBlockFailure(s: seq<byte>, f: Frame, rest: seq<byte>)
    requires ReadFrame(s) == Ok(BlockRead(f, rest))
    requires |rest| >= 4 && TagCode(rest[..4]).None?
    ensures NextBlock(Start(s)).Ok?
    ensures var st := NextBlock(Start(s)).value.1;
            NextBlock(st).Ok? && NextBlock(st).value.0 && NextBlock(st).value.1.curr == Some(Ready(ABANDONED))
  {
  }

  /**
   * The inflater is about to deliver the frames `fs` and then stop: whatever
   * is fetched ahead comes first, then what the unread input parses to.
   */
  predicate Delivers(st: State, fs: seq<Frame>) {
    match st.next
    case None => ReadFrames(st.upstream) == Ok(fs)
    case Some(EndReached) => fs == []
    case Some(Ready(f)) => |fs| > 0 && fs[0] == f && ReadFrames(st.upstream) == Ok(fs[1..])
  }

  /** One `nextBlock` hands out the next frame in stream order, or reports the end when none is left. */
  lemma NextBlockDelivers(st: State, fs: seq<Frame>)
    requires Delivers(st, fs)
    ensures NextBlock(st).Ok?
    ensures NextBlock(st).value.0 <==> |fs| > 0
    ensures |fs| > 0 ==> NextBlock(st).value.1.curr == Some(Ready(fs[0])) && Delivers(NextBlock(st).value.1, fs[1..])
    ensures |fs| == 0 ==> Delivers(NextBlock(st).value.1, [])
  {
    if st.next.None? {
      match ReadFrame(st.upstream)
      case Ok(EndOfInput) =>
      case Ok(BlockRead(f, rest)) =>
        ReadFramesStep(st.upstream, f, rest);
        AheadDelivers(rest, fs[1..]);
    } else if st.next.value.Ready? {
      AheadDelivers(st.upstream, fs[1..]);
    }
  }

  /** Starting the read-ahead on input that parses to `fs` leaves an inflater that delivers `fs`. */
  lemma AheadDelivers(s: seq<byte>, fs: seq<Frame>)
    requires ReadFrames(s) == Ok(fs)
    ensures Delivers(State(RunInBackground(s).1, Some(RunInBackground(s).0), None, 0), fs)
  {
    match ReadFrame(s)
    case Ok(EndOfInput) =>
    case Ok(BlockRead(f, rest)) =>
      ReadFramesStep(s, f, rest);
  }
}

=== FILE: legacy.dfy ===
/**
 * The legacy VEX format of `VexFormatCodec`, a separate framing from the
 * block stream of `VexOutput`/`VexInput`:
 *
 *   "VEXFMT"
 *   per block: uint32 type, the entity messages, sInt64 0, uint32 count
 *   a NONE block: uint32 3, sInt64 0, uint32 4 (the number of blocks)
 *
 * The entity messages themselves are byte for byte those of `VexCodec`
 * (id delta, tags, type-specific fields, delta-coded against state that is
 * zeroed at every block). What differs is the framing: a zero id delta ends
 * a block, so the reader needs no count up front, and the trailing count is
 * checked afterwards against the number of reads including the terminator.
 * The store the codec reads into and writes from is the three entity maps
 * of `OSM`; the writer walks each map in ascending id order, as MapDB's
 * ordered maps do, so it takes the maps as their ordered entry sequences.
 */
module Legacy {
  import opened Wrappers
  import opened Bytes
  import opened Errors
  import opened VarInt
  import opened Osm
  import opened VexCodec

  /** One map entry: an id and the entity stored under it. */
  type Entry = (int64, Entity)

  /** The maps of an `OSM` store that the codec reads into. */
  datatype Maps = Maps(nodes: map<int64, Entity>, ways: map<int64, Entity>, relations: map<int64, Entity>)

  /** `map.put` for each entry in turn: a later entry with the same id overwrites. */
  function PutAll(m: map<int64, Entity>, es: seq<Entry>): (r: map<int64, Entity>)
    decreases |es|
  {
    if |es| == 0 then m else PutAll(m[es[0].0 := es[0].1], es[1..])
  }

  /** Put entities read from a block of type `t` into the map of that type. */
  function PutBlock(m: Maps, t: EntityType, es: seq<Entry>): Maps {
    match t
    case NodeType => m.(nodes := PutAll(m.nodes, es))
    case WayType => m.(ways := PutAll(m.ways, es))
    case RelationType => m.(relations := PutAll(m.relations, es))
  }

  /* ---------------- writer ---------------- */

  /** The entries of one map, each an entity of type `t` that Java can hold, fewer than 2^31 of them. */
  predicate Typed(es: seq<Entry>, t: EntityType) {
    && |es| < 0x8000_0000
    && forall i :: 0 <= i < |es| ==> TypeOf(es[i].1) == t && Representable(es[i].1)
  }

  /** The entity messages of a block, delta-coded from `d`, and the state afterwards. */
  function EncodeEntries(d: Deltas, es: seq<Entry>): (r: (seq<byte>, Deltas))
    requires forall i :: 0 <= i < |es| ==> Representable(es[i].1)
    decreases |es|
  {
    if |es| == 0 then ([], d)
    else
      var first := EncodeEntity(d, es[0].0, es[0].1);
      var rest := EncodeEntries(first.1, es[1..]);
      (first.0 + rest.0, rest.1)
  }

  /** `endWriteBlock(n)`: the zero id delta that ends a block, then the count. */
  function EndRecord(n: int32): seq<byte> {
    WriteSInt64(0) + WriteUInt32(n)
  }

  /** A block of type `t` holding `es`, closed by `endWriteBlock(n)`. */
  function BlockWithCount(t: EntityType, es: seq<Entry>, n: int32): seq<byte>
    requires Typed(es, t)
  {
    WriteUInt32(VexCode(t)) + EncodeEntries(ZERO, es).0 + EndRecord(n)
  }

  /**
   * `beginWriteBlock`, the entries in map order, `endWriteBlock(n)` with
   * their number: the block of `writeNodeBlock`/`writeWayBlock`/`writeRelationBlock`.
   */
  function WriteBlock(t: EntityType, es: seq<Entry>): seq<byte>
    requires Typed(es, t)
  {
    BlockWithCount(t, es, |es|)
  }

  /** The number of blocks `writeVex` records in its NONE block, the NONE block included. */
  const BLOCK_COUNT: int32 := 4

  /** `writeVex`: the header, one block per map, then the NONE block with the block count. */
  function WriteVex(nodes: seq<Entry>, ways: seq<Entry>, relations: seq<Entry>): seq<byte>
    requires Typed(nodes, NodeType) && Typed(ways, WayType) && Typed(relations, RelationType)
  {
    HEADER + WriteBlock(NodeType, nodes) + WriteBlock(WayType, ways) + WriteBlock(RelationType, relations)
      + WriteUInt32(VEX_NONE) + EndRecord(BLOCK_COUNT)
  }

  /* ---------------- reader ---------------- */

  /**
   * `readNode`/`readWay`/`readRelation`: a zero id delta is the end of the
   * block (None); otherwise the running id, the tags (no limit on their
   * number here), and the type-specific fields.
   */
  function ReadEntity(t: EntityType, d: Deltas, s: seq<byte>): (r: Result<(Option<Entry>, Deltas, seq<byte>), Error>)
    ensures ReadSInt64(s).Ok? && ReadSInt64(s).value.0 == 0 ==> r == Ok((None, d, ReadSInt64(s).value.1))
    ensures r.Ok? ==> |r.value.2| < |s|
    ensures r.Ok? && r.value.0.Some? ==> r.value.0.value.0 == r.value.1.id && TypeOf(r.value.0.value.1) == t
  {
    var delta :- ReadSInt64(s);
    ReadSInt64Consumes(s);
    if delta.0 == 0 then Ok((None, d, delta.1))
    else
      var id := AddLong(d.id, delta.0);
      var n :- ReadUInt32(delta.1);
      ReadUInt32Consumes(delta.1);
      var tags :- DecodeTagPairs(n.0, n.1);
      TagPairsConsume(n.0, n.1);
      var body :- DecodeBody(t, d.(id := id), tags.0, tags.1);
      BodyConsumes(t, d.(id := id), tags.0, tags.1);
      Ok((Some((id, body.0)), body.1, body.2))
  }

  /** The loop of `readBlock` for a known type: entities up to the terminator, in stream order. */
  function ReadUntilEnd(t: EntityType, d: Deltas, s: seq<byte>): (r: Result<(seq<Entry>, seq<byte>), Error>)
    ensures r.Ok? ==> |r.value.1| < |s|
    decreases |s|
  {
    var e :- ReadEntity(t, d, s);
    match e.0
    case None => Ok(([], e.2))
    case Some(entry) =>
      var rest :- ReadUntilEnd(t, e.1, e.2);
      Ok(([entry] + rest.0, rest.1))
  }

  /** What one call of `readBlock` found. */
  datatype Block =
    | EndOfBlocks(rest: seq<byte>)
    | EntityBlock(entityType: EntityType, entries: seq<Entry>, rest: seq<byte>)

  /**
   * `readBlock`: a NONE type ends reading. A known type is read up to its
   * terminator, and the count after it must be one less than the number of
   * reads, terminator included (both sides in `int` arithmetic). An unknown
   * type matches no case of the switch, so the loop never ends.
   */
  function ReadBlock(s: seq<byte>): (r: Result<Block, Error>)
    ensures r.Ok? ==> |r.value.rest| < |s|
    ensures ReadUInt32(s).Ok? && ReadUInt32(s).value.0 == VEX_NONE ==> r == Ok(EndOfBlocks(ReadUInt32(s).value.1))
    ensures ReadUInt32(s).Ok? && ReadUInt32(s).value.0 != VEX_NONE && TypeForVexCode(ReadUInt32(s).value.0).None?
            ==> r == Err(Diverges)
  {
    var code :- ReadUInt32(s);
    ReadUInt32Consumes(s);
    if code.0 == VEX_NONE then Ok(EndOfBlocks(code.1))
    else
      match TypeForVexCode(code.0)
      case None => Err(Diverges)
      case Some(t) =>
        var es :- ReadUntilEnd(t, ZERO, code.1);
        var n :- ReadUInt32(es.1);
        ReadUInt32Consumes(es.1);
        CheckCount(t, es.0, n.0, n.1)
  }

  /** The count check at the end of `readBlock`: `es` were read, the terminator too, and `n` was recorded. */
  function CheckCount(t: EntityType, es: seq<Entry>, n: int32, rest: seq<byte>): (r: Result<Block, Error>)
    ensures r.Ok? ==> r.value == EntityBlock(t, es, rest)
    ensures r.Err? ==> r.error == BlockLengthMismatch(Wrap32(|es| + 1), n)
    ensures r.Ok? <==> Wrap32(|es| + 1) == Wrap32(n + 1)
  {
    var nRead := Wrap32(|es| + 1);
    if nRead != Wrap32(n + 1) then Err(BlockLengthMismatch(nRead, n))
    else Ok(EntityBlock(t, es, rest))
  }

  /** The maps after the blocks, how many blocks were read (the NONE block included), and what follows. */
  datatype Blocks = Blocks(maps: Maps, nBlocks: nat, rest: seq<byte>)

  /** The loop of `readVex`: blocks until the NONE block, each put into the map of its type. */
  function ReadBlocks(s: seq<byte>, m: Maps, nBlocks: nat): (r: Result<Blocks, Error>)
    ensures r.Ok? ==> r.value.nBlocks > nBlocks
    decreases |s|
  {
    var b :- ReadBlock(s);
    match b
    case EndOfBlocks(rest) => Ok(Blocks(m, nBlocks + 1, rest))
    case EntityBlock(t, es, rest) => ReadBlocks(rest, PutBlock(m, t, es), nBlocks + 1)
  }

  /**
   * The result of `readVex`: the maps, plus the values it only logs — the
   * number of blocks read, the sentinel and block count after the NONE block.
   */
  datatype Loaded = Loaded(maps: Maps, nBlocks: nat, sentinel: int64, expectedBlocks: int64)

  /** Whether `readVex` logs nothing: a zero sentinel and the block count it expected. */
  predicate Clean(l: Loaded) {
    l.sentinel == 0 && l.nBlocks == l.expectedBlocks
  }

  /**
   * `readVex` into a store whose maps are `m`: the header must be "VEXFMT",
   * then blocks up to the NONE block, then the sentinel and block count,
   * whose disagreement is only logged.
   */
  function ReadVex(s: seq<byte>, m: Maps): (r: Result<Loaded, Error>)
    ensures |s| < |HEADER| ==> r == Err(Eof)
    ensures |s| >= |HEADER| && s[..|HEADER|] != HEADER ==> r == Err(CorruptHeader)
  {
    if |s| < |HEADER| then Err(Eof)
    else if s[..|HEADER|] != HEADER then Err(CorruptHeader)
    else
      var blocks :- ReadBlocks(s[|HEADER|..], m, 0);
      var sentinel :- ReadSInt64(blocks.rest);
      var expected :- ReadUInt64(sentinel.1);
      Ok(Loaded(blocks.maps, blocks.nBlocks, sentinel.0, expected.0))
  }

  /* ---------------- the converter ---------------- */

  /** `Converter`'s fields: the open block's type, its entity count, and the codec's delta state. */
  datatype Converter = Converter(current: int, count: int32, deltas: Deltas)

  /** `streamBegin`: the header, and no block open. */
  const CONVERTER_START: Converter := Converter(VEX_NONE, 0, ZERO)

  /**
   * `Converter.checkBlockTransition`: only on a change of type, end the open
   * block with its count (unless none is open) and begin one of the new type.
   */
  function CheckBlockTransition(c: Converter, code: int32): (r: (seq<byte>, Converter))
    ensures c.current == code ==> r == ([], c)
    ensures c.current != code ==> r.1 == Converter(code, if c.current == VEX_NONE then c.count else 0, ZERO)
    ensures c.current != code && c.current == VEX_NONE ==> r.0 == WriteUInt32(code)
    ensures c.current != code && c.current != VEX_NONE ==> r.0 == EndRecord(c.count) + WriteUInt32(code)
  {
    if c.current == code then ([], c)
    else
      var end := if c.current != VEX_NONE then EndRecord(c.count) else [];
      var count := if c.current != VEX_NONE then 0 else c.count;
      (end + WriteUInt32(code), Converter(code, count, ZERO))
  }

  /** `handleNode`/`handleWay`/`handleRelation`: the transition, the entity, and `ecount++`. */
  function Handle(c: Converter, id: int64, e: Entity): (r: (seq<byte>, Converter))
    requires Representable(e) && 0 <= c.count < 0x7FFF_FFFF
    ensures c.current == VexCode(TypeOf(e))
            ==> r == (EncodeEntity(c.deltas, id, e).0, Converter(c.current, c.count + 1, EncodeEntity(c.deltas, id, e).1))
    ensures 0 < r.1.count <= c.count + 1
  {
    var tr := CheckBlockTransition(c, VexCode(TypeOf(e)));
    var enc := EncodeEntity(tr.1.deltas, id, e);
    assert tr.0 == [] ==> tr.0 + enc.0 == enc.0;
    (tr.0 + enc.0, tr.1.(count := tr.1.count + 1, deltas := enc.1))
  }

  /** The converter fed a sequence of entries: the bytes it writes after the header, and its state. */
  function Convert(c: Converter, es: seq<Entry>): (r: (seq<byte>, Converter))
    requires forall i :: 0 <= i < |es| ==> Representable(es[i].1)
    requires 0 <= c.count && c.count as int + |es| < 0x7FFF_FFFF
    ensures 0 <= r.1.count <= c.count as int + |es|
    decreases |es|
  {
    if |es| == 0 then ([], c)
    else
      var first := Handle(c, es[0].0, es[0].1);
      var rest := Convert(first.1, es[1..]);
      (first.0 + rest.0, rest.1)
  }

  /* ---------------- round trip ---------------- */

  /** Each entry's id differs from the one before it, the first from `prev`: no id delta is zero. */
  predicate NoRepeat(prev: int64, es: seq<Entry>)
    decreases |es|
  {
    |es| == 0 || (es[0].0 != prev && NoRepeat(es[0].0, es[1..]))
  }

  /** Entries in strictly ascending id order, as an ordered map yields them. */
  predicate Ascending(es: seq<Entry>) {
    forall i, j :: 0 <= i < j < |es| ==> es[i].0 < es[j].0
  }

  /** In ascending order, only the first id can repeat the zeroed state: every id after it is larger. */
  lemma {:induction false} AscendingNoRepeat(prev: int64, es: seq<Entry>)
    requires Ascending(es) && (|es| > 0 ==> es[0].0 != prev)
    ensures NoRepeat(prev, es)
    decreases |es|
  {
    if |es| > 1 {
      assert es[0].0 < es[1].0;
      assert Ascending(es[1..]) by {
        forall i, j | 0 <= i < j < |es[1..]| ensures es[1..][i].0 < es[1..][j].0 {
          assert es[1..][i] == es[i + 1] && es[1..][j] == es[j + 1];
        }
      }
      AscendingNoRepeat(es[0].0, es[1..]);
    }
  }

  /** A wrapped difference is zero only between equal longs. */
  lemma SubLongZero(a: int64, b: int64)
    ensures SubLong(a, b) == 0 <==> a == b
  {
    if SubLong(a, b) == 0 {
      WrapDelta(b, a);
    }
  }

  lemma EntityStep(t: EntityType, d: Deltas, s: seq<byte>, delta: int64, s1: seq<byte>, n: int32, s2: seq<byte>,
                   tags: seq<Tag>, s3: seq<byte>, e: Entity, d1: Deltas, rest: seq<byte>)
    requires ReadSInt64(s) == Ok((delta, s1)) && delta != 0
    requires ReadUInt32(s1) == Ok((n, s2)) && DecodeTagPairs(n, s2) == Ok((tags, s3))
    requires DecodeBody(t, d.(id := AddLong(d.id, delta)), tags, s3) == Ok((e, d1, rest))
    ensures ReadEntity(t, d, s) == Ok((Some((AddLong(d.id, delta), e)), d1, rest))
  {
  }

  lemma EntityStepAt(t: EntityType, d: Deltas, s: seq<byte>, id: int64, s1: seq<byte>, s2: seq<byte>,
                     tags: seq<Tag>, s3: seq<byte>, e: Entity, d1: Deltas, rest: seq<byte>)
    requires id != d.id
    requires ReadSInt64(s) == Ok((SubLong(id, d.id), s1))
    requires ReadUInt32(s1) == Ok((|tags|, s2)) && DecodeTagPairs(|tags|, s2) == Ok((tags, s3))
    requires DecodeBody(t, d.(id := id), tags, s3) == Ok((e, d1, rest))
    ensures ReadEntity(t, d, s) == Ok((Some((id, e)), d1, rest))
  {
    WrapDelta(d.id, id);
    SubLongZero(id, d.id);
    EntityStep(t, d, s, SubLong(id, d.id), s1, |tags|, s2, tags, s3, e, d1, rest);
  }

  /**
   * Entity round trip: the legacy reader, in the state the writer was in,
   * reads an entity message back as the same id and entity and ends in the
   * writer's state, provided the id delta is not zero.
   */
  lemma EntityRoundTrip(d: Deltas, id: int64, e: Entity, rest: seq<byte>)
    requires Representable(e) && id != d.id
    ensures ReadEntity(TypeOf(e), d, EncodeEntity(d, id, e).0 + rest)
         == Ok((Some((id, e)), EncodeEntity(d, id, e).1, rest))
  {
    var body := EncodeBody(d.(id := id), e);
    var pairs := EncodeTagPairs(e.tags);
    var di := SubLong(id, d.id);
    var s := EncodeEntity(d, id, e).0 + rest;
    var s3 := body.0 + rest;
    var s2 := pairs + s3;
    var s1 := WriteUInt32(|e.tags|) + s2;
    assert s == WriteSInt64(di) + s1 by {
      assert EncodeEntity(d, id, e).0 == (WriteSInt64(di) + (WriteUInt32(|e.tags|) + pairs)) + body.0;
      AppendAssoc(WriteSInt64(di) + (WriteUInt32(|e.tags|) + pairs), body.0, rest);
      AppendAssoc(WriteSInt64(di), WriteUInt32(|e.tags|) + pairs, s3);
      AppendAssoc(WriteUInt32(|e.tags|), pairs, s3);
    }
    SInt64RoundTrip(di, s1);
    UInt32RoundTrip(|e.tags|, s2);
    TagPairsRoundTrip(e.tags, s3);
    BodyRoundTrip(d.(id := id), e, rest);
    EntityStepAt(TypeOf(e), d, s, id, s1, s2, e.tags, s3, e, body.1, rest);
  }

  /** The writer's state after an entity carries that entity's id. */
  lemma EncodeEntityId(d: Deltas, id: int64, e: Entity)
    requires Representable(e)
    ensures EncodeEntity(d, id, e).1.id == id
  {
  }

  /** The zero id delta of `endWriteBlock` reads as the end of the block. */
  lemma TerminatorRead(t: EntityType, d: Deltas, tail: seq<byte>)
    ensures ReadUntilEnd(t, d, WriteSInt64(0) + tail) == Ok(([], tail))
  {
    SInt64RoundTrip(0, tail);
  }

  lemma UntilEndStep(t: EntityType, d: Deltas, s: seq<byte>, entry: Entry, d1: Deltas, s1: seq<byte>,
                     es: seq<Entry>, rest: seq<byte>)
    requires ReadEntity(t, d, s) == Ok((Some(entry), d1, s1))
    requires ReadUntilEnd(t, d1, s1) == Ok((es, rest))
    ensures ReadUntilEnd(t, d, s) == Ok(([entry] + es, rest))
  {
  }

  /** An entry's message in front of messages that read back reads back as that entry, then those. */
  lemma EntryAt(t: EntityType, d: Deltas, entry: Entry, es: seq<Entry>, tail: seq<byte>, rest: seq<byte>)
    requires Representable(entry.1) && TypeOf(entry.1) == t && entry.0 != d.id
    requires ReadUntilEnd(t, EncodeEntity(d, entry.0, entry.1).1, tail) == Ok((es, rest))
    ensures ReadUntilEnd(t, d, EncodeEntity(d, entry.0, entry.1).0 + tail) == Ok(([entry] + es, rest))
  {
    var first := EncodeEntity(d, entry.0, entry.1);
    EntityRoundTrip(d, entry.0, entry.1, tail);
    UntilEndStep(t, d, first.0 + tail, entry, first.1, tail, es, rest);
  }

  /** The inductive step of the entries round trip. */
  lemma EntriesCons(t: EntityType, d: Deltas, es: seq<Entry>, rest: seq<byte>)
    requires |es| > 0 && Typed(es, t) && es[0].0 != d.id
    requires ReadUntilEnd(t, EncodeEntity(d, es[0].0, es[0].1).1,
                          EncodeEntries(EncodeEntity(d, es[0].0, es[0].1).1, es[1..]).0 + (WriteSInt64(0) + rest))
          == Ok((es[1..], rest))
    ensures ReadUntilEnd(t, d, EncodeEntries(d, es).0 + (WriteSInt64(0) + rest)) == Ok((es, rest))
  {
    var first := EncodeEntity(d, es[0].0, es[0].1);
    var tail := EncodeEntries(first.1, es[1..]);
    AppendAssoc(first.0, tail.0, WriteSInt64(0) + rest);
    EntryAt(t, d, es[0], es[1..], tail.0 + (WriteSInt64(0) + rest), rest);
    assert [es[0]] + es[1..] == es;
  }

  lemma TypedTail(es: seq<Entry>, t: EntityType)
    requires |es| > 0 && Typed(es, t)
    ensures Typed(es[1..], t)
  {
    forall i | 0 <= i < |es[1..]| ensures TypeOf(es[1..][i].1) == t && Representable(es[1..][i].1) {
      assert es[1..][i] == es[i + 1];
    }
  }

  /**
   * The entries of a block, written from state `d`, read back up to the
   * terminator as the same entries in the same order, as long as no id
   * repeats the one before it.
   */
  lemma {:induction false} EntriesRoundTrip(t: EntityType, d: Deltas, es: seq<Entry>, rest: seq<byte>)
    requires Typed(es, t) && NoRepeat(d.id, es)
    ensures ReadUntilEnd(t, d, EncodeEntries(d, es).0 + (WriteSInt64(0) + rest)) == Ok((es, rest))
    decreases |es|
  {
    if |es| == 0 {
      assert EncodeEntries(d, es).0 + (WriteSInt64(0) + rest) == WriteSInt64(0) + rest;
      TerminatorRead(t, d, rest);
    } else {
      var d1 := EncodeEntity(d, es[0].0, es[0].1).1;
      EncodeEntityId(d, es[0].0, es[0].1);
      TypedTail(es, t);
      EntriesRoundTrip(t, d1, es[1..], rest);
      EntriesCons(t, d, es, rest);
    }
  }

  lemma BlockStep(s: seq<byte>, t: EntityType, s1: seq<byte>, es: seq<Entry>, s2: seq<byte>, n: int32, rest: seq<byte>)
    requires ReadUInt32(s) == Ok((VexCode(t), s1))
    requires ReadUntilEnd(t, ZERO, s1) == Ok((es, s2))
    requires ReadUInt32(s2) == Ok((n, rest))
    ensures ReadBlock(s) == CheckCount(t, es, n, rest)
  {
    assert VexCode(t) != VEX_NONE;
    assert TypeForVexCode(VexCode(t)) == Some(t);
  }

  /**
   * `readBlock` on a written block: the entries come back in order, and the
   * block is accepted exactly when the recorded count matches the number of
   * reads less the terminator, in `int` arithmetic.
   */
  lemma BlockRead(t: EntityType, es: seq<Entry>, n: int32, rest: seq<byte>)
    requires Typed(es, t) && NoRepeat(0, es)
    ensures ReadBlock(BlockWithCount(t, es, n) + rest) == CheckCount(t, es, n, rest)
  {
    var body := EncodeEntries(ZERO, es).0;
    var s2 := WriteSInt64(0) + (WriteUInt32(n) + rest);
    var s1 := body + s2;
    assert BlockWithCount(t, es, n) + rest == WriteUInt32(VexCode(t)) + s1 by {
      AppendAssoc(WriteUInt32(VexCode(t)), body, EndRecord(n));
      AppendAssoc(WriteUInt32(VexCode(t)) + body, EndRecord(n), rest);
      AppendAssoc(WriteUInt32(VexCode(t)), body, EndRecord(n) + rest);
      AppendAssoc(WriteSInt64(0), WriteUInt32(n), rest);
      AppendAssoc(body, WriteSInt64(0) + WriteUInt32(n), rest);
    }
    UInt32RoundTrip(VexCode(t), s1);
    EntriesRoundTrip(t, ZERO, es, WriteUInt32(n) + rest);
    UInt32RoundTrip(n, rest);
    BlockStep(BlockWithCount(t, es, n) + rest, t, s1, es, WriteUInt32(n) + rest, n, rest);
  }

  /**
   * Block round trip: a block `writeVex` writes is read back by `readBlock`
   * as its entries, in map order, with no length mismatch, provided the
   * first id is not 0 and no id repeats the one before it.
   */
  lemma BlockRoundTrip(t: EntityType, es: seq<Entry>, rest: seq<byte>)
    requires Typed(es, t) && NoRepeat(0, es)
    ensures ReadBlock(WriteBlock(t, es) + rest) == Ok(EntityBlock(t, es, rest))
  {
    BlockRead(t, es, |es|, rest);
    assert CheckCount(t, es, |es|, rest).Ok?;
  }

  /** A block followed by blocks that read back is read first, its entries put, then those. */
  lemma BlockThen(t: EntityType, es: seq<Entry>, rest: seq<byte>, m: Maps, k: nat, result: Blocks)
    requires Typed(es, t) && NoRepeat(0, es)
    requires ReadBlocks(rest, PutBlock(m, t, es), k + 1) == Ok(result)
    ensures ReadBlocks(WriteBlock(t, es) + rest, m, k) == Ok(result)
  {
    BlockRoundTrip(t, es, rest);
    BlocksStep(WriteBlock(t, es) + rest, m, k, t, es, rest, result);
  }

  lemma BlocksStep(s: seq<byte>, m: Maps, k: nat, t: EntityType, es: seq<Entry>, s1: seq<byte>, result: Blocks)
    requires ReadBlock(s) == Ok(EntityBlock(t, es, s1))
    requires ReadBlocks(s1, PutBlock(m, t, es), k + 1) == Ok(result)
    ensures ReadBlocks(s, m, k) == Ok(result)
  {
  }

  /** The NONE block and what `writeVex` puts after it. */
  function Trailer(): seq<byte> {
    WriteUInt32(VEX_NONE) + EndRecord(BLOCK_COUNT)
  }

  lemma TrailerRead(m: Maps, k: nat)
    ensures ReadBlocks(Trailer(), m, k) == Ok(Blocks(m, k + 1, EndRecord(BLOCK_COUNT)))
  {
    UInt32RoundTrip(VEX_NONE, EndRecord(BLOCK_COUNT));
  }

  /** After the NONE block: sentinel 0, then the block count 4, read back as a long. */
  lemma EndRecordRead()
    ensures ReadSInt64(EndRecord(BLOCK_COUNT)) == Ok((0, WriteUInt32(BLOCK_COUNT)))
    ensures ReadUInt64(WriteUInt32(BLOCK_COUNT)) == Ok((4, []))
  {
    SInt64RoundTrip(0, WriteUInt32(BLOCK_COUNT));
    VarintRoundTrip(4, []);
    assert WriteUInt32(BLOCK_COUNT) + [] == WriteUInt32(BLOCK_COUNT);
  }

  /** The node block in front of blocks that read back: its entries are put first. */
  lemma NodeBlockFirst(nodes: seq<Entry>, m: Maps, rest: seq<byte>, result: Blocks)
    requires Typed(nodes, NodeType) && NoRepeat(0, nodes)
    requires ReadBlocks(rest, PutBlock(m, NodeType, nodes), 1) == Ok(result)
    ensures ReadBlocks(WriteBlock(NodeType, nodes) + rest, m, 0) == Ok(result)
  {
    BlockThen(NodeType, nodes, rest, m, 0, result);
  }

  /** The way and relation blocks, read back after the node block, in front of whatever the reader then finds. */
  lemma TwoBlocks(ways: seq<Entry>, relations: seq<Entry>, m1: Maps, tail: seq<byte>, result: Blocks)
    requires Typed(ways, WayType) && Typed(relations, RelationType)
    requires NoRepeat(0, ways) && NoRepeat(0, relations)
    requires ReadBlocks(tail, PutBlock(PutBlock(m1, WayType, ways), RelationType, relations), 3) == Ok(result)
    ensures ReadBlocks(WriteBlock(WayType, ways) + (WriteBlock(RelationType, relations) + tail), m1, 1) == Ok(result)
  {
    BlockThen(RelationType, relations, tail, PutBlock(m1, WayType, ways), 2, result);
    BlockThen(WayType, ways, WriteBlock(RelationType, relations) + tail, m1, 1, result);
  }

  lemma WriteVexShape(nodes: seq<Entry>, ways: seq<Entry>, relations: seq<Entry>)
    requires Typed(nodes, NodeType) && Typed(ways, WayType) && Typed(relations, RelationType)
    ensures WriteVex(nodes, ways, relations)
         == HEADER + (WriteBlock(NodeType, nodes) + (WriteBlock(WayType, ways) + (WriteBlock(RelationType, relations) + Trailer())))
  {
    var a := WriteBlock(NodeType, nodes);
    var b := WriteBlock(WayType, ways);
    var c := WriteBlock(RelationType, relations);
    var x := WriteUInt32(VEX_NONE);
    var y := EndRecord(BLOCK_COUNT);
    assert WriteVex(nodes, ways, relations) == ((((HEADER + a) + b) + c) + x) + y;
    AppendAssoc(((HEADER + a) + b) + c, x, y);
    AppendAssoc((HEADER + a) + b, c, x + y);
    AppendAssoc(HEADER + a, b, c + (x + y));
    AppendAssoc(HEADER, a, b + (c + (x + y)));
  }

  lemma ReadVexStep(s: seq<byte>, m: Maps, blocks: Blocks)
    requires |s| >= |HEADER| && s[..|HEADER|] == HEADER
    requires ReadBlocks(s[|HEADER|..], m, 0) == Ok(blocks)
    requires blocks.rest == EndRecord(BLOCK_COUNT)
    ensures ReadVex(s, m) == Ok(Loaded(blocks.maps, blocks.nBlocks, 0, 4))
  {
    EndRecordRead();
  }

  /**
   * Round trip of the legacy format: reading what `writeVex` wrote, into a
   * store with maps `m`, puts every entry of each map into the map of its
   * type, in order, and logs nothing (sentinel 0, four blocks as recorded).
   * The writer's entries must be in ascending id order, as its ordered maps
   * give them, and no map may have an entity with id 0 first: that id's
   * delta would read as the end of the block.
   */
  lemma VexRoundTrip(nodes: seq<Entry>, ways: seq<Entry>, relations: seq<Entry>, m: Maps)
    requires Typed(nodes, NodeType) && Typed(ways, WayType) && Typed(relations, RelationType)
    requires Ascending(nodes) && Ascending(ways) && Ascending(relations)
    requires |nodes| > 0 ==> nodes[0].0 != 0
    requires |ways| > 0 ==> ways[0].0 != 0
    requires |relations| > 0 ==> relations[0].0 != 0
    ensures ReadVex(WriteVex(nodes, ways, relations), m)
         == Ok(Loaded(Maps(PutAll(m.nodes, nodes), PutAll(m.ways, ways), PutAll(m.relations, relations)), 4, 0, 4))
    ensures Clean(ReadVex(WriteVex(nodes, ways, relations), m).value)
  {
    AscendingNoRepeat(0, nodes);
    AscendingNoRepeat(0, ways);
    AscendingNoRepeat(0, relations);
    var body := WriteBlock(NodeType, nodes) + (WriteBlock(WayType, ways) + (WriteBlock(RelationType, relations) + Trailer()));
    WriteVexShape(nodes, ways, relations);
    assert (HEADER + body)[..|HEADER|] == HEADER;
    assert (HEADER + body)[|HEADER|..] == body;
    var m1 := PutBlock(m, NodeType, nodes);
    var m3 := PutBlock(PutBlock(m1, WayType, ways), RelationType, relations);
    assert m3 == Maps(PutAll(m.nodes, nodes), PutAll(m.ways, ways), PutAll(m.relations, relations));
    var result := Blocks(m3, 4, EndRecord(BLOCK_COUNT));
    TrailerRead(m3, 3);
    TwoBlocks(ways, relations, m1, Trailer(), result);
    NodeBlockFirst(nodes, m, WriteBlock(WayType, ways) + (WriteBlock(RelationType, relations) + Trailer()), result);
    ReadVexStep(HEADER + body, m, result);
  }

  /** In ascending order, putting the entries leaves each id mapped to its entity. */
  lemma {:induction false} PutAllAscending(m: map<int64, Entity>, es: seq<Entry>)
    requires Ascending(es)
    ensures PutAll(m, es).Keys == m.Keys + set i | 0 <= i < |es| :: es[i].0
    ensures forall i :: 0 <= i < |es| ==> PutAll(m, es)[es[i].0] == es[i].1
    decreases |es|
  {
    if |es| > 0 {
      var m1 := m[es[0].0 := es[0].1];
      assert Ascending(es[1..]) by {
        forall i, j | 0 <= i < j < |es[1..]| ensures es[1..][i].0 < es[1..][j].0 {
          assert es[1..][i] == es[i + 1] && es[1..][j] == es[j + 1];
        }
      }
      PutAllAscending(m1, es[1..]);
      forall i | 0 <= i < |es| ensures PutAll(m, es)[es[i].0] == es[i].1 {
        if i > 0 {
          assert es[1..][i - 1] == es[i];
        } else {
          assert PutAll(m, es) == PutAll(m1, es[1..]);
          PutAllKeeps(m1, es[1..], es[0].0);
        }
      }
      var ids := set i | 0 <= i < |es| :: es[i].0;
      var ids1 := set i | 0 <= i < |es[1..]| :: es[1..][i].0;
      assert ids == {es[0].0} + ids1 by {
        forall x | x in ids ensures x in {es[0].0} + ids1 {
          var i :| 0 <= i < |es| && es[i].0 == x;
          if i > 0 { assert es[1..][i - 1] == es[i]; }
        }
        forall x | x in ids1 ensures x in ids {
          var i :| 0 <= i < |es[1..]| && es[1..][i].0 == x;
          assert es[1..][i] == es[i + 1];
        }
      }
    }
  }

  /** Puts of other ids leave an id's entry alone. */
  lemma {:induction false} PutAllKeeps(m: map<int64, Entity>, es: seq<Entry>, id: int64)
    requires id in m && forall i :: 0 <= i < |es| ==> es[i].0 != id
    ensures id in PutAll(m, es) && PutAll(m, es)[id] == m[id]
    decreases |es|
  {
    if |es| > 0 {
      assert forall i :: 0 <= i < |es[1..]| ==> es[1..][i].0 != id by {
        forall i | 0 <= i < |es[1..]| ensures es[1..][i].0 != id {
          assert es[1..][i] == es[i + 1];
        }
      }
      PutAllKeeps(m[es[0].0 := es[0].1], es[1..], id);
    }
  }

  /**
   * An entity with id 0 first in a block is read as the block's end: the
   * reader stops there, before the entity's tags, and puts nothing.
   */
  lemma ZeroIdEndsBlock(t: EntityType, es: seq<Entry>, rest: seq<byte>)
    requires Typed(es, t) && |es| > 0 && es[0].0 == 0
    ensures var tail := EncodeTags(es[0].1.tags) + EncodeBody(ZERO, es[0].1).0 + EncodeEntries(EncodeEntity(ZERO, 0, es[0].1).1, es[1..]).0 + rest;
            ReadUntilEnd(t, ZERO, EncodeEntries(ZERO, es).0 + rest) == Ok(([], tail))
  {
    var e := es[0].1;
    var tail0 := EncodeEntries(EncodeEntity(ZERO, 0, e).1, es[1..]).0;
    assert SubLong(0, 0) == 0;
    assert ZERO.(id := 0) == ZERO;
    var s := EncodeEntries(ZERO, es).0 + rest;
    assert s == WriteSInt64(0) + (EncodeTags(e.tags) + EncodeBody(ZERO, e).0 + tail0 + rest) by {
      var a := WriteSInt64(0);
      var b := EncodeTags(e.tags);
      var c := EncodeBody(ZERO, e).0;
      assert EncodeEntries(ZERO, es).0 == ((a + b) + c) + tail0;
      AppendAssoc((a + b) + c, tail0, rest);
      AppendAssoc(a + b, c, tail0 + rest);
      AppendAssoc(a, b, c + (tail0 + rest));
      AppendAssoc(b, c, tail0 + rest);
      AppendAssoc(b + c, tail0, rest);
    }
    SInt64RoundTrip(0, EncodeTags(e.tags) + EncodeBody(ZERO, e).0 + tail0 + rest);
  }

  /**
   * A block read back with a count that disagrees with the entries it holds
   * is a length mismatch (unless the two agree modulo 2^32).
   */
  lemma CountMismatch(t: EntityType, es: seq<Entry>, n: int32, rest: seq<byte>)
    requires Typed(es, t) && NoRepeat(0, es) && 0 <= n < 0x7FFF_FFFF && n != |es|
    ensures ReadBlock(BlockWithCount(t, es, n) + rest) == Err(BlockLengthMismatch(Wrap32(|es| + 1), n))
  {
    BlockRead(t, es, n, rest);
    CountsDiffer(|es|, n);
  }

  lemma CountsDiffer(k: nat, n: int32)
    requires k < 0x8000_0000 && 0 <= n < 0x7FFF_FFFF && n != k
    ensures Wrap32(k + 1) != Wrap32(n + 1)
  {
    Wrap32Id(n + 1);
    if k + 1 < 0x8000_0000 {
      Wrap32Id(k + 1);
    } else {
      assert Wrap32(k + 1) == -0x8000_0000;
    }
  }

  /** A run of same-type entries fed to a converter whose block of that type is open: their messages, nothing else. */
  lemma {:induction false} ConvertRun(c: Converter, t: EntityType, es: seq<Entry>)
    requires Typed(es, t) && c.current == VexCode(t) && 0 <= c.count && c.count as int + |es| < 0x7FFF_FFFF
    ensures Convert(c, es) == (EncodeEntries(c.deltas, es).0, Converter(VexCode(t), c.count + |es|, EncodeEntries(c.deltas, es).1))
    decreases |es|
  {
    if |es| > 0 {
      TypedTail(es, t);
      var c1 := Handle(c, es[0].0, es[0].1).1;
      assert c1 == Converter(VexCode(t), c.count + 1, EncodeEntity(c.deltas, es[0].0, es[0].1).1);
      ConvertRun(c1, t, es[1..]);
      assert c1.count + |es[1..]| == c.count + |es|;
    }
  }

  lemma {:induction false} ConvertAppend(c: Converter, a: seq<Entry>, b: seq<Entry>)
    requires forall i :: 0 <= i < |a| ==> Representable(a[i].1)
    requires forall i :: 0 <= i < |b| ==> Representable(b[i].1)
    requires 0 <= c.count && c.count as int + |a| + |b| < 0x7FFF_FFFF
    ensures Convert(c, a + b) == (Convert(c, a).0 + Convert(Convert(c, a).1, b).0, Convert(Convert(c, a).1, b).1)
    decreases |a|
  {
    if |a| == 0 {
      assert a + b == b;
      assert Convert(c, a) == ([], c);
      assert [] + Convert(c, b).0 == Convert(c, b).0;
    } else {
      assert (a + b)[0] == a[0] && (a + b)[1..] == a[1..] + b;
      var c1 := Handle(c, a[0].0, a[0].1).1;
      ConvertAppend(c1, a[1..], b);
      AppendAssoc(Handle(c, a[0].0, a[0].1).0, Convert(c1, a[1..]).0, Convert(Convert(c1, a[1..]).1, b).0);
    }
  }

  /**
   * A run of same-type entries that starts a new block: the transition's
   * bytes, then their messages from zeroed deltas, and a block holding them
   * all.
   */
  lemma OpenRun(c: Converter, t: EntityType, es: seq<Entry>)
    requires Typed(es, t) && |es| > 0 && c.current != VexCode(t)
    requires c.current == VEX_NONE ==> c.count == 0
    requires 0 <= c.count && c.count as int + |es| < 0x7FFF_FFFF
    ensures Convert(c, es)
         == (CheckBlockTransition(c, VexCode(t)).0 + EncodeEntries(ZERO, es).0,
             Converter(VexCode(t), |es|, EncodeEntries(ZERO, es).1))
  {
    var tr := CheckBlockTransition(c, VexCode(t));
    var e0 := EncodeEntity(ZERO, es[0].0, es[0].1);
    assert TypeOf(es[0].1) == t && Representable(es[0].1);
    HandleOpens(c, es[0].0, es[0].1);
    var h := Handle(c, es[0].0, es[0].1);
    TypedTail(es, t);
    ConvertRun(h.1, t, es[1..]);
    assert Convert(c, es) == (h.0 + Convert(h.1, es[1..]).0, Convert(h.1, es[1..]).1);
    assert EncodeEntries(ZERO, es) == (e0.0 + EncodeEntries(e0.1, es[1..]).0, EncodeEntries(e0.1, es[1..]).1);
    AppendAssoc(tr.0, e0.0, EncodeEntries(e0.1, es[1..]).0);
  }

  /** An entity of another type than the open block's starts a new block, its deltas from zero and its count at one. */
  lemma HandleOpens(c: Converter, id: int64, e: Entity)
    requires Representable(e) && 0 <= c.count < 0x7FFF_FFFF
    requires c.current != VexCode(TypeOf(e)) && (c.current == VEX_NONE ==> c.count == 0)
    ensures Handle(c, id, e)
         == (CheckBlockTransition(c, VexCode(TypeOf(e))).0 + EncodeEntity(ZERO, id, e).0,
             Converter(VexCode(TypeOf(e)), 1, EncodeEntity(ZERO, id, e).1))
  {
    assert CheckBlockTransition(c, VexCode(TypeOf(e))).1 == Converter(VexCode(TypeOf(e)), 0, ZERO);
  }

  /**
   * The converter writes the same blocks as `writeVex`: fed nodes then ways,
   * it has written the node block exactly as `writeVex` does and holds the
   * way block open, with its type and messages but no end record yet.
   */
  lemma ConverterBlocks(nodes: seq<Entry>, ways: seq<Entry>)
    requires Typed(nodes, NodeType) && Typed(ways, WayType) && |nodes| > 0 && |ways| > 0
    requires |nodes| + |ways| < 0x7FFF_FFFF
    ensures Convert(CONVERTER_START, nodes + ways).0
         == WriteBlock(NodeType, nodes) + (WriteUInt32(VEX_WAY) + EncodeEntries(ZERO, ways).0)
    ensures Convert(CONVERTER_START, nodes + ways).1 == Converter(VEX_WAY, |ways|, EncodeEntries(ZERO, ways).1)
  {
    var c0 := CONVERTER_START;
    ConvertAppend(c0, nodes, ways);
    OpenRun(c0, NodeType, nodes);
    var cw := Convert(c0, nodes).1;
    OpenRun(cw, WayType, ways);
    var x := WriteUInt32(VEX_NODE);
    var y := EncodeEntries(ZERO, nodes).0;
    var z := EndRecord(|nodes|);
    var u := WriteUInt32(VEX_WAY);
    var v := EncodeEntries(ZERO, ways).0;
    assert Convert(c0, nodes).0 == x + y;
    assert Convert(cw, ways).0 == (z + u) + v;
    AppendAssoc(z, u, v);
    AppendAssoc(x + y, z, u + v);
  }
}

=== FILE: numerals.dfy ===
/**
 * Decimal text of integers, as Java prints and parses it: `Long.toString`
 * and `%d`, the zero-padded `%03d`, and `Long.parseLong`/`Integer.parseInt`
 * restricted to ASCII digits.
 */
module Numerals {
  import opened Wrappers
  import opened Bytes
  import opened Errors

  predicate IsDigit(c: char) {
    '0' <= c <= '9'
  }

  predicate AllDigits(s: string) {
    forall i :: 0 <= i < |s| ==> IsDigit(s[i])
  }

  function DigitChar(d: nat): (c: char)
    requires d < 10
    ensures IsDigit(c)
  {
    (('0' as int) + d) as char
  }

  function DigitValue(c: char): (d: nat)
    requires IsDigit(c)
    ensures d < 10
  {
    (c as int) - ('0' as int)
  }

  /** The digits of a natural number, most significant first, without leading zeros. */
  function Digits(n: nat): (r: string)
    ensures |r| > 0 && AllDigits(r)
    ensures |r| > 1 ==> r[0] != '0'
    decreases n
  {
    if n < 10 then [DigitChar(n)] else Digits(n / 10) + [DigitChar(n % 10)]
  }

  /** The number a string of digits denotes. */
  function ValueOf(s: string): nat
    requires AllDigits(s)
    decreases |s|
  {
    if |s| == 0 then 0 else ValueOf(s[..|s| - 1]) * 10 + DigitValue(s[|s| - 1])
  }

  /** Reading back the digits of a number gives the number. */
  lemma {:induction false} DigitsValue(n: nat)
    ensures ValueOf(Digits(n)) == n
    decreases n
  {
    if n >= 10 {
      DigitsValue(n / 10);
      var s := Digits(n);
      assert s[..|s| - 1] == Digits(n / 10);
    }
  }

  /** Two numbers with the same digits are the same number. */
  lemma DigitsInjective(m: nat, n: nat)
    requires Digits(m) == Digits(n)
    ensures m == n
  {
    DigitsValue(m);
    DigitsValue(n);
  }

  /** `Long.toString` and `%d`: a minus sign for negative numbers, then the digits. */
  function Decimal(n: int): (r: string)
    ensures |r| > 0
    ensures n >= 0 ==> AllDigits(r)
    ensures n < 0 ==> r[0] == '-' && AllDigits(r[1..])
  {
    if n < 0 then "-" + Digits(-n) else Digits(n)
  }

  /** A leading zero does not change the value. */
  lemma {:induction false} LeadingZero(s: string)
    requires AllDigits(s)
    ensures AllDigits("0" + s) && ValueOf("0" + s) == ValueOf(s)
    decreases |s|
  {
    if |s| > 0 {
      LeadingZero(s[..|s| - 1]);
      assert ("0" + s)[..|s|] == "0" + s[..|s| - 1];
    }
  }

  /** A number at or above 1000 has at least four digits. */
  lemma {:induction false} DigitsLength(n: nat)
    ensures n >= 1000 ==> |Digits(n)| >= 4
    ensures n < 1000 ==> |Digits(n)| <= 3
    decreases n
  {
    if n >= 10 {
      DigitsLength(n / 10);
    }
  }

  /** `%03d` of a non-negative number: its digits, padded with zeros to at least three. */
  function Pad3(n: nat): (r: string)
    ensures AllDigits(r) && |r| >= 3
    ensures n < 1000 ==> |r| == 3
  {
    DigitsLength(n);
    var d := Digits(n);
    if |d| >= 3 then d else if |d| == 2 then "0" + d else "00" + d
  }

  /** The padded text still reads as the number. */
  lemma Pad3Value(n: nat)
    ensures ValueOf(Pad3(n)) == n
  {
    var d := Digits(n);
    DigitsValue(n);
    if |d| == 2 {
      LeadingZero(d);
    } else if |d| == 1 {
      LeadingZero(d);
      LeadingZero("0" + d);
      assert "00" + d == "0" + ("0" + d);
    }
  }

  /**
   * `Long.parseLong`/`Integer.parseInt` over ASCII: an optional sign, at
   * least one digit and nothing else, within `[lo, hi]`; anything else is a
   * `NumberFormatException`.
   */
  function ParseBounded(s: string, lo: int, hi: int): (r: Result<int, Error>)
    ensures r.Ok? ==> lo <= r.value <= hi
    ensures r.Err? ==> r.error == NumberFormat
  {
    var sign := if |s| > 0 && (s[0] == '-' || s[0] == '+') then s[0] else ' ';
    var body := if sign == ' ' then s else s[1..];
    if |body| == 0 || !AllDigits(body) then Err(NumberFormat)
    else
      var v: int := if sign == '-' then 0 - ValueOf(body) else ValueOf(body);
      if v < lo || v > hi then Err(NumberFormat) else Ok(v)
  }

  function ParseLong(s: string): (r: Result<int64, Error>)
    ensures r.Err? ==> r.error == NumberFormat
  {
    var v :- ParseBounded(s, -0x8000_0000_0000_0000, 0x7fff_ffff_ffff_ffff);
    Ok(v as int64)
  }

  function ParseInt(s: string): (r: Result<int32, Error>)
    ensures r.Err? ==> r.error == NumberFormat
  {
    var v :- ParseBounded(s, -0x8000_0000, 0x7fff_ffff);
    Ok(v as int32)
  }

  /** Printing a number in range and parsing it back gives the number. */
  lemma ParseDecimal(n: int, lo: int, hi: int)
    requires lo <= n <= hi
    ensures ParseBounded(Decimal(n), lo, hi) == Ok(n)
  {
    DigitsValue(if n < 0 then -n else n);
    if n < 0 {
      assert Decimal(n)[1..] == Digits(-n);
    } else {
      assert Decimal(n)[0] != '-' && Decimal(n)[0] != '+';
    }
  }

  lemma ParseLongDecimal(n: int64)
    ensures ParseLong(Decimal(n)) == Ok(n)
  {
    ParseDecimal(n, -0x8000_0000_0000_0000, 0x7fff_ffff_ffff_ffff);
  }

  /** Java's integer division, which truncates toward zero. */
  function JavaDiv(a: int, b: int): int
    requires b > 0
  {
    if a >= 0 then a / b else -((-a) / b)
  }

  /** Java's `%`: the remainder takes the sign of the dividend. */
  function JavaRem(a: int, b: int): (r: int)
    requires b > 0
    ensures r == a - JavaDiv(a, b) * b
    ensures a >= 0 ==> 0 <= r < b
    ensures a < 0 ==> -b < r <= 0
  {
    if a >= 0 then a % b else -((-a) % b)
  }
}

=== FILE: osmstore.dfy ===
/**
 * `OSM` used as an entity sink and source: three id-keyed maps (MapDB
 * B-trees, so iteration is in ascending id order), the replication
 * timestamp, optional intersection detection over the nodes ways refer to,
 * and an optional tile index keyed by `IndexKeys.IndexMake`.
 *
 * The Web Mercator projection of a node to its tile is floating-point and is
 * a parameter (`tile`) of the operations that need it.
 */
module OsmStore {
  import opened Wrappers
  import opened Bytes
  import opened Errors
  import opened Osm
  import opened IndexKeys

  type NodeEntity = e: Entity | e.Node? witness Node([], 0, 0)
  type WayEntity = e: Entity | e.Way? witness Way([], [])
  type RelationEntity = e: Entity | e.Relation? witness Relation([], [])

  /** The tile `(xtile, ytile)` that `WebMercatorTile` computes from a node's coordinates. */
  type TileOf = NodeEntity -> (int32, int32)

  datatype Store = Store(
    nodes: map<int64, NodeEntity>,
    ways: map<int64, WayEntity>,
    relations: map<int64, RelationEntity>,
    timestamp: int64,
    intersectionDetection: bool,
    referenced: set<int64>,
    intersections: set<int64>,
    tileIndexing: bool,
    index: set<seq<byte>>)

  /** A freshly created store: empty tables, timestamp 0, both options as given. */
  function NewStore(intersectionDetection: bool, tileIndexing: bool): Store {
    Store(map[], map[], map[], 0, intersectionDetection, {}, {}, tileIndexing, {})
  }

  /* ---------------- sink ---------------- */

  /** `writeBegin`: loading into a store that already holds entities is refused. */
  function Begin(s: Store): (r: Result<Store, Error>)
    ensures r.Ok? <==> |s.nodes| == 0 && |s.ways| == 0 && |s.relations| == 0
    ensures r.Ok? ==> r.value == s
    ensures r.Err? ==> r.error == AlreadyPopulated
  {
    if !(s.nodes == map[] && s.ways == map[] && s.relations == map[]) then Err(AlreadyPopulated)
    else Ok(s)
  }

  /** `writeNode`: a put; a later node with the same id replaces the earlier one. */
  function WriteNode(s: Store, id: int64, n: NodeEntity): (r: Store)
    ensures id in r.nodes && r.nodes[id] == n
    ensures forall k :: k != id ==> (k in r.nodes <==> k in s.nodes)
    ensures forall k :: k != id && k in s.nodes ==> r.nodes[k] == s.nodes[k]
    ensures r.(nodes := s.nodes) == s
  {
    s.(nodes := s.nodes[id := n])
  }

  /** `writeRelation`: a put into the relation table. */
  function WriteRelation(s: Store, id: int64, rel: RelationEntity): (r: Store)
    ensures id in r.relations && r.relations[id] == rel
    ensures forall k :: k != id ==> (k in r.relations <==> k in s.relations)
    ensures forall k :: k != id && k in s.relations ==> r.relations[k] == s.relations[k]
    ensures r.(relations := s.relations) == s
  {
    s.(relations := s.relations[id := rel])
  }

  /**
   * The intersection-detection loop of `writeWay`: a node seen before
   * becomes an intersection, a new one becomes referenced.
   */
  function Track(referenced: set<int64>, intersections: set<int64>, refs: seq<int64>): (r: (set<int64>, set<int64>))
    decreases |refs|
  {
    if |refs| == 0 then (referenced, intersections)
    else if refs[0] in referenced then Track(referenced, intersections + {refs[0]}, refs[1..])
    else Track(referenced + {refs[0]}, intersections, refs[1..])
  }

  /** `tileForWay`: None when the way or its first node is not in the store; a way without nodes throws. */
  function TileForWay(s: Store, wayId: int64, way: Option<WayEntity>, tile: TileOf): (r: Result<Option<(int32, int32)>, Error>)
    ensures way.None? && wayId !in s.ways ==> r == Ok(None)
    ensures r == Ok(None) <==>
            (way.None? && wayId !in s.ways) ||
            (var w := if way.Some? then way.value else s.ways[wayId];
             |w.nodes| > 0 && w.nodes[0] !in s.nodes)
  {
    var w := if way.Some? then Some(way.value) else if wayId in s.ways then Some(s.ways[wayId]) else None;
    match w
    case None => Ok(None)
    case Some(w) =>
      if |w.nodes| == 0 then Err(EmptyWay)
      else if w.nodes[0] !in s.nodes then Ok(None)
      else Ok(Some(tile(s.nodes[w.nodes[0]])))
  }

  /** `indexWay`: add the key of the way's tile, or do nothing when the way cannot be located. */
  function IndexWay(s: Store, wayId: int64, way: Option<WayEntity>, tile: TileOf): (r: Result<Store, Error>)
    ensures TileForWay(s, wayId, way, tile) == Ok(None) ==> r == Ok(s)
    ensures TileForWay(s, wayId, way, tile).Err? ==> r.Err?
    ensures TileForWay(s, wayId, way, tile).Ok? && TileForWay(s, wayId, way, tile).value.Some? ==>
              var xy := TileForWay(s, wayId, way, tile).value.value;
              (r.Ok? <==> wayId >= 0) &&
              (r.Ok? ==> r.value.index == s.index + {IndexMake(xy.0, xy.1, wayId).value})
    ensures r.Ok? ==> r.value.(index := s.index) == s && s.index <= r.value.index
  {
    var t :- TileForWay(s, wayId, way, tile);
    match t
    case None => Ok(s)
    case Some(xy) =>
      var key :- IndexMake(xy.0, xy.1, wayId);
      Ok(s.(index := s.index + {key}))
  }

  /** `unIndexWay`: remove the key of a stored way's tile; nothing when the way is gone. */
  function UnIndexWay(s: Store, wayId: int64, tile: TileOf): (r: Result<Store, Error>)
    ensures wayId !in s.ways ==> r == Ok(s)
    ensures wayId in s.ways && TileForWay(s, wayId, None, tile).Err? ==> r.Err?
    ensures wayId in s.ways && TileForWay(s, wayId, None, tile).Ok? && TileForWay(s, wayId, None, tile).value.Some? ==>
              var xy := TileForWay(s, wayId, None, tile).value.value;
              (r.Ok? <==> wayId >= 0) &&
              (r.Ok? ==> r.value.index == s.index - {IndexMake(xy.0, xy.1, wayId).value})
    ensures r.Ok? ==> r.value.(index := s.index) == s && r.value.index <= s.index
  {
    if wayId !in s.ways then Ok(s)
    else
      var t :- TileForWay(s, wayId, Some(s.ways[wayId]), tile);
      match t
      case None => Ok(s)
      case Some(xy) =>
        var key :- IndexMake(xy.0, xy.1, wayId);
        Ok(s.(index := s.index - {key}))
  }

  /**
   * Removing a located way's key undoes indexing it, when the index held no
   * key of that way before.
   */
  lemma UnIndexUndoesIndex(s: Store, wayId: int64, tile: TileOf)
    requires wayId in s.ways && IndexWay(s, wayId, None, tile).Ok?
    requires forall x: int32, y: int32 :: IndexMake(x, y, wayId).Ok? ==> IndexMake(x, y, wayId).value !in s.index
    ensures UnIndexWay(IndexWay(s, wayId, None, tile).value, wayId, tile) == Ok(s)
  {
    var s1 := IndexWay(s, wayId, None, tile).value;
    assert s1.ways == s.ways && s1.nodes == s.nodes;
    assert TileForWay(s1, wayId, None, tile) == TileForWay(s, wayId, None, tile);
    match TileForWay(s, wayId, None, tile).value
    case None =>
    case Some(xy) =>
      var key := IndexMake(xy.0, xy.1, wayId).value;
      assert s1.index - {key} == s.index;
  }

  /** `writeWay`: a put, then (if enabled) intersection detection, then (if enabled) indexing. */
  function WriteWay(s: Store, id: int64, w: WayEntity, tile: TileOf): (r: Result<Store, Error>)
    ensures !s.tileIndexing ==> r.Ok?
    ensures r.Ok? ==> id in r.value.ways && r.value.ways[id] == w
    ensures r.Ok? ==> forall k :: k != id ==> (k in r.value.ways <==> k in s.ways)
    ensures r.Ok? ==> forall k :: k != id && k in s.ways ==> r.value.ways[k] == s.ways[k]
    ensures r.Ok? ==> r.value.nodes == s.nodes && r.value.relations == s.relations && r.value.timestamp == s.timestamp
    ensures r.Ok? && !s.intersectionDetection ==> r.value.referenced == s.referenced && r.value.intersections == s.intersections
    ensures r.Ok? && !s.tileIndexing ==> r.value.index == s.index
    ensures s.tileIndexing ==> (r.Ok? <==> |w.nodes| > 0 && (w.nodes[0] !in s.nodes || id >= 0))
    ensures r.Ok? && s.tileIndexing && |w.nodes| > 0 && w.nodes[0] in s.nodes ==>
              var xy := tile(s.nodes[w.nodes[0]]);
              IndexMake(xy.0, xy.1, id).Ok? && r.value.index == s.index + {IndexMake(xy.0, xy.1, id).value}
    ensures r.Ok? && s.tileIndexing && |w.nodes| > 0 && w.nodes[0] !in s.nodes ==> r.value.index == s.index
  {
    var s1 := s.(ways := s.ways[id := w]);
    var s2 :=
      if s.intersectionDetection then
        var t := Track(s.referenced, s.intersections, w.nodes);
        s1.(referenced := t.0, intersections := t.1)
      else s1;
    if s.tileIndexing then IndexWay(s2, id, Some(w), tile) else Ok(s2)
  }

  /** One call on the sink. `writeEnd` commits and compacts the database, which changes no content. */
  function Apply(s: Store, ev: Event, tile: TileOf): Result<Store, Error>
  {
    match ev
    case WriteBegin => Begin(s)
    case SetReplicationTimestamp(t) => Ok(s.(timestamp := t))
    case WriteEntity(id, e) =>
      (match e
       case Node(_, _, _) => Ok(WriteNode(s, id, e))
       case Way(_, _) => WriteWay(s, id, e, tile)
       case Relation(_, _) => Ok(WriteRelation(s, id, e)))
    case WriteEnd => Ok(s)
  }

  /** Calls in order; the first exception ends the run. */
  function ApplyAll(s: Store, evs: seq<Event>, tile: TileOf): Result<Store, Error>
    decreases |evs|
  {
    if |evs| == 0 then Ok(s)
    else
      var s1 :- Apply(s, evs[0], tile);
      ApplyAll(s1, evs[1..], tile)
  }

  /* ---------------- intersection detection ---------------- */

  /**
   * The detection sets agree with the references seen so far: referenced
   * holds every node referenced at least once, intersections every node
   * referenced at least twice.
   */
  ghost predicate Tracks(referenced: set<int64>, intersections: set<int64>, seen: seq<int64>) {
    && (forall x :: x in referenced <==> multiset(seen)[x] >= 1)
    && (forall x :: x in intersections <==> multiset(seen)[x] >= 2)
  }

  /** The detection loop keeps the sets in step with every reference it passes. */
  lemma {:induction false} TrackCounts(referenced: set<int64>, intersections: set<int64>, seen: seq<int64>, refs: seq<int64>)
    requires Tracks(referenced, intersections, seen)
    ensures Tracks(Track(referenced, intersections, refs).0, Track(referenced, intersections, refs).1, seen + refs)
    decreases |refs|
  {
    if |refs| > 0 {
      var x := refs[0];
      var seen1 := seen + [x];
      assert multiset(seen1) == multiset(seen) + multiset{x};
      var r1 := if x in referenced then referenced else referenced + {x};
      var i1 := if x in referenced then intersections + {x} else intersections;
      assert Tracks(r1, i1, seen1);
      TrackCounts(r1, i1, seen1, refs[1..]);
      assert seen1 + refs[1..] == seen + refs;
    }
  }

  /** Every intersection node is a referenced node. */
  lemma IntersectionsReferenced(referenced: set<int64>, intersections: set<int64>, seen: seq<int64>)
    requires Tracks(referenced, intersections, seen)
    ensures intersections <= referenced
  {
    forall x | x in intersections ensures x in referenced {
      assert multiset(seen)[x] >= 2;
    }
  }

  /**
   * With detection on, writing a way keeps the sets in step with the
   * references of every way written so far (overwritten ways included).
   */
  lemma WriteWayTracks(s: Store, id: int64, w: WayEntity, tile: TileOf, seen: seq<int64>)
    requires s.intersectionDetection && Tracks(s.referenced, s.intersections, seen)
    requires WriteWay(s, id, w, tile).Ok?
    ensures Tracks(WriteWay(s, id, w, tile).value.referenced, WriteWay(s, id, w, tile).value.intersections, seen + w.nodes)
  {
    TrackCounts(s.referenced, s.intersections, seen, w.nodes);
  }

  /* ---------------- source ---------------- */

  /** `m` is the least key of `ks`. */
  predicate Least(m: int64, ks: set<int64>) {
    m in ks && forall k :: k in ks ==> m <= k
  }

  /** The least key of a non-empty set. */
  lemma {:induction false} MinExists(ks: set<int64>)
    requires ks != {}
    ensures exists m :: Least(m, ks)
    decreases |ks|
  {
    var a :| a in ks;
    if ks - {a} != {} {
      MinExists(ks - {a});
      var m :| Least(m, ks - {a});
      LeastAdd(ks, a, m);
    } else {
      LeastAlone(ks, a);
    }
  }

  /** Adding back a key `a` to a set whose least key is `m` makes the smaller of the two least. */
  lemma LeastAdd(ks: set<int64>, a: int64, m: int64)
    requires a in ks && Least(m, ks - {a})
    ensures Least(if a < m then a else m, ks)
  {
    forall k | k in ks ensures (if a < m then a else m) <= k {
      if k != a {
        assert k in ks - {a};
      }
    }
  }

  /** The only key of a set is its least. */
  lemma LeastAlone(ks: set<int64>, a: int64)
    requires a in ks && ks - {a} == {}
    ensures Least(a, ks)
  {
    forall k | k in ks ensures a <= k {
      assert k !in ks - {a};
    }
  }

  /** The keys of a B-tree map in iteration order: ascending. */
  function SortedKeys(ks: set<int64>): (r: seq<int64>)
    ensures forall i, j :: 0 <= i < j < |r| ==> r[i] < r[j]
    ensures forall k :: k in ks <==> k in r
    decreases ks
  {
    if ks == {} then []
    else
      MinExists(ks);
      var m :| Least(m, ks);
      [m] + SortedKeys(ks - {m})
  }

  /** One `write` call per entry, for the keys in the order given. */
  function Entries(m: map<int64, Entity>, ks: seq<int64>): (r: seq<Event>)
    requires forall i :: 0 <= i < |ks| ==> ks[i] in m
    ensures |r| == |ks|
  {
    if |ks| == 0 then [] else [WriteEntity(ks[0], m[ks[0]])] + Entries(m, ks[1..])
  }

  /** The `i`-th call is the write of the `i`-th key's entry. */
  lemma {:induction false} EntriesAt(m: map<int64, Entity>, ks: seq<int64>)
    requires forall i :: 0 <= i < |ks| ==> ks[i] in m
    ensures forall i :: 0 <= i < |ks| ==> Entries(m, ks)[i] == WriteEntity(ks[i], m[ks[i]])
    decreases |ks|
  {
    if |ks| > 0 {
      EntriesAt(m, ks[1..]);
      forall i | 0 <= i < |ks| ensures Entries(m, ks)[i] == WriteEntity(ks[i], m[ks[i]]) {
        if i > 0 {
          assert Entries(m, ks)[i] == Entries(m, ks[1..])[i - 1];
        }
      }
    }
  }

  /** All entries of a table, in ascending id order. */
  function Table(m: map<int64, Entity>): seq<Event> {
    Entries(m, SortedKeys(m.Keys))
  }

  /**
   * `copyTo`: the timestamp, `writeBegin`, the timestamp again when it is
   * positive, every node, every way, every relation, then `writeEnd`.
   */
  function CopyTo(s: Store): seq<Event> {
    Preamble(s) + Table(s.nodes) + Table(s.ways) + Table(s.relations) + [WriteEnd]
  }

  /** The calls `copyTo` makes before the first entity. */
  function Preamble(s: Store): (r: seq<Event>)
    ensures |r| == if s.timestamp > 0 then 3 else 2
    ensures r[1] == WriteBegin
  {
    [SetReplicationTimestamp(s.timestamp), WriteBegin]
    + (if s.timestamp > 0 then [SetReplicationTimestamp(s.timestamp)] else [])
  }

  /** A table's copy makes one call per entry. */
  lemma TableLength(m: map<int64, Entity>)
    ensures |Table(m)| == |m|
  {
    DistinctCard(m.Keys, SortedKeys(m.Keys));
  }

  /** The calls for an ascending key listing, over an abstract result. */
  lemma EntriesOrder(m: map<int64, Entity>, ks: seq<int64>, t: seq<Event>)
    requires forall i :: 0 <= i < |ks| ==> ks[i] in m
    requires forall i, j :: 0 <= i < j < |ks| ==> ks[i] < ks[j]
    requires forall k :: k in m <==> k in ks
    requires t == Entries(m, ks)
    ensures forall i :: 0 <= i < |t| ==> (t[i].WriteEntity? && t[i].id in m && t[i].entity == m[t[i].id])
    ensures forall i, j :: 0 <= i < j < |t| ==> t[i].id < t[j].id
    ensures forall k :: k in m ==> exists i :: 0 <= i < |t| && t[i].id == k
  {
    EntriesAt(m, ks);
    assert forall i :: 0 <= i < |t| ==> t[i] == WriteEntity(ks[i], m[ks[i]]);
    forall k | k in m ensures exists i :: 0 <= i < |t| && t[i].id == k {
      var i :| 0 <= i < |ks| && ks[i] == k;
      assert t[i].id == k;
    }
  }

  /** The calls of a table's copy, in ascending id order and each entry exactly once. */
  lemma TableOrder(m: map<int64, Entity>)
    ensures |Table(m)| == |m|
    ensures forall i :: 0 <= i < |Table(m)| ==>
              (Table(m)[i].WriteEntity? && Table(m)[i].id in m && Table(m)[i].entity == m[Table(m)[i].id])
    ensures forall i, j :: 0 <= i < j < |Table(m)| ==> Table(m)[i].id < Table(m)[j].id
    ensures forall k :: k in m ==> exists i :: 0 <= i < |Table(m)| && Table(m)[i].id == k
  {
    var ks := SortedKeys(m.Keys);
    DistinctCard(m.Keys, ks);
    EntriesOrder(m, ks, Table(m));
  }

  /** A strictly ascending listing of a set has one element per member. */
  lemma DistinctCard(ks: set<int64>, r: seq<int64>)
    requires forall i, j :: 0 <= i < j < |r| ==> r[i] < r[j]
    requires forall k :: k in ks <==> k in r
    ensures |r| == |ks|
  {
    if |r| > 0 {
      var rest := r[1..];
      assert forall k :: k in ks - {r[0]} <==> k in rest by {
        forall k ensures k in ks - {r[0]} <==> k in rest {
          if k in rest {
            var i :| 0 <= i < |rest| && rest[i] == k;
            assert r[i + 1] == k;
          }
          if k in r && k != r[0] {
            var i :| 0 <= i < |r| && r[i] == k;
            assert i != 0;
            assert rest[i - 1] == k;
          }
        }
      }
      DistinctCard(ks - {r[0]}, rest);
    } else {
      assert forall k :: k !in ks;
      assert ks == {};
    }
  }

  /** The layout of `copyTo` over abstract parts: the tables sit between the preamble and `writeEnd`. */
  lemma Layout(p: seq<Event>, a: seq<Event>, b: seq<Event>, c: seq<Event>)
    requires |p| >= 2 && p[1] == WriteBegin
    ensures var x := p + a + b + c + [WriteEnd];
            && |x| == |p| + |a| + |b| + |c| + 1
            && x[1] == WriteBegin
            && x[|x| - 1] == WriteEnd
            && x[|p|..|p| + |a|] == a
            && x[|p| + |a|..|p| + |a| + |b|] == b
            && x[|p| + |a| + |b|..|x| - 1] == c
  {
    var x := p + a + b + c + [WriteEnd];
    assert x[|p|..|p| + |a|] == a;
    assert x[|p| + |a|..|p| + |a| + |b|] == b;
    assert x[|p| + |a| + |b|..|x| - 1] == c;
  }

  /**
   * The frame of `copyTo`: one call per stored entity between the preamble
   * (whose second call is `writeBegin`) and `writeEnd`, which comes last.
   */
  lemma CopyToShape(s: Store)
    ensures |CopyTo(s)| == |Preamble(s)| + |s.nodes| + |s.ways| + |s.relations| + 1
    ensures CopyTo(s)[1] == WriteBegin
    ensures CopyTo(s)[|CopyTo(s)| - 1] == WriteEnd
  {
    TableLength(s.nodes);
    TableLength(s.ways);
    TableLength(s.relations);
  }

  /** The order of `copyTo`: after the preamble, the node table, then the way table, then the relation table. */
  lemma CopyToTables(s: Store)
    ensures CopyTo(s)[|Preamble(s)|..|Preamble(s)| + |Table(s.nodes)|] == Table(s.nodes)
    ensures CopyTo(s)[|Preamble(s)| + |Table(s.nodes)|..|Preamble(s)| + |Table(s.nodes)| + |Table(s.ways)|] == Table(s.ways)
    ensures CopyTo(s)[|Preamble(s)| + |Table(s.nodes)| + |Table(s.ways)|..|CopyTo(s)| - 1] == Table(s.relations)
  {
    Layout(Preamble(s), Table(s.nodes), Table(s.ways), Table(s.relations));
  }
}

=== FILE: pbf.dfy ===
/**
 * `PBFOutput`: an entity sink that writes the OpenStreetMap PBF format
 * ("PBF Format" on the OpenStreetMap wiki). Entities are grouped into
 * one-type primitive blocks, each with its own string table. Node ids and
 * coordinates are delta-coded across a dense-node block, while way
 * references and relation member ids are delta-coded from 0 within each
 * entity.
 *
 * The protobuf messages are kept as datatypes (their wire encoding is
 * generated code and is not part of this model). `StringTable` is not part
 * of this model either: it is assumed to hand out the index of a string in
 * a list that starts with the reserved empty string at code 0, appending
 * strings it has not seen.
 */
module Pbf {
  import opened Wrappers
  import opened Bytes
  import opened Errors
  import opened Osm

  /* ---------------- string table ---------------- */

  /** A cleared string table: only the reserved entry 0. */
  const FRESH_TABLE: seq<string> := [""]

  /** Code 0 is the empty string, as in a table built from `FRESH_TABLE`. */
  predicate Reserved(table: seq<string>) {
    |table| > 0 && table[0] == ""
  }

  /** The first index of `s` in a table that holds it. */
  function IndexOf(table: seq<string>, s: string): (i: nat)
    requires s in table
    ensures i < |table| && table[i] == s
    ensures forall j :: 0 <= j < i ==> table[j] != s
  {
    if table[0] == s then 0 else 1 + IndexOf(table[1..], s)
  }

  /** `getCode`: the code of a known string, or a new code for a new one. */
  function GetCode(table: seq<string>, s: string): (r: (nat, seq<string>))
    ensures r.0 < |r.1| && r.1[r.0] == s
    ensures table <= r.1 && |r.1| <= |table| + 1
    ensures Reserved(table) ==> (r.0 == 0 <==> s == "")
  {
    if s in table then (IndexOf(table, s), table) else (|table|, table + [s])
  }

  /** The string of a code, if the table has one. */
  function Lookup(table: seq<string>, code: int): Option<string> {
    if 0 <= code < |table| then Some(table[code]) else None
  }

  /** A code handed out by a table still names the same string once the table has grown. */
  lemma LookupGrown(table: seq<string>, grown: seq<string>, code: nat)
    requires code < |table| && table <= grown
    ensures Lookup(grown, code) == Some(table[code])
  {
  }

  /**
   * The tag loop of `writeNode`/`writeWay`/`writeRelation`: a code for the
   * key, then a code for the value, tag after tag.
   */
  function TagCodes(table: seq<string>, tags: seq<Tag>): (r: (seq<(nat, nat)>, seq<string>))
    ensures |r.0| == |tags| && table <= r.1
    decreases |tags|
  {
    if |tags| == 0 then ([], table)
    else
      var k := GetCode(table, tags[0].key);
      var v := GetCode(k.1, tags[0].value);
      var rest := TagCodes(v.1, tags[1..]);
      ([(k.0, v.0)] + rest.0, rest.1)
  }

  /** The tags that a list of code pairs names in a table. */
  function LookupTags(table: seq<string>, codes: seq<(nat, nat)>): Option<seq<Tag>>
    decreases |codes|
  {
    if |codes| == 0 then Some([])
    else if codes[0].0 < |table| && codes[0].1 < |table| then
      match LookupTags(table, codes[1..])
      case None => None
      case Some(rest) => Some([Tag(table[codes[0].0], table[codes[0].1])] + rest)
    else None
  }

  /**
   * Every code pair the tag loop hands out names its tag, in any table the
   * block's table later grows into.
   */
  lemma {:induction false} TagCodesLookup(table: seq<string>, tags: seq<Tag>, grown: seq<string>)
    requires TagCodes(table, tags).1 <= grown
    ensures LookupTags(grown, TagCodes(table, tags).0) == Some(tags)
    decreases |tags|
  {
    if |tags| > 0 {
      var k := GetCode(table, tags[0].key);
      var v := GetCode(k.1, tags[0].value);
      TagCodesLookup(v.1, tags[1..], grown);
      assert k.1 <= v.1 && v.1 <= TagCodes(v.1, tags[1..]).1;
      assert grown[k.0] == tags[0].key && grown[v.0] == tags[0].value;
      assert TagCodes(table, tags).0 == [(k.0, v.0)] + TagCodes(v.1, tags[1..]).0;
      assert TagCodes(table, tags).0[1..] == TagCodes(v.1, tags[1..]).0;
      assert [tags[0]] + tags[1..] == tags;
    }
  }

  /** No tag key is the empty string. */
  predicate NamedKeys(tags: seq<Tag>) {
    forall i :: 0 <= i < |tags| ==> tags[i].key != ""
  }

  /** With code 0 reserved, a non-empty key never gets code 0. */
  lemma {:induction false} TagCodesKeysNonZero(table: seq<string>, tags: seq<Tag>)
    requires Reserved(table) && NamedKeys(tags)
    ensures Reserved(TagCodes(table, tags).1)
    ensures forall i :: 0 <= i < |tags| ==> TagCodes(table, tags).0[i].0 != 0
    decreases |tags|
  {
    if |tags| > 0 {
      var k := GetCode(table, tags[0].key);
      var v := GetCode(k.1, tags[0].value);
      assert NamedKeys(tags[1..]) by {
        forall i | 0 <= i < |tags[1..]| ensures tags[1..][i].key != "" {
          assert tags[1..][i] == tags[i + 1];
        }
      }
      TagCodesKeysNonZero(v.1, tags[1..]);
      var codes := TagCodes(table, tags).0;
      forall i | 0 <= i < |tags| ensures codes[i].0 != 0 {
        if i > 0 {
          assert codes[i] == TagCodes(v.1, tags[1..]).0[i - 1];
        }
      }
    }
  }

  /* ---------------- delta coding ---------------- */

  /** Each value minus the one before it (Java `long` arithmetic), starting from `prev`. */
  function Deltas(prev: int64, xs: seq<int64>): (r: seq<int64>)
    ensures |r| == |xs|
    decreases |xs|
  {
    if |xs| == 0 then [] else [SubLong(xs[0], prev)] + Deltas(xs[0], xs[1..])
  }

  /** The decoder's running sums, starting from `prev`. */
  function PrefixSums(prev: int64, ds: seq<int64>): (r: seq<int64>)
    ensures |r| == |ds|
    decreases |ds|
  {
    if |ds| == 0 then [] else var x := AddLong(prev, ds[0]); [x] + PrefixSums(x, ds[1..])
  }

  /** Delta coding is lossless: running sums of the deltas give back the values, in order. */
  lemma {:induction false} DeltaRoundTrip(prev: int64, xs: seq<int64>)
    ensures PrefixSums(prev, Deltas(prev, xs)) == xs
    decreases |xs|
  {
    if |xs| > 0 {
      WrapDelta(prev, xs[0]);
      DeltaRoundTrip(xs[0], xs[1..]);
      assert Deltas(prev, xs)[1..] == Deltas(xs[0], xs[1..]);
    }
  }

  /** The value the coder last saw: `prev` before any value. */
  function Last(prev: int64, xs: seq<int64>): int64 {
    if |xs| == 0 then prev else xs[|xs| - 1]
  }

  /** Appending a value appends its delta from the last one. */
  lemma {:induction false} DeltasSnoc(prev: int64, xs: seq<int64>, x: int64)
    ensures Deltas(prev, xs + [x]) == Deltas(prev, xs) + [SubLong(x, Last(prev, xs))]
    decreases |xs|
  {
    if |xs| > 0 {
      DeltasSnoc(xs[0], xs[1..], x);
      assert (xs + [x])[1..] == xs[1..] + [x];
    }
  }

  /* ---------------- dense-node tags ---------------- */

  /** `keysVals` entries of one node's tags: key code, value code, tag after tag. */
  function FlattenCodes(codes: seq<(nat, nat)>): (r: seq<nat>)
    ensures |r| == 2 * |codes|
    decreases |codes|
  {
    if |codes| == 0 then [] else [codes[0].0, codes[0].1] + FlattenCodes(codes[1..])
  }

  /** A dense-node reader: code pairs up to the 0 that ends the node. */
  function ReadKeysVals(kv: seq<nat>): Result<(seq<(nat, nat)>, seq<nat>), Error>
    decreases |kv|
  {
    if |kv| == 0 then Err(Eof)
    else if kv[0] == 0 then Ok(([], kv[1..]))
    else if |kv| < 2 then Err(Eof)
    else
      var rest :- ReadKeysVals(kv[2..]);
      Ok(([(kv[0], kv[1])] + rest.0, rest.1))
  }

  /** No key code is the delimiter. */
  predicate NonZeroKeys(codes: seq<(nat, nat)>) {
    forall i :: 0 <= i < |codes| ==> codes[i].0 != 0
  }

  /** One node's tag codes followed by the delimiter read back as those codes. */
  lemma {:induction false} KeysValsRoundTrip(codes: seq<(nat, nat)>, rest: seq<nat>)
    requires NonZeroKeys(codes)
    ensures ReadKeysVals(FlattenCodes(codes) + [0] + rest) == Ok((codes, rest))
    decreases |codes|
  {
    if |codes| == 0 {
      assert FlattenCodes(codes) + [0] + rest == [0] + rest;
      assert ([0] + rest)[1..] == rest;
    } else {
      var kv := FlattenCodes(codes) + [0] + rest;
      assert NonZeroKeys(codes[1..]) by {
        forall i | 0 <= i < |codes[1..]| ensures codes[1..][i].0 != 0 {
          assert codes[1..][i] == codes[i + 1];
        }
      }
      var tail := FlattenCodes(codes[1..]) + [0] + rest;
      assert kv == [codes[0].0, codes[0].1] + tail;
      KeysValsRoundTrip(codes[1..], rest);
      ReadKeysValsPair(codes[0], tail);
      assert [codes[0]] + codes[1..] == codes;
    }
  }

  /** A pair with a non-zero key in front of the codes adds that pair in front of what is read. */
  lemma ReadKeysValsPair(c: (nat, nat), kv: seq<nat>)
    requires c.0 != 0 && ReadKeysVals(kv).Ok?
    ensures ReadKeysVals([c.0, c.1] + kv) == Ok(([c] + ReadKeysVals(kv).value.0, ReadKeysVals(kv).value.1))
  {
    assert ([c.0, c.1] + kv)[2..] == kv;
  }

  /* ---------------- the protobuf messages ---------------- */

  /** `DenseNodes`: parallel columns of deltas, and the tag codes of every node. */
  datatype DenseNodes = DenseNodes(ids: seq<int64>, lats: seq<int64>, lons: seq<int64>, keysVals: seq<nat>)

  /** `Osmformat.Way`: id, key and value codes, reference deltas. */
  datatype PbfWay = PbfWay(id: int64, keys: seq<nat>, vals: seq<nat>, refs: seq<int64>)

  /** `Osmformat.Relation`: id, key and value codes, member id deltas, role codes, member types. */
  datatype PbfRelation = PbfRelation(id: int64, keys: seq<nat>, vals: seq<nat>, memids: seq<int64>,
                                     rolesSid: seq<nat>, types: seq<EntityType>)

  datatype PrimitiveGroup = PrimitiveGroup(dense: Option<DenseNodes>, ways: seq<PbfWay>, relations: seq<PbfRelation>)

  datatype PrimitiveBlock = PrimitiveBlock(stringTable: seq<string>, group: PrimitiveGroup)

  /** A blob's content: the file header, or a primitive block. */
  datatype Block =
    | HeaderBlock(requiredFeatures: seq<string>, writingProgram: string)
    | DataBlock(block: PrimitiveBlock)

  const EMPTY_DENSE: DenseNodes := DenseNodes([], [], [], [])

  /** The first components of a run of pairs: the key codes of a tag list, or the ids of a run of entities. */
  function Keys<K, V>(ps: seq<(K, V)>): (r: seq<K>)
    ensures |r| == |ps| && forall i :: 0 <= i < |ps| ==> r[i] == ps[i].0
  {
    seq(|ps|, i requires 0 <= i < |ps| => ps[i].0)
  }

  /** The second components of a run of pairs. */
  function Vals<K, V>(ps: seq<(K, V)>): (r: seq<V>)
    ensures |r| == |ps| && forall i :: 0 <= i < |ps| ==> r[i] == ps[i].1
  {
    seq(|ps|, i requires 0 <= i < |ps| => ps[i].1)
  }

  /** The codes of the members' roles, member after member. */
  function RoleCodes(table: seq<string>, members: seq<Member>): (r: (seq<nat>, seq<string>))
    ensures |r.0| == |members| && table <= r.1
    decreases |members|
  {
    if |members| == 0 then ([], table)
    else
      var c := GetCode(table, members[0].role);
      var rest := RoleCodes(c.1, members[1..]);
      ([c.0] + rest.0, rest.1)
  }

  function MemberIds(members: seq<Member>): (r: seq<int64>)
    ensures |r| == |members| && forall i :: 0 <= i < |members| ==> r[i] == members[i].id
  {
    seq(|members|, i requires 0 <= i < |members| => members[i].id)
  }

  function MemberTypes(members: seq<Member>): (r: seq<EntityType>)
    ensures |r| == |members| && forall i :: 0 <= i < |members| ==> r[i] == members[i].kind
  {
    seq(|members|, i requires 0 <= i < |members| => members[i].kind)
  }

  /* ---------------- the writer ---------------- */

  /**
   * How `checkBlockTransition` counts. `AsWritten` is the source: the
   * counter is bumped by the `nEntitiesInBlock++` in the condition, which
   * short-circuit evaluation skips for the entity that opens a block.
   * `PerEntity` counts every entity written into the block.
   */
  datatype Counting = AsWritten | PerEntity

  /** The most entities a block takes before a new one is started. */
  const BLOCK_LIMIT: nat := 8000

  datatype Writer = Writer(
    prevId: int64, prevLat: int64, prevLon: int64,
    current: Option<EntityType>,
    count: nat,
    table: seq<string>,
    dense: DenseNodes,
    ways: seq<PbfWay>,
    relations: seq<PbfRelation>,
    out: seq<Block>)

  function NewWriter(): Writer {
    Writer(0, 0, 0, None, 0, FRESH_TABLE, EMPTY_DENSE, [], [], [])
  }

  /** `writeBegin`: the header blob. */
  function WriteBegin(w: Writer): Writer
  {
    w.(out := w.out + [HeaderBlock(["DenseNodes"], "Vanilla Extract")])
  }

  /** `beginBlock`: every delta base, the counter, the string table and the groups start over. */
  function BeginBlock(w: Writer): (r: Writer)
    ensures r.prevId == 0 && r.prevLat == 0 && r.prevLon == 0 && r.count == 0
    ensures r.table == FRESH_TABLE && r.dense == EMPTY_DENSE && r.ways == [] && r.relations == []
    ensures r.current == w.current && r.out == w.out
  {
    w.(prevId := 0, prevLat := 0, prevLon := 0, count := 0, table := FRESH_TABLE,
       dense := EMPTY_DENSE, ways := [], relations := [])
  }

  /** The block the open group makes; dense nodes go in only for a node block. */
  function CurrentBlock(w: Writer): PrimitiveBlock {
    PrimitiveBlock(w.table, PrimitiveGroup(if w.current == Some(NodeType) then Some(w.dense) else None,
                                           w.ways, w.relations))
  }

  /** `endBlock`: the open group is written out only when the counter is positive. */
  function EndBlock(w: Writer): (r: Writer)
    ensures w.count > 0 ==> r.out == w.out + [DataBlock(CurrentBlock(w))]
    ensures w.count == 0 ==> r.out == w.out
    ensures r.(out := w.out) == w
  {
    if w.count > 0 then w.(out := w.out + [DataBlock(CurrentBlock(w))]) else w
  }

  /** Whether `checkBlockTransition` starts a new block: the type changed, or the counter is full. */
  predicate Rotates(w: Writer, t: EntityType) {
    w.current != Some(t) || w.count >= BLOCK_LIMIT
  }

  /**
   * `checkBlockTransition`. The type test comes first; only when the type is
   * unchanged is the counter compared and (as written) incremented. A new
   * block ends the open one, unless there is none yet.
   */
  function Transition(c: Counting, w: Writer, t: EntityType): (r: Writer)
    ensures r.current == Some(t)
    ensures Rotates(w, t) ==> r.count == 0 && r.table == FRESH_TABLE && r.prevId == 0
    ensures !Rotates(w, t) ==> r == w.(count := if c == AsWritten then w.count + 1 else w.count)
    ensures w.current.None? ==> r.out == w.out
    ensures w.current.Some? && w.current != Some(t) ==> r.out == EndBlock(w).out
  {
    var w1 := if c == AsWritten && w.current == Some(t) then w.(count := w.count + 1) else w;
    if Rotates(w, t) then
      var closed := if w.current.Some? then EndBlock(w1) else w1;
      BeginBlock(closed.(current := Some(t)))
    else w1
  }

  /** The per-entity count of the corrected writer. */
  function Counted(c: Counting, w: Writer): Writer {
    if c == PerEntity then w.(count := w.count + 1) else w
  }

  /** `writeNode`: id and coordinates as deltas across the block, then the tag codes and a 0. */
  function WriteNode(c: Counting, w: Writer, id: int64, n: Entity): Writer
    requires n.Node?
  {
    var w1 := Transition(c, w, NodeType);
    var tc := TagCodes(w1.table, n.tags);
    var d := w1.dense;
    var dense := DenseNodes(d.ids + [SubLong(id, w1.prevId)],
                            d.lats + [SubLong(n.fixedLat, w1.prevLat)],
                            d.lons + [SubLong(n.fixedLon, w1.prevLon)],
                            d.keysVals + FlattenCodes(tc.0) + [0]);
    Counted(c, w1.(prevId := id, prevLat := n.fixedLat, prevLon := n.fixedLon, table := tc.1, dense := dense))
  }

  /** The message `writeWay` builds: tag codes, then references as deltas from 0. */
  function EncodeWay(table: seq<string>, id: int64, way: Entity): (r: (PbfWay, seq<string>))
    requires way.Way?
  {
    var tc := TagCodes(table, way.tags);
    (PbfWay(id, Keys(tc.0), Vals(tc.0), Deltas(0, way.nodes)), tc.1)
  }

  /** The message `writeRelation` builds: tag codes, then member id deltas from 0, role codes and types. */
  function EncodeRelation(table: seq<string>, id: int64, rel: Entity): (r: (PbfRelation, seq<string>))
    requires rel.Relation?
  {
    var tc := TagCodes(table, rel.tags);
    var rc := RoleCodes(tc.1, rel.members);
    (PbfRelation(id, Keys(tc.0), Vals(tc.0), Deltas(0, MemberIds(rel.members)), rc.0, MemberTypes(rel.members)), rc.1)
  }

  function WriteWay(c: Counting, w: Writer, id: int64, way: Entity): Writer
    requires way.Way?
  {
    var w1 := Transition(c, w, WayType);
    var e := EncodeWay(w1.table, id, way);
    Counted(c, w1.(table := e.1, ways := w1.ways + [e.0]))
  }

  function WriteRelation(c: Counting, w: Writer, id: int64, rel: Entity): Writer
    requires rel.Relation?
  {
    var w1 := Transition(c, w, RelationType);
    var e := EncodeRelation(w1.table, id, rel);
    Counted(c, w1.(table := e.1, relations := w1.relations + [e.0]))
  }

  /** A sink call with an entity. */
  function WriteEntity(c: Counting, w: Writer, id: int64, e: Entity): Writer {
    match e
    case Node(_, _, _) => WriteNode(c, w, id, e)
    case Way(_, _) => WriteWay(c, w, id, e)
    case Relation(_, _) => WriteRelation(c, w, id, e)
  }

  /** Entities written in order. */
  function WriteAll(c: Counting, w: Writer, es: seq<(int64, Entity)>): Writer
    decreases |es|
  {
    if |es| == 0 then w else WriteAll(c, WriteEntity(c, w, es[0].0, es[0].1), es[1..])
  }

  /** `writeEnd`: the open block is ended (closing the stream is I/O). */
  function WriteEnd(w: Writer): Writer {
    EndBlock(w)
  }

  /* ---------------- nothing written is lost ---------------- */

  /** The entities a blob carries. */
  function EntitiesIn(b: Block): nat {
    match b
    case HeaderBlock(_, _) => 0
    case DataBlock(pb) =>
      (if pb.group.dense.Some? then |pb.group.dense.value.ids| else 0) + |pb.group.ways| + |pb.group.relations|
  }

  /** The entities carried by all blobs written so far. */
  function Emitted(out: seq<Block>): nat
    decreases |out|
  {
    if |out| == 0 then 0 else Emitted(out[..|out| - 1]) + EntitiesIn(out[|out| - 1])
  }

  lemma EmittedSnoc(out: seq<Block>, b: Block)
    ensures Emitted(out + [b]) == Emitted(out) + EntitiesIn(b)
  {
    assert (out + [b])[..|out|] == out;
  }

  /** The entities in the open group. */
  function GroupSize(w: Writer): nat {
    |w.dense.ids| + |w.ways| + |w.relations|
  }

  /** Every data blob written holds between 1 and `BLOCK_LIMIT` entities. */
  ghost predicate Bounded(out: seq<Block>) {
    forall i :: 0 <= i < |out| && out[i].DataBlock? ==> 0 < EntitiesIn(out[i]) <= BLOCK_LIMIT
  }

  lemma BoundedSnoc(out: seq<Block>, b: Block)
    requires Bounded(out) && (b.DataBlock? ==> 0 < EntitiesIn(b) <= BLOCK_LIMIT)
    ensures Bounded(out + [b])
  {
    forall i | 0 <= i < |out + [b]| && (out + [b])[i].DataBlock?
      ensures 0 < EntitiesIn((out + [b])[i]) <= BLOCK_LIMIT
    {
      if i < |out| {
        assert (out + [b])[i] == out[i];
      }
    }
  }

  /**
   * The writer's counter is the size of the open group, only the group of
   * the current type is non-empty, and every blob written is bounded.
   */
  ghost predicate Inv(w: Writer) {
    && w.count == GroupSize(w) && w.count <= BLOCK_LIMIT
    && (w.current != Some(NodeType) ==> |w.dense.ids| == 0)
    && (w.current != Some(WayType) ==> |w.ways| == 0)
    && (w.current != Some(RelationType) ==> |w.relations| == 0)
    && Bounded(w.out)
  }

  /** Ending a block moves the open group's entities into the output. */
  lemma EndBlockKeeps(w: Writer)
    requires Inv(w)
    ensures Emitted(EndBlock(w).out) == Emitted(w.out) + w.count
    ensures Bounded(EndBlock(w).out)
  {
    if w.count > 0 {
      var b := DataBlock(CurrentBlock(w));
      assert EntitiesIn(b) == w.count;
      EmittedSnoc(w.out, b);
      BoundedSnoc(w.out, b);
    }
  }

  /** The corrected transition leaves room for one more entity and loses none. */
  lemma TransitionKeeps(w: Writer, t: EntityType)
    requires Inv(w)
    ensures var r := Transition(PerEntity, w, t);
            && Inv(r) && r.count < BLOCK_LIMIT
            && Emitted(r.out) + r.count == Emitted(w.out) + w.count
  {
    if Rotates(w, t) && w.current.Some? {
      EndBlockKeeps(w);
    }
  }

  /** A corrected write adds exactly one entity to what is emitted or open. */
  lemma EntityKeeps(w: Writer, id: int64, e: Entity)
    requires Inv(w)
    ensures var r := WriteEntity(PerEntity, w, id, e);
            && Inv(r)
            && Emitted(r.out) + r.count == Emitted(w.out) + w.count + 1
  {
    TransitionKeeps(w, TypeOf(e));
  }

  /** A run of corrected writes adds one entity per write. */
  lemma {:induction false} AllKeep(w: Writer, es: seq<(int64, Entity)>)
    requires Inv(w)
    ensures Inv(WriteAll(PerEntity, w, es))
    ensures Emitted(WriteAll(PerEntity, w, es).out) + WriteAll(PerEntity, w, es).count
            == Emitted(w.out) + w.count + |es|
    decreases |es|
  {
    if |es| > 0 {
      EntityKeeps(w, es[0].0, es[0].1);
      AllKeep(WriteEntity(PerEntity, w, es[0].0, es[0].1), es[1..]);
    }
  }

  /**
   * With every entity counted, a PBF file holds every entity written, and no
   * block holds more than `BLOCK_LIMIT` of them.
   */
  lemma PerEntityKeepsAll(es: seq<(int64, Entity)>)
    ensures var w := WriteEnd(WriteAll(PerEntity, WriteBegin(NewWriter()), es));
            Emitted(w.out) == |es| && Bounded(w.out)
  {
    var w0 := WriteBegin(NewWriter());
    EmittedSnoc([], HeaderBlock(["DenseNodes"], "Vanilla Extract"));
    assert Inv(w0) && Emitted(w0.out) == 0 && w0.count == 0;
    var wa := WriteAll(PerEntity, w0, es);
    AllKeep(w0, es);
    assert Emitted(wa.out) + wa.count == |es|;
    EndBlockKeeps(wa);
  }

  /**
   * As written, the entity that opens a block is not counted, so a block
   * holding a single entity has counter 0 and `endBlock` drops it: a file
   * with one node carries no node at all, and a reader gets nothing back.
   */
  lemma LoneEntityLost()
    ensures var w := WriteEnd(WriteAll(AsWritten, WriteBegin(NewWriter()), [(1, Node([], 0, 0))]));
            Emitted(w.out) == 0 && |w.out| == 1 && Decoded(w.out) == Some([])
  {
    var w0 := WriteBegin(NewWriter());
    var w1 := WriteEntity(AsWritten, w0, 1, Node([], 0, 0));
    assert w1.count == 0;
    assert WriteAll(AsWritten, w0, [(1, Node([], 0, 0))]) == WriteAll(AsWritten, w1, []);
    EmittedSnoc([], HeaderBlock(["DenseNodes"], "Vanilla Extract"));
  }

  /* ---------------- what a reader gets back ---------------- */

  /** The delta columns of the open node block are those of the given nodes, from 0. */
  ghost predicate DenseTracks(w: Writer, ids: seq<int64>, lats: seq<int64>, lons: seq<int64>) {
    && w.dense.ids == Deltas(0, ids) && w.prevId == Last(0, ids)
    && w.dense.lats == Deltas(0, lats) && w.prevLat == Last(0, lats)
    && w.dense.lons == Deltas(0, lons) && w.prevLon == Last(0, lons)
  }

  /** A node written into the open node block extends its columns by its deltas. */
  lemma NodeDeltaStep(c: Counting, w: Writer, id: int64, n: Entity, ids: seq<int64>, lats: seq<int64>, lons: seq<int64>)
    requires n.Node? && !Rotates(w, NodeType) && DenseTracks(w, ids, lats, lons)
    ensures DenseTracks(WriteNode(c, w, id, n), ids + [id], lats + [n.fixedLat as int64], lons + [n.fixedLon as int64])
  {
    DeltasSnoc(0, ids, id);
    DeltasSnoc(0, lats, n.fixedLat);
    DeltasSnoc(0, lons, n.fixedLon);
  }

  /** A node that opens a block is coded against zero bases. */
  lemma NodeDeltaOpen(c: Counting, w: Writer, id: int64, n: Entity)
    requires n.Node? && Rotates(w, NodeType)
    ensures DenseTracks(WriteNode(c, w, id, n), [id], [n.fixedLat as int64], [n.fixedLon as int64])
  {
    DeltasSnoc(0, [], id);
    DeltasSnoc(0, [], n.fixedLat);
    DeltasSnoc(0, [], n.fixedLon);
  }

  /** A reader's running sums over a block's columns give back every id and coordinate. */
  lemma DenseDecodes(w: Writer, ids: seq<int64>, lats: seq<int64>, lons: seq<int64>)
    requires DenseTracks(w, ids, lats, lons)
    ensures PrefixSums(0, w.dense.ids) == ids
    ensures PrefixSums(0, w.dense.lats) == lats
    ensures PrefixSums(0, w.dense.lons) == lons
  {
    DeltaRoundTrip(0, ids);
    DeltaRoundTrip(0, lats);
    DeltaRoundTrip(0, lons);
  }

  /**
   * A node's `keysVals` entries follow the earlier nodes' untouched and read
   * back, up to the 0 after them, as codes that name the node's tags in the
   * block's string table, as long as no key is the empty string.
   */
  lemma NodeTagsRead(c: Counting, w: Writer, id: int64, n: Entity, rest: seq<nat>, grown: seq<string>)
    requires n.Node? && Reserved(w.table) && NamedKeys(n.tags)
    requires WriteNode(c, w, id, n).table <= grown
    ensures var before := Transition(c, w, NodeType).dense.keysVals;
            var after := WriteNode(c, w, id, n).dense.keysVals;
            && |before| <= |after| && after[..|before|] == before
            && ReadKeysVals(after[|before|..] + rest).Ok?
            && ReadKeysVals(after[|before|..] + rest).value.1 == rest
            && LookupTags(grown, ReadKeysVals(after[|before|..] + rest).value.0) == Some(n.tags)
    ensures Reserved(WriteNode(c, w, id, n).table)
  {
    var w1 := Transition(c, w, NodeType);
    var tc := TagCodes(w1.table, n.tags);
    assert WriteNode(c, w, id, n).dense.keysVals == w1.dense.keysVals + FlattenCodes(tc.0) + [0];
    assert WriteNode(c, w, id, n).table == tc.1;
    TagCodesKeysNonZero(w1.table, n.tags);
    TagCodesLookup(w1.table, n.tags, grown);
    AppendedNodeReads(w1.dense.keysVals, tc.0, rest, grown, n.tags);
  }

  /** The entries of one more node, over abstract earlier entries. */
  lemma AppendedNodeReads(before: seq<nat>, codes: seq<(nat, nat)>, rest: seq<nat>, grown: seq<string>, tags: seq<Tag>)
    requires NonZeroKeys(codes) && LookupTags(grown, codes) == Some(tags)
    ensures var after := before + FlattenCodes(codes) + [0];
            && |before| <= |after| && after[..|before|] == before
            && ReadKeysVals(after[|before|..] + rest) == Ok((codes, rest))
            && LookupTags(grown, ReadKeysVals(after[|before|..] + rest).value.0) == Some(tags)
  {
    var after := before + FlattenCodes(codes) + [0];
    assert after[..|before|] == before;
    assert after[|before|..] == FlattenCodes(codes) + [0];
    KeysValsRoundTrip(codes, rest);
  }

  /** Key and value codes side by side. */
  function Zip(keys: seq<nat>, vals: seq<nat>): (r: seq<(nat, nat)>)
    requires |keys| == |vals|
    ensures |r| == |keys|
  {
    seq(|keys|, i requires 0 <= i < |keys| => (keys[i], vals[i]))
  }

  lemma ZipSplit(codes: seq<(nat, nat)>)
    ensures Zip(Keys(codes), Vals(codes)) == codes
  {
  }

  /** A reader's view of a way message: tags by code, references as running sums from 0. */
  function DecodeWay(table: seq<string>, pw: PbfWay): Option<(int64, Entity)> {
    if |pw.keys| != |pw.vals| then None
    else
      match LookupTags(table, Zip(pw.keys, pw.vals))
      case None => None
      case Some(tags) => Some((pw.id, Way(tags, PrefixSums(0, pw.refs))))
  }

  /**
   * A way message reads back as the way, in any table the block's table
   * grows into: references restart from 0 for every way, so decreasing and
   * repeated references survive.
   */
  lemma WayRoundTrip(table: seq<string>, id: int64, way: Entity, grown: seq<string>)
    requires way.Way? && EncodeWay(table, id, way).1 <= grown
    ensures DecodeWay(grown, EncodeWay(table, id, way).0) == Some((id, way))
  {
    var tc := TagCodes(table, way.tags);
    ZipSplit(tc.0);
    TagCodesLookup(table, way.tags, grown);
    DeltaRoundTrip(0, way.nodes);
  }

  /** The roles that a list of codes names in a table. */
  function LookupRoles(table: seq<string>, codes: seq<nat>): Option<seq<string>>
    decreases |codes|
  {
    if |codes| == 0 then Some([])
    else if codes[0] < |table| then
      match LookupRoles(table, codes[1..])
      case None => None
      case Some(rest) => Some([table[codes[0]]] + rest)
    else None
  }

  function Roles(members: seq<Member>): (r: seq<string>)
    ensures |r| == |members| && forall i :: 0 <= i < |members| ==> r[i] == members[i].role
  {
    seq(|members|, i requires 0 <= i < |members| => members[i].role)
  }

  /** Every role code names its role in any table the block's table grows into. */
  lemma {:induction false} RoleCodesLookup(table: seq<string>, members: seq<Member>, grown: seq<string>)
    requires RoleCodes(table, members).1 <= grown
    ensures LookupRoles(grown, RoleCodes(table, members).0) == Some(Roles(members))
    decreases |members|
  {
    if |members| > 0 {
      var c := GetCode(table, members[0].role);
      RoleCodesLookup(c.1, members[1..], grown);
      assert c.1 <= RoleCodes(c.1, members[1..]).1;
      assert RoleCodes(table, members).0[1..] == RoleCodes(c.1, members[1..]).0;
      assert Roles(members) == [members[0].role] + Roles(members[1..]);
    }
  }

  /** Members put back together from their three columns. */
  function Members(types: seq<EntityType>, ids: seq<int64>, roles: seq<string>): (r: seq<Member>)
    requires |types| == |ids| == |roles|
    ensures |r| == |ids|
  {
    seq(|ids|, i requires 0 <= i < |ids| => Member(types[i], ids[i], roles[i]))
  }

  /** A reader's view of a relation message. */
  function DecodeRelation(table: seq<string>, pr: PbfRelation): Option<(int64, Entity)> {
    if |pr.keys| != |pr.vals| || |pr.types| != |pr.memids| || |pr.rolesSid| != |pr.memids| then None
    else
      match (LookupTags(table, Zip(pr.keys, pr.vals)), LookupRoles(table, pr.rolesSid))
      case (Some(tags), Some(roles)) =>
        if |roles| != |pr.memids| then None
        else Some((pr.id, Relation(tags, Members(pr.types, PrefixSums(0, pr.memids), roles))))
      case _ => None
  }

  /** A relation message reads back as the relation: member ids, types and roles in order. */
  lemma RelationRoundTrip(table: seq<string>, id: int64, rel: Entity, grown: seq<string>)
    requires rel.Relation? && EncodeRelation(table, id, rel).1 <= grown
    ensures DecodeRelation(grown, EncodeRelation(table, id, rel).0) == Some((id, rel))
  {
    var tc := TagCodes(table, rel.tags);
    var rc := RoleCodes(tc.1, rel.members);
    ZipSplit(tc.0);
    TagCodesLookup(table, rel.tags, grown);
    RoleCodesLookup(tc.1, rel.members, grown);
    DeltaRoundTrip(0, MemberIds(rel.members));
    assert Members(MemberTypes(rel.members), MemberIds(rel.members), Roles(rel.members)) == rel.members;
  }

  /* ---------------- what a file carries ---------------- */

  /** The tag codes of `n` nodes, read node after node from `keysVals`. */
  function ReadNodesTags(kv: seq<nat>, n: nat): (r: Result<(seq<seq<(nat, nat)>>, seq<nat>), Error>)
    ensures r.Ok? ==> |r.value.0| == n
    decreases n
  {
    if n == 0 then Ok(([], kv))
    else
      var first :- ReadKeysVals(kv);
      var rest :- ReadNodesTags(first.1, n - 1);
      Ok(([first.0] + rest.0, rest.1))
  }

  /** A reader's view of one dense node: coordinates must fit Java ints. */
  function DecodeNode(table: seq<string>, id: int64, lat: int64, lon: int64, codes: seq<(nat, nat)>): Option<(int64, Entity)> {
    if !(-0x8000_0000 <= lat < 0x8000_0000 && -0x8000_0000 <= lon < 0x8000_0000) then None
    else
      match LookupTags(table, codes)
      case None => None
      case Some(tags) => Some((id, Node(tags, lat as int32, lon as int32)))
  }

  /** The nodes of decoded columns, node after node. */
  function DecodeNodes(table: seq<string>, ids: seq<int64>, lats: seq<int64>, lons: seq<int64>,
                       codes: seq<seq<(nat, nat)>>): (r: Option<seq<(int64, Entity)>>)
    requires |ids| == |lats| == |lons| == |codes|
    ensures r.Some? ==> |r.value| == |ids|
    decreases |ids|
  {
    if |ids| == 0 then Some([])
    else
      var n := |ids| - 1;
      match (DecodeNodes(table, ids[..n], lats[..n], lons[..n], codes[..n]),
             DecodeNode(table, ids[n], lats[n], lons[n], codes[n]))
      case (Some(front), Some(last)) => Some(front + [last])
      case _ => None
  }

  /** A reader's view of `DenseNodes`: running sums of the three columns, and each node's tag codes. */
  function DecodeDense(table: seq<string>, d: DenseNodes): (r: Option<seq<(int64, Entity)>>)
    ensures r.Some? ==> |r.value| == |d.ids|
  {
    if |d.ids| != |d.lats| || |d.ids| != |d.lons| then None
    else
      match ReadNodesTags(d.keysVals, |d.ids|)
      case Err(_) => None
      case Ok(tags) => DecodeNodes(table, PrefixSums(0, d.ids), PrefixSums(0, d.lats), PrefixSums(0, d.lons), tags.0)
  }

  /** The ways of a group, way after way. */
  function DecodeWays(table: seq<string>, ws: seq<PbfWay>): (r: Option<seq<(int64, Entity)>>)
    ensures r.Some? ==> |r.value| == |ws|
    decreases |ws|
  {
    if |ws| == 0 then Some([])
    else
      match (DecodeWays(table, ws[..|ws| - 1]), DecodeWay(table, ws[|ws| - 1]))
      case (Some(front), Some(last)) => Some(front + [last])
      case _ => None
  }

  /** The relations of a group, relation after relation. */
  function DecodeRelations(table: seq<string>, rs: seq<PbfRelation>): (r: Option<seq<(int64, Entity)>>)
    ensures r.Some? ==> |r.value| == |rs|
    decreases |rs|
  {
    if |rs| == 0 then Some([])
    else
      match (DecodeRelations(table, rs[..|rs| - 1]), DecodeRelation(table, rs[|rs| - 1]))
      case (Some(front), Some(last)) => Some(front + [last])
      case _ => None
  }

  /** The entities a primitive block carries: dense nodes, then ways, then relations. */
  function DecodeBlock(pb: PrimitiveBlock): (r: Option<seq<(int64, Entity)>>)
    ensures r.Some? ==> |r.value| == EntitiesIn(DataBlock(pb))
  {
    var nodes := if pb.group.dense.Some? then DecodeDense(pb.stringTable, pb.group.dense.value) else Some([]);
    match (nodes, DecodeWays(pb.stringTable, pb.group.ways), DecodeRelations(pb.stringTable, pb.group.relations))
    case (Some(a), Some(b), Some(c)) => Some(a + b + c)
    case _ => None
  }

  /** The entities a reader takes out of the blobs, in file order; the header blob carries none. */
  function Decoded(out: seq<Block>): (r: Option<seq<(int64, Entity)>>)
    ensures r.Some? ==> |r.value| == Emitted(out)
    decreases |out|
  {
    if |out| == 0 then Some([])
    else
      match (Decoded(out[..|out| - 1]), out[|out| - 1])
      case (None, _) => None
      case (Some(front), HeaderBlock(_, _)) => Some(front)
      case (Some(front), DataBlock(pb)) =>
        match DecodeBlock(pb)
        case None => None
        case Some(es) => Some(front + es)
  }

  /* Growing a block's string table keeps every decoded entity. */

  lemma {:induction false} LookupTagsGrown(table: seq<string>, grown: seq<string>, codes: seq<(nat, nat)>)
    requires table <= grown && LookupTags(table, codes).Some?
    ensures LookupTags(grown, codes) == LookupTags(table, codes)
    decreases |codes|
  {
    if |codes| > 0 {
      LookupTagsGrown(table, grown, codes[1..]);
    }
  }

  lemma {:induction false} LookupRolesGrown(table: seq<string>, grown: seq<string>, codes: seq<nat>)
    requires table <= grown && LookupRoles(table, codes).Some?
    ensures LookupRoles(grown, codes) == LookupRoles(table, codes)
    decreases |codes|
  {
    if |codes| > 0 {
      LookupRolesGrown(table, grown, codes[1..]);
    }
  }

  lemma {:induction false} DecodeNodesGrown(table: seq<string>, grown: seq<string>, ids: seq<int64>, lats: seq<int64>,
                                            lons: seq<int64>, codes: seq<seq<(nat, nat)>>)
    requires |ids| == |lats| == |lons| == |codes|
    requires table <= grown && DecodeNodes(table, ids, lats, lons, codes).Some?
    ensures DecodeNodes(grown, ids, lats, lons, codes) == DecodeNodes(table, ids, lats, lons, codes)
    decreases |ids|
  {
    if |ids| > 0 {
      var n := |ids| - 1;
      DecodeNodesGrown(table, grown, ids[..n], lats[..n], lons[..n], codes[..n]);
      LookupTagsGrown(table, grown, codes[n]);
    }
  }

  lemma {:induction false} DecodeWaysGrown(table: seq<string>, grown: seq<string>, ws: seq<PbfWay>)
    requires table <= grown && DecodeWays(table, ws).Some?
    ensures DecodeWays(grown, ws) == DecodeWays(table, ws)
    decreases |ws|
  {
    if |ws| > 0 {
      var pw := ws[|ws| - 1];
      DecodeWaysGrown(table, grown, ws[..|ws| - 1]);
      LookupTagsGrown(table, grown, Zip(pw.keys, pw.vals));
    }
  }

  lemma {:induction false} DecodeRelationsGrown(table: seq<string>, grown: seq<string>, rs: seq<PbfRelation>)
    requires table <= grown && DecodeRelations(table, rs).Some?
    ensures DecodeRelations(grown, rs) == DecodeRelations(table, rs)
    decreases |rs|
  {
    if |rs| > 0 {
      var pr := rs[|rs| - 1];
      DecodeRelationsGrown(table, grown, rs[..|rs| - 1]);
      LookupTagsGrown(table, grown, Zip(pr.keys, pr.vals));
      LookupRolesGrown(table, grown, pr.rolesSid);
    }
  }

  /* Reading one more node's tag codes after those already read. */

  lemma {:induction false} ReadKeysValsExtend(kv: seq<nat>, more: seq<nat>)
    requires ReadKeysVals(kv).Ok?
    ensures ReadKeysVals(kv + more) == Ok((ReadKeysVals(kv).value.0, ReadKeysVals(kv).value.1 + more))
    decreases |kv|
  {
    if kv[0] != 0 {
      ReadKeysValsExtend(kv[2..], more);
      assert (kv + more)[2..] == kv[2..] + more;
    } else {
      assert (kv + more)[1..] == kv[1..] + more;
    }
  }

  lemma {:induction false} ReadNodesTagsExtend(kv: seq<nat>, n: nat, more: seq<nat>)
    requires ReadNodesTags(kv, n).Ok?
    ensures ReadNodesTags(kv + more, n) == Ok((ReadNodesTags(kv, n).value.0, ReadNodesTags(kv, n).value.1 + more))
    decreases n
  {
    if n > 0 {
      ReadKeysValsExtend(kv, more);
      ReadNodesTagsExtend(ReadKeysVals(kv).value.1, n - 1, more);
    }
  }

  lemma {:induction false} ReadNodesTagsLast(kv: seq<nat>, n: nat)
    requires ReadNodesTags(kv, n).Ok? && ReadKeysVals(ReadNodesTags(kv, n).value.1).Ok?
    ensures var r := ReadNodesTags(kv, n).value;
            var last := ReadKeysVals(r.1).value;
            ReadNodesTags(kv, n + 1) == Ok((r.0 + [last.0], last.1))
    decreases n
  {
    var first := ReadKeysVals(kv).value;
    if n == 0 {
      assert ReadNodesTags(first.1, 0) == Ok(([], first.1));
      assert [first.0] + [] == [] + [first.0];
    } else {
      ReadNodesTagsLast(first.1, n - 1);
      var r := ReadNodesTags(first.1, n - 1).value;
      var last := ReadKeysVals(r.1).value;
      assert ReadNodesTags(kv, n).value == ([first.0] + r.0, r.1);
      assert ReadNodesTags(first.1, n) == Ok((r.0 + [last.0], last.1));
      assert [first.0] + (r.0 + [last.0]) == ([first.0] + r.0) + [last.0];
    }
  }

  /** The tag codes of `n` nodes that fill `kv`, then one more node's. */
  lemma NodesTagsSnoc(kv: seq<nat>, n: nat, codes: seq<(nat, nat)>)
    requires ReadNodesTags(kv, n).Ok? && ReadNodesTags(kv, n).value.1 == [] && NonZeroKeys(codes)
    ensures ReadNodesTags(kv + FlattenCodes(codes) + [0], n + 1)
            == Ok((ReadNodesTags(kv, n).value.0 + [codes], []))
  {
    var extra := FlattenCodes(codes) + [0];
    assert kv + FlattenCodes(codes) + [0] == kv + extra;
    ReadNodesTagsExtend(kv, n, extra);
    assert [] + extra == extra;
    KeysValsRoundTrip(codes, []);
    assert extra + [] == extra;
    ReadNodesTagsLast(kv + extra, n);
  }

  /* The columns of a run of nodes. */

  function LatOf(e: Entity): int64 {
    if e.Node? then e.fixedLat as int64 else 0
  }

  function LonOf(e: Entity): int64 {
    if e.Node? then e.fixedLon as int64 else 0
  }

  function Lats(ps: seq<(int64, Entity)>): (r: seq<int64>)
    ensures |r| == |ps| && forall i :: 0 <= i < |ps| ==> r[i] == LatOf(ps[i].1)
  {
    seq(|ps|, i requires 0 <= i < |ps| => LatOf(ps[i].1))
  }

  function Lons(ps: seq<(int64, Entity)>): (r: seq<int64>)
    ensures |r| == |ps| && forall i :: 0 <= i < |ps| ==> r[i] == LonOf(ps[i].1)
  {
    seq(|ps|, i requires 0 <= i < |ps| => LonOf(ps[i].1))
  }

  lemma ColumnsSnoc(ps: seq<(int64, Entity)>, p: (int64, Entity))
    ensures Keys(ps + [p]) == Keys(ps) + [p.0]
    ensures Lats(ps + [p]) == Lats(ps) + [LatOf(p.1)]
    ensures Lons(ps + [p]) == Lons(ps) + [LonOf(p.1)]
  {
  }

  /** The dense columns of a run of nodes, with their tag codes after the earlier nodes'. */
  function DenseOf(ps: seq<(int64, Entity)>, kv: seq<nat>): DenseNodes {
    DenseNodes(Deltas(0, Keys(ps)), Deltas(0, Lats(ps)), Deltas(0, Lons(ps)), kv)
  }

  /**
   * One more node in a dense group that reads back as `open`: the group,
   * under any larger string table, reads back as `open` and the node.
   */
  lemma DenseAppend(table: seq<string>, grown: seq<string>, open: seq<(int64, Entity)>, kv: seq<nat>,
                    id: int64, n: Entity, codes: seq<(nat, nat)>)
    requires n.Node? && table <= grown
    requires DecodeDense(table, DenseOf(open, kv)) == Some(open)
    requires ReadNodesTags(kv, |open|).Ok? && ReadNodesTags(kv, |open|).value.1 == []
    requires NonZeroKeys(codes) && LookupTags(grown, codes) == Some(n.tags)
    ensures var kv2 := kv + FlattenCodes(codes) + [0];
            && DecodeDense(grown, DenseOf(open + [(id, n)], kv2)) == Some(open + [(id, n)])
            && ReadNodesTags(kv2, |open| + 1).Ok? && ReadNodesTags(kv2, |open| + 1).value.1 == []
  {
    var open2 := open + [(id, n)];
    var kv2 := kv + FlattenCodes(codes) + [0];
    var cs := ReadNodesTags(kv, |open|).value.0;
    NodesTagsSnoc(kv, |open|, codes);
    DenseOfDecodes(table, open, kv);
    NodesAppend(table, grown, open, cs, id, n, codes);
    DenseOfDecodes(grown, open2, kv2);
  }

  /** The node columns of a run, with one more node, decode to the run and that node. */
  lemma NodesAppend(table: seq<string>, grown: seq<string>, open: seq<(int64, Entity)>, cs: seq<seq<(nat, nat)>>,
                    id: int64, n: Entity, codes: seq<(nat, nat)>)
    requires n.Node? && table <= grown && |cs| == |open|
    requires DecodeNodes(table, Keys(open), Lats(open), Lons(open), cs) == Some(open)
    requires LookupTags(grown, codes) == Some(n.tags)
    ensures var open2 := open + [(id, n)];
            DecodeNodes(grown, Keys(open2), Lats(open2), Lons(open2), cs + [codes]) == Some(open2)
  {
    ColumnsSnoc(open, (id, n));
    DecodeNodesGrown(table, grown, Keys(open), Lats(open), Lons(open), cs);
    assert DecodeNode(grown, id, LatOf(n), LonOf(n), codes) == Some((id, n));
    NodesSnoc(grown, Keys(open), Lats(open), Lons(open), cs, id, LatOf(n), LonOf(n), codes);
  }

  /** The dense columns of a run of nodes decode through the run's own ids and coordinates. */
  lemma DenseOfDecodes(table: seq<string>, ps: seq<(int64, Entity)>, kv: seq<nat>)
    requires ReadNodesTags(kv, |ps|).Ok?
    ensures DecodeDense(table, DenseOf(ps, kv))
            == DecodeNodes(table, Keys(ps), Lats(ps), Lons(ps), ReadNodesTags(kv, |ps|).value.0)
  {
    DeltaRoundTrip(0, Keys(ps));
    DeltaRoundTrip(0, Lats(ps));
    DeltaRoundTrip(0, Lons(ps));
  }

  /** Decoding columns with one more node appended decodes that node last. */
  lemma NodesSnoc(table: seq<string>, ids: seq<int64>, lats: seq<int64>, lons: seq<int64>, cs: seq<seq<(nat, nat)>>,
                  id: int64, lat: int64, lon: int64, codes: seq<(nat, nat)>)
    requires |ids| == |lats| == |lons| == |cs|
    requires DecodeNodes(table, ids, lats, lons, cs).Some? && DecodeNode(table, id, lat, lon, codes).Some?
    ensures DecodeNodes(table, ids + [id], lats + [lat], lons + [lon], cs + [codes])
            == Some(DecodeNodes(table, ids, lats, lons, cs).value + [DecodeNode(table, id, lat, lon, codes).value])
  {
    assert (ids + [id])[..|ids|] == ids;
    assert (lats + [lat])[..|ids|] == lats;
    assert (lons + [lon])[..|ids|] == lons;
    assert (cs + [codes])[..|ids|] == cs;
  }

  /* The corrected writer keeps every entity, in order. */

  /**
   * The blobs written so far, followed by the open group as `endBlock` would
   * write it, decode to `all`; an open dense group keeps its columns and
   * tag codes in step with the nodes it holds.
   */
  ghost predicate Carries(w: Writer, all: seq<(int64, Entity)>) {
    && Reserved(w.table)
    && Decoded(w.out).Some? && DecodeBlock(CurrentBlock(w)).Some?
    && Decoded(w.out).value + DecodeBlock(CurrentBlock(w)).value == all
    && (w.current == Some(NodeType) ==>
          var open := DecodeBlock(CurrentBlock(w)).value;
          && w.dense == DenseOf(open, w.dense.keysVals)
          && w.prevId == Last(0, Keys(open)) && w.prevLat == Last(0, Lats(open)) && w.prevLon == Last(0, Lons(open))
          && ReadNodesTags(w.dense.keysVals, |open|).Ok? && ReadNodesTags(w.dense.keysVals, |open|).value.1 == [])
  }

  lemma HeadTail<T>(front: seq<T>, xs: seq<T>)
    requires |xs| > 0
    ensures front + [xs[0]] + xs[1..] == front + xs
  {
    assert [xs[0]] + xs[1..] == xs;
  }

  lemma CarriesSame(w: Writer, all: seq<(int64, Entity)>, all': seq<(int64, Entity)>)
    requires Carries(w, all) && all == all'
    ensures Carries(w, all')
  {
  }

  /** Ending a block hands the open group's entities to the output, in order. */
  lemma EndBlockCarries(w: Writer, all: seq<(int64, Entity)>)
    requires Inv(w) && Carries(w, all)
    ensures Decoded(EndBlock(w).out) == Some(all)
  {
    var out := EndBlock(w).out;
    var open := DecodeBlock(CurrentBlock(w)).value;
    if w.count > 0 {
      assert out[..|out| - 1] == w.out;
      assert out[|out| - 1] == DataBlock(CurrentBlock(w));
    } else {
      assert |open| == 0;
      assert Decoded(w.out).value + open == Decoded(w.out).value;
    }
  }

  /** A group just begun decodes to nothing and its columns are empty. */
  lemma BeginBlockCarries(w: Writer, t: EntityType, all: seq<(int64, Entity)>)
    requires Decoded(w.out) == Some(all)
    ensures Carries(BeginBlock(w.(current := Some(t))), all)
  {
    var r := BeginBlock(w.(current := Some(t)));
    assert DecodeBlock(CurrentBlock(r)) == Some([]);
    assert all + [] == all;
  }

  /** The corrected transition loses nothing. */
  lemma TransitionCarries(w: Writer, t: EntityType, all: seq<(int64, Entity)>)
    requires Inv(w) && Carries(w, all)
    ensures Carries(Transition(PerEntity, w, t), all)
  {
    if Rotates(w, t) {
      if w.current.Some? {
        EndBlockCarries(w, all);
        BeginBlockCarries(EndBlock(w), t, all);
      } else {
        assert DecodeBlock(CurrentBlock(w)) == Some([]);
        assert Decoded(w.out).value + [] == Decoded(w.out).value;
        BeginBlockCarries(w, t, all);
      }
    }
  }

  /** The open group of a block of one type decodes through that type's column alone. */
  lemma GroupOfType(w: Writer)
    requires Inv(w) && w.current.Some? && DecodeBlock(CurrentBlock(w)).Some?
    ensures var open := DecodeBlock(CurrentBlock(w)).value;
            && (w.current == Some(NodeType) ==> DecodeDense(w.table, w.dense) == Some(open))
            && (w.current == Some(WayType) ==> DecodeWays(w.table, w.ways) == Some(open))
            && (w.current == Some(RelationType) ==> DecodeRelations(w.table, w.relations) == Some(open))
  {
    var cb := CurrentBlock(w);
    var nodes := if cb.group.dense.Some? then DecodeDense(cb.stringTable, cb.group.dense.value) else Some([]);
    var ways := DecodeWays(cb.stringTable, cb.group.ways);
    var rels := DecodeRelations(cb.stringTable, cb.group.relations);
    assert nodes.Some? && ways.Some? && rels.Some?;
    assert DecodeBlock(cb).value == nodes.value + ways.value + rels.value;
    if w.current == Some(NodeType) {
      assert ways.value == [] && rels.value == [];
      assert nodes.value + [] + [] == nodes.value;
    } else if w.current == Some(WayType) {
      assert nodes.value == [] && rels.value == [];
      assert [] + ways.value + [] == ways.value;
    } else {
      assert nodes.value == [] && ways.value == [];
      assert [] + [] + rels.value == rels.value;
    }
  }

  /** A way written into an open way group is carried after the earlier ones. */
  lemma WayAppendCarries(w: Writer, id: int64, way: Entity, all: seq<(int64, Entity)>)
    requires way.Way? && Inv(w) && Carries(w, all) && w.current == Some(WayType) && w.count < BLOCK_LIMIT
    ensures Carries(WriteWay(PerEntity, w, id, way), all + [(id, way)])
  {
    var e := EncodeWay(w.table, id, way);
    assert Transition(PerEntity, w, WayType) == w;
    WayAppendCarriesTo(w, WriteWay(PerEntity, w, id, way), id, way, all);
  }

  /** The way step over the writer it produces, given by its shape. */
  lemma WayAppendCarriesTo(w: Writer, r: Writer, id: int64, way: Entity, all: seq<(int64, Entity)>)
    requires way.Way? && Inv(w) && Carries(w, all) && w.current == Some(WayType)
    requires var e := EncodeWay(w.table, id, way);
             r == w.(table := e.1, ways := w.ways + [e.0], count := w.count + 1)
    ensures Carries(r, all + [(id, way)])
  {
    var e := EncodeWay(w.table, id, way);
    var ws := w.ways + [e.0];
    var done := Decoded(w.out).value;
    var open := DecodeBlock(CurrentBlock(w)).value;
    GroupOfType(w);
    DecodeWaysGrown(w.table, e.1, w.ways);
    WayRoundTrip(w.table, id, way, e.1);
    assert ws[..|ws| - 1] == w.ways;
    assert DecodeWays(e.1, ws) == Some(open + [(id, way)]);
    assert DecodeBlock(CurrentBlock(r)) == Some([] + (open + [(id, way)]) + []);
    assert [] + (open + [(id, way)]) + [] == open + [(id, way)];
    AppendAssoc3(done, open, [(id, way)]);
  }

  /** A relation written into an open relation group is carried after the earlier ones. */
  lemma RelationAppendCarries(w: Writer, id: int64, rel: Entity, all: seq<(int64, Entity)>)
    requires rel.Relation? && Inv(w) && Carries(w, all) && w.current == Some(RelationType) && w.count < BLOCK_LIMIT
    ensures Carries(WriteRelation(PerEntity, w, id, rel), all + [(id, rel)])
  {
    var e := EncodeRelation(w.table, id, rel);
    assert Transition(PerEntity, w, RelationType) == w;
    RelationAppendCarriesTo(w, WriteRelation(PerEntity, w, id, rel), id, rel, all);
  }

  /** The relation step over the writer it produces, given by its shape. */
  lemma RelationAppendCarriesTo(w: Writer, r: Writer, id: int64, rel: Entity, all: seq<(int64, Entity)>)
    requires rel.Relation? && Inv(w) && Carries(w, all) && w.current == Some(RelationType)
    requires var e := EncodeRelation(w.table, id, rel);
             r == w.(table := e.1, relations := w.relations + [e.0], count := w.count + 1)
    ensures Carries(r, all + [(id, rel)])
  {
    var e := EncodeRelation(w.table, id, rel);
    var rs := w.relations + [e.0];
    var done := Decoded(w.out).value;
    var open := DecodeBlock(CurrentBlock(w)).value;
    GroupOfType(w);
    DecodeRelationsGrown(w.table, e.1, w.relations);
    RelationRoundTrip(w.table, id, rel, e.1);
    assert rs[..|rs| - 1] == w.relations;
    assert DecodeRelations(e.1, rs) == Some(open + [(id, rel)]);
    assert DecodeBlock(CurrentBlock(r)) == Some([] + [] + (open + [(id, rel)]));
    assert [] + [] + (open + [(id, rel)]) == open + [(id, rel)];
    AppendAssoc3(done, open, [(id, rel)]);
  }

  /** A node written into an open node group is carried after the earlier ones. */
  lemma NodeAppendCarries(w: Writer, id: int64, n: Entity, all: seq<(int64, Entity)>)
    requires n.Node? && NamedKeys(n.tags) && Inv(w) && Carries(w, all)
    requires w.current == Some(NodeType) && w.count < BLOCK_LIMIT
    ensures Carries(WriteNode(PerEntity, w, id, n), all + [(id, n)])
  {
    WriteNodeOpen(w, id, n);
    NodeCarriesElim(w, all);
    NodeAppendCarriesTo(w, WriteNode(PerEntity, w, id, n), id, n,
                        Decoded(w.out).value, DecodeBlock(CurrentBlock(w)).value, all);
  }

  /** What `Carries` says of an open node group, with the output and the group decoded apart. */
  lemma NodeCarriesElim(w: Writer, all: seq<(int64, Entity)>)
    requires Inv(w) && Carries(w, all) && w.current == Some(NodeType)
    ensures var done := Decoded(w.out).value;
            var open := DecodeBlock(CurrentBlock(w)).value;
            && Reserved(w.table) && |w.ways| == 0 && |w.relations| == 0
            && Decoded(w.out) == Some(done) && done + open == all
            && DecodeDense(w.table, w.dense) == Some(open) && w.dense == DenseOf(open, w.dense.keysVals)
            && w.prevId == Last(0, Keys(open)) && w.prevLat == Last(0, Lats(open)) && w.prevLon == Last(0, Lons(open))
            && ReadNodesTags(w.dense.keysVals, |open|).Ok? && ReadNodesTags(w.dense.keysVals, |open|).value.1 == []
  {
    GroupOfType(w);
  }

  /** An open node group with no ways or relations decodes as its dense columns. */
  lemma NodeBlockDecodes(w: Writer, open: seq<(int64, Entity)>)
    requires w.current == Some(NodeType) && |w.ways| == 0 && |w.relations| == 0
    requires DecodeDense(w.table, w.dense) == Some(open)
    ensures DecodeBlock(CurrentBlock(w)) == Some(open)
  {
    assert DecodeBlock(CurrentBlock(w)) == Some(open + [] + []);
    assert open + [] + [] == open;
  }

  /** `writeNode` on an open node group with room: the columns grow by one node and nothing else moves. */
  lemma WriteNodeOpen(w: Writer, id: int64, n: Entity)
    requires n.Node? && w.current == Some(NodeType) && w.count < BLOCK_LIMIT
    ensures var r := WriteNode(PerEntity, w, id, n);
            var tc := TagCodes(w.table, n.tags);
            && r.out == w.out && r.current == Some(NodeType) && r.table == tc.1
            && r.ways == w.ways && r.relations == w.relations
            && r.dense == DenseNodes(w.dense.ids + [SubLong(id, w.prevId)],
                                     w.dense.lats + [SubLong(n.fixedLat, w.prevLat)],
                                     w.dense.lons + [SubLong(n.fixedLon, w.prevLon)],
                                     w.dense.keysVals + FlattenCodes(tc.0) + [0])
            && r.prevId == id && r.prevLat == n.fixedLat as int64 && r.prevLon == n.fixedLon as int64
  {
    assert Transition(PerEntity, w, NodeType) == w;
  }

  /** The node step over the writer it produces, given by its shape, from the decoded parts of the writer before it. */
  lemma NodeAppendCarriesTo(w: Writer, r: Writer, id: int64, n: Entity,
                            done: seq<(int64, Entity)>, open: seq<(int64, Entity)>, all: seq<(int64, Entity)>)
    requires n.Node? && NamedKeys(n.tags) && Reserved(w.table) && |w.ways| == 0 && |w.relations| == 0
    requires Decoded(w.out) == Some(done) && done + open == all
    requires DecodeDense(w.table, w.dense) == Some(open) && w.dense == DenseOf(open, w.dense.keysVals)
    requires w.prevId == Last(0, Keys(open)) && w.prevLat == Last(0, Lats(open)) && w.prevLon == Last(0, Lons(open))
    requires ReadNodesTags(w.dense.keysVals, |open|).Ok? && ReadNodesTags(w.dense.keysVals, |open|).value.1 == []
    requires var tc := TagCodes(w.table, n.tags);
             && r.out == w.out && r.current == Some(NodeType) && r.table == tc.1
             && r.ways == w.ways && r.relations == w.relations
             && r.dense == DenseNodes(w.dense.ids + [SubLong(id, w.prevId)],
                                      w.dense.lats + [SubLong(n.fixedLat, w.prevLat)],
                                      w.dense.lons + [SubLong(n.fixedLon, w.prevLon)],
                                      w.dense.keysVals + FlattenCodes(tc.0) + [0])
             && r.prevId == id && r.prevLat == n.fixedLat as int64 && r.prevLon == n.fixedLon as int64
    ensures Carries(r, all + [(id, n)])
  {
    var open2 := open + [(id, n)];
    NodeColumnsStep(w, r, id, n, open);
    NodeBlockDecodes(r, open2);
    AppendAssoc3(done, open, [(id, n)]);
    NodeCarriesIntro(r, done, open2, all + [(id, n)]);
  }

  /** One node's step on the dense columns, the string table and the delta bases of an open node group. */
  lemma NodeColumnsStep(w: Writer, r: Writer, id: int64, n: Entity, open: seq<(int64, Entity)>)
    requires n.Node? && NamedKeys(n.tags) && Reserved(w.table)
    requires DecodeDense(w.table, w.dense) == Some(open) && w.dense == DenseOf(open, w.dense.keysVals)
    requires w.prevId == Last(0, Keys(open)) && w.prevLat == Last(0, Lats(open)) && w.prevLon == Last(0, Lons(open))
    requires ReadNodesTags(w.dense.keysVals, |open|).Ok? && ReadNodesTags(w.dense.keysVals, |open|).value.1 == []
    requires var tc := TagCodes(w.table, n.tags);
             && r.table == tc.1
             && r.dense == DenseNodes(w.dense.ids + [SubLong(id, w.prevId)],
                                      w.dense.lats + [SubLong(n.fixedLat, w.prevLat)],
                                      w.dense.lons + [SubLong(n.fixedLon, w.prevLon)],
                                      w.dense.keysVals + FlattenCodes(tc.0) + [0])
             && r.prevId == id && r.prevLat == n.fixedLat as int64 && r.prevLon == n.fixedLon as int64
    ensures var open2 := open + [(id, n)];
            && Reserved(r.table)
            && DecodeDense(r.table, r.dense) == Some(open2) && r.dense == DenseOf(open2, r.dense.keysVals)
            && r.prevId == Last(0, Keys(open2)) && r.prevLat == Last(0, Lats(open2)) && r.prevLon == Last(0, Lons(open2))
            && ReadNodesTags(r.dense.keysVals, |open2|).Ok? && ReadNodesTags(r.dense.keysVals, |open2|).value.1 == []
  {
    var open2 := open + [(id, n)];
    var tc := TagCodes(w.table, n.tags);
    var kv2 := w.dense.keysVals + FlattenCodes(tc.0) + [0];
    TagCodesKeysNonZero(w.table, n.tags);
    TagCodesLookup(w.table, n.tags, tc.1);
    DenseAppend(w.table, tc.1, open, w.dense.keysVals, id, n, tc.0);
    ColumnsSnoc(open, (id, n));
    DeltasSnoc(0, Keys(open), id);
    DeltasSnoc(0, Lats(open), n.fixedLat);
    DeltasSnoc(0, Lons(open), n.fixedLon);
    assert r.dense == DenseOf(open2, kv2);
  }

  lemma AppendAssoc3<T>(a: seq<T>, b: seq<T>, c: seq<T>)
    ensures a + b + c == a + (b + c)
  {
  }

  /** The conditions of `Carries` for an open node group, with its parts named. */
  lemma NodeCarriesIntro(w: Writer, done: seq<(int64, Entity)>, open: seq<(int64, Entity)>, all: seq<(int64, Entity)>)
    requires Reserved(w.table) && w.current == Some(NodeType)
    requires Decoded(w.out) == Some(done) && DecodeBlock(CurrentBlock(w)) == Some(open) && done + open == all
    requires w.dense == DenseOf(open, w.dense.keysVals)
    requires w.prevId == Last(0, Keys(open)) && w.prevLat == Last(0, Lats(open)) && w.prevLon == Last(0, Lons(open))
    requires ReadNodesTags(w.dense.keysVals, |open|).Ok? && ReadNodesTags(w.dense.keysVals, |open|).value.1 == []
    ensures Carries(w, all)
  {
  }

  /** Node tags whose keys are all named: the delimiter 0 of `keysVals` is never a key code. */
  predicate NodeKeysNamed(es: seq<(int64, Entity)>) {
    forall i :: 0 <= i < |es| && es[i].1.Node? ==> NamedKeys(es[i].1.tags)
  }

  lemma NodeKeysNamedTail(es: seq<(int64, Entity)>)
    requires |es| > 0 && NodeKeysNamed(es)
    ensures NodeKeysNamed(es[1..]) && (es[0].1.Node? ==> NamedKeys(es[0].1.tags))
  {
    forall i | 0 <= i < |es[1..]| && es[1..][i].1.Node? ensures NamedKeys(es[1..][i].1.tags) {
      assert es[1..][i] == es[i + 1];
    }
  }

  /** A corrected write of any entity carries it after everything written before. */
  lemma EntityCarries(w: Writer, id: int64, e: Entity, all: seq<(int64, Entity)>)
    requires Inv(w) && Carries(w, all) && (e.Node? ==> NamedKeys(e.tags))
    ensures Carries(WriteEntity(PerEntity, w, id, e), all + [(id, e)])
  {
    var t := TypeOf(e);
    var w1 := Transition(PerEntity, w, t);
    TransitionKeeps(w, t);
    TransitionCarries(w, t, all);
    assert Transition(PerEntity, w1, t) == w1;
    match e
    case Node(_, _, _) =>
      assert WriteEntity(PerEntity, w, id, e) == WriteNode(PerEntity, w1, id, e);
      NodeAppendCarries(w1, id, e, all);
    case Way(_, _) =>
      assert WriteEntity(PerEntity, w, id, e) == WriteWay(PerEntity, w1, id, e);
      WayAppendCarries(w1, id, e, all);
    case Relation(_, _) =>
      assert WriteEntity(PerEntity, w, id, e) == WriteRelation(PerEntity, w1, id, e);
      RelationAppendCarries(w1, id, e, all);
  }

  lemma {:induction false} AllCarry(w: Writer, es: seq<(int64, Entity)>, all: seq<(int64, Entity)>)
    requires Inv(w) && Carries(w, all) && NodeKeysNamed(es)
    ensures Carries(WriteAll(PerEntity, w, es), all + es)
    decreases |es|
  {
    if |es| == 0 {
      assert all + es == all;
    } else {
      var w1 := WriteEntity(PerEntity, w, es[0].0, es[0].1);
      EntityCarries(w, es[0].0, es[0].1, all);
      EntityKeeps(w, es[0].0, es[0].1);
      NodeKeysNamedTail(es);
      AllCarry(w1, es[1..], all + [es[0]]);
      HeadTail(all, es);
      CarriesSame(WriteAll(PerEntity, w1, es[1..]), all + [es[0]] + es[1..], all + es);
    }
  }

  /**
   * With every entity counted, a reader of the PBF file gets back every
   * entity written, with its id, tags, coordinates, references and members,
   * in the order written (as long as no node tag key is the empty string).
   */
  lemma PerEntityCarriesAll(es: seq<(int64, Entity)>)
    requires NodeKeysNamed(es)
    ensures Decoded(WriteEnd(WriteAll(PerEntity, WriteBegin(NewWriter()), es)).out) == Some(es)
  {
    var w0 := WriteBegin(NewWriter());
    EmittedSnoc([], HeaderBlock(["DenseNodes"], "Vanilla Extract"));
    assert Inv(w0);
    assert w0.out[..0] == [];
    assert Decoded(w0.out) == Some([]);
    assert DecodeBlock(CurrentBlock(w0)) == Some([]);
    assert Carries(w0, []);
    AllCarry(w0, es, []);
    AllKeep(w0, es);
    assert [] + es == es;
    EndBlockCarries(WriteAll(PerEntity, w0, es), es);
  }

  /* ---------------- blobs and framing ---------------- */

  /** `Fileformat.Blob`: the serialized block stored raw, or zlib-compressed with its raw size. */
  datatype Blob = Raw(raw: seq<byte>) | Zlib(zlibData: seq<byte>, rawSize: int)

  /**
   * `writeOneBlob`'s choice. `deflate` writes into a buffer the size of the
   * input and gives up once the output reaches that size, so the block is
   * stored raw exactly when compressing does not make it strictly smaller;
   * an empty block is not compressed at all. The compressor itself is a
   * parameter.
   */
  function MakeBlob(serialized: seq<byte>, compress: seq<byte> -> seq<byte>): (r: Blob)
    ensures r.Raw? <==> |serialized| > 0 && |compress(serialized)| >= |serialized|
    ensures r.Raw? ==> r.raw == serialized
    ensures r.Zlib? ==> r.rawSize == |serialized| && |r.zlibData| <= |serialized|
  {
    if |serialized| == 0 then Zlib([], 0)
    else if |compress(serialized)| >= |serialized| then Raw(serialized)
    else Zlib(compress(serialized), |serialized|)
  }

  /** What a reader takes out of a blob, given the decompressor. */
  function BlobData(b: Blob, inflate: seq<byte> -> seq<byte>): seq<byte> {
    match b
    case Raw(raw) => raw
    case Zlib(data, rawSize) => if rawSize == 0 then [] else inflate(data)
  }

  /** Whichever way a block is stored, a reader gets the serialized block back. */
  lemma BlobRoundTrip(serialized: seq<byte>, compress: seq<byte> -> seq<byte>, inflate: seq<byte> -> seq<byte>)
    requires inflate(compress(serialized)) == serialized
    ensures BlobData(MakeBlob(serialized, compress), inflate) == serialized
  {
  }

  /** `Fileformat.BlobHeader`. */
  datatype BlobHeader = BlobHeader(kind: string, datasize: int)

  /** The blob type of a block. */
  function BlobType(b: Block): (r: string)
    ensures r == "OSMHeader" <==> b.HeaderBlock?
    ensures r == "OSMData" <==> b.DataBlock?
  {
    match b
    case HeaderBlock(_, _) => "OSMHeader"
    case DataBlock(_) => "OSMData"
  }

  /** The bytes of one blob: the header length as a big-endian int, the header, the blob. */
  function Frame(header: seq<byte>, blob: seq<byte>): seq<byte>
    requires |header| < 0x8000_0000
  {
    IntToBytes(|header|) + header + blob
  }

  /** A reader's split of a frame: the header by its length prefix, then the rest. */
  function ReadFrame(s: seq<byte>): Result<(seq<byte>, seq<byte>), Error> {
    if |s| < 4 then Err(Eof)
    else
      var n := IntFromBytes(s[..4]);
      if n < 0 || |s| - 4 < n then Err(Eof)
      else Ok((s[4..4 + n], s[4 + n..]))
  }

  /** A frame splits back into its header and what follows it. */
  lemma FrameRoundTrip(header: seq<byte>, blob: seq<byte>, rest: seq<byte>)
    requires |header| < 0x8000_0000
    ensures ReadFrame(Frame(header, blob) + rest) == Ok((header, blob + rest))
  {
    var s := Frame(header, blob) + rest;
    var n: int32 := |header|;
    assert s[..4] == IntToBytes(n);
    IntBytesRoundTrip(n);
    ReadFrameSplits(s, n);
    assert s[4..4 + n] == header;
    assert s[4 + n..] == blob + rest;
  }

  /** A length prefix that fits splits the bytes after it at that length. */
  lemma ReadFrameSplits(s: seq<byte>, n: int32)
    requires |s| >= 4 && IntFromBytes(s[..4]) == n && 0 <= n <= |s| - 4
    ensures ReadFrame(s) == Ok((s[4..4 + n], s[4 + n..]))
  {
  }

  /**
   * `writeOneBlob`: the block serialized, stored as a blob, the blob
   * serialized, and a header naming the blob type and the blob's size. The
   * protobuf encoders are parameters.
   */
  function WriteOneBlob(b: Block, encodeBlock: Block -> seq<byte>, compress: seq<byte> -> seq<byte>,
                        encodeBlob: Blob -> seq<byte>, encodeHeader: BlobHeader -> seq<byte>): seq<byte>
    requires |encodeHeader(BlobHeader(BlobType(b), |encodeBlob(MakeBlob(encodeBlock(b), compress))|))| < 0x8000_0000
  {
    var blob := encodeBlob(MakeBlob(encodeBlock(b), compress));
    Frame(encodeHeader(BlobHeader(BlobType(b), |blob|)), blob)
  }

  /**
   * A reader that splits the frame and decodes the header finds the blob
   * type and, in the next `datasize` bytes, exactly the serialized blob.
   */
  lemma OneBlobReads(b: Block, encodeBlock: Block -> seq<byte>, compress: seq<byte> -> seq<byte>,
                     encodeBlob: Blob -> seq<byte>, encodeHeader: BlobHeader -> seq<byte>,
                     decodeHeader: seq<byte> -> Option<BlobHeader>, rest: seq<byte>)
    requires |encodeHeader(BlobHeader(BlobType(b), |encodeBlob(MakeBlob(encodeBlock(b), compress))|))| < 0x8000_0000
    requires decodeHeader(encodeHeader(BlobHeader(BlobType(b), |encodeBlob(MakeBlob(encodeBlock(b), compress))|)))
             == Some(BlobHeader(BlobType(b), |encodeBlob(MakeBlob(encodeBlock(b), compress))|))
    ensures var s := WriteOneBlob(b, encodeBlock, compress, encodeBlob, encodeHeader) + rest;
            && ReadFrame(s).Ok?
            && decodeHeader(ReadFrame(s).value.0).Some?
            && decodeHeader(ReadFrame(s).value.0).value.kind == BlobType(b)
            && 0 <= decodeHeader(ReadFrame(s).value.0).value.datasize <= |ReadFrame(s).value.1|
            && ReadFrame(s).value.1[..decodeHeader(ReadFrame(s).value.0).value.datasize]
               == encodeBlob(MakeBlob(encodeBlock(b), compress))
  {
    var blob := encodeBlob(MakeBlob(encodeBlock(b), compress));
    var h := encodeHeader(BlobHeader(BlobType(b), |blob|));
    FrameRoundTrip(h, blob, rest);
    assert (blob + rest)[..|blob|] == blob;
  }
}

=== FILE: postgres.dfy ===
/**
 * The Postgres sink: entities in the standard nodes, ways, relations order
 * become rows of tab-separated text for four `COPY` streams (nodes, ways,
 * relations and relation members). The rows are modelled as strings; the
 * database connection, the piping threads and the logging are not.
 */
module Postgres {
  import opened Wrappers
  import opened Bytes
  import opened Errors
  import opened Osm
  import opened Numerals
  import opened Text

  /** Text the sink takes from code this model does not contain. */
  datatype Renderer = Renderer(
    tagsText: seq<Tag> -> string,   // the entity's tags as one string
    latText: int32 -> string,       // the printed latitude double
    lonText: int32 -> string        // the printed longitude double
  )

  /**
   * The sink: the phase it is in (none before the first node), the number of
   * entities inserted in that phase, and the rows of the four tables.
   */
  datatype Sink = Sink(
    phase: Option<EntityType>,
    inserted: nat,
    nodes: seq<string>,
    ways: seq<string>,
    relations: seq<string>,
    members: seq<string>
  )

  const EMPTY: Sink := Sink(None, 0, [], [], [], [])

  // ---------------------------------------------------------------- cleaning

  /** Tab, line feed, carriage return and backslash: what `COPY` text would read as structure. */
  predicate Special(c: char) {
    c == '\t' || c == '\n' || c == '\r' || c == '\\'
  }

  predicate Plain(s: string) {
    forall i :: 0 <= i < |s| ==> !Special(s[i])
  }

  /** Each special character is replaced by one space. */
  function Clean(s: string): (r: string)
    ensures |r| == |s|
    ensures forall i :: 0 <= i < |s| ==> r[i] == (if Special(s[i]) then ' ' else s[i])
    decreases |s|
  {
    if |s| == 0 then "" else [if Special(s[0]) then ' ' else s[0]] + Clean(s[1..])
  }

  /** No special character survives cleaning. */
  lemma CleanPlain(s: string)
    ensures Plain(Clean(s))
  {
  }

  /** A string without special characters is left as it is. */
  lemma CleanKeepsPlain(s: string)
    ensures Plain(s) <==> Clean(s) == s
  {
    if !Plain(s) {
      var i :| 0 <= i < |s| && Special(s[i]);
      assert Clean(s)[i] != s[i];
    }
  }

  /** Cleaning twice is cleaning once. */
  lemma CleanIdempotent(s: string)
    ensures Clean(Clean(s)) == Clean(s)
  {
    CleanPlain(s);
    CleanKeepsPlain(Clean(s));
  }

  // ----------------------------------------------------------------- phases

  /** Whether an entity of type `t` may come while the sink is in `phase`. */
  predicate Follows(phase: Option<EntityType>, t: EntityType) {
    if phase.None? then t == NodeType
    else Ordinal(phase.value) <= Ordinal(t) <= Ordinal(phase.value) + 1
  }

  /**
   * The phase after an entity of type `t`: the first node opens the node
   * phase, the first way after nodes the way phase, the first relation after
   * ways the relation phase; an entity of any other type than the phase's is
   * out of order.
   */
  function NextPhase(phase: Option<EntityType>, t: EntityType): (r: Result<EntityType, Error>)
    ensures r.Ok? <==> Follows(phase, t)
    ensures r.Ok? ==> r.value == t
    ensures r.Err? ==> r.error == OutOfOrder
  {
    var p := match t
      case NodeType => if phase.None? then Some(NodeType) else phase
      case WayType => if phase == Some(NodeType) then Some(WayType) else phase
      case RelationType => if phase == Some(WayType) then Some(RelationType) else phase;
    if p != Some(t) then Err(OutOfOrder) else Ok(t)
  }

  // ------------------------------------------------------------------- rows

  /** The enum name a member type prints as. */
  function TypeName(t: EntityType): (r: string)
    ensures Plain(r) && |r| > 0
  {
    match t
    case NodeType => "NODE"
    case WayType => "WAY"
    case RelationType => "RELATION"
  }

  /** A row: its columns separated by tabs and ended by a line feed. */
  function Line(cols: seq<string>): string {
    JoinWith(cols, '\t') + "\n"
  }

  function DecimalsOf(ids: seq<int64>): (r: seq<string>)
    ensures |r| == |ids|
    ensures forall i :: 0 <= i < |ids| ==> r[i] == Decimal(ids[i])
    decreases |ids|
  {
    if |ids| == 0 then [] else [Decimal(ids[0])] + DecimalsOf(ids[1..])
  }

  /** The node ids joined by commas, the body of a Postgres array literal. */
  function Join(ids: seq<int64>): string {
    JoinWith(DecimalsOf(ids), ',')
  }

  function NodeRow(fmt: Renderer, id: int64, tags: seq<Tag>, lat: int32, lon: int32): string {
    Line([Decimal(id), fmt.latText(lat), fmt.lonText(lon), Clean(fmt.tagsText(tags))])
  }

  /** A way row ends with its node ids as a Postgres array literal. */
  function WayRow(fmt: Renderer, id: int64, tags: seq<Tag>, nodes: seq<int64>): string {
    Line([Decimal(id), Clean(fmt.tagsText(tags)), "{" + Join(nodes) + "}"])
  }

  function RelationRow(fmt: Renderer, id: int64, tags: seq<Tag>): string {
    Line([Decimal(id), Clean(fmt.tagsText(tags))])
  }

  function MemberRow(id: int64, m: Member): string {
    Line([Decimal(id), TypeName(m.kind), Decimal(m.id), Clean(m.role)])
  }

  /** One row per member, in the relation's order. */
  function MemberRows(id: int64, ms: seq<Member>): (r: seq<string>)
    ensures |r| == |ms|
    ensures forall i :: 0 <= i < |ms| ==> r[i] == MemberRow(id, ms[i])
    decreases |ms|
  {
    if |ms| == 0 then [] else [MemberRow(id, ms[0])] + MemberRows(id, ms[1..])
  }

  // ---------------------------------------------------------------- writing

  /** `writeNode`, `writeWay` and `writeRelation`. */
  function Write(fmt: Renderer, s: Sink, id: int64, e: Entity): (r: Result<Sink, Error>)
    ensures r.Ok? <==> Follows(s.phase, TypeOf(e))
    ensures r.Err? ==> r.error == OutOfOrder
    ensures r.Ok? ==> r.value.phase == Some(TypeOf(e))
    ensures r.Ok? ==> r.value.inserted == (if s.phase == Some(TypeOf(e)) then s.inserted + 1 else 1)
    ensures r.Ok? && e.Node? ==>
      r.value.nodes == s.nodes + [NodeRow(fmt, id, e.tags, e.fixedLat, e.fixedLon)]
      && r.value.ways == s.ways && r.value.relations == s.relations && r.value.members == s.members
    ensures r.Ok? && e.Way? ==>
      r.value.ways == s.ways + [WayRow(fmt, id, e.tags, e.nodes)]
      && r.value.nodes == s.nodes && r.value.relations == s.relations && r.value.members == s.members
    ensures r.Ok? && e.Relation? ==>
      r.value.relations == s.relations + [RelationRow(fmt, id, e.tags)]
      && r.value.members == s.members + MemberRows(id, e.members)
      && r.value.nodes == s.nodes && r.value.ways == s.ways
  {
    var t :- NextPhase(s.phase, TypeOf(e));
    var s := s.(phase := Some(t), inserted := if s.phase == Some(t) then s.inserted + 1 else 1);
    match e
    case Node(tags, lat, lon) => Ok(s.(nodes := s.nodes + [NodeRow(fmt, id, tags, lat, lon)]))
    case Way(tags, nodes) => Ok(s.(ways := s.ways + [WayRow(fmt, id, tags, nodes)]))
    case Relation(tags, ms) =>
      Ok(s.(relations := s.relations + [RelationRow(fmt, id, tags)], members := s.members + MemberRows(id, ms)))
  }

  function WriteAll(fmt: Renderer, s: Sink, es: seq<(int64, Entity)>): Result<Sink, Error>
    decreases |es|
  {
    if |es| == 0 then Ok(s)
    else
      var s' :- Write(fmt, s, es[0].0, es[0].1);
      WriteAll(fmt, s', es[1..])
  }

  function Types(es: seq<(int64, Entity)>): (r: seq<EntityType>)
    ensures |r| == |es|
    ensures forall i :: 0 <= i < |es| ==> r[i] == TypeOf(es[i].1)
    decreases |es|
  {
    if |es| == 0 then [] else [TypeOf(es[0].1)] + Types(es[1..])
  }

  /** The phases the types pass through, each allowed after the one before. */
  predicate OrderFrom(phase: Option<EntityType>, ts: seq<EntityType>)
    decreases |ts|
  {
    |ts| == 0 || (Follows(phase, ts[0]) && OrderFrom(Some(ts[0]), ts[1..]))
  }

  /** Each type is the one before it or the next one after it. */
  predicate Steps(ts: seq<EntityType>) {
    forall i :: 0 <= i < |ts| - 1 ==> Ordinal(ts[i]) <= Ordinal(ts[i + 1]) <= Ordinal(ts[i]) + 1
  }

  /**
   * The standard order: nodes first, then ways, then relations, where ways
   * need some node before them and relations some way.
   */
  predicate StandardOrder(ts: seq<EntityType>) {
    (|ts| > 0 ==> ts[0] == NodeType) && Steps(ts)
  }

  /** A run of writes succeeds exactly when every step is allowed. */
  lemma {:induction false} WriteAllOk(fmt: Renderer, s: Sink, es: seq<(int64, Entity)>)
    ensures WriteAll(fmt, s, es).Ok? <==> OrderFrom(s.phase, Types(es))
    decreases |es|
  {
    if |es| > 0 {
      var w := Write(fmt, s, es[0].0, es[0].1);
      assert Types(es)[1..] == Types(es[1..]);
      if w.Ok? {
        WriteAllOk(fmt, w.value, es[1..]);
      }
    }
  }

  /** A chain of steps is a first step followed by a chain. */
  lemma StepsCons(t: EntityType, ts: seq<EntityType>)
    requires |ts| > 0
    ensures Steps([t] + ts) <==> Follows(Some(t), ts[0]) && Steps(ts)
  {
    var u := [t] + ts;
    assert u[0] == t && u[1] == ts[0];
    if Steps(u) {
      forall i | 0 <= i < |ts| - 1
        ensures Ordinal(ts[i]) <= Ordinal(ts[i + 1]) <= Ordinal(ts[i]) + 1
      {
        assert ts[i] == u[i + 1] && ts[i + 1] == u[i + 2];
      }
    }
    if Follows(Some(t), ts[0]) && Steps(ts) {
      forall i | 0 <= i < |u| - 1
        ensures Ordinal(u[i]) <= Ordinal(u[i + 1]) <= Ordinal(u[i]) + 1
      {
        if i > 0 {
          assert u[i] == ts[i - 1] && u[i + 1] == ts[i];
        }
      }
    }
  }

  lemma {:induction false} OrderFromSome(t: EntityType, ts: seq<EntityType>)
    ensures OrderFrom(Some(t), ts) <==> Steps([t] + ts)
    decreases |ts|
  {
    if |ts| > 0 {
      OrderFromSome(ts[0], ts[1..]);
      assert [ts[0]] + ts[1..] == ts;
      StepsCons(t, ts);
    }
  }

  /**
   * From an empty sink, a run of writes succeeds exactly when the entities
   * come in the standard order.
   */
  lemma LoadsIffStandard(fmt: Renderer, es: seq<(int64, Entity)>)
    ensures WriteAll(fmt, EMPTY, es).Ok? <==> StandardOrder(Types(es))
  {
    WriteAllOk(fmt, EMPTY, es);
    var ts := Types(es);
    if |ts| > 0 {
      OrderFromSome(ts[0], ts[1..]);
      assert [ts[0]] + ts[1..] == ts;
    }
  }

  /**
   * What the sink keeps true: the phase's count is the number of rows in the
   * phase's table, and later tables are still empty.
   */
  predicate Inv(s: Sink) {
    match s.phase
    case None => s.inserted == 0 && s.nodes == [] && s.ways == [] && s.relations == [] && s.members == []
    case Some(NodeType) => s.inserted == |s.nodes| && s.ways == [] && s.relations == [] && s.members == []
    case Some(WayType) => s.inserted == |s.ways| && s.relations == []  && s.members == []
    case Some(RelationType) => s.inserted == |s.relations|
  }

  lemma WriteKeeps(fmt: Renderer, s: Sink, id: int64, e: Entity)
    requires Inv(s)
    ensures Write(fmt, s, id, e).Ok? ==> Inv(Write(fmt, s, id, e).value)
  {
  }

  function MemberCount(es: seq<(int64, Entity)>): (n: nat)
    decreases |es|
  {
    if |es| == 0 then 0
    else (if es[0].1.Relation? then |es[0].1.members| else 0) + MemberCount(es[1..])
  }

  /**
   * Every entity written becomes exactly one row, and every member of a
   * relation one member row; the invariant holds throughout.
   */
  lemma {:induction false} RowsPerEntity(fmt: Renderer, s: Sink, es: seq<(int64, Entity)>)
    requires Inv(s)
    ensures var r := WriteAll(fmt, s, es);
      r.Ok? ==>
        Inv(r.value)
        && |r.value.nodes| + |r.value.ways| + |r.value.relations|
          == |s.nodes| + |s.ways| + |s.relations| + |es|
        && |r.value.members| == |s.members| + MemberCount(es)
    decreases |es|
  {
    if |es| > 0 {
      var w := Write(fmt, s, es[0].0, es[0].1);
      WriteKeeps(fmt, s, es[0].0, es[0].1);
      if w.Ok? {
        RowsPerEntity(fmt, w.value, es[1..]);
      }
    }
  }

  // ------------------------------------------------------------ reading back

  lemma DecimalFree(n: int, sep: char)
    requires !IsDigit(sep) && sep != '-'
    ensures Free(Decimal(n), sep)
  {
  }

  /** The ids of a Postgres array literal's body. */
  function ParseIds(s: string): Result<seq<int64>, Error> {
    if s == "" then Ok([]) else ParseEach(Fields(s, ','))
  }

  function ParseEach(fs: seq<string>): Result<seq<int64>, Error>
    decreases |fs|
  {
    if |fs| == 0 then Ok([])
    else
      var x :- ParseLong(fs[0]);
      var xs :- ParseEach(fs[1..]);
      Ok([x] + xs)
  }

  lemma {:induction false} ParseEachDecimals(ids: seq<int64>)
    ensures ParseEach(DecimalsOf(ids)) == Ok(ids)
    decreases |ids|
  {
    if |ids| > 0 {
      var fs := DecimalsOf(ids);
      ParseLongDecimal(ids[0]);
      ParseEachDecimals(ids[1..]);
      assert fs[1..] == DecimalsOf(ids[1..]);
      ParseEachCons(fs, ids[0], ids[1..]);
      assert [ids[0]] + ids[1..] == ids;
    }
  }

  /** Fields whose first parses to `x` and whose rest parse to `xs` parse to `x` followed by `xs`. */
  lemma ParseEachCons(fs: seq<string>, x: int64, xs: seq<int64>)
    requires |fs| > 0 && ParseLong(fs[0]) == Ok(x) && ParseEach(fs[1..]) == Ok(xs)
    ensures ParseEach(fs) == Ok([x] + xs)
  {
  }

  lemma DecimalsFree(ids: seq<int64>, sep: char)
    requires !IsDigit(sep) && sep != '-'
    ensures AllFree(DecimalsOf(ids), sep)
  {
    forall i | 0 <= i < |ids|
      ensures Free(DecimalsOf(ids)[i], sep)
    {
      DecimalFree(ids[i], sep);
    }
  }

  /** The array literal of a way's nodes reads back as the nodes. */
  lemma JoinRoundTrip(ids: seq<int64>)
    ensures ParseIds(Join(ids)) == Ok(ids)
  {
    var ds := DecimalsOf(ids);
    if |ids| > 0 {
      assert Join(ids) != "" by {
        if |ids| > 1 {
          assert Join(ids)[0] == ds[0][0];
        }
      }
      DecimalsFree(ids, ',');
      JoinWithFields(ds, ',');
      ParseEachDecimals(ids);
    }
  }

  /** Cutting a row without its line feed at the tabs gives back its columns. */
  lemma LineColumns(cols: seq<string>)
    requires |cols| > 0 && AllFree(cols, '\t')
    ensures var row := Line(cols);
      |row| > 0 && row[|row| - 1] == '\n' && Fields(row[..|row| - 1], '\t') == cols
  {
    var row := Line(cols);
    assert row[..|row| - 1] == JoinWith(cols, '\t');
    JoinWithFields(cols, '\t');
  }

  lemma CleanFree(s: string)
    ensures Free(Clean(s), '\t')
  {
    CleanPlain(s);
  }

  /**
   * A way row is one line of three columns: the id, which reads back as the
   * id, the cleaned tags, and the braced array of node ids, which reads back
   * as the nodes.
   */
  lemma WayRowColumns(fmt: Renderer, id: int64, tags: seq<Tag>, nodes: seq<int64>)
    ensures var row := WayRow(fmt, id, tags, nodes);
      |row| > 0 && row[|row| - 1] == '\n'
      && Fields(row[..|row| - 1], '\t') == [Decimal(id), Clean(fmt.tagsText(tags)), "{" + Join(nodes) + "}"]
      && ParseLong(Decimal(id)) == Ok(id)
      && ParseIds(Join(nodes)) == Ok(nodes)
  {
    var cols := [Decimal(id), Clean(fmt.tagsText(tags)), "{" + Join(nodes) + "}"];
    DecimalFree(id, '\t');
    CleanFree(fmt.tagsText(tags));
    DecimalsFree(nodes, '\t');
    JoinWithFree(DecimalsOf(nodes), ',', '\t');
    assert AllFree(cols, '\t');
    LineColumns(cols);
    ParseLongDecimal(id);
    JoinRoundTrip(nodes);
  }

  /** A member row is one line of four columns: relation id, member type, member id and role. */
  lemma MemberRowColumns(id: int64, m: Member)
    ensures var row := MemberRow(id, m);
      |row| > 0 && row[|row| - 1] == '\n'
      && Fields(row[..|row| - 1], '\t') == [Decimal(id), TypeName(m.kind), Decimal(m.id), Clean(m.role)]
      && ParseLong(Decimal(m.id)) == Ok(m.id)
  {
    var cols := [Decimal(id), TypeName(m.kind), Decimal(m.id), Clean(m.role)];
    DecimalFree(id, '\t');
    DecimalFree(m.id, '\t');
    CleanFree(m.role);
    assert AllFree(cols, '\t');
    LineColumns(cols);
    ParseLongDecimal(m.id);
  }

  // ------------------------------------------------------------------ human

  /**
   * `human`: counts below a thousand in full, below a million in whole
   * thousands with a `k`; larger counts print a float and give `None` here.
   */
  function Human(n: int32): Option<string> {
    if n >= 1_000_000 then None
    else if n >= 1000 then Some(Decimal(n / 1000) + "k")
    else Some(Decimal(n))
  }

  /** Small counts read back exactly. */
  lemma HumanSmall(n: int32)
    requires n < 1000
    ensures Human(n).Some? && ParseInt(Human(n).value) == Ok(n)
  {
    ParseDecimal(n, -0x8000_0000, 0x7fff_ffff);
  }

  /** Thousands read back as the count rounded down to whole thousands. */
  lemma HumanThousands(n: int32)
    requires 1000 <= n < 1_000_000
    ensures Human(n).Some?
    ensures var h := Human(n).value;
      |h| >= 2 && h[|h| - 1] == 'k'
      && AllDigits(h[..|h| - 1])
      && 1 <= ValueOf(h[..|h| - 1]) <= 999
      && ValueOf(h[..|h| - 1]) * 1000 <= n < ValueOf(h[..|h| - 1]) * 1000 + 1000
  {
    var h := Human(n).value;
    assert h[..|h| - 1] == Digits(n / 1000);
    DigitsValue(n / 1000);
  }
}

=== FILE: replication.dfy ===
/**
 * Replication: keeping a database current from the planet server's diffs.
 * A sequence number names a diff by a three-level path; a state file names
 * the latest sequence number and its timestamp; a scan walks sequence
 * numbers downward until it reaches diffs the database already has, and
 * the diffs found are applied oldest first.
 *
 * The network is the `Remote` oracle, the XML date parser is a parameter,
 * and applying one diff is a parameter (the changeset handler does it).
 */
module Replication {
  import opened Wrappers
  import opened Bytes
  import opened Errors
  import opened Numerals
  import opened Text

  const BASE_URL: string := "http://planet.openstreetmap.org/replication/"

  /** The timescales, coarsest first, in the order the minutely updater polls them. */
  const SCALES: seq<string> := ["day", "hour", "minute"]

  // ------------------------------------------------------- sequence numbers

  /** A positive sequence number cut into millions, thousands and units. */
  function Split(n: int32): (int, int, int)
    requires n > 0
  {
    var a := n / 1000000;
    var b := (n - a * 1000000) / 1000;
    var c := n - a * 1000000 - b * 1000;
    (a, b, c)
  }

  /** The parts put back together give the number, with the lower two below a thousand. */
  lemma SplitParts(n: int32)
    requires n > 0
    ensures var (a, b, c) := Split(n);
      n == a * 1000000 + b * 1000 + c && 0 <= a <= 2147 && 0 <= b <= 999 && 0 <= c <= 999
  {
  }

  /** Any such decomposition is the one `Split` computes. */
  lemma SplitUnique(n: int32, a: int, b: int, c: int)
    requires n > 0 && a >= 0 && 0 <= b <= 999 && 0 <= c <= 999
    requires n == a * 1000000 + b * 1000 + c
    ensures Split(n) == (a, b, c)
  {
    assert b * 1000 + c < 1000000;
    assert n / 1000000 == a;
    assert (b * 1000 + c) / 1000 == b;
  }

  /** `%03d/%03d/%03d` of the parts. */
  function SeqPath(n: int32): string
    requires n > 0
  {
    var (a, b, c) := Split(n);
    Pad3(a) + "/" + Pad3(b) + "/" + Pad3(c)
  }

  /** The path reads back as the sequence number: three digit groups, millions first. */
  lemma SeqPathRoundTrip(n: int32)
    requires n > 0
    ensures var f := Fields(SeqPath(n), '/');
      |f| == 3 && AllDigits(f[0]) && AllDigits(f[1]) && AllDigits(f[2])
      && ValueOf(f[0]) * 1000000 + ValueOf(f[1]) * 1000 + ValueOf(f[2]) == n
  {
    var (a, b, c) := Split(n);
    SplitParts(n);
    Pad3Value(a);
    Pad3Value(b);
    Pad3Value(c);
    SeqPathFields(n);
  }

  /** The path splits at its slashes into the three padded groups. */
  lemma SeqPathFields(n: int32)
    requires n > 0
    ensures var (a, b, c) := Split(n);
      Fields(SeqPath(n), '/') == [Pad3(a), Pad3(b), Pad3(c)]
  {
    var (a, b, c) := Split(n);
    SplitParts(n);
    Pad3Value(a);
    Pad3Value(b);
    Pad3Value(c);
    assert Free(Pad3(a), '/') && Free(Pad3(b), '/') && Free(Pad3(c), '/');
    assert SeqPath(n) == Pad3(a) + ['/'] + (Pad3(b) + ['/'] + Pad3(c));
    FieldsCons(Pad3(a), '/', Pad3(b) + ['/'] + Pad3(c));
    FieldsCons(Pad3(b), '/', Pad3(c));
    FieldsFree(Pad3(c), '/');
  }

  /** Different sequence numbers have different paths. */
  lemma SeqPathInjective(m: int32, n: int32)
    requires m > 0 && n > 0 && SeqPath(m) == SeqPath(n)
    ensures m == n
  {
    SeqPathRoundTrip(m);
    SeqPathRoundTrip(n);
  }

  /** The URL of diff `n` at a timescale. */
  function DiffUrl(scale: string, n: int32): string
    requires n > 0
  {
    BASE_URL + scale + "/" + SeqPath(n) + ".osc.gz"
  }

  /**
   * The URL of a state file: the diff's URL with its last six characters
   * replaced by `state.txt`, or the timescale's own state file for `n <= 0`.
   */
  function StateUrl(scale: string, n: int32): string {
    if n > 0 then
      var u := DiffUrl(scale, n);
      u[..|u| - 6] + "state.txt"
    else BASE_URL + scale + "/" + "state.txt"
  }

  /** Cutting six characters off `.osc.gz` keeps the dot: the state file sits beside the diff. */
  lemma StateUrlBesideDiff(scale: string, n: int32)
    requires n > 0
    ensures StateUrl(scale, n) == BASE_URL + scale + "/" + SeqPath(n) + ".state.txt"
  {
    var prefix := BASE_URL + scale + "/" + SeqPath(n);
    var u := DiffUrl(scale, n);
    assert u == prefix + "." + "osc.gz";
    assert u[..|u| - 6] == prefix + ".";
  }

  // -------------------------------------------------------------- state file

  /** `split` drops the empty strings at the end of its result. */
  function StripTrailing(fs: seq<string>): (r: seq<string>)
    ensures |r| <= |fs| && r == fs[..|r|]
    ensures |r| > 0 ==> r[|r| - 1] != ""
    ensures forall i :: |r| <= i < |fs| ==> fs[i] == ""
    decreases |fs|
  {
    if |fs| == 0 || fs[|fs| - 1] != "" then fs else StripTrailing(fs[..|fs| - 1])
  }

  /**
   * `String.split` on a one-character pattern: a string without the
   * separator is its own single field; otherwise the pieces between
   * separators, without the empty ones at the end.
   */
  function JavaSplit(s: string, sep: char): seq<string> {
    if Free(s, sep) then [s] else StripTrailing(Fields(s, sep))
  }

  lemma FreeConcat(a: string, sep: char, b: string)
    requires Free(a, sep)
    ensures !Free(a + [sep] + b, sep)
  {
    assert (a + [sep] + b)[|a|] == sep;
  }

  /** A state file line setting a key. */
  function Entry(k: string, v: string): string {
    k + "=" + v
  }

  /** `key=value` splits into the key and the value. */
  lemma SplitPair(k: string, v: string)
    requires Free(k, '=') && Free(v, '=') && v != ""
    ensures JavaSplit(Entry(k, v), '=') == [k, v]
  {
    FreeConcat(k, '=', v);
    FieldsCons(k, '=', v);
    FieldsFree(v, '=');
  }

  predicate Comment(line: string) {
    |line| > 0 && line[0] == '#'
  }

  /** One line of a state file: comments and lines without exactly two fields leave the map alone. */
  function Put(m: map<string, string>, line: string): map<string, string> {
    if Comment(line) then m
    else
      var fields := JavaSplit(line, '=');
      if |fields| != 2 then m else m[fields[0] := fields[1]]
  }

  /** The key-value pairs of a state file, read line by line. */
  function Kvs(lines: seq<string>): map<string, string>
    decreases |lines|
  {
    if |lines| == 0 then map[] else Put(Kvs(lines[..|lines| - 1]), lines[|lines| - 1])
  }

  /** A later `key=value` line sets the key, overwriting an earlier value. */
  lemma KvsPair(lines: seq<string>, k: string, v: string)
    requires Free(k, '=') && Free(v, '=') && v != "" && !Comment(k)
    ensures Kvs(lines + [Entry(k, v)]) == Kvs(lines)[k := v]
  {
    var ls := lines + [Entry(k, v)];
    assert ls[..|ls| - 1] == lines;
    SplitPair(k, v);
    assert !Comment(Entry(k, v)) by {
      if |k| == 0 {
        assert (k + "=" + v)[0] == '=';
      } else {
        assert (k + "=" + v)[0] == k[0];
      }
    }
  }

  /** Comment lines, and lines without a separator, are ignored. */
  lemma KvsIgnores(lines: seq<string>, line: string)
    requires Comment(line) || Free(line, '=')
    ensures Kvs(lines + [line]) == Kvs(lines)
  {
    var ls := lines + [line];
    assert ls[..|ls| - 1] == lines;
  }

  /** A line with two separators between non-empty parts has three fields and is ignored. */
  lemma KvsIgnoresThree(lines: seq<string>, k: string, v: string, w: string)
    requires Free(k, '=') && Free(v, '=') && Free(w, '=') && w != "" && !Comment(k)
    ensures Kvs(lines + [k + "=" + v + "=" + w]) == Kvs(lines)
  {
    var line := k + "=" + v + "=" + w;
    var ls := lines + [line];
    assert ls[..|ls| - 1] == lines;
    assert line == k + ['='] + (v + ['='] + w);
    FreeConcat(k, '=', v + ['='] + w);
    FieldsCons(k, '=', v + ['='] + w);
    FieldsCons(v, '=', w);
    FieldsFree(w, '=');
    assert Fields(line, '=') == [k, v, w];
    assert StripTrailing([k, v, w]) == [k, v, w];
  }

  /** `replace("\\:", ":")`: each escaped colon, scanned left to right, loses its backslash. */
  function Unescape(s: string): string
    decreases |s|
  {
    if |s| == 0 then ""
    else if |s| >= 2 && s[0] == '\\' && s[1] == ':' then ":" + Unescape(s[2..])
    else [s[0]] + Unescape(s[1..])
  }

  /** Colons escaped as a state file writes them. */
  function Escape(s: string): (r: string)
    ensures |r| > 0 ==> r[0] != ':'
    decreases |s|
  {
    if |s| == 0 then ""
    else if s[0] == ':' then "\\:" + Escape(s[1..])
    else [s[0]] + Escape(s[1..])
  }

  /** Unescaping undoes escaping. */
  lemma {:induction false} UnescapeEscape(s: string)
    ensures Unescape(Escape(s)) == s
    decreases |s|
  {
    if |s| > 0 {
      UnescapeEscape(s[1..]);
      var e := Escape(s);
      if s[0] == ':' {
        assert e[2..] == Escape(s[1..]);
      } else {
        assert e[1..] == Escape(s[1..]);
        assert e[0] == s[0];
      }
      assert [s[0]] + s[1..] == s;
    }
  }

  /** A string without backslashes is left as it is. */
  lemma {:induction false} UnescapePlain(s: string)
    requires Free(s, '\\')
    ensures Unescape(s) == s
    decreases |s|
  {
    if |s| > 0 {
      UnescapePlain(s[1..]);
      assert [s[0]] + s[1..] == s;
    }
  }

  // ---------------------------------------------------------------- fetching

  /**
   * The outside world: the lines of the document at a URL (`None` when the
   * request fails), and the XML date-time parser (milliseconds since the
   * epoch, `None` when the text is not a date).
   */
  datatype Remote = Remote(fetch: string -> Option<seq<string>>, parseTime: string -> Option<int64>)

  /** One diff: its URL (none for a timescale's own state), timescale, sequence number and timestamp. */
  datatype DiffState = DiffState(url: Option<string>, timescale: string, sequenceNumber: int32, timestamp: int64)

  /**
   * `fetchState`: read the state file of diff `n` (or of the timescale when
   * `n <= 0`); any exception on the way gives `None`.
   */
  function FetchState(r: Remote, scale: string, n: int32): (d: Option<DiffState>)
    ensures d.Some? ==> d.value.timescale == scale
    ensures d.Some? ==> d.value.url == (if n > 0 then Some(DiffUrl(scale, n)) else None)
    ensures d.Some? ==> r.fetch(StateUrl(scale, n)).Some?
  {
    match r.fetch(StateUrl(scale, n))
    case None => None
    case Some(lines) =>
      var kvs := Kvs(lines);
      if "timestamp" !in kvs then None
      else match r.parseTime(Unescape(kvs["timestamp"]))
        case None => None
        case Some(millis) =>
          if "sequenceNumber" !in kvs then None
          else match ParseInt(kvs["sequenceNumber"])
            case Err(_) => None
            case Ok(sn) =>
              Some(DiffState(if n > 0 then Some(DiffUrl(scale, n)) else None, scale, sn, JavaDiv(millis, 1000) as int64))
  }

  /**
   * A state is read exactly when the document arrives with a parseable
   * timestamp and sequence number; the timestamp is the parsed time in
   * whole seconds, rounded toward zero.
   */
  lemma FetchStateReads(r: Remote, scale: string, n: int32)
    ensures var d := FetchState(r, scale, n);
      var doc := r.fetch(StateUrl(scale, n));
      d.Some? <==>
        (doc.Some?
         && "timestamp" in Kvs(doc.value) && r.parseTime(Unescape(Kvs(doc.value)["timestamp"])).Some?
         && "sequenceNumber" in Kvs(doc.value) && ParseInt(Kvs(doc.value)["sequenceNumber"]).Ok?)
    ensures var d := FetchState(r, scale, n);
      var doc := r.fetch(StateUrl(scale, n));
      d.Some? ==>
        ParseInt(Kvs(doc.value)["sequenceNumber"]) == Ok(d.value.sequenceNumber)
        && d.value.timestamp as int == JavaDiv(r.parseTime(Unescape(Kvs(doc.value)["timestamp"])).value as int, 1000)
  {
  }

  // ---------------------------------------------------------------- scanning

  /** The replication states of one timescale by sequence number, as a scan sees them. */
  type States = int -> Option<DiffState>

  function StatesOf(r: Remote, scale: string): States {
    k => if 0 < k <= 0x7fff_ffff then FetchState(r, scale, k as int32) else None
  }

  /** Where a downward scan stops: `Updater` at timestamps at or before the database's, `MinutelyUpdater` only before it. */
  datatype Stop = AtOrBefore | Before

  predicate Stops(stop: Stop, t: int64, db: int64) {
    match stop
    case AtOrBefore => t <= db
    case Before => t < db
  }

  /**
   * The work queue: the states of diffs `n`, `n - 1`, ... down to the first
   * that stops the scan or to 1, newest first. A missing state is a null
   * dereference.
   */
  function Scan(states: States, n: int, db: int64, stop: Stop): Result<seq<DiffState>, Error>
    decreases n
  {
    if n <= 0 then Ok([])
    else match states(n)
      case None => Err(NullState)
      case Some(d) =>
        if Stops(stop, d.timestamp, db) then Ok([])
        else
          var rest :- Scan(states, n - 1, db, stop);
          Ok([d] + rest)
  }

  /** The states `lo`, `lo + 1`, ... in order, none of which stops the scan. */
  ghost predicate Run(states: States, ds: seq<DiffState>, lo: int, db: int64, stop: Stop) {
    forall i :: 0 <= i < |ds| ==> states(lo + i) == Some(ds[i]) && !Stops(stop, ds[i].timestamp, db)
  }

  /** The scan ended at `k`: 0 and below, or a state that stops it. */
  ghost predicate Boundary(states: States, k: int, db: int64, stop: Stop) {
    k > 0 ==> states(k).Some? && Stops(stop, states(k).value.timestamp, db)
  }

  /** The states `top`, `top - 1`, ... in order, none of which stops the scan. */
  ghost predicate Down(states: States, q: seq<DiffState>, top: int, db: int64, stop: Stop) {
    forall i :: 0 <= i < |q| ==> states(top - i) == Some(q[i]) && !Stops(stop, q[i].timestamp, db)
  }

  /** A run named by an equal lower end. */
  lemma RunRebase(states: States, ds: seq<DiffState>, lo: int, lo': int, db: int64, stop: Stop)
    requires Run(states, ds, lo, db, stop) && lo == lo'
    ensures Run(states, ds, lo', db, stop)
  {
  }

  /** A state on top of a downward run extends it. */
  lemma DownCons(states: States, d: DiffState, q: seq<DiffState>, top: int, db: int64, stop: Stop)
    requires states(top) == Some(d) && !Stops(stop, d.timestamp, db)
    requires Down(states, q, top - 1, db, stop)
    ensures Down(states, [d] + q, top, db, stop)
  {
    var e := [d] + q;
    forall i | 0 <= i < |e|
      ensures states(top - i) == Some(e[i]) && !Stops(stop, e[i].timestamp, db)
    {
      if i > 0 {
        assert e[i] == q[i - 1];
        assert top - i == (top - 1) - (i - 1);
      }
    }
  }

  /**
   * A successful scan from `n` is the downward run of states from `n`,
   * none of which stops the scan, and the scan ended just below it.
   */
  lemma {:induction false} ScanShape(states: States, n: int, db: int64, stop: Stop)
    requires Scan(states, n, db, stop).Ok?
    ensures var q := Scan(states, n, db, stop).value;
      |q| <= (if n > 0 then n else 0)
      && Down(states, q, n, db, stop)
      && Boundary(states, n - |q|, db, stop)
    decreases n
  {
    if n > 0 {
      assert states(n).Some?;
      var d := states(n).value;
      if !Stops(stop, d.timestamp, db) {
        ScanShape(states, n - 1, db, stop);
        var rest := Scan(states, n - 1, db, stop).value;
        assert Scan(states, n, db, stop) == Ok([d] + rest);
        DownCons(states, d, rest, n, db, stop);
      }
    }
  }

  /** Read oldest first, a downward run from `top` is the run up to `top`. */
  lemma {:induction false} RunOfDown(states: States, q: seq<DiffState>, top: int, db: int64, stop: Stop)
    requires Down(states, q, top, db, stop)
    ensures Run(states, Reverse(q), top - |q| + 1, db, stop)
    decreases |q|
  {
    if |q| > 0 {
      DownTail(states, q, top, db, stop);
      RunOfDown(states, q[1..], top - 1, db, stop);
      assert Reverse(q) == Reverse(q[1..]) + [q[0]];
      RunSnoc(states, Reverse(q[1..]), q[0], top - |q| + 1, db, stop);
    }
  }

  /** A downward run is its top state over the run below it. */
  lemma DownTail(states: States, q: seq<DiffState>, top: int, db: int64, stop: Stop)
    requires Down(states, q, top, db, stop) && |q| > 0
    ensures states(top) == Some(q[0]) && !Stops(stop, q[0].timestamp, db)
    ensures Down(states, q[1..], top - 1, db, stop)
  {
    assert top - 0 == top;
    forall i | 0 <= i < |q[1..]|
      ensures states(top - 1 - i) == Some(q[1..][i]) && !Stops(stop, q[1..][i].timestamp, db)
    {
      assert q[1..][i] == q[i + 1];
      assert top - 1 - i == top - (i + 1);
    }
  }

  /** The state just above an ascending run extends it. */
  lemma RunSnoc(states: States, ds: seq<DiffState>, d: DiffState, lo: int, db: int64, stop: Stop)
    requires Run(states, ds, lo, db, stop) && states(lo + |ds|) == Some(d) && !Stops(stop, d.timestamp, db)
    ensures Run(states, ds + [d], lo, db, stop)
  {
    forall i | 0 <= i < |ds + [d]|
      ensures states(lo + i) == Some((ds + [d])[i]) && !Stops(stop, (ds + [d])[i].timestamp, db)
    {
      if i < |ds| {
        assert (ds + [d])[i] == ds[i];
      } else {
        assert (ds + [d])[i] == d && lo + i == lo + |ds|;
      }
    }
  }

  function Reverse<T>(s: seq<T>): (r: seq<T>)
    ensures |r| == |s|
    ensures forall i :: 0 <= i < |s| ==> r[i] == s[|s| - 1 - i]
    decreases |s|
  {
    if |s| == 0 then [] else Reverse(s[1..]) + [s[0]]
  }

  /**
   * `Updater.findDiffs` given the timescale's latest state and the states by
   * number: nothing unless the latest is newer than the database; otherwise
   * the scan from the latest number, oldest first.
   */
  function FindIn(latest: Option<DiffState>, states: States, db: int64): Result<seq<DiffState>, Error> {
    match latest
    case None => Err(NullState)
    case Some(l) =>
      if l.timestamp > db then
        var q :- Scan(states, l.sequenceNumber as int, db, AtOrBefore);
        Ok(Reverse(q))
      else Ok([])
  }

  /** `MinutelyUpdater`'s scan of one timescale, oldest first; it has no freshness test first. */
  function ScaleIn(latest: Option<DiffState>, states: States, db: int64): Result<seq<DiffState>, Error> {
    match latest
    case None => Err(NullState)
    case Some(l) =>
      var q :- Scan(states, l.sequenceNumber as int, db, Before);
      Ok(Reverse(q))
  }

  function FindDiffs(r: Remote, scale: string, db: int64): Result<seq<DiffState>, Error> {
    FindIn(FetchState(r, scale, 0), StatesOf(r, scale), db)
  }

  function ScaleDiffs(r: Remote, scale: string, db: int64): Result<seq<DiffState>, Error> {
    ScaleIn(FetchState(r, scale, 0), StatesOf(r, scale), db)
  }

  /**
   * `findDiffs` returns exactly the diffs newer than the database, in
   * ascending sequence order and ending at the latest number; the one
   * before them, if there is one, is not newer.
   */
  lemma FindDiffsSelects(latest: Option<DiffState>, states: States, db: int64)
    requires FindIn(latest, states, db).Ok?
    ensures latest.Some?
    ensures var ds := FindIn(latest, states, db).value;
      var top := latest.value.sequenceNumber as int;
      (latest.value.timestamp <= db ==> ds == [])
      && (latest.value.timestamp > db ==> Selected(states, ds, top, db, AtOrBefore))
  {
    FindInScan(latest, states, db);
    if latest.value.timestamp > db {
      ScanSelects(states, latest.value.sequenceNumber as int, db, AtOrBefore, FindIn(latest, states, db).value);
    }
  }

  /** `findDiffs` is empty, or the scan from the latest number read oldest first. */
  lemma FindInScan(latest: Option<DiffState>, states: States, db: int64)
    requires FindIn(latest, states, db).Ok?
    ensures latest.Some?
    ensures latest.value.timestamp <= db ==> FindIn(latest, states, db).value == []
    ensures latest.value.timestamp > db ==>
              && Scan(states, latest.value.sequenceNumber as int, db, AtOrBefore).Ok?
              && FindIn(latest, states, db).value == Reverse(Scan(states, latest.value.sequenceNumber as int, db, AtOrBefore).value)
  {
  }

  /** The minutely updater's scan keeps the run of diffs not older than the database, up to the latest number. */
  lemma ScaleDiffsSelects(latest: Option<DiffState>, states: States, db: int64)
    requires ScaleIn(latest, states, db).Ok?
    ensures latest.Some?
    ensures var ds := ScaleIn(latest, states, db).value;
      Selected(states, ds, latest.value.sequenceNumber as int, db, Before)
  {
    ScaleInScan(latest, states, db);
    ScanSelects(states, latest.value.sequenceNumber as int, db, Before, ScaleIn(latest, states, db).value);
  }

  /** The minutely updater's list is the scan from the latest number read oldest first. */
  lemma ScaleInScan(latest: Option<DiffState>, states: States, db: int64)
    requires ScaleIn(latest, states, db).Ok?
    ensures latest.Some? && Scan(states, latest.value.sequenceNumber as int, db, Before).Ok?
    ensures ScaleIn(latest, states, db).value == Reverse(Scan(states, latest.value.sequenceNumber as int, db, Before).value)
  {
  }

  /** `ds` is the ascending run of states that ends at `top`, and the scan ended just below it. */
  ghost predicate Selected(states: States, ds: seq<DiffState>, top: int, db: int64, stop: Stop) {
    Run(states, ds, top - |ds| + 1, db, stop) && Boundary(states, top - |ds|, db, stop)
  }

  /** The scan goes on past `n`: a state is there and it does not stop the scan. */
  predicate Continues(states: States, n: int, db: int64, stop: Stop) {
    n > 0 && states(n).Some? && !Stops(stop, states(n).value.timestamp, db)
  }

  /** A successful scan from `n`, read oldest first, is the ascending run that ends at `n`, and the scan ended just below it. */
  lemma {:induction false} ScanSelects(states: States, n: int, db: int64, stop: Stop, ds: seq<DiffState>)
    requires Scan(states, n, db, stop).Ok? && ds == Reverse(Scan(states, n, db, stop).value)
    ensures Selected(states, ds, n, db, stop)
    decreases n
  {
    if Continues(states, n, db, stop) {
      var rest := ScanCons(states, n, db, stop);
      ScanSelects(states, n - 1, db, stop, Reverse(rest));
      SelectStep(states, n, states(n).value, Reverse(rest), ds, db, stop);
    } else {
      ScanEnds(states, n, db, stop);
      SelectEmpty(states, n, ds, db, stop);
    }
  }

  /** A scan that goes on past `n` is the state at `n` over the scan from `n - 1`. */
  lemma ScanCons(states: States, n: int, db: int64, stop: Stop) returns (rest: seq<DiffState>)
    requires Scan(states, n, db, stop).Ok? && Continues(states, n, db, stop)
    ensures Scan(states, n - 1, db, stop).Ok? && rest == Scan(states, n - 1, db, stop).value
    ensures Reverse(Scan(states, n, db, stop).value) == Reverse(rest) + [states(n).value]
  {
    var d := states(n).value;
    rest := Scan(states, n - 1, db, stop).value;
    assert Scan(states, n, db, stop) == Ok([d] + rest);
    assert Reverse([d] + rest) == Reverse(rest) + [d];
  }

  /** A scan that does not go on past `n` is empty, and it ended at `n`. */
  lemma ScanEnds(states: States, n: int, db: int64, stop: Stop)
    requires Scan(states, n, db, stop).Ok? && !Continues(states, n, db, stop)
    ensures Reverse(Scan(states, n, db, stop).value) == [] && Boundary(states, n, db, stop)
  {
  }

  /** An empty run ends just below where the scan ended. */
  lemma SelectEmpty(states: States, n: int, ds: seq<DiffState>, db: int64, stop: Stop)
    requires ds == [] && Boundary(states, n, db, stop)
    ensures Selected(states, ds, n, db, stop)
  {
    assert n - |ds| == n;
  }

  /** The scan's step, oldest first: the state at `n` goes on top of the run below it. */
  lemma SelectStep(states: States, n: int, d: DiffState, ds: seq<DiffState>, ds': seq<DiffState>, db: int64, stop: Stop)
    requires states(n) == Some(d) && !Stops(stop, d.timestamp, db) && ds' == ds + [d]
    requires Selected(states, ds, n - 1, db, stop)
    ensures Selected(states, ds', n, db, stop)
  {
    var lo := n - |ds|;
    RunRebase(states, ds, n - 1 - |ds| + 1, lo, db, stop);
    RunSnoc(states, ds, d, lo, db, stop);
    RunRebase(states, ds', lo, n - |ds'| + 1, db, stop);
  }

  /** Every diff in a run is newer than (`AtOrBefore`) or at least as new as (`Before`) the database. */
  lemma RunNewer(states: States, ds: seq<DiffState>, lo: int, db: int64, stop: Stop)
    requires Run(states, ds, lo, db, stop)
    ensures forall i :: 0 <= i < |ds| ==> if stop == AtOrBefore then ds[i].timestamp > db else ds[i].timestamp >= db
  {
    forall i | 0 <= i < |ds|
      ensures if stop == AtOrBefore then ds[i].timestamp > db else ds[i].timestamp >= db
    {
      assert states(lo + i) == Some(ds[i]) && !Stops(stop, ds[i].timestamp, db);
    }
  }

  /** A diff stamped exactly at the database time ends `Updater`'s scan but is kept by `MinutelyUpdater`'s. */
  lemma EqualTimestampKeptOnlyByMinutely(states: States, n: int, db: int64)
    requires n > 0 && states(n).Some? && states(n).value.timestamp == db
    ensures Scan(states, n, db, AtOrBefore) == Ok([])
    ensures Scan(states, n, db, Before).Ok? ==> Scan(states, n, db, Before).value[0] == states(n).value
  {
  }

  // ---------------------------------------------------------------- applying

  /** After applying: the database, its timestamp, the last diff applied, and how many were. */
  datatype Applied<D> = Applied(db: D, timestamp: int64, last: Option<DiffState>, count: nat)

  /**
   * `applyDiffs`: diffs in order, each moving the timestamp and the last
   * applied diff forward; the first failure ends the loop (the exception is
   * caught) and leaves the state of the diffs before it.
   */
  function ApplyDiffs<D>(apply: (D, DiffState) -> Option<D>, d: D, ts: int64, last: Option<DiffState>, diffs: seq<DiffState>): (a: Applied<D>)
    ensures a.count <= |diffs|
    ensures a.count == 0 ==> a.db == d && a.timestamp == ts && a.last == last
    ensures a.count > 0 ==> a.timestamp == diffs[a.count - 1].timestamp && a.last == Some(diffs[a.count - 1])
    ensures a.count < |diffs| ==> apply(a.db, diffs[a.count]).None?
    decreases |diffs|
  {
    if |diffs| == 0 then Applied(d, ts, last, 0)
    else match apply(d, diffs[0])
      case None => Applied(d, ts, last, 0)
      case Some(d') =>
        var rest := ApplyDiffs(apply, d', diffs[0].timestamp, Some(diffs[0]), diffs[1..]);
        rest.(count := rest.count + 1)
  }

  /** When every diff applies, the timestamp and the last applied diff are the last diff's. */
  lemma ApplyAllDiffs<D>(apply: (D, DiffState) -> Option<D>, d: D, ts: int64, last: Option<DiffState>, diffs: seq<DiffState>)
    requires forall x: D, s: DiffState :: apply(x, s).Some?
    requires |diffs| > 0
    ensures var a := ApplyDiffs(apply, d, ts, last, diffs);
      a.count == |diffs| && a.timestamp == diffs[|diffs| - 1].timestamp && a.last == Some(diffs[|diffs| - 1])
  {
  }

  /** If every diff is at least as new as the database, applying never moves the timestamp back. */
  lemma ApplyNotBack<D>(apply: (D, DiffState) -> Option<D>, d: D, ts: int64, last: Option<DiffState>, diffs: seq<DiffState>)
    requires forall i :: 0 <= i < |diffs| ==> diffs[i].timestamp >= ts
    ensures ApplyDiffs(apply, d, ts, last, diffs).timestamp >= ts
  {
  }

  // -------------------------------------------------------- minutely updater

  /** One timescale of `runUpdate`: scan from the current timestamp, then apply oldest first. */
  function ScaleUpdate<D>(r: Remote, apply: (D, DiffState) -> Option<D>, d: D, ts: int64, scale: string): Result<(D, int64), Error> {
    var ds :- ScaleDiffs(r, scale, ts);
    var a := ApplyDiffs(apply, d, ts, None, ds);
    Ok((a.db, a.timestamp))
  }

  /** `runUpdate`: the timescales in order, each starting from the timestamp the one before left. */
  function RunUpdate<D>(r: Remote, apply: (D, DiffState) -> Option<D>, d: D, ts: int64): Result<(D, int64), Error> {
    var x :- ScaleUpdate(r, apply, d, ts, SCALES[0]);
    var y :- ScaleUpdate(r, apply, x.0, x.1, SCALES[1]);
    ScaleUpdate(r, apply, y.0, y.1, SCALES[2])
  }

  lemma ScaleUpdateNotBack<D>(r: Remote, apply: (D, DiffState) -> Option<D>, d: D, ts: int64, scale: string)
    requires ScaleUpdate(r, apply, d, ts, scale).Ok?
    ensures ScaleUpdate(r, apply, d, ts, scale).value.1 >= ts
  {
    var latest := FetchState(r, scale, 0);
    ScaleDiffsSelects(latest, StatesOf(r, scale), ts);
    var ds := ScaleDiffs(r, scale, ts).value;
    RunNewer(StatesOf(r, scale), ds, latest.value.sequenceNumber as int - |ds| + 1, ts, Before);
    ApplyNotBack(apply, d, ts, None, ScaleDiffs(r, scale, ts).value);
  }

  /** The database timestamp never moves backward over a whole update. */
  lemma RunUpdateNotBack<D>(r: Remote, apply: (D, DiffState) -> Option<D>, d: D, ts: int64)
    requires RunUpdate(r, apply, d, ts).Ok?
    ensures RunUpdate(r, apply, d, ts).value.1 >= ts
  {
    var x := ScaleUpdate(r, apply, d, ts, SCALES[0]).value;
    ScaleUpdateNotBack(r, apply, d, ts, SCALES[0]);
    var y := ScaleUpdate(r, apply, x.0, x.1, SCALES[1]).value;
    ScaleUpdateNotBack(r, apply, x.0, x.1, SCALES[1]);
    ScaleUpdateNotBack(r, apply, y.0, y.1, SCALES[2]);
  }

  // ----------------------------------------------------------------- updater

  /** 2015-05-01T00:00:00Z and 2100-02-01T00:00:00Z in seconds since the epoch. */
  const MIN_REPLICATION_SECONDS: int := 1430438400
  const MAX_REPLICATION_SECONDS: int := 4105123200

  /** `MinutelyUpdater`'s starting database timestamp, 2015-05-06T00:00:00 read as UTC. */
  const MINUTELY_START_SECONDS: int := 1430870400

  /** The range of `Instant.ofEpochSecond`. */
  const INSTANT_MIN_SECOND: int := -31557014167219200
  const INSTANT_MAX_SECOND: int := 31556889864403199

  /** Days from 1970-01-01 to a proleptic Gregorian date. */
  function DaysFromCivil(y: int, m: int, d: int): int
    requires 1 <= m <= 12 && 1 <= d <= 31
  {
    var y' := if m <= 2 then y - 1 else y;
    var era := y' / 400;
    var yoe := y' - era * 400;
    var doy := (153 * (if m > 2 then m - 3 else m + 9) + 2) / 5 + d - 1;
    var doe := yoe * 365 + yoe / 4 - yoe / 100 + doy;
    era * 146097 + doe - 719468
  }

  /** The window's bounds are the instants the source names. */
  lemma ReplicationWindow()
    ensures DaysFromCivil(1970, 1, 1) == 0
    ensures MIN_REPLICATION_SECONDS == DaysFromCivil(2015, 5, 1) * 86400
    ensures MAX_REPLICATION_SECONDS == DaysFromCivil(2100, 2, 1) * 86400
    ensures MINUTELY_START_SECONDS == DaysFromCivil(2015, 5, 6) * 86400
  {
  }

  /**
   * `spawnUpdateThread`: the thread starts only for a database timestamp
   * inside the window; a timestamp no `Instant` can hold throws.
   */
  function StartsThread(t: int64): (r: Result<bool, Error>)
    ensures r.Err? <==> t < INSTANT_MIN_SECOND || t > INSTANT_MAX_SECOND
    ensures r.Ok? ==> (r.value <==>
      DaysFromCivil(2015, 5, 1) * 86400 <= t <= DaysFromCivil(2100, 2, 1) * 86400)
  {
    ReplicationWindow();
    if t < INSTANT_MIN_SECOND || t > INSTANT_MAX_SECOND then Err(DateTimeRange)
    else Ok(!(t < MIN_REPLICATION_SECONDS || t > MAX_REPLICATION_SECONDS))
  }

  /** What `run` keeps between polls. */
  datatype UpdaterState<D> = UpdaterState(db: D, timestamp: int64, lastApplied: Option<DiffState>)

  /** One `applyDiffs(findDiffs(scale))`. */
  function Round<D>(r: Remote, apply: (D, DiffState) -> Option<D>, st: UpdaterState<D>, scale: string): Result<UpdaterState<D>, Error> {
    var ds :- FindDiffs(r, scale, st.timestamp);
    var a := ApplyDiffs(apply, st.db, st.timestamp, st.lastApplied, ds);
    Ok(UpdaterState(a.db, a.timestamp, a.last))
  }

  /**
   * How the polling phase is measured: as written, from the last applied
   * diff, which is null until one has been applied; or from the last applied
   * diff and otherwise the database timestamp.
   */
  datatype PhaseFrom = LastApplied | LastAppliedOrDatabase

  /**
   * The day and hour rounds of one pass of `run`'s loop, each taken only
   * when the database is more than that far behind the clock reading `now`.
   */
  function CatchUp<D>(r: Remote, apply: (D, DiffState) -> Option<D>, st: UpdaterState<D>, now: int64): Result<UpdaterState<D>, Error> {
    var st1 :- if SubLong(now, st.timestamp) > 60 * 60 * 24 then Round(r, apply, st, "day") else Ok(st);
    if SubLong(now, st1.timestamp) > 60 * 60 then Round(r, apply, st1, "hour") else Ok(st1)
  }

  /** The time the polling phase is measured from. */
  function PhaseReference<D>(st: UpdaterState<D>, from: PhaseFrom): (t: Result<int64, Error>)
    ensures st.lastApplied.Some? ==> t == Ok(st.lastApplied.value.timestamp)
    ensures st.lastApplied.None? ==> (t.Err? <==> from == LastApplied)
    ensures t.Err? ==> t.error == NullState
  {
    match (st.lastApplied, from)
    case (Some(last), _) => Ok(last.timestamp)
    case (None, LastApplied) => Err(NullState)
    case (None, LastAppliedOrDatabase) => Ok(st.timestamp)
  }

  /**
   * The seconds slept after a poll at clock reading `later`: the minute
   * wait shortened by the phase error against `reference`, less the five
   * seconds the server needs to publish. Without wrap-around it wakes the
   * poller five seconds past a whole minute after `reference`.
   */
  function Sleep(later: int64, reference: int64): (s: int)
    ensures 6 <= s <= 124
    ensures -0x8000_0000_0000_0000 <= later - reference < 0x8000_0000_0000_0000 ==> (later + s - reference) % 60 == 5
  {
    var phaseError := JavaRem(SubLong(later, reference), 60) - 5;
    var sleep := 60 - phaseError;
    if sleep > 1 then sleep else 0
  }

  /** One pass of `run`'s loop at clock readings `now` and `later` (seconds): the catch-up rounds, the minute round, the sleep. */
  function Poll<D>(r: Remote, apply: (D, DiffState) -> Option<D>, st: UpdaterState<D>, now: int64, later: int64, from: PhaseFrom): Result<(UpdaterState<D>, int), Error> {
    var st2 :- CatchUp(r, apply, st, now);
    var st3 :- Round(r, apply, st2, "minute");
    var reference :- PhaseReference(st3, from);
    Ok((st3, Sleep(later, reference)))
  }

  /**
   * As written, a database that is already current when the loop starts
   * (no diff found, so none applied) makes the poll dereference the null
   * last applied diff.
   */
  lemma CurrentDatabaseStopsPolling<D>(r: Remote, apply: (D, DiffState) -> Option<D>, st: UpdaterState<D>, now: int64, later: int64)
    requires st.lastApplied.None? && SubLong(now, st.timestamp) <= 60 * 60
    requires FindDiffs(r, "minute", st.timestamp) == Ok([])
    ensures Poll(r, apply, st, now, later, LastApplied) == Err(NullState)
  {
  }

  /** A remote whose minute state is no newer than the database. */
  function QuietRemote(): Remote {
    Remote(_ => Some([Entry("sequenceNumber", "7"), Entry("timestamp", "t")]), _ => Some(0))
  }

  /** The concrete case: an empty database stamped at time 0, polled at time 0. */
  lemma QuietRemoteStopsPolling()
    ensures FindDiffs(QuietRemote(), "minute", 0) == Ok([])
    ensures Poll(QuietRemote(), (d: int, s: DiffState) => Some(d), UpdaterState(0, 0, None), 0, 0, LastApplied) == Err(NullState)
  {
    QuietMinuteState();
    assert FindDiffs(QuietRemote(), "minute", 0) == Ok([]);
    CurrentDatabaseStopsPolling(QuietRemote(), (d: int, s: DiffState) => Some(d), UpdaterState(0, 0, None), 0, 0);
  }

  /** The quiet remote's minute state reads back, stamped at time 0. */
  lemma QuietMinuteState()
    ensures FetchState(QuietRemote(), "minute", 0).Some? && FetchState(QuietRemote(), "minute", 0).value.timestamp == 0
  {
    QuietKvs();
    ParseSeven();
    assert QuietRemote().fetch(StateUrl("minute", 0)) == Some([Entry("sequenceNumber", "7"), Entry("timestamp", "t")]);
  }

  /** The quiet remote's state document holds both keys. */
  lemma QuietKvs()
    ensures var kvs := Kvs([Entry("sequenceNumber", "7"), Entry("timestamp", "t")]);
      "timestamp" in kvs && kvs["timestamp"] == "t" && "sequenceNumber" in kvs && kvs["sequenceNumber"] == "7"
  {
    assert Free("sequenceNumber", '=') && Free("7", '=') && Free("timestamp", '=') && Free("t", '=');
    KvsTwo("sequenceNumber", "7", "timestamp", "t");
  }

  /** A document of two `key=value` lines with different keys maps each key to its value. */
  lemma KvsTwo(k1: string, v1: string, k2: string, v2: string)
    requires Free(k1, '=') && Free(v1, '=') && v1 != "" && !Comment(k1)
    requires Free(k2, '=') && Free(v2, '=') && v2 != "" && !Comment(k2) && k1 != k2
    ensures var kvs := Kvs([Entry(k1, v1), Entry(k2, v2)]);
      k1 in kvs && kvs[k1] == v1 && k2 in kvs && kvs[k2] == v2
  {
    var l1 := Entry(k1, v1);
    KvsPair([], k1, v1);
    assert [] + [l1] == [l1];
    KvsPair([l1], k2, v2);
    assert [l1] + [Entry(k2, v2)] == [l1, Entry(k2, v2)];
  }

  lemma ParseSeven()
    ensures ParseInt("7") == Ok(7)
  {
    ParseDecimal(7, -0x8000_0000, 0x7fff_ffff);
    assert Decimal(7) == "7";
  }

  /** A round fails only when its scan does. */
  lemma RoundOk<D>(r: Remote, apply: (D, DiffState) -> Option<D>, st: UpdaterState<D>, scale: string)
    requires FindDiffs(r, scale, st.timestamp).Ok?
    ensures Round(r, apply, st, scale).Ok?
  {
  }

  /** Scans that always succeed make the catch-up rounds succeed. */
  lemma CatchUpOk<D>(r: Remote, apply: (D, DiffState) -> Option<D>, st: UpdaterState<D>, now: int64)
    requires forall scale, ts :: FindDiffs(r, scale, ts).Ok?
    ensures CatchUp(r, apply, st, now).Ok?
  {
    RoundOk(r, apply, st, "day");
    var st1 := if SubLong(now, st.timestamp) > 60 * 60 * 24 then Round(r, apply, st, "day").value else st;
    RoundOk(r, apply, st1, "hour");
  }

  /** Measured from the database timestamp when nothing has been applied, a poll fails only if a scan does. */
  lemma PollKeepsRunning<D>(r: Remote, apply: (D, DiffState) -> Option<D>, st: UpdaterState<D>, now: int64, later: int64)
    requires forall scale, ts :: FindDiffs(r, scale, ts).Ok?
    ensures Poll(r, apply, st, now, later, LastAppliedOrDatabase).Ok?
  {
    CatchUpOk(r, apply, st, now);
    RoundOk(r, apply, CatchUp(r, apply, st, now).value, "minute");
  }
}

=== FILE: text.dfy ===
/** Splitting text at a separator character and joining it back. */
module Text {

  /** The pieces of a string between its `sep` characters, empty pieces included. */
  function Fields(s: string, sep: char): (r: seq<string>)
    ensures |r| > 0
    decreases |s|
  {
    if |s| == 0 then [""]
    else
      var rest := Fields(s[1..], sep);
      if s[0] == sep then [""] + rest else [[s[0]] + rest[0]] + rest[1..]
  }

  predicate Free(s: string, sep: char) {
    forall i :: 0 <= i < |s| ==> s[i] != sep
  }

  lemma {:induction false} FieldsFree(a: string, sep: char)
    requires Free(a, sep)
    ensures Fields(a, sep) == [a]
    decreases |a|
  {
    if |a| > 0 {
      FieldsFree(a[1..], sep);
      assert [a[0]] + a[1..] == a;
    }
  }

  /** A separator after a field without separators cuts exactly there. */
  lemma {:induction false} FieldsCons(a: string, sep: char, b: string)
    requires Free(a, sep)
    ensures Fields(a + [sep] + b, sep) == [a] + Fields(b, sep)
    decreases |a|
  {
    if |a| == 0 {
      assert a + [sep] + b == [sep] + b;
      assert ([sep] + b)[1..] == b;
    } else {
      FieldsCons(a[1..], sep, b);
      assert (a + [sep] + b)[1..] == a[1..] + [sep] + b;
      assert [a[0]] + a[1..] == a;
    }
  }

  /** Strings joined by a separator character. */
  function JoinWith(cols: seq<string>, sep: char): string
    decreases |cols|
  {
    if |cols| == 0 then ""
    else if |cols| == 1 then cols[0]
    else cols[0] + [sep] + JoinWith(cols[1..], sep)
  }

  predicate AllFree(cols: seq<string>, sep: char) {
    forall i :: 0 <= i < |cols| ==> Free(cols[i], sep)
  }

  /** Columns without the separator are cut back into exactly those columns. */
  lemma {:induction false} JoinWithFields(cols: seq<string>, sep: char)
    requires |cols| > 0 && AllFree(cols, sep)
    ensures Fields(JoinWith(cols, sep), sep) == cols
    decreases |cols|
  {
    if |cols| == 1 {
      FieldsFree(cols[0], sep);
    } else {
      JoinWithFields(cols[1..], sep);
      FieldsCons(cols[0], sep, JoinWith(cols[1..], sep));
      assert [cols[0]] + cols[1..] == cols;
    }
  }

  /** Joining adds no character other than the separator. */
  lemma {:induction false} JoinWithFree(cols: seq<string>, sep: char, c: char)
    requires AllFree(cols, c) && sep != c
    ensures Free(JoinWith(cols, sep), c)
    decreases |cols|
  {
    if |cols| > 1 {
      JoinWithFree(cols[1..], sep, c);
    }
  }
}

=== FILE: tilesource.dfy ===
/**
 * `TileOSMSource`: the entities of a rectangle of tiles, read through the
 * store's tile index. Each column `x` of the range is one contiguous run of
 * index keys; the source walks the columns twice, writing the nodes of the
 * selected ways in the first pass (each node once) and the ways themselves
 * in the second.
 *
 * The order in which the B-tree hands out the keys of one column is not part
 * of this model: a column is listed in some fixed order (`Listing`), and
 * every property here holds whatever that order is.
 */
module TileSource {
  import opened Wrappers
  import opened Bytes
  import opened Errors
  import opened Osm
  import opened IndexKeys
  import opened OsmStore

  /** The inclusive tile rectangle. A fresh source has every bound 0. */
  datatype TileRange = TileRange(minX: int32, minY: int32, maxX: int32, maxY: int32)

  const INT_MAX: int := 0x7fff_ffff

  /** `setTileRange`: a minimum above its maximum is refused. */
  function SetTileRange(minX: int32, minY: int32, maxX: int32, maxY: int32): (r: Result<TileRange, Error>)
    ensures r.Err? <==> minX > maxX || minY > maxY
    ensures r.Err? ==> r.error == InvalidRange
    ensures r.Ok? ==> r.value.minX <= r.value.maxX && r.value.minY <= r.value.maxY
    ensures r.Ok? ==> r.value.minX == minX && r.value.minY == minY && r.value.maxX == maxX && r.value.maxY == maxY
  {
    if minX > maxX || minY > maxY then Err(InvalidRange)
    else Ok(TileRange(minX, minY, maxX, maxY))
  }

  /* ---------------- column selection ---------------- */

  /**
   * `index.subSet(indexMake(x, minY, 0), indexMake(x, maxY + 1, 0))`: the
   * keys from the lower key (inclusive) to the upper key (exclusive). The
   * `maxY + 1` is Java int arithmetic.
   */
  function ColumnKeys(index: set<seq<byte>>, x: int32, minY: int32, maxY: int32): set<seq<byte>>
  {
    var lo := IndexMake(x, minY, 0).value;
    var hi := IndexMake(x, Wrap32(maxY as int + 1), 0).value;
    set k | k in index && !LexLess(k, lo) && LexLess(k, hi)
  }

  /**
   * For keys built from non-negative fields, the column of `x` holds exactly
   * the indexed keys of tile column `x` whose row lies in `minY..maxY`, also
   * when `maxY` is `Integer.MAX_VALUE` and the exclusive bound wraps to
   * `Integer.MIN_VALUE`.
   */
  lemma ColumnSelects(index: set<seq<byte>>, x: int32, minY: int32, maxY: int32, x2: int32, y: int32, w: int64)
    requires 0 <= x && 0 <= minY && 0 <= maxY
    requires 0 <= x2 && 0 <= y && 0 <= w
    ensures IndexMake(x2, y, w).Ok?
    ensures IndexMake(x2, y, w).value in ColumnKeys(index, x, minY, maxY)
            <==> IndexMake(x2, y, w).value in index && x2 == x && minY <= y <= maxY
  {
    KeyOrder(x2, y, w, x, minY, 0);
    BelowColumnEnd(x, maxY, x2, y, w);
  }

  /** A key lies below the column's exclusive upper bound iff its tile comes before column `x` or is in it at a row up to `maxY`. */
  lemma BelowColumnEnd(x: int32, maxY: int32, x2: int32, y: int32, w: int64)
    requires 0 <= x && 0 <= maxY && 0 <= x2 && 0 <= y && 0 <= w
    ensures IndexMake(x2, y, w).Ok? && IndexMake(x, Wrap32(maxY as int + 1), 0).Ok?
    ensures LexLess(IndexMake(x2, y, w).value, IndexMake(x, Wrap32(maxY as int + 1), 0).value)
            <==> x2 < x || (x2 == x && y <= maxY)
  {
    if maxY < INT_MAX {
      Wrap32Id(maxY + 1);
      KeyOrder(x2, y, w, x, maxY + 1, 0);
    } else {
      assert Wrap32(maxY as int + 1) == -0x8000_0000;
      KeyBelowWrappedRow(x2, y, w, x);
    }
  }

  /** Some listing of a finite set, each member once. */
  ghost function Listing(ks: set<seq<byte>>): (r: seq<seq<byte>>)
    ensures forall k :: k in r <==> k in ks
    ensures |r| == |ks|
    decreases ks
  {
    if ks == {} then []
    else
      var k :| k in ks;
      [k] + Listing(ks - {k})
  }

  /** The keys of columns `x..maxX`, column after column. */
  ghost function ColumnsFrom(index: set<seq<byte>>, minY: int32, maxY: int32, x: int, maxX: int): seq<seq<byte>>
    requires -0x8000_0000 <= x && maxX < INT_MAX
    decreases maxX - x
  {
    if x > maxX then []
    else Listing(ColumnKeys(index, x as int32, minY, maxY)) + ColumnsFrom(index, minY, maxY, x + 1, maxX)
  }

  /** The keys from column `x` on are those of column `x` and those from `x + 1` on. */
  lemma ColumnsFromStep(index: set<seq<byte>>, minY: int32, maxY: int32, x: int, maxX: int, k: seq<byte>)
    requires -0x8000_0000 <= x <= maxX < INT_MAX
    ensures k in ColumnsFrom(index, minY, maxY, x, maxX)
            <==> k in ColumnKeys(index, x as int32, minY, maxY) || k in ColumnsFrom(index, minY, maxY, x + 1, maxX)
  {
  }

  /** A key lies in the column of some `c` in `x..maxX`. */
  ghost predicate InColumns(index: set<seq<byte>>, minY: int32, maxY: int32, x: int, maxX: int, k: seq<byte>) {
    exists c: int32 :: x <= c <= maxX && k in ColumnKeys(index, c, minY, maxY)
  }

  lemma InColumnsStep(index: set<seq<byte>>, minY: int32, maxY: int32, x: int, maxX: int, k: seq<byte>)
    requires -0x8000_0000 <= x <= maxX < INT_MAX
    ensures InColumns(index, minY, maxY, x, maxX, k)
            <==> k in ColumnKeys(index, x as int32, minY, maxY) || InColumns(index, minY, maxY, x + 1, maxX, k)
  {
    if InColumns(index, minY, maxY, x, maxX, k) {
      var c: int32 :| x <= c <= maxX && k in ColumnKeys(index, c, minY, maxY);
      if c != x {
        assert x + 1 <= c <= maxX;
      }
    }
    if k in ColumnKeys(index, x as int32, minY, maxY) {
      var c: int32 := x as int32;
      assert x <= c <= maxX && k in ColumnKeys(index, c, minY, maxY);
    }
  }

  /** A key is visited iff it lies in the column of some `x` in `x..maxX`. */
  lemma {:induction false} ColumnsFromMembers(index: set<seq<byte>>, minY: int32, maxY: int32, x: int, maxX: int, k: seq<byte>)
    requires -0x8000_0000 <= x && maxX < INT_MAX
    ensures k in ColumnsFrom(index, minY, maxY, x, maxX) <==> InColumns(index, minY, maxY, x, maxX, k)
    decreases maxX - x
  {
    if x <= maxX {
      ColumnsFromMembers(index, minY, maxY, x + 1, maxX, k);
      ColumnsFromStep(index, minY, maxY, x, maxX, k);
      InColumnsStep(index, minY, maxY, x, maxX, k);
    }
  }

  /** MapDB `DataIO.getLong(item, 8)`: the big-endian long in bytes 8..15; a shorter key throws. */
  function KeyWayId(k: seq<byte>): (r: Result<int64, Error>)
    ensures r.Ok? <==> |k| >= 16
  {
    if |k| < 16 then Err(BufferOverflow)
    else Ok(Wrap64(FromBigEndian(k[8..16])))
  }

  /** The way id read from a key is the one `indexMake` put there. */
  lemma KeyWayIdMake(x: int32, y: int32, w: int64)
    requires 0 <= w
    ensures IndexMake(x, y, w).Ok? && KeyWayId(IndexMake(x, y, w).value) == Ok(w)
  {
    IndexMakeReads(x, y, w);
    var k := IndexMake(x, y, w).value;
    assert |k| == KEY_SIZE == 16;
    assert k[8..16] == k[8..] by {
      assert |k[8..16]| == |k[8..]| == 8;
      forall i | 0 <= i < 8 ensures k[8..16][i] == k[8..][i] {}
    }
    Wrap64Id(w);
  }

  /* ---------------- the two passes ---------------- */

  /** Every call writes a stored node under its own id. */
  ghost predicate NodeWrites(nodes: map<int64, NodeEntity>, evs: seq<Event>) {
    forall i :: 0 <= i < |evs| ==> evs[i].WriteEntity? && evs[i].id in nodes && evs[i].entity == nodes[evs[i].id]
  }

  /** Every call writes a stored way under its own id. */
  ghost predicate WayWrites(ways: map<int64, WayEntity>, evs: seq<Event>) {
    forall i :: 0 <= i < |evs| ==> evs[i].WriteEntity? && evs[i].id in ways && evs[i].entity == ways[evs[i].id]
  }

  /** No id is written twice. */
  ghost predicate DistinctIds(evs: seq<Event>) {
    forall i, j :: 0 <= i < j < |evs| && evs[i].WriteEntity? && evs[j].WriteEntity? ==> evs[i].id != evs[j].id
  }

  /** The ids written. */
  ghost function IdSet(evs: seq<Event>): set<int64> {
    set i | 0 <= i < |evs| && evs[i].WriteEntity? :: evs[i].id
  }

  /** Every reference that names a stored node is in `marked`. */
  ghost predicate Covers(nodes: map<int64, NodeEntity>, refs: seq<int64>, marked: set<int64>) {
    forall i :: 0 <= i < |refs| && refs[i] in nodes ==> refs[i] in marked
  }

  /**
   * The first pass over one way's references: a node already seen is
   * skipped, a node missing from the store is skipped (and logged) without
   * being marked, any other is written and marked seen.
   */
  function WayNodes(nodes: map<int64, NodeEntity>, refs: seq<int64>, seen: set<int64>): (seq<Event>, set<int64>)
    decreases |refs|
  {
    if |refs| == 0 then ([], seen)
    else if refs[0] in seen || refs[0] !in nodes then WayNodes(nodes, refs[1..], seen)
    else
      var t := WayNodes(nodes, refs[1..], seen + {refs[0]});
      ([WriteEntity(refs[0], nodes[refs[0]])] + t.0, t.1)
  }

  /** One more write in front of writes it does not repeat. */
  lemma ConsWrite(nodes: map<int64, NodeEntity>, id: int64, t: seq<Event>)
    requires id in nodes && NodeWrites(nodes, t) && DistinctIds(t) && id !in IdSet(t)
    ensures NodeWrites(nodes, [WriteEntity(id, nodes[id])] + t)
    ensures DistinctIds([WriteEntity(id, nodes[id])] + t)
    ensures IdSet([WriteEntity(id, nodes[id])] + t) == {id} + IdSet(t)
  {
    var e := [WriteEntity(id, nodes[id])] + t;
    forall i | 0 < i < |e| ensures e[i] == t[i - 1] { }
    forall i, j | 0 <= i < j < |e| && e[i].WriteEntity? && e[j].WriteEntity? ensures e[i].id != e[j].id {
      if i == 0 {
        assert e[j].id in IdSet(t) by { assert e[j] == t[j - 1]; }
      }
    }
    forall v | v in IdSet(e) ensures v in {id} + IdSet(t) {
      var i :| 0 <= i < |e| && e[i].WriteEntity? && e[i].id == v;
      if i > 0 {
        assert t[i - 1].id == v;
      }
    }
    forall v | v in IdSet(t) ensures v in IdSet(e) {
      var i :| 0 <= i < |t| && t[i].WriteEntity? && t[i].id == v;
      assert e[i + 1] == t[i];
    }
    assert e[0].id == id;
  }

  /** Two runs of writes with no id in common join into one. */
  lemma JoinWrites(nodes: map<int64, NodeEntity>, a: seq<Event>, b: seq<Event>)
    requires NodeWrites(nodes, a) && DistinctIds(a) && NodeWrites(nodes, b) && DistinctIds(b)
    requires IdSet(a) !! IdSet(b)
    ensures NodeWrites(nodes, a + b) && DistinctIds(a + b)
    ensures IdSet(a + b) == IdSet(a) + IdSet(b)
  {
    var e := a + b;
    forall i, j | 0 <= i < j < |e| && e[i].WriteEntity? && e[j].WriteEntity? ensures e[i].id != e[j].id {
      if i < |a| && j >= |a| {
        assert e[i].id in IdSet(a);
        assert e[j] == b[j - |a|];
        assert e[j].id in IdSet(b);
      } else if i >= |a| {
        assert e[i] == b[i - |a|] && e[j] == b[j - |a|];
      }
    }
    forall v | v in IdSet(e) ensures v in IdSet(a) + IdSet(b) {
      var i :| 0 <= i < |e| && e[i].WriteEntity? && e[i].id == v;
      if i >= |a| {
        assert b[i - |a|] == e[i];
      }
    }
    forall v | v in IdSet(a) + IdSet(b) ensures v in IdSet(e) {
      if v in IdSet(a) {
        var i :| 0 <= i < |a| && a[i].WriteEntity? && a[i].id == v;
        assert e[i] == a[i];
      } else {
        var i :| 0 <= i < |b| && b[i].WriteEntity? && b[i].id == v;
        assert e[i + |a|] == b[i];
      }
    }
  }

  /**
   * One way's first pass writes stored nodes only, each at most once and
   * none already seen; it marks exactly the nodes it writes, so a missing
   * node is never marked; and afterwards every stored node the way refers to
   * is marked.
   */
  lemma {:induction false} WayNodesSpec(nodes: map<int64, NodeEntity>, refs: seq<int64>, seen: set<int64>)
    ensures NodeWrites(nodes, WayNodes(nodes, refs, seen).0)
    ensures DistinctIds(WayNodes(nodes, refs, seen).0)
    ensures IdSet(WayNodes(nodes, refs, seen).0) !! seen
    ensures WayNodes(nodes, refs, seen).1 == seen + IdSet(WayNodes(nodes, refs, seen).0)
    ensures Covers(nodes, refs, WayNodes(nodes, refs, seen).1)
    decreases |refs|
  {
    if |refs| > 0 {
      var id := refs[0];
      if id in seen || id !in nodes {
        WayNodesSpec(nodes, refs[1..], seen);
        WayNodesCovers(nodes, refs, seen, WayNodes(nodes, refs[1..], seen).1);
      } else {
        var t := WayNodes(nodes, refs[1..], seen + {id});
        WayNodesSpec(nodes, refs[1..], seen + {id});
        ConsWrite(nodes, id, t.0);
        WayNodesCovers(nodes, refs, seen + {id}, t.1);
      }
    }
  }

  /** The reference at the head is covered once it is marked, and the rest already are. */
  lemma WayNodesCovers(nodes: map<int64, NodeEntity>, refs: seq<int64>, seen: set<int64>, marked: set<int64>)
    requires |refs| > 0 && Covers(nodes, refs[1..], marked)
    requires refs[0] in seen || refs[0] !in nodes
    requires seen <= marked
    ensures Covers(nodes, refs, marked)
  {
    forall i | 0 < i < |refs| && refs[i] in nodes ensures refs[i] in marked {
      assert refs[1..][i - 1] == refs[i];
    }
  }

  /** The first pass over the keys: the nodes of every way the store still holds. */
  function NodePass(s: Store, keys: seq<seq<byte>>, seen: set<int64>): Result<(seq<Event>, set<int64>), Error>
    decreases |keys|
  {
    if |keys| == 0 then Ok(([], seen))
    else
      var wayId :- KeyWayId(keys[0]);
      if wayId !in s.ways then NodePass(s, keys[1..], seen)
      else
        var t := WayNodes(s.nodes, s.ways[wayId].nodes, seen);
        var rest :- NodePass(s, keys[1..], t.1);
        Ok((t.0 + rest.0, rest.1))
  }

  /** The second pass: every way the store still holds, in key order; a missing way is skipped. */
  function WayPass(s: Store, keys: seq<seq<byte>>): Result<seq<Event>, Error>
    decreases |keys|
  {
    if |keys| == 0 then Ok([])
    else
      var wayId :- KeyWayId(keys[0]);
      var rest :- WayPass(s, keys[1..]);
      Ok((if wayId in s.ways then [WriteEntity(wayId, s.ways[wayId])] else []) + rest)
  }

  /** Every key can be read. */
  ghost predicate Readable(keys: seq<seq<byte>>) {
    forall i :: 0 <= i < |keys| ==> KeyWayId(keys[i]).Ok?
  }

  /** The node pass fails exactly on a key too short to hold a way id. */
  lemma {:induction false} NodePassOk(s: Store, keys: seq<seq<byte>>, seen: set<int64>)
    ensures NodePass(s, keys, seen).Ok? <==> Readable(keys)
    decreases |keys|
  {
    if |keys| > 0 {
      ReadableTail(keys);
      if KeyWayId(keys[0]).Ok? {
        var wayId := KeyWayId(keys[0]).value;
        if wayId in s.ways {
          NodePassOk(s, keys[1..], WayNodes(s.nodes, s.ways[wayId].nodes, seen).1);
        } else {
          NodePassOk(s, keys[1..], seen);
        }
      }
    }
  }

  lemma ReadableTail(keys: seq<seq<byte>>)
    requires |keys| > 0
    ensures Readable(keys) <==> KeyWayId(keys[0]).Ok? && Readable(keys[1..])
  {
    if KeyWayId(keys[0]).Ok? && Readable(keys[1..]) {
      forall i | 0 < i < |keys| ensures KeyWayId(keys[i]).Ok? {
        assert keys[1..][i - 1] == keys[i];
      }
    }
  }

  /**
   * The node pass writes stored nodes only, each at most once and none seen
   * before, and marks exactly what it writes.
   */
  lemma {:induction false} NodePassSpec(s: Store, keys: seq<seq<byte>>, seen: set<int64>)
    requires NodePass(s, keys, seen).Ok?
    ensures NodeWrites(s.nodes, NodePass(s, keys, seen).value.0)
    ensures DistinctIds(NodePass(s, keys, seen).value.0)
    ensures IdSet(NodePass(s, keys, seen).value.0) !! seen
    ensures NodePass(s, keys, seen).value.1 == seen + IdSet(NodePass(s, keys, seen).value.0)
    decreases |keys|
  {
    if |keys| > 0 {
      var wayId := KeyWayId(keys[0]).value;
      if wayId in s.ways {
        var t := WayNodes(s.nodes, s.ways[wayId].nodes, seen);
        WayNodesSpec(s.nodes, s.ways[wayId].nodes, seen);
        NodePassSpec(s, keys[1..], t.1);
        var rest := NodePass(s, keys[1..], t.1).value;
        JoinWrites(s.nodes, t.0, rest.0);
      } else {
        NodePassSpec(s, keys[1..], seen);
      }
    }
  }

  /** A key whose way the store holds. */
  ghost predicate Present(s: Store, k: seq<byte>) {
    KeyWayId(k).Ok? && KeyWayId(k).value in s.ways
  }

  /** After the node pass, every stored node of every visited stored way is marked. */
  lemma {:induction false} NodePassCovers(s: Store, keys: seq<seq<byte>>, seen: set<int64>)
    requires NodePass(s, keys, seen).Ok?
    ensures forall i :: 0 <= i < |keys| && Present(s, keys[i]) ==>
              Covers(s.nodes, s.ways[KeyWayId(keys[i]).value].nodes, NodePass(s, keys, seen).value.1)
    decreases |keys|
  {
    if |keys| > 0 {
      var wayId := KeyWayId(keys[0]).value;
      var seen1 := if wayId in s.ways then WayNodes(s.nodes, s.ways[wayId].nodes, seen).1 else seen;
      NodePassCovers(s, keys[1..], seen1);
      NodePassSpec(s, keys[1..], seen1);
      var marked := NodePass(s, keys, seen).value.1;
      assert marked == NodePass(s, keys[1..], seen1).value.1;
      assert seen1 <= marked;
      if wayId in s.ways {
        WayNodesSpec(s.nodes, s.ways[wayId].nodes, seen);
        CoversMore(s.nodes, s.ways[wayId].nodes, seen1, marked);
      }
      forall i | 0 < i < |keys| && Present(s, keys[i])
        ensures Covers(s.nodes, s.ways[KeyWayId(keys[i]).value].nodes, marked)
      {
        assert keys[1..][i - 1] == keys[i];
      }
    }
  }

  lemma CoversMore(nodes: map<int64, NodeEntity>, refs: seq<int64>, a: set<int64>, b: set<int64>)
    requires Covers(nodes, refs, a) && a <= b
    ensures Covers(nodes, refs, b)
  {
  }

  /** The way pass writes stored ways only, and every stored way of a visited key. */
  lemma {:induction false} WayPassSpec(s: Store, keys: seq<seq<byte>>)
    requires WayPass(s, keys).Ok?
    ensures WayWrites(s.ways, WayPass(s, keys).value)
    ensures forall i :: 0 <= i < |keys| && Present(s, keys[i]) ==>
              WriteEntity(KeyWayId(keys[i]).value, s.ways[KeyWayId(keys[i]).value]) in WayPass(s, keys).value
    decreases |keys|
  {
    if |keys| > 0 {
      var wayId := KeyWayId(keys[0]).value;
      var rest := WayPass(s, keys[1..]).value;
      WayPassSpec(s, keys[1..]);
      var head: seq<Event> := if wayId in s.ways then [WriteEntity(wayId, s.ways[wayId])] else [];
      var all := head + rest;
      assert WayPass(s, keys).value == all;
      forall i | 0 <= i < |all| ensures all[i].WriteEntity? && all[i].id in s.ways && all[i].entity == s.ways[all[i].id] {
        if i >= |head| {
          assert all[i] == rest[i - |head|];
        }
      }
      forall i | 0 <= i < |keys| && Present(s, keys[i])
        ensures WriteEntity(KeyWayId(keys[i]).value, s.ways[KeyWayId(keys[i]).value]) in all
      {
        if i > 0 {
          assert keys[1..][i - 1] == keys[i];
        }
      }
    }
  }

  /** The way pass fails exactly on a key too short to hold a way id. */
  lemma {:induction false} WayPassOk(s: Store, keys: seq<seq<byte>>)
    ensures WayPass(s, keys).Ok? <==> Readable(keys)
    decreases |keys|
  {
    if |keys| > 0 {
      ReadableTail(keys);
      WayPassOk(s, keys[1..]);
    }
  }

  /* ---------------- copyTo ---------------- */

  /** The keys both passes visit. */
  ghost function Visited(s: Store, r: TileRange): seq<seq<byte>>
    requires r.maxX < INT_MAX
  {
    ColumnsFrom(s.index, r.minY, r.maxY, r.minX, r.maxX)
  }

  /**
   * `copyTo`: `writeBegin`, the node pass, the way pass, `writeEnd`. With
   * `maxX` the largest int, `x <= maxX` never fails and `x++` wraps, so the
   * column loop never ends.
   */
  ghost function CopyTo(s: Store, r: TileRange): Result<seq<Event>, Error>
  {
    if r.maxX as int == INT_MAX then Err(Diverges)
    else
      var keys := Visited(s, r);
      var nodes :- NodePass(s, keys, {});
      var ways :- WayPass(s, keys);
      Ok([WriteBegin] + nodes.0 + ways + [WriteEnd])
  }

  predicate IsNodeWrite(e: Event) {
    e.WriteEntity? && e.entity.Node?
  }

  predicate IsWayWrite(e: Event) {
    e.WriteEntity? && e.entity.Way?
  }

  /** The trace laid out from its two passes, over abstract passes. */
  lemma Phases(nodes: map<int64, NodeEntity>, ways: map<int64, WayEntity>, ns: seq<Event>, ws: seq<Event>)
    requires NodeWrites(nodes, ns) && DistinctIds(ns) && WayWrites(ways, ws)
    ensures var v := [WriteBegin] + ns + ws + [WriteEnd];
            && v[0] == WriteBegin && v[|v| - 1] == WriteEnd
            && (forall i, j :: 0 <= i < j < |v| && IsWayWrite(v[i]) ==> !IsNodeWrite(v[j]))
            && (forall i, j :: 0 <= i < j < |v| && IsNodeWrite(v[i]) && IsNodeWrite(v[j]) ==> v[i].id != v[j].id)
            && (forall i :: 0 <= i < |v| && IsNodeWrite(v[i]) ==> v[i].id in nodes && v[i].entity == nodes[v[i].id])
            && (forall i :: 0 <= i < |v| && IsWayWrite(v[i]) ==> v[i].id in ways && v[i].entity == ways[v[i].id])
  {
    var v := [WriteBegin] + ns + ws + [WriteEnd];
    assert forall i :: 0 < i <= |ns| ==> v[i] == ns[i - 1];
    assert forall i :: |ns| < i < |v| - 1 ==> v[i] == ws[i - 1 - |ns|];
    assert forall i :: 0 <= i < |v| && IsNodeWrite(v[i]) ==> 0 < i <= |ns|;
    assert forall i :: 0 <= i < |v| && IsWayWrite(v[i]) ==> |ns| < i < |v| - 1;
  }

  /**
   * The order of `copyTo`: `writeBegin` first and `writeEnd` last, every
   * node write before every way write, no node written twice, and each
   * write carries the stored entity of its id.
   */
  lemma CopyToOrder(s: Store, r: TileRange)
    requires CopyTo(s, r).Ok?
    ensures var v := CopyTo(s, r).value;
            && v[0] == WriteBegin && v[|v| - 1] == WriteEnd
            && (forall i, j :: 0 <= i < j < |v| && IsWayWrite(v[i]) ==> !IsNodeWrite(v[j]))
            && (forall i, j :: 0 <= i < j < |v| && IsNodeWrite(v[i]) && IsNodeWrite(v[j]) ==> v[i].id != v[j].id)
            && (forall i :: 0 <= i < |v| && IsNodeWrite(v[i]) ==> v[i].id in s.nodes && v[i].entity == s.nodes[v[i].id])
            && (forall i :: 0 <= i < |v| && IsWayWrite(v[i]) ==> v[i].id in s.ways && v[i].entity == s.ways[v[i].id])
  {
    var keys := Visited(s, r);
    NodePassSpec(s, keys, {});
    WayPassSpec(s, keys);
    Phases(s.nodes, s.ways, NodePass(s, keys, {}).value.0, WayPass(s, keys).value);
  }

  /** `copyTo` fails only when the column loop cannot end or a key is too short. */
  lemma CopyToOk(s: Store, r: TileRange)
    ensures CopyTo(s, r).Ok? <==> r.maxX < INT_MAX && Readable(Visited(s, r))
  {
    if r.maxX < INT_MAX {
      NodePassOk(s, Visited(s, r), {});
      WayPassOk(s, Visited(s, r));
    }
  }

  /** A call of either pass is a call of the whole trace. */
  lemma InTrace(ns: seq<Event>, ws: seq<Event>, e: Event)
    requires e in ns || e in ws
    ensures e in [WriteBegin] + ns + ws + [WriteEnd]
  {
    var v := [WriteBegin] + ns + ws + [WriteEnd];
    if e in ns {
      var m :| 0 <= m < |ns| && ns[m] == e;
      assert v[1 + m] == e;
    } else {
      var m :| 0 <= m < |ws| && ws[m] == e;
      assert v[1 + |ns| + m] == e;
    }
  }

  /** A marked id of a run of node writes is written with its stored node. */
  lemma IdWritten(nodes: map<int64, NodeEntity>, evs: seq<Event>, n: int64)
    requires NodeWrites(nodes, evs) && n in IdSet(evs)
    ensures n in nodes && WriteEntity(n, nodes[n]) in evs
  {
    var m :| 0 <= m < |evs| && evs[m].WriteEntity? && evs[m].id == n;
    assert evs[m] == WriteEntity(n, nodes[n]);
  }

  /** The node pass from nothing seen writes every stored node of every visited stored way. */
  lemma NodePassWrites(s: Store, keys: seq<seq<byte>>, i: int, j: int)
    requires NodePass(s, keys, {}).Ok?
    requires 0 <= i < |keys| && Present(s, keys[i])
    requires 0 <= j < |s.ways[KeyWayId(keys[i]).value].nodes|
    requires s.ways[KeyWayId(keys[i]).value].nodes[j] in s.nodes
    ensures var n := s.ways[KeyWayId(keys[i]).value].nodes[j];
            WriteEntity(n, s.nodes[n]) in NodePass(s, keys, {}).value.0
  {
    var n := s.ways[KeyWayId(keys[i]).value].nodes[j];
    NodePassSpec(s, keys, {});
    NodePassCovers(s, keys, {});
    assert n in NodePass(s, keys, {}).value.1;
    IdWritten(s.nodes, NodePass(s, keys, {}).value.0, n);
  }

  /**
   * Nothing selected is lost: every stored way of a visited key is written,
   * and so is every stored node it refers to.
   */
  lemma CopyToCovers(s: Store, r: TileRange, i: int)
    requires CopyTo(s, r).Ok?
    requires 0 <= i < |Visited(s, r)| && Present(s, Visited(s, r)[i])
    ensures var id := KeyWayId(Visited(s, r)[i]).value;
            && WriteEntity(id, s.ways[id]) in CopyTo(s, r).value
            && forall j :: 0 <= j < |s.ways[id].nodes| && s.ways[id].nodes[j] in s.nodes ==>
                 WriteEntity(s.ways[id].nodes[j], s.nodes[s.ways[id].nodes[j]]) in CopyTo(s, r).value
  {
    var keys := Visited(s, r);
    var id := KeyWayId(keys[i]).value;
    var ns := NodePass(s, keys, {}).value.0;
    var ws := WayPass(s, keys).value;
    assert CopyTo(s, r).value == [WriteBegin] + ns + ws + [WriteEnd];
    WayPassSpec(s, keys);
    InTrace(ns, ws, WriteEntity(id, s.ways[id]));
    forall j | 0 <= j < |s.ways[id].nodes| && s.ways[id].nodes[j] in s.nodes
      ensures WriteEntity(s.ways[id].nodes[j], s.nodes[s.ways[id].nodes[j]]) in [WriteBegin] + ns + ws + [WriteEnd]
    {
      NodePassWrites(s, keys, i, j);
      InTrace(ns, ws, WriteEntity(s.ways[id].nodes[j], s.nodes[s.ways[id].nodes[j]]));
    }
  }

  /**
   * The visited keys of an index built from non-negative tiles: the key of
   * tile `(x2, y)` and way `w` is visited iff it is indexed and the tile
   * lies in the range.
   */
  lemma VisitedSelects(s: Store, r: TileRange, x2: int32, y: int32, w: int64)
    requires r.maxX < INT_MAX && 0 <= r.minX && 0 <= r.minY && 0 <= r.maxY
    requires 0 <= x2 && 0 <= y && 0 <= w
    ensures IndexMake(x2, y, w).Ok?
    ensures IndexMake(x2, y, w).value in Visited(s, r)
            <==> IndexMake(x2, y, w).value in s.index && r.minX <= x2 <= r.maxX && r.minY <= y <= r.maxY
  {
    var k := IndexMake(x2, y, w).value;
    ColumnsFromMembers(s.index, r.minY, r.maxY, r.minX, r.maxX, k);
    ColumnSelects(s.index, x2, r.minY, r.maxY, x2, y, w);
    if k in Visited(s, r) {
      var c: int32 :| r.minX <= c <= r.maxX && k in ColumnKeys(s.index, c, r.minY, r.maxY);
      ColumnSelects(s.index, c, r.minY, r.maxY, x2, y, w);
    }
  }
}

=== FILE: utf8.dfy ===
/**
 * UTF-8 encoding of strings, the byte form the varint stream gives a string
 * after its length prefix. The stream classes that do this are not part of
 * this model; this is the standard encoding of Unicode scalar values.
 */
module Utf8 {
  import opened Wrappers
  import opened Bytes

  datatype Utf8Error = Malformed

  predicate IsContinuation(b: byte) {
    0x80 <= b < 0xC0
  }

  /** The one to four bytes that encode one scalar value. */
  function EncodeChar(c: char): (r: seq<byte>)
    ensures 1 <= |r| <= 4
    ensures !IsContinuation(r[0])
  {
    var v := c as int;
    if v < 0x80 then [v]
    else if v < 0x800 then [0xC0 + v / 64, 0x80 + v % 64]
    else if v < 0x10000 then [0xE0 + v / 4096, 0x80 + (v / 64) % 64, 0x80 + v % 64]
    else [0xF0 + v / 262144, 0x80 + (v / 4096) % 64, 0x80 + (v / 64) % 64, 0x80 + v % 64]
  }

  function Encode(s: string): (r: seq<byte>)
    ensures |r| >= |s|
  {
    if |s| == 0 then [] else EncodeChar(s[0]) + Encode(s[1..])
  }

  predicate ValidScalar(v: int) {
    (0 <= v < 0xD800) || (0xE000 <= v < 0x11_0000)
  }

  /** Decode the first scalar value of a non-empty byte string. */
  function DecodeChar(s: seq<byte>): Result<(char, seq<byte>), Utf8Error>
    requires |s| > 0
  {
    var b0: int := s[0];
    if b0 < 0x80 then Ok((b0 as char, s[1..]))
    else if b0 < 0xC0 then Err(Malformed)
    else if b0 < 0xE0 then
      if |s| < 2 || !IsContinuation(s[1]) then Err(Malformed)
      else Ok((((b0 - 0xC0) * 64 + (s[1] as int - 0x80)) as char, s[2..]))
    else if b0 < 0xF0 then
      if |s| < 3 || !IsContinuation(s[1]) || !IsContinuation(s[2]) then Err(Malformed)
      else
        var v := (b0 - 0xE0) * 4096 + (s[1] as int - 0x80) * 64 + (s[2] as int - 0x80);
        if ValidScalar(v) then Ok((v as char, s[3..])) else Err(Malformed)
    else if b0 < 0xF8 then
      if |s| < 4 || !IsContinuation(s[1]) || !IsContinuation(s[2]) || !IsContinuation(s[3]) then Err(Malformed)
      else
        var v := (b0 - 0xF0) * 262144 + (s[1] as int - 0x80) * 4096 + (s[2] as int - 0x80) * 64 + (s[3] as int - 0x80);
        if ValidScalar(v) then Ok((v as char, s[4..])) else Err(Malformed)
    else Err(Malformed)
  }

  /** Decode a whole byte string into characters. */
  function Decode(s: seq<byte>): Result<string, Utf8Error>
    decreases |s|
  {
    if |s| == 0 then Ok([])
    else
      var r :- DecodeChar(s);
      var rest :- Decode(r.1);
      Ok([r.0] + rest)
  }

  lemma Split2(v: int)
    requires 0 <= v < 0x800
    ensures v == (v / 64) * 64 + v % 64
  {
  }

  lemma Split3(v: int)
    requires 0 <= v < 0x10000
    ensures v == (v / 4096) * 4096 + ((v / 64) % 64) * 64 + v % 64
  {
    assert v / 64 == (v / 4096) * 64 + (v / 64) % 64;
  }

  lemma Split4(v: int)
    requires 0 <= v < 0x11_0000
    ensures v == (v / 262144) * 262144 + ((v / 4096) % 64) * 4096 + ((v / 64) % 64) * 64 + v % 64
  {
    var q := v / 64;
    Split3(q);
    assert q / 64 == v / 4096 by { Div64Div64(v); }
    assert q / 4096 == v / 262144 by { Div64Div4096(v); }
  }

  lemma Div64Div64(v: nat)
    ensures v / 64 / 64 == v / 4096
  {
    var r := v % 4096;
    assert v == 4096 * (v / 4096) + r;
    assert v / 64 == 64 * (v / 4096) + r / 64;
  }

  lemma Div64Div4096(v: nat)
    ensures v / 64 / 4096 == v / 262144
  {
    var r := v % 262144;
    assert v == 262144 * (v / 262144) + r;
    assert v / 64 == 4096 * (v / 262144) + r / 64;
  }

  /** Decoding the encoding of one character returns it and leaves what follows untouched. */
  lemma DecodeEncodeChar(c: char, rest: seq<byte>)
    ensures DecodeChar(EncodeChar(c) + rest) == Ok((c, rest))
  {
    var v := c as int;
    var e := EncodeChar(c);
    var s := e + rest;
    if v < 0x80 {
      assert s[1..] == rest;
    } else if v < 0x800 {
      Split2(v);
      assert s[2..] == rest;
    } else if v < 0x10000 {
      Split3(v);
      assert s[3..] == rest;
    } else {
      Split4(v);
      assert s[4..] == rest;
    }
  }

  /** UTF-8 round trip: every string is recovered from its encoding. */
  lemma {:induction false} DecodeEncode(s: string)
    ensures Decode(Encode(s)) == Ok(s)
  {
    if |s| > 0 {
      var e := Encode(s);
      DecodeEncodeChar(s[0], Encode(s[1..]));
      DecodeEncode(s[1..]);
      assert [s[0]] + s[1..] == s;
    }
  }
}

=== FILE: varint.dfy ===
/**
 * Varint primitives of the uncompressed entity stream.
 *
 * The stream classes are not part of this model; these definitions follow the
 * Protocol Buffers encoding guide ("Base 128 Varints" and "Signed Integers",
 * ZigZag) and are the assumed behaviour of `writeUInt32`, `writeSInt64`,
 * `writeString` and their readers. Every decoder takes the remaining input
 * and returns the value with what is left after it.
 */
module VarInt {
  import opened Wrappers
  import opened Bytes
  import opened Errors
  import Utf8

  /** Unsigned LEB128: seven bits per byte, least significant group first, high bit = more follow. */
  function EncodeVarint(n: nat): (r: seq<byte>)
    ensures |r| >= 1
    decreases n
  {
    if n < 128 then [n] else [128 + n % 128] + EncodeVarint(n / 128)
  }

  function DecodeVarint(s: seq<byte>): Result<(nat, seq<byte>), Error>
    decreases |s|
  {
    if |s| == 0 then Err(Eof)
    else if s[0] < 128 then Ok((s[0], s[1..]))
    else
      var r :- DecodeVarint(s[1..]);
      Ok((s[0] - 128 + 128 * r.0, r.1))
  }

  /** Decoding a varint consumes exactly its encoding and returns the encoded value. */
  lemma {:induction false} VarintRoundTrip(n: nat, rest: seq<byte>)
    ensures DecodeVarint(EncodeVarint(n) + rest) == Ok((n, rest))
    decreases n
  {
    var s := EncodeVarint(n) + rest;
    if n < 128 {
      assert s[1..] == rest;
    } else {
      assert s[1..] == EncodeVarint(n / 128) + rest;
      VarintRoundTrip(n / 128, rest);
    }
  }

  /** A decoded value comes with a strictly shorter remainder. */
  lemma {:induction false} DecodeVarintConsumes(s: seq<byte>)
    requires DecodeVarint(s).Ok?
    ensures |DecodeVarint(s).value.1| < |s|
    decreases |s|
  {
    if s[0] >= 128 {
      DecodeVarintConsumes(s[1..]);
    }
  }

  /** ZigZag: 0, -1, 1, -2, ... map to 0, 1, 2, 3, ... */
  function ZigZag(v: int64): (u: nat)
    ensures u < TWO_64
    ensures u % 2 == 0 <==> v >= 0
  {
    if v >= 0 then 2 * v else -2 * v - 1
  }

  function UnZigZag(u: nat): (v: int64)
    requires u < TWO_64
  {
    if u % 2 == 0 then u / 2 else -(u / 2) - 1
  }

  lemma ZigZagRoundTrip(v: int64)
    ensures UnZigZag(ZigZag(v)) == v
  {
  }

  /** Protobuf `writeSInt64`: ZigZag, then varint. */
  function WriteSInt64(v: int64): seq<byte>
  {
    EncodeVarint(ZigZag(v))
  }

  /** Protobuf `readSInt64`: the low 64 bits of the varint, un-ZigZagged. */
  function ReadSInt64(s: seq<byte>): Result<(int64, seq<byte>), Error>
  {
    var r :- DecodeVarint(s);
    Ok((UnZigZag(r.0 % TWO_64), r.1))
  }

  /** Protobuf `writeUInt32` of a Java int: the unsigned 32-bit pattern as a varint. */
  function WriteUInt32(v: int32): seq<byte>
  {
    EncodeVarint(v % TWO_32)
  }

  /** Protobuf `readRawVarint32`: the low 32 bits of the varint as a (possibly negative) Java int. */
  function ReadUInt32(s: seq<byte>): Result<(int32, seq<byte>), Error>
  {
    var r :- DecodeVarint(s);
    Ok((Wrap32(r.0 % TWO_32), r.1))
  }

  /** Protobuf `readRawVarint64` as a Java long. */
  function ReadUInt64(s: seq<byte>): Result<(int64, seq<byte>), Error>
  {
    var r :- DecodeVarint(s);
    Ok((Wrap64(r.0 % TWO_64), r.1))
  }

  lemma SInt64RoundTrip(v: int64, rest: seq<byte>)
    ensures ReadSInt64(WriteSInt64(v) + rest) == Ok((v, rest))
  {
    VarintRoundTrip(ZigZag(v), rest);
  }

  lemma UInt32RoundTrip(v: int32, rest: seq<byte>)
    ensures ReadUInt32(WriteUInt32(v) + rest) == Ok((v, rest))
  {
    VarintRoundTrip(v % TWO_32, rest);
    Wrap32Unsigned(v);
  }

  lemma UInt64RoundTrip(v: nat, rest: seq<byte>)
    requires v < 0x8000_0000_0000_0000
    ensures ReadUInt64(EncodeVarint(v) + rest) == Ok((v, rest))
  {
    VarintRoundTrip(v, rest);
    assert v % TWO_64 == v;
    Wrap64Id(v);
  }

  /** A string whose UTF-8 length fits a Java int (every Java string does). */
  predicate WritableString(s: string) {
    |Utf8.Encode(s)| < 0x8000_0000
  }

  /** Length-prefixed UTF-8. */
  function WriteString(s: string): seq<byte>
    requires WritableString(s)
  {
    var b := Utf8.Encode(s);
    WriteUInt32(|b|) + b
  }

  function ReadString(s: seq<byte>): Result<(string, seq<byte>), Error>
  {
    var n :- ReadUInt32(s);
    if n.0 < 0 then Err(NegativeArraySize(n.0))
    else if n.0 > |n.1| then Err(Eof)
    else
      match Utf8.Decode(n.1[..n.0])
      case Ok(str) => Ok((str, n.1[n.0..]))
      case Err(_) => Err(MalformedUtf8)
  }

  lemma StringRoundTrip(str: string, rest: seq<byte>)
    requires WritableString(str)
    ensures ReadString(WriteString(str) + rest) == Ok((str, rest))
  {
    var b := Utf8.Encode(str);
    assert WriteString(str) + rest == WriteUInt32(|b|) + (b + rest);
    UInt32RoundTrip(|b|, b + rest);
    assert (b + rest)[..|b|] == b;
    assert (b + rest)[|b|..] == rest;
    Utf8.DecodeEncode(str);
  }

  /** Every successful read consumes at least one byte. */
  lemma ReadSInt64Consumes(s: seq<byte>)
    requires ReadSInt64(s).Ok?
    ensures |ReadSInt64(s).value.1| < |s|
  {
    DecodeVarintConsumes(s);
  }

  lemma ReadUInt32Consumes(s: seq<byte>)
    requires ReadUInt32(s).Ok?
    ensures |ReadUInt32(s).value.1| < |s|
  {
    DecodeVarintConsumes(s);
  }

  lemma ReadStringConsumes(s: seq<byte>)
    requires ReadString(s).Ok?
    ensures |ReadString(s).value.1| < |s|
  {
    ReadUInt32Consumes(s);
  }
}

=== FILE: vexcodec.dfy ===
/**
 * The fields of one entity in the current VEX format (`VexOutput` and
 * `VexInput`): a ZigZag id delta, the tag count and tag strings, then
 *   node:     lat delta, lon delta;
 *   way:      node count, then reference deltas against a running reference
 *             that carries over from way to way within a block;
 *   relation: member count, then per member its absolute id, type ordinal
 *             and role.
 * All deltas are taken against block-local state that both sides zero at
 * the start of a block.
 */
module VexCodec {
  import opened Wrappers
  import opened Bytes
  import opened Errors
  import opened VarInt
  import opened Osm

  /** `VexInput.readTags` rejects more tags than this as corrupt. */
  const MAX_TAGS: int := 500

  /** The delta-coding state: previous id, previous way reference, previous lat and lon. */
  datatype Deltas = Deltas(id: int64, ref: int64, lat: int64, lon: int64)

  /** The state both sides start every block from. */
  const ZERO: Deltas := Deltas(0, 0, 0, 0)

  /** An entity the decoder accepts back: representable in Java and at most 500 tags. */
  predicate Encodable(e: Entity) {
    Representable(e) && |e.tags| <= MAX_TAGS
  }

  /* ---------------- writer ---------------- */

  function EncodeTagPairs(tags: seq<Tag>): seq<byte>
    requires forall i :: 0 <= i < |tags| ==> WritableTag(tags[i])
  {
    if |tags| == 0 then []
    else
      assert WritableTag(tags[0]);
      WriteString(tags[0].key) + WriteString(tags[0].value) + EncodeTagPairs(tags[1..])
  }

  /** `writeTags`: the tag count, then key and value of each tag in order. */
  function EncodeTags(tags: seq<Tag>): seq<byte>
    requires WritableTags(tags)
  {
    WriteUInt32(|tags|) + EncodeTagPairs(tags)
  }

  /** Way references as deltas against a running reference; returns the bytes and the last reference. */
  function EncodeRefs(prev: int64, refs: seq<int64>): (r: (seq<byte>, int64))
    ensures |refs| > 0 ==> r.1 == refs[|refs| - 1]
    ensures |refs| == 0 ==> r == ([], prev)
    decreases |refs|
  {
    if |refs| == 0 then ([], prev)
    else
      var rest := EncodeRefs(refs[0], refs[1..]);
      (WriteSInt64(SubLong(refs[0], prev)) + rest.0, rest.1)
  }

  function EncodeMember(m: Member): seq<byte>
    requires WritableString(m.role)
  {
    WriteSInt64(m.id) + WriteUInt32(Ordinal(m.kind)) + WriteString(m.role)
  }

  function EncodeMembers(ms: seq<Member>): seq<byte>
    requires forall i :: 0 <= i < |ms| ==> WritableString(ms[i].role)
  {
    if |ms| == 0 then [] else EncodeMember(ms[0]) + EncodeMembers(ms[1..])
  }

  /** The type-specific fields of an entity, delta-coded against `d`, and the state afterwards. */
  function EncodeBody(d: Deltas, e: Entity): (r: (seq<byte>, Deltas))
    requires Representable(e)
  {
    match e
    case Node(_, lat, lon) =>
      (WriteSInt64(SubLong(lat, d.lat)) + WriteSInt64(SubLong(lon, d.lon)), d.(lat := lat, lon := lon))
    case Way(_, nodes) =>
      var refs := EncodeRefs(d.ref, nodes);
      (WriteUInt32(|nodes|) + refs.0, d.(ref := refs.1))
    case Relation(_, members) =>
      (WriteUInt32(|members|) + EncodeMembers(members), d)
  }

  /**
   * One entity message: `beginEntity` (id delta, tags) and the type-specific
   * fields, with the delta state the writer holds afterwards.
   */
  function EncodeEntity(d: Deltas, id: int64, e: Entity): (r: (seq<byte>, Deltas))
    requires Representable(e)
  {
    var body := EncodeBody(d.(id := id), e);
    (WriteSInt64(SubLong(id, d.id)) + EncodeTags(e.tags) + body.0, body.1)
  }

  predicate EncodableRun(run: seq<Event>) {
    forall i :: 0 <= i < |run| ==> run[i].WriteEntity? && Encodable(run[i].entity)
  }

  predicate SameType(run: seq<Event>, t: EntityType)
    requires forall i :: 0 <= i < |run| ==> run[i].WriteEntity?
  {
    forall i :: 0 <= i < |run| ==> TypeOf(run[i].entity) == t
  }

  /** The messages of a run of entities, delta-coded from `d`, and the state afterwards. */
  function EncodeRun(d: Deltas, run: seq<Event>): (r: (seq<byte>, Deltas))
    requires EncodableRun(run)
    ensures |r.0| >= |run|
    decreases |run|
  {
    if |run| == 0 then ([], d)
    else
      var first := EncodeEntity(d, run[0].id, run[0].entity);
      var rest := EncodeRun(first.1, run[1..]);
      assert |first.0| >= 1;
      (first.0 + rest.0, rest.1)
  }

  /* ---------------- reader ---------------- */

  function DecodeTagPairs(n: int, s: seq<byte>): (r: Result<(seq<Tag>, seq<byte>), Error>)
    ensures r.Ok? ==> |r.value.0| == if n <= 0 then 0 else n
    decreases n
  {
    if n <= 0 then Ok(([], s))
    else
      var k :- ReadString(s);
      var v :- ReadString(k.1);
      var rest :- DecodeTagPairs(n - 1, v.1);
      Ok(([Tag(k.0, v.0)] + rest.0, rest.1))
  }

  /** `readTags`: a count above 500 is corrupt; a negative count reads no tags. */
  function DecodeTags(s: seq<byte>): (r: Result<(seq<Tag>, seq<byte>), Error>)
    ensures r.Ok? ==> |r.value.0| <= MAX_TAGS
  {
    var n :- ReadUInt32(s);
    if n.0 > MAX_TAGS then Err(TooManyTags(n.0)) else DecodeTagPairs(n.0, n.1)
  }

  /** `ref += readSInt64()` for each of `n` references. */
  function DecodeRefs(prev: int64, n: int, s: seq<byte>): Result<(seq<int64>, int64, seq<byte>), Error>
    decreases n
  {
    if n <= 0 then Ok(([], prev, s))
    else
      var delta :- ReadSInt64(s);
      var ref := AddLong(prev, delta.0);
      var rest :- DecodeRefs(ref, n - 1, delta.1);
      Ok(([ref] + rest.0, rest.1, rest.2))
  }

  function DecodeMember(s: seq<byte>): Result<(Member, seq<byte>), Error>
  {
    var id :- ReadSInt64(s);
    var ord :- ReadUInt32(id.1);
    var kind := TypeForOrdinal(ord.0);
    if kind.None? then Err(BadOrdinal(ord.0))
    else
      var role :- ReadString(ord.1);
      Ok((Member(kind.value, id.0, role.0), role.1))
  }

  function DecodeMembers(n: int, s: seq<byte>): (r: Result<(seq<Member>, seq<byte>), Error>)
    ensures r.Ok? ==> |r.value.1| <= |s|
    decreases n
  {
    if n <= 0 then Ok(([], s))
    else
      var m :- DecodeMember(s);
      MemberConsumes(s);
      var rest :- DecodeMembers(n - 1, m.1);
      Ok(([m.0] + rest.0, rest.1))
  }

  /** The type-specific fields of `readNode`/`readWay`/`readRelation`, decoded against `d`. */
  function DecodeBody(t: EntityType, d: Deltas, tags: seq<Tag>, s: seq<byte>): (r: Result<(Entity, Deltas, seq<byte>), Error>)
    ensures r.Ok? ==> TypeOf(r.value.0) == t && r.value.0.tags == tags
    ensures r.Ok? ==> r.value.1.id == d.id
  {
    match t
    case NodeType =>
      var dlat :- ReadSInt64(s);
      var dlon :- ReadSInt64(dlat.1);
      var lat := Wrap32(AddLong(d.lat, dlat.0));
      var lon := Wrap32(AddLong(d.lon, dlon.0));
      Ok((Node(tags, lat, lon), d.(lat := lat, lon := lon), dlon.1))
    case WayType =>
      var n :- ReadUInt32(s);
      if n.0 < 0 then Err(NegativeArraySize(n.0))
      else
        var refs :- DecodeRefs(d.ref, n.0, n.1);
        Ok((Way(tags, refs.0), d.(ref := refs.1), refs.2))
    case RelationType =>
      var n :- ReadUInt32(s);
      var members :- DecodeMembers(n.0, n.1);
      Ok((Relation(tags, members.0), d, members.1))
  }

  /** One entity of type `t`: id delta and tags, then the type-specific fields; with the decoder's state afterwards. */
  function DecodeEntity(t: EntityType, d: Deltas, s: seq<byte>): (r: Result<(Event, Deltas, seq<byte>), Error>)
  {
    var delta :- ReadSInt64(s);
    var id := AddLong(d.id, delta.0);
    var tags :- DecodeTags(delta.1);
    var body :- DecodeBody(t, d.(id := id), tags.0, tags.1);
    Ok((WriteEntity(id, body.0), body.1, body.2))
  }

  function DecodeEntities(t: EntityType, d: Deltas, n: int, s: seq<byte>): (r: Result<(seq<Event>, Deltas, seq<byte>), Error>)
    ensures r.Ok? ==> |r.value.0| == if n <= 0 then 0 else n
    ensures r.Ok? ==> forall i :: 0 <= i < |r.value.0| ==>
                        r.value.0[i].WriteEntity? && TypeOf(r.value.0[i].entity) == t
    decreases n
  {
    if n <= 0 then Ok(([], d, s))
    else
      var first :- DecodeEntity(t, d, s);
      var rest :- DecodeEntities(t, first.1, n - 1, first.2);
      Ok(([first.0] + rest.0, rest.1, rest.2))
  }

  /** The entity type of a VEX block code, if it names one. */
  function TypeForVexCode(code: int): (r: Option<EntityType>)
    ensures r.Some? ==> VexCode(r.value) == code
    ensures r.None? <==> code !in {VEX_NODE, VEX_WAY, VEX_RELATION}
  {
    if code == VEX_NODE then Some(NodeType)
    else if code == VEX_WAY then Some(WayType)
    else if code == VEX_RELATION then Some(RelationType)
    else None
  }

  /**
   * `VexInput.readBlock`: zero the delta state, then decode exactly the
   * declared number of entities; the type is only examined inside the loop,
   * so an unknown type with a count of zero or less is not an error.
   */
  function ReadBlock(entityType: int, n: int, s: seq<byte>): (r: Result<seq<Event>, Error>)
    ensures n <= 0 ==> r == Ok([])
    ensures n > 0 && TypeForVexCode(entityType).None? ==> r == Err(UnrecognizedBlockType(entityType))
    ensures r.Ok? ==> |r.value| == if n <= 0 then 0 else n
    ensures r.Ok? && n > 0 ==> forall i :: 0 <= i < |r.value| ==>
              r.value[i].WriteEntity? && VexCode(TypeOf(r.value[i].entity)) == entityType
  {
    if n <= 0 then Ok([])
    else
      match TypeForVexCode(entityType)
      case None => Err(UnrecognizedBlockType(entityType))
      case Some(t) =>
        var r :- DecodeEntities(t, ZERO, n, s);
        Ok(r.0)
  }

  /* ---------------- round trip ---------------- */

  /*
   * Each decoder step is first stated over abstract bytes, so that the
   * round-trip proofs below never unfold an encoder and a decoder together.
   */

  lemma TagPairsStep(n: int, s: seq<byte>, k: string, s1: seq<byte>, v: string, s2: seq<byte>,
                     tags: seq<Tag>, rest: seq<byte>)
    requires n > 0
    requires ReadString(s) == Ok((k, s1)) && ReadString(s1) == Ok((v, s2))
    requires DecodeTagPairs(n - 1, s2) == Ok((tags, rest))
    ensures DecodeTagPairs(n, s) == Ok(([Tag(k, v)] + tags, rest))
  {
  }

  lemma {:induction false} TagPairsRoundTrip(tags: seq<Tag>, rest: seq<byte>)
    requires forall i :: 0 <= i < |tags| ==> WritableTag(tags[i])
    ensures DecodeTagPairs(|tags|, EncodeTagPairs(tags) + rest) == Ok((tags, rest))
    decreases |tags|
  {
    if |tags| > 0 {
      TagPairsRoundTrip(tags[1..], rest);
      TagPairsCons(tags, rest);
    } else {
      assert EncodeTagPairs(tags) + rest == rest;
    }
  }

  /** The inductive step of the tag round trip: one more pair in front of pairs that already round-trip. */
  lemma TagPairsCons(tags: seq<Tag>, rest: seq<byte>)
    requires |tags| > 0 && forall i :: 0 <= i < |tags| ==> WritableTag(tags[i])
    requires DecodeTagPairs(|tags[1..]|, EncodeTagPairs(tags[1..]) + rest) == Ok((tags[1..], rest))
    ensures DecodeTagPairs(|tags|, EncodeTagPairs(tags) + rest) == Ok((tags, rest))
  {
    assert WritableTag(tags[0]);
    TagPairsBytes(tags, rest);
    TagPairAt(tags[0], tags[1..], EncodeTagPairs(tags[1..]) + rest, rest);
    assert [tags[0]] + tags[1..] == tags;
  }

  lemma TagPairsBytes(tags: seq<Tag>, rest: seq<byte>)
    requires |tags| > 0 && forall i :: 0 <= i < |tags| ==> WritableTag(tags[i])
    ensures WritableTag(tags[0])
    ensures EncodeTagPairs(tags) + rest
         == WriteString(tags[0].key) + (WriteString(tags[0].value) + (EncodeTagPairs(tags[1..]) + rest))
  {
    assert WritableTag(tags[0]);
    var a := WriteString(tags[0].key);
    var b := WriteString(tags[0].value);
    var c := EncodeTagPairs(tags[1..]);
    assert EncodeTagPairs(tags) == a + b + c;
    AppendAssoc(a + b, c, rest);
    AppendAssoc(a, b, c + rest);
  }

  /** A written pair in front of pairs that decode reads back as that pair, then those pairs. */
  lemma TagPairAt(t: Tag, tags: seq<Tag>, tail: seq<byte>, rest: seq<byte>)
    requires WritableTag(t)
    requires DecodeTagPairs(|tags|, tail) == Ok((tags, rest))
    ensures DecodeTagPairs(|tags| + 1, WriteString(t.key) + (WriteString(t.value) + tail)) == Ok(([t] + tags, rest))
  {
    StringRoundTrip(t.key, WriteString(t.value) + tail);
    StringRoundTrip(t.value, tail);
    TagPairsStep(|tags| + 1, WriteString(t.key) + (WriteString(t.value) + tail), t.key, WriteString(t.value) + tail,
                 t.value, tail, tags, rest);
  }

  /** Tags come back in order, keys and values intact, as long as there are at most 500. */
  lemma TagsRoundTrip(tags: seq<Tag>, rest: seq<byte>)
    requires |tags| <= MAX_TAGS && WritableTags(tags)
    ensures DecodeTags(EncodeTags(tags) + rest) == Ok((tags, rest))
  {
    assert EncodeTags(tags) + rest == WriteUInt32(|tags|) + (EncodeTagPairs(tags) + rest);
    UInt32RoundTrip(|tags|, EncodeTagPairs(tags) + rest);
    TagPairsRoundTrip(tags, rest);
  }

  lemma RefsStep(prev: int64, n: int, s: seq<byte>, delta: int64, s1: seq<byte>,
                 refs: seq<int64>, last: int64, rest: seq<byte>)
    requires n > 0
    requires ReadSInt64(s) == Ok((delta, s1))
    requires DecodeRefs(AddLong(prev, delta), n - 1, s1) == Ok((refs, last, rest))
    ensures DecodeRefs(prev, n, s) == Ok(([AddLong(prev, delta)] + refs, last, rest))
  {
  }

  /** The running-reference decoder inverts the writer, whatever the references' order or repetition. */
  lemma {:induction false} RefsRoundTrip(prev: int64, refs: seq<int64>, rest: seq<byte>)
    ensures DecodeRefs(prev, |refs|, EncodeRefs(prev, refs).0 + rest) == Ok((refs, EncodeRefs(prev, refs).1, rest))
    decreases |refs|
  {
    if |refs| > 0 {
      RefsRoundTrip(refs[0], refs[1..], rest);
      RefsCons(prev, refs, rest);
    } else {
      assert EncodeRefs(prev, refs).0 + rest == rest;
    }
  }

  /** The inductive step of the reference round trip. */
  lemma RefsCons(prev: int64, refs: seq<int64>, rest: seq<byte>)
    requires |refs| > 0
    requires DecodeRefs(refs[0], |refs[1..]|, EncodeRefs(refs[0], refs[1..]).0 + rest)
          == Ok((refs[1..], EncodeRefs(refs[0], refs[1..]).1, rest))
    ensures DecodeRefs(prev, |refs|, EncodeRefs(prev, refs).0 + rest) == Ok((refs, EncodeRefs(prev, refs).1, rest))
  {
    var tail := EncodeRefs(refs[0], refs[1..]);
    var delta := SubLong(refs[0], prev);
    AppendAssoc(WriteSInt64(delta), tail.0, rest);
    RefAt(prev, refs[0], refs[1..], tail.0 + rest, tail.1, rest);
    assert [refs[0]] + refs[1..] == refs;
  }

  /** A written reference delta in front of references that decode reads back as that reference, then those. */
  lemma RefAt(prev: int64, r: int64, refs: seq<int64>, tail: seq<byte>, last: int64, rest: seq<byte>)
    requires DecodeRefs(r, |refs|, tail) == Ok((refs, last, rest))
    ensures DecodeRefs(prev, |refs| + 1, WriteSInt64(SubLong(r, prev)) + tail) == Ok(([r] + refs, last, rest))
  {
    var delta := SubLong(r, prev);
    SInt64RoundTrip(delta, tail);
    WrapDelta(prev, r);
    RefsStep(prev, |refs| + 1, WriteSInt64(delta) + tail, delta, tail, refs, last, rest);
  }

  lemma MemberStep(s: seq<byte>, id: int64, s1: seq<byte>, ord: int32, s2: seq<byte>, role: string, rest: seq<byte>)
    requires ReadSInt64(s) == Ok((id, s1)) && ReadUInt32(s1) == Ok((ord, s2))
    requires 0 <= ord < 3
    requires ReadString(s2) == Ok((role, rest))
    ensures DecodeMember(s) == Ok((Member(TypeForOrdinal(ord).value, id, role), rest))
  {
  }

  lemma MemberRoundTrip(m: Member, rest: seq<byte>)
    requires WritableString(m.role)
    ensures DecodeMember(EncodeMember(m) + rest) == Ok((m, rest))
  {
    var a := WriteSInt64(m.id);
    var b := WriteUInt32(Ordinal(m.kind));
    var c := WriteString(m.role);
    assert EncodeMember(m) + rest == a + (b + (c + rest));
    SInt64RoundTrip(m.id, b + (c + rest));
    UInt32RoundTrip(Ordinal(m.kind), c + rest);
    StringRoundTrip(m.role, rest);
    MemberStep(EncodeMember(m) + rest, m.id, b + (c + rest), Ordinal(m.kind), c + rest, m.role, rest);
  }

  lemma MembersStep(n: int, s: seq<byte>, m: Member, s1: seq<byte>, ms: seq<Member>, rest: seq<byte>)
    requires n > 0
    requires DecodeMember(s) == Ok((m, s1)) && DecodeMembers(n - 1, s1) == Ok((ms, rest))
    ensures DecodeMembers(n, s) == Ok(([m] + ms, rest))
  {
  }

  lemma {:induction false} MembersRoundTrip(ms: seq<Member>, rest: seq<byte>)
    requires forall i :: 0 <= i < |ms| ==> WritableString(ms[i].role)
    ensures DecodeMembers(|ms|, EncodeMembers(ms) + rest) == Ok((ms, rest))
    decreases |ms|
  {
    if |ms| > 0 {
      MembersRoundTrip(ms[1..], rest);
      MembersCons(ms, rest);
    } else {
      assert EncodeMembers(ms) + rest == rest;
    }
  }

  /** The inductive step of the member round trip. */
  lemma MembersCons(ms: seq<Member>, rest: seq<byte>)
    requires |ms| > 0 && forall i :: 0 <= i < |ms| ==> WritableString(ms[i].role)
    requires DecodeMembers(|ms[1..]|, EncodeMembers(ms[1..]) + rest) == Ok((ms[1..], rest))
    ensures DecodeMembers(|ms|, EncodeMembers(ms) + rest) == Ok((ms, rest))
  {
    assert WritableString(ms[0].role);
    AppendAssoc(EncodeMember(ms[0]), EncodeMembers(ms[1..]), rest);
    MemberAt(ms[0], ms[1..], EncodeMembers(ms[1..]) + rest, rest);
    assert [ms[0]] + ms[1..] == ms;
  }

  /** A written member in front of members that decode reads back as that member, then those members. */
  lemma MemberAt(m: Member, ms: seq<Member>, tail: seq<byte>, rest: seq<byte>)
    requires WritableString(m.role)
    requires DecodeMembers(|ms|, tail) == Ok((ms, rest))
    ensures DecodeMembers(|ms| + 1, EncodeMember(m) + tail) == Ok(([m] + ms, rest))
  {
    MemberRoundTrip(m, tail);
    MembersStep(|ms| + 1, EncodeMember(m) + tail, m, tail, ms, rest);
  }

  /** A coordinate delta added back to the previous value, in Java's long then int arithmetic, restores the coordinate. */
  lemma DeltaRestores32(prev: int64, v: int32)
    ensures Wrap32(AddLong(prev, SubLong(v, prev))) == v
  {
    WrapDelta(prev, v);
    Wrap32Id(v);
  }

  lemma NodeStep(d: Deltas, tags: seq<Tag>, s: seq<byte>, s1: seq<byte>, rest: seq<byte>, lat: int32, lon: int32)
    requires ReadSInt64(s) == Ok((SubLong(lat, d.lat), s1)) && ReadSInt64(s1) == Ok((SubLong(lon, d.lon), rest))
    ensures DecodeBody(NodeType, d, tags, s) == Ok((Node(tags, lat, lon), d.(lat := lat, lon := lon), rest))
  {
    DeltaRestores32(d.lat, lat);
    DeltaRestores32(d.lon, lon);
  }

  lemma NodeBodyRoundTrip(d: Deltas, e: Entity, rest: seq<byte>)
    requires e.Node? && Representable(e)
    ensures DecodeBody(NodeType, d, e.tags, EncodeBody(d, e).0 + rest) == Ok((e, EncodeBody(d, e).1, rest))
  {
    var dl := SubLong(e.fixedLat, d.lat);
    var dn := SubLong(e.fixedLon, d.lon);
    assert EncodeBody(d, e).0 + rest == WriteSInt64(dl) + (WriteSInt64(dn) + rest);
    SInt64RoundTrip(dl, WriteSInt64(dn) + rest);
    SInt64RoundTrip(dn, rest);
    NodeStep(d, e.tags, EncodeBody(d, e).0 + rest, WriteSInt64(dn) + rest, rest, e.fixedLat, e.fixedLon);
  }

  lemma WayStep(d: Deltas, tags: seq<Tag>, s: seq<byte>, n: int32, s1: seq<byte>,
                refs: seq<int64>, last: int64, rest: seq<byte>)
    requires ReadUInt32(s) == Ok((n, s1)) && n >= 0
    requires DecodeRefs(d.ref, n, s1) == Ok((refs, last, rest))
    ensures DecodeBody(WayType, d, tags, s) == Ok((Way(tags, refs), d.(ref := last), rest))
  {
  }

  lemma WayBodyRoundTrip(d: Deltas, e: Entity, rest: seq<byte>)
    requires e.Way? && Representable(e)
    ensures DecodeBody(WayType, d, e.tags, EncodeBody(d, e).0 + rest) == Ok((e, EncodeBody(d, e).1, rest))
  {
    var refs := EncodeRefs(d.ref, e.nodes);
    assert EncodeBody(d, e).0 + rest == WriteUInt32(|e.nodes|) + (refs.0 + rest);
    UInt32RoundTrip(|e.nodes|, refs.0 + rest);
    RefsRoundTrip(d.ref, e.nodes, rest);
    WayStep(d, e.tags, EncodeBody(d, e).0 + rest, |e.nodes|, refs.0 + rest, e.nodes, refs.1, rest);
  }

  lemma RelationStep(d: Deltas, tags: seq<Tag>, s: seq<byte>, n: int32, s1: seq<byte>, ms: seq<Member>, rest: seq<byte>)
    requires ReadUInt32(s) == Ok((n, s1))
    requires DecodeMembers(n, s1) == Ok((ms, rest))
    ensures DecodeBody(RelationType, d, tags, s) == Ok((Relation(tags, ms), d, rest))
  {
  }

  lemma RelationBodyRoundTrip(d: Deltas, e: Entity, rest: seq<byte>)
    requires e.Relation? && Representable(e)
    ensures DecodeBody(RelationType, d, e.tags, EncodeBody(d, e).0 + rest) == Ok((e, EncodeBody(d, e).1, rest))
  {
    var memberBytes := EncodeMembers(e.members);
    assert EncodeBody(d, e).0 + rest == WriteUInt32(|e.members|) + (memberBytes + rest);
    UInt32RoundTrip(|e.members|, memberBytes + rest);
    MembersRoundTrip(e.members, rest);
    RelationStep(d, e.tags, EncodeBody(d, e).0 + rest, |e.members|, memberBytes + rest, e.members, rest);
  }

  /** The type-specific fields decode, against the state they were encoded from, to the entity and the writer's state. */
  lemma BodyRoundTrip(d: Deltas, e: Entity, rest: seq<byte>)
    requires Representable(e)
    ensures DecodeBody(TypeOf(e), d, e.tags, EncodeBody(d, e).0 + rest) == Ok((e, EncodeBody(d, e).1, rest))
  {
    match e
    case Node(_, _, _) => NodeBodyRoundTrip(d, e, rest);
    case Way(_, _) => WayBodyRoundTrip(d, e, rest);
    case Relation(_, _) => RelationBodyRoundTrip(d, e, rest);
  }

  lemma EntityStep(t: EntityType, d: Deltas, s: seq<byte>, delta: int64, s1: seq<byte>, tags: seq<Tag>, s2: seq<byte>,
                   e: Entity, d1: Deltas, rest: seq<byte>)
    requires ReadSInt64(s) == Ok((delta, s1)) && DecodeTags(s1) == Ok((tags, s2))
    requires DecodeBody(t, d.(id := AddLong(d.id, delta)), tags, s2) == Ok((e, d1, rest))
    ensures DecodeEntity(t, d, s) == Ok((WriteEntity(AddLong(d.id, delta), e), d1, rest))
  {
  }

  lemma EntityStepAt(t: EntityType, d: Deltas, s: seq<byte>, id: int64, s1: seq<byte>, tags: seq<Tag>, s2: seq<byte>,
                     e: Entity, d1: Deltas, rest: seq<byte>)
    requires ReadSInt64(s) == Ok((SubLong(id, d.id), s1)) && DecodeTags(s1) == Ok((tags, s2))
    requires DecodeBody(t, d.(id := id), tags, s2) == Ok((e, d1, rest))
    ensures DecodeEntity(t, d, s) == Ok((WriteEntity(id, e), d1, rest))
  {
    WrapDelta(d.id, id);
    EntityStep(t, d, s, SubLong(id, d.id), s1, tags, s2, e, d1, rest);
  }

  /**
   * Entity round trip: decoding a message from the state it was encoded in
   * returns the same id and entity, ends in the same state as the writer,
   * and consumes exactly the message.
   */
  lemma EntityRoundTrip(d: Deltas, id: int64, e: Entity, rest: seq<byte>)
    requires Encodable(e)
    ensures DecodeEntity(TypeOf(e), d, EncodeEntity(d, id, e).0 + rest)
         == Ok((WriteEntity(id, e), EncodeEntity(d, id, e).1, rest))
  {
    var body := EncodeBody(d.(id := id), e);
    var tagBytes := EncodeTags(e.tags);
    var di := SubLong(id, d.id);
    var s := EncodeEntity(d, id, e).0 + rest;
    assert EncodeEntity(d, id, e).0 == (WriteSInt64(di) + tagBytes) + body.0;
    AppendAssoc(WriteSInt64(di) + tagBytes, body.0, rest);
    AppendAssoc(WriteSInt64(di), tagBytes, body.0 + rest);
    assert ReadSInt64(s) == Ok((di, tagBytes + (body.0 + rest))) by {
      SInt64RoundTrip(di, tagBytes + (body.0 + rest));
    }
    assert DecodeTags(tagBytes + (body.0 + rest)) == Ok((e.tags, body.0 + rest)) by {
      TagsRoundTrip(e.tags, body.0 + rest);
    }
    assert DecodeBody(TypeOf(e), d.(id := id), e.tags, body.0 + rest) == Ok((e, body.1, rest)) by {
      BodyRoundTrip(d.(id := id), e, rest);
    }
    EntityStepAt(TypeOf(e), d, s, id, tagBytes + (body.0 + rest), e.tags, body.0 + rest, e, body.1, rest);
  }

  lemma EntitiesStep(t: EntityType, d: Deltas, n: int, s: seq<byte>, ev: Event, d1: Deltas, s1: seq<byte>,
                     evs: seq<Event>, d2: Deltas, rest: seq<byte>)
    requires n > 0
    requires DecodeEntity(t, d, s) == Ok((ev, d1, s1))
    requires DecodeEntities(t, d1, n - 1, s1) == Ok((evs, d2, rest))
    ensures DecodeEntities(t, d, n, s) == Ok(([ev] + evs, d2, rest))
  {
  }

  /** The inductive step of the run round trip: one more entity in front of a run that already round-trips. */
  lemma RunCons(t: EntityType, d: Deltas, run: seq<Event>, rest: seq<byte>)
    requires |run| > 0 && EncodableRun(run) && TypeOf(run[0].entity) == t
    requires DecodeEntities(t, EncodeEntity(d, run[0].id, run[0].entity).1, |run[1..]|,
                            EncodeRun(EncodeEntity(d, run[0].id, run[0].entity).1, run[1..]).0 + rest)
          == Ok((run[1..], EncodeRun(EncodeEntity(d, run[0].id, run[0].entity).1, run[1..]).1, rest))
    ensures DecodeEntities(t, d, |run|, EncodeRun(d, run).0 + rest) == Ok((run, EncodeRun(d, run).1, rest))
  {
    var ev := run[0];
    var first := EncodeEntity(d, ev.id, ev.entity);
    var tail := EncodeRun(first.1, run[1..]);
    AppendAssoc(first.0, tail.0, rest);
    EntityAt(t, d, ev, run[1..], tail.0 + rest, tail.1, rest);
    assert [ev] + run[1..] == run;
  }

  /** An entity's message in front of messages that decode reads back as that entity, then those. */
  lemma EntityAt(t: EntityType, d: Deltas, ev: Event, evs: seq<Event>, tail: seq<byte>, d2: Deltas, rest: seq<byte>)
    requires ev.WriteEntity? && Encodable(ev.entity) && TypeOf(ev.entity) == t
    requires DecodeEntities(t, EncodeEntity(d, ev.id, ev.entity).1, |evs|, tail) == Ok((evs, d2, rest))
    ensures DecodeEntities(t, d, |evs| + 1, EncodeEntity(d, ev.id, ev.entity).0 + tail) == Ok(([ev] + evs, d2, rest))
  {
    var first := EncodeEntity(d, ev.id, ev.entity);
    EntityRoundTrip(d, ev.id, ev.entity, tail);
    EntitiesStep(t, d, |evs| + 1, first.0 + tail, ev, first.1, tail, evs, d2, rest);
  }

  /** A run of same-type entities decodes, from the same starting state, to itself. */
  lemma {:induction false} RunRoundTrip(t: EntityType, d: Deltas, run: seq<Event>, rest: seq<byte>)
    requires EncodableRun(run) && SameType(run, t)
    ensures DecodeEntities(t, d, |run|, EncodeRun(d, run).0 + rest)
         == Ok((run, EncodeRun(d, run).1, rest))
    decreases |run|
  {
    if |run| > 0 {
      RunRoundTrip(t, EncodeEntity(d, run[0].id, run[0].entity).1, run[1..], rest);
      RunCons(t, d, run, rest);
    } else {
      assert EncodeRun(d, run).0 + rest == rest;
    }
  }

  /**
   * Block round trip: a non-empty run written from the zeroed state into one
   * block is read back by `readBlock` with its declared count, in order,
   * whatever bytes follow it in the buffer.
   */
  lemma BlockRoundTrip(t: EntityType, run: seq<Event>, rest: seq<byte>)
    requires EncodableRun(run) && SameType(run, t)
    ensures ReadBlock(VexCode(t), |run|, EncodeRun(ZERO, run).0 + rest) == Ok(run)
  {
    RunRoundTrip(t, ZERO, run, rest);
  }

  /** Appending an entity to a run appends its message, coded against the state the run leaves. */
  lemma {:induction false} EncodeRunSnoc(d: Deltas, run: seq<Event>, ev: Event)
    requires EncodableRun(run) && ev.WriteEntity? && Encodable(ev.entity)
    ensures EncodableRun(run + [ev])
    ensures var last := EncodeEntity(EncodeRun(d, run).1, ev.id, ev.entity);
            EncodeRun(d, run + [ev]) == (EncodeRun(d, run).0 + last.0, last.1)
    decreases |run|
  {
    var run' := run + [ev];
    assert EncodableRun(run') by {
      forall i | 0 <= i < |run'|
        ensures run'[i].WriteEntity? && Encodable(run'[i].entity)
      {
        if i < |run| { assert run'[i] == run[i]; }
      }
    }
    if |run| == 0 {
      assert run' == [ev];
      assert run'[1..] == [];
      var last := EncodeEntity(d, ev.id, ev.entity);
      assert EncodeRun(d, run') == (last.0 + [], last.1);
      assert last.0 + [] == [] + last.0;
    } else {
      var first := EncodeEntity(d, run[0].id, run[0].entity);
      assert run'[0] == run[0];
      assert run'[1..] == run[1..] + [ev];
      EncodeRunSnoc(first.1, run[1..], ev);
      var last := EncodeEntity(EncodeRun(first.1, run[1..]).1, ev.id, ev.entity);
      AppendAssoc(first.0, EncodeRun(first.1, run[1..]).0, last.0);
    }
  }

  /**
   * The writer puts no limit on the number of tags but the reader does: an
   * entity with more than 500 tags is written, and its block then fails to
   * decode.
   */
  lemma TooManyTagsRejected(tags: seq<Tag>, rest: seq<byte>)
    requires WritableTags(tags) && |tags| > MAX_TAGS
    ensures DecodeTags(EncodeTags(tags) + rest) == Err(TooManyTags(|tags|))
  {
    AppendAssoc(WriteUInt32(|tags|), EncodeTagPairs(tags), rest);
    UInt32RoundTrip(|tags|, EncodeTagPairs(tags) + rest);
  }
  /* ---------------- consumption ---------------- */

  /** Every decoder returns a suffix of its input: none of them ever grows what is left. */
  lemma {:induction false} TagPairsConsume(n: int, s: seq<byte>)
    requires DecodeTagPairs(n, s).Ok?
    ensures |DecodeTagPairs(n, s).value.1| <= |s|
    decreases n
  {
    if n > 0 {
      var k := ReadString(s).value;
      ReadStringConsumes(s);
      var v := ReadString(k.1).value;
      ReadStringConsumes(k.1);
      TagPairsConsume(n - 1, v.1);
    }
  }

  lemma {:induction false} RefsConsume(prev: int64, n: int, s: seq<byte>)
    requires DecodeRefs(prev, n, s).Ok?
    ensures |DecodeRefs(prev, n, s).value.2| <= |s|
    decreases n
  {
    if n > 0 {
      var delta := ReadSInt64(s).value;
      ReadSInt64Consumes(s);
      RefsConsume(AddLong(prev, delta.0), n - 1, delta.1);
    }
  }

  lemma MemberConsumes(s: seq<byte>)
    requires DecodeMember(s).Ok?
    ensures |DecodeMember(s).value.1| < |s|
  {
    var id := ReadSInt64(s).value;
    ReadSInt64Consumes(s);
    var ord := ReadUInt32(id.1).value;
    ReadUInt32Consumes(id.1);
    ReadStringConsumes(ord.1);
  }

  lemma BodyConsumes(t: EntityType, d: Deltas, tags: seq<Tag>, s: seq<byte>)
    requires DecodeBody(t, d, tags, s).Ok?
    ensures |DecodeBody(t, d, tags, s).value.2| < |s|
  {
    match t
    case NodeType =>
      var dlat := ReadSInt64(s).value;
      ReadSInt64Consumes(s);
      ReadSInt64Consumes(dlat.1);
    case WayType =>
      var n := ReadUInt32(s).value;
      ReadUInt32Consumes(s);
      RefsConsume(d.ref, n.0, n.1);
    case RelationType =>
      var n := ReadUInt32(s).value;
      ReadUInt32Consumes(s);
  }
}

=== FILE: vexio.dfy ===
/**
 * `VexOutput` and `VexInput` end to end: the writer's block state machine
 * over the deflater stream, the framed bytes that reach the downstream
 * stream, and the reader's loop over the read-ahead inflater.
 *
 * The writer relies on the stream's size-triggered `endBlock` when a block
 * outgrows its 2 MiB buffer, but keeps its delta-coding fields, while the
 * reader zeroes them at the start of every block. `WriteOne` models this
 * as written; `WriteOneCut` is the corrected writer, which begins a new
 * block (zeroing the fields) itself before a message would overflow.
 */
module VexIo {
  import opened Wrappers
  import opened Bytes
  import opened Errors
  import opened Osm
  import VarInt
  import opened VexCodec
  import DS = DeflaterStream
  import opened Framing
  import opened Inflater

  /* ---------------- writer ---------------- */

  /** `VexOutput`'s fields: the deflater stream, the delta-coding fields and `blockEntityType`. */
  datatype Writer = Writer(out: DS.Stream, deltas: Deltas, blockType: int)

  /** Between two sink calls the stream is consistent and no message is half written. */
  predicate Between(w: Writer) {
    DS.Valid(w.out) && DS.Pending(w.out) == []
  }

  /** `writeBegin`: a new stream; the Java fields start at zero and at `VEX_NONE`. */
  const BEGIN: Writer := Writer(DS.EMPTY, ZERO, VEX_NONE)

  /** Every call a writer receives is an entity the Java types can hold. */
  predicate Entities(evs: seq<Event>) {
    forall i :: 0 <= i < |evs| ==> evs[i].WriteEntity? && Representable(evs[i].entity)
  }

  /** `beginBlock`: zero the delta fields and set the header later blocks will carry. */
  function BeginBlock(w: Writer, code: int): (r: Writer)
    requires DS.Valid(w.out)
    ensures DS.Valid(r.out) && r.deltas == ZERO && r.out.header == BlockTag(code)
    ensures r.out == w.out.(header := BlockTag(code)) && r.blockType == w.blockType
  {
    w.(out := DS.SetHeader(w.out, BlockTag(code)), deltas := ZERO)
  }

  /**
   * `checkBlockTransition`: on a change of entity type, end the current
   * block (unless none was begun) and begin one of the new type.
   */
  function CheckBlockTransition(w: Writer, code: int): (r: Writer)
    requires Between(w)
    ensures Between(r) && r.blockType == code
    ensures DS.Committed(r.out) == DS.Committed(w.out) && DS.Messages(r.out) == DS.Messages(w.out)
    ensures w.blockType == code ==> r == w
    ensures w.blockType != code ==> r.deltas == ZERO && r.out.header == BlockTag(code)
    ensures w.blockType != code && w.blockType != VEX_NONE ==> r.out.nMessages == 0 && r.out.buffer == []
    ensures w.blockType == VEX_NONE ==> r.out.nMessages == w.out.nMessages && r.out.buffer == w.out.buffer
  {
    if w.blockType == code then w
    else
      var out := if w.blockType != VEX_NONE then DS.EndBlock(w.out) else w.out;
      BeginBlock(w.(out := out), code).(blockType := code)
  }

  /**
   * `writeNode`/`writeWay`/`writeRelation` as written: the entity's message
   * goes to the stream byte by byte (which may cut the block if the buffer
   * fills), then `endMessage`.
   */
  function WriteOne(w: Writer, id: int64, e: Entity): (r: Result<Writer, Error>)
    requires Between(w) && Representable(e)
    ensures r.Ok? ==> Between(r.value) && r.value.blockType == VexCode(TypeOf(e))
    ensures r.Ok? ==> DS.Messages(r.value.out) == DS.Messages(w.out) + 1
  {
    var w1 := CheckBlockTransition(w, VexCode(TypeOf(e)));
    var enc := EncodeEntity(w1.deltas, id, e);
    var out :- DS.WriteAll(w1.out, enc.0);
    assert DS.Messages(out) == DS.Messages(w1.out) by { DS.WriteAllSpec(w1.out, enc.0); }
    Ok(w1.(out := DS.EndMessage(out), deltas := enc.1))
  }

  /** Whether a message would overflow a block that already holds messages. */
  predicate MustCut(w: Writer, message: seq<byte>) {
    w.out.nMessages > 0 && |w.out.buffer| + |message| > DS.BUFFER_SIZE
  }

  /**
   * The corrected writer: when the message would overflow the block, end the
   * block and begin a new one of the same type, so that the message is coded
   * against zeroed fields as the reader expects.
   */
  function WriteOneCut(w: Writer, id: int64, e: Entity): (r: Result<Writer, Error>)
    requires Between(w) && Representable(e)
    ensures r.Ok? ==> Between(r.value) && r.value.blockType == VexCode(TypeOf(e))
    ensures r.Ok? ==> DS.Messages(r.value.out) == DS.Messages(w.out) + 1
  {
    var code := VexCode(TypeOf(e));
    var w1 := CheckBlockTransition(w, code);
    var w2 := if MustCut(w1, EncodeEntity(w1.deltas, id, e).0) then BeginBlock(w1.(out := DS.EndBlock(w1.out)), code) else w1;
    var enc := EncodeEntity(w2.deltas, id, e);
    var out :- DS.WriteAll(w2.out, enc.0);
    assert DS.Messages(out) == DS.Messages(w2.out) by { DS.WriteAllSpec(w2.out, enc.0); }
    Ok(w2.(out := DS.EndMessage(out), deltas := enc.1))
  }

  function WriteEntities(w: Writer, evs: seq<Event>): (r: Result<Writer, Error>)
    requires Between(w) && Entities(evs)
    ensures r.Ok? ==> Between(r.value) && DS.Messages(r.value.out) == DS.Messages(w.out) + |evs|
    decreases |evs|
  {
    if |evs| == 0 then Ok(w)
    else
      var w1 :- WriteOne(w, evs[0].id, evs[0].entity);
      WriteEntities(w1, evs[1..])
  }

  function WriteEntitiesCut(w: Writer, evs: seq<Event>): (r: Result<Writer, Error>)
    requires Between(w) && Entities(evs)
    ensures r.Ok? ==> Between(r.value) && DS.Messages(r.value.out) == DS.Messages(w.out) + |evs|
    decreases |evs|
  {
    if |evs| == 0 then Ok(w)
    else
      var w1 :- WriteOneCut(w, evs[0].id, evs[0].entity);
      WriteEntitiesCut(w1, evs[1..])
  }

  /** `writeEnd`: end the last block; the blocks handed off are all that leaves. */
  function Finish(w: Writer): (r: seq<DS.Block>)
    requires Between(w)
    ensures DS.Payloads(r) == DS.Committed(w.out)
    ensures forall i :: 0 <= i < |r| ==> r[i].nMessages > 0 && |r[i].payload| <= DS.BUFFER_SIZE
  {
    var out := DS.EndBlock(w.out);
    assert out.count == 0;
    out.handed
  }

  /** What the `DeflatedBlockWriter`s put on the downstream stream, block after block. */
  function Downstream(blocks: seq<DS.Block>): (r: seq<byte>)
    requires forall i :: 0 <= i < |blocks| ==> |blocks[i].payload| <= DS.BUFFER_SIZE
  {
    if |blocks| == 0 then []
    else
      var b := blocks[0];
      assert |b.payload| <= DS.BUFFER_SIZE;
      WriteFrame(b.header, Wrap32(b.nMessages), b.payload, |b.payload|) + Downstream(blocks[1..])
  }

  /** A whole `VexOutput` session as written: `writeBegin`, the entities, `writeEnd`. */
  function Write(evs: seq<Event>): Result<seq<byte>, Error>
    requires Entities(evs)
  {
    var w :- WriteEntities(BEGIN, evs);
    Ok(Downstream(Finish(w)))
  }

  /** A whole session with the corrected writer. */
  function WriteCut(evs: seq<Event>): Result<seq<byte>, Error>
    requires Entities(evs)
  {
    var w :- WriteEntitiesCut(BEGIN, evs);
    Ok(Downstream(Finish(w)))
  }

  /* ---------------- reader ---------------- */

  /**
   * `VexInput.read`'s loop: while the inflater has a block, decode its
   * entities from its buffer. A block without a buffer fails as the null
   * dereference does.
   */
  function ReadBlocks(st: State): (r: Result<seq<Event>, Error>)
    ensures r.Ok? ==> forall i :: 0 <= i < |r.value| ==> r.value[i].WriteEntity?
    decreases Measure(st)
  {
    var step :- NextBlock(st);
    if !step.0 then Ok([])
    else
      var f := step.1.curr.value.frame;
      if f.inflated.None? then Err(MissingBuffer)
      else
        var evs :- ReadBlock(f.entityType, f.nEntities, f.inflated.value);
        var more :- ReadBlocks(step.1);
        Ok(evs + more)
  }

  /** `VexInput.read`: `writeBegin`, every entity of every block, `writeEnd`. */
  function Read(s: seq<byte>): (r: Result<seq<Event>, Error>)
    ensures r.Ok? ==> |r.value| >= 2 && r.value[0] == WriteBegin && r.value[|r.value| - 1] == WriteEnd
    ensures r.Ok? ==> forall i :: 0 < i < |r.value| - 1 ==> r.value[i].WriteEntity?
  {
    var evs :- ReadBlocks(Start(s));
    Ok([WriteBegin] + evs + [WriteEnd])
  }

  /* ---------------- the block layout ---------------- */

  /** A run of entities that fits one block: non-empty, one type, decodable, at most 2 MiB coded from zero. */
  predicate GoodRun(run: seq<Event>) {
    && |run| > 0
    && EncodableRun(run)
    && SameType(run, TypeOf(run[0].entity))
    && |EncodeRun(ZERO, run).0| <= DS.BUFFER_SIZE
  }

  predicate GoodRuns(runs: seq<seq<Event>>) {
    forall i :: 0 <= i < |runs| ==> GoodRun(runs[i])
  }

  function RunCode(run: seq<Event>): int
    requires GoodRun(run)
  {
    VexCode(TypeOf(run[0].entity))
  }

  /** The block a run becomes in the stream: its header, its message count and its messages. */
  function StreamBlock(run: seq<Event>): DS.Block
    requires GoodRun(run)
  {
    DS.Block(BlockTag(RunCode(run)), |run|, EncodeRun(ZERO, run).0)
  }

  function StreamBlocks(runs: seq<seq<Event>>): (r: seq<DS.Block>)
    requires GoodRuns(runs)
    ensures |r| == |runs|
    ensures forall i :: 0 <= i < |r| ==> r[i].nMessages > 0 && |r[i].payload| <= DS.BUFFER_SIZE
  {
    if |runs| == 0 then []
    else
      assert GoodRun(runs[0]);
      [StreamBlock(runs[0])] + StreamBlocks(runs[1..])
  }

  /** The same block as the frame reader sees it. */
  function RunBlock(run: seq<Event>): (r: Outgoing)
    requires GoodRun(run)
    ensures Writable(r)
  {
    Outgoing(RunCode(run), |run|, EncodeRun(ZERO, run).0)
  }

  function RunBlocks(runs: seq<seq<Event>>): (r: seq<Outgoing>)
    requires GoodRuns(runs)
    ensures forall i :: 0 <= i < |r| ==> Writable(r[i])
    ensures |r| == |runs|
  {
    if |runs| == 0 then []
    else
      assert GoodRun(runs[0]);
      [RunBlock(runs[0])] + RunBlocks(runs[1..])
  }

  function Flatten(runs: seq<seq<Event>>): seq<Event> {
    if |runs| == 0 then [] else runs[0] + Flatten(runs[1..])
  }

  lemma {:induction false} FlattenSnoc(runs: seq<seq<Event>>, run: seq<Event>)
    ensures Flatten(runs + [run]) == Flatten(runs) + run
    decreases |runs|
  {
    if |runs| == 0 {
      assert runs + [run] == [run];
      assert Flatten([run]) == run + Flatten([]);
    } else {
      assert (runs + [run])[0] == runs[0];
      assert (runs + [run])[1..] == runs[1..] + [run];
      FlattenSnoc(runs[1..], run);
      AppendAssoc(runs[0], Flatten(runs[1..]), run);
    }
  }

  lemma {:induction false} StreamBlocksSnoc(runs: seq<seq<Event>>, run: seq<Event>)
    requires GoodRuns(runs) && GoodRun(run)
    ensures GoodRuns(runs + [run])
    ensures StreamBlocks(runs + [run]) == StreamBlocks(runs) + [StreamBlock(run)]
    decreases |runs|
  {
    var all := runs + [run];
    assert GoodRuns(all) by {
      forall i | 0 <= i < |all| ensures GoodRun(all[i]) {
        if i < |runs| { assert all[i] == runs[i]; }
      }
    }
    if |runs| == 0 {
      assert all == [run];
      assert all[1..] == [];
    } else {
      assert all[0] == runs[0];
      assert all[1..] == runs[1..] + [run];
      StreamBlocksSnoc(runs[1..], run);
    }
  }

  /** The writer's blocks, framed, are exactly the frames of the runs' blocks. */
  lemma {:induction false} DownstreamFrames(runs: seq<seq<Event>>)
    requires GoodRuns(runs)
    ensures Downstream(StreamBlocks(runs)) == WriteFrames(RunBlocks(runs))
    decreases |runs|
  {
    if |runs| > 0 {
      var run := runs[0];
      assert GoodRun(run);
      DownstreamFrames(runs[1..]);
      assert StreamBlocks(runs)[1..] == StreamBlocks(runs[1..]);
      assert RunBlocks(runs)[1..] == RunBlocks(runs[1..]);
      Wrap32Id(|run|);
    }
  }

  /* ---------------- reading the layout back ---------------- */

  /** A block of the layout, padded as the inflater leaves it, decodes to its run. */
  lemma RunBlockDecodes(run: seq<Event>)
    requires GoodRun(run)
    ensures Expected(RunBlock(run)).inflated.Some?
    ensures ReadBlock(Expected(RunBlock(run)).entityType, Expected(RunBlock(run)).nEntities,
                      Expected(RunBlock(run)).inflated.value) == Ok(run)
  {
    var b := RunBlock(run);
    var pad := Zeros(Framing.BUFFER_SIZE - |b.data|);
    assert b.code == VexCode(TypeOf(run[0].entity)) && b.nMessages == |run| && b.data == EncodeRun(ZERO, run).0;
    assert Expected(b).inflated == Some(b.data + pad);
    BlockRoundTrip(TypeOf(run[0].entity), run, pad);
  }

  /** One pass of the reader's loop: a delivered block that decodes to `run` puts `run` before the rest. */
  lemma ReadBlocksStep(st: State, f: Frame, run: seq<Event>, more: seq<Event>)
    requires NextBlock(st).Ok? && NextBlock(st).value.0 && NextBlock(st).value.1.curr == Some(Ready(f))
    requires f.inflated.Some? && ReadBlock(f.entityType, f.nEntities, f.inflated.value) == Ok(run)
    requires ReadBlocks(NextBlock(st).value.1) == Ok(more)
    ensures ReadBlocks(st) == Ok(run + more)
  {
  }

  lemma ReadBlocksEnd(st: State)
    requires NextBlock(st).Ok? && !NextBlock(st).value.0
    ensures ReadBlocks(st) == Ok([])
  {
  }

  /** An inflater about to deliver the frames of a layout makes the reader's loop yield its runs in order. */
  lemma {:induction false} ReadBlocksRuns(st: State, runs: seq<seq<Event>>)
    requires GoodRuns(runs)
    requires Delivers(st, ExpectedAll(RunBlocks(runs)))
    ensures ReadBlocks(st) == Ok(Flatten(runs))
    decreases |runs|
  {
    var fs := ExpectedAll(RunBlocks(runs));
    NextBlockDelivers(st, fs);
    if |runs| == 0 {
      ReadBlocksEnd(st);
    } else {
      assert GoodRun(runs[0]);
      assert RunBlocks(runs)[0] == RunBlock(runs[0]);
      assert RunBlocks(runs)[1..] == RunBlocks(runs[1..]);
      assert fs[0] == Expected(RunBlock(runs[0]));
      assert fs[1..] == ExpectedAll(RunBlocks(runs[1..]));
      RunBlockDecodes(runs[0]);
      ReadBlocksRuns(NextBlock(st).value.1, runs[1..]);
      ReadBlocksStep(st, fs[0], runs[0], Flatten(runs[1..]));
    }
  }

  /** The bytes of a layout read back as `writeBegin`, the runs' entities in order, `writeEnd`. */
  lemma LayoutRoundTrip(runs: seq<seq<Event>>)
    requires GoodRuns(runs)
    ensures Read(Downstream(StreamBlocks(runs))) == Ok([WriteBegin] + Flatten(runs) + [WriteEnd])
  {
    DownstreamFrames(runs);
    FramesRoundTrip(RunBlocks(runs));
    ReadBlocksRuns(Start(WriteFrames(RunBlocks(runs))), runs);
  }

  /* ---------------- the corrected writer lays out runs ---------------- */

  /**
   * The writer has handed off the runs `done` as blocks and holds the run
   * `cur` in its buffer, with the delta fields that run leaves; before the
   * first entity nothing is begun.
   */
  predicate Inv(w: Writer, done: seq<seq<Event>>, cur: seq<Event>) {
    && Between(w)
    && GoodRuns(done)
    && w.out.handed == StreamBlocks(done)
    && (if w.blockType == VEX_NONE then done == [] && Unbegun(w, cur) else Holds(w, cur))
  }

  /** Before the first entity: no run, and nothing in the buffer. */
  predicate Unbegun(w: Writer, cur: seq<Event>) {
    cur == [] && w.out.buffer == [] && w.out.nMessages == 0
  }

  /** The open block holds exactly the run `cur`, coded from zeroed fields, with the fields that run leaves. */
  predicate Holds(w: Writer, cur: seq<Event>) {
    && GoodRun(cur)
    && w.blockType == RunCode(cur)
    && w.out.header == BlockTag(w.blockType)
    && w.out.buffer == EncodeRun(ZERO, cur).0
    && w.deltas == EncodeRun(ZERO, cur).1
    && w.out.nMessages == |cur|
  }

  lemma InvBegin()
    ensures Inv(BEGIN, [], [])
  {
  }

  /** An entity that fits a block on its own, coded from zeroed fields. */
  predicate Fits(ev: Event) {
    ev.WriteEntity? && Encodable(ev.entity) && |EncodeEntity(ZERO, ev.id, ev.entity).0| <= DS.BUFFER_SIZE
  }

  lemma VexCodeInjective(a: EntityType, b: EntityType)
    ensures VexCode(a) == VexCode(b) ==> a == b
  {
  }

  /** Writing the first message of a fresh block, as every new block starts. */
  lemma FreshBlockMessage(w: Writer, ev: Event)
    requires Fits(ev) && DS.Valid(w.out) && w.out.buffer == [] && w.out.count == 0 && w.out.nMessages == 0
    requires w.deltas == ZERO
    ensures GoodRun([ev])
    ensures var enc := EncodeEntity(ZERO, ev.id, ev.entity);
            && DS.WriteAll(w.out, enc.0) == Ok(w.out.(buffer := enc.0))
            && EncodeRun(ZERO, [ev]) == enc
  {
    var enc := EncodeEntity(ZERO, ev.id, ev.entity);
    DS.WriteAllNoRotation(w.out, enc.0);
    assert [] + enc.0 == enc.0;
    EncodableRunOne(ev);
    EncodeRunSnoc(ZERO, [], ev);
    assert [] + [ev] == [ev];
    assert [] + enc.0 == enc.0;
  }

  lemma EncodableRunOne(ev: Event)
    requires ev.WriteEntity? && Encodable(ev.entity)
    ensures EncodableRun([ev]) && SameType([ev], TypeOf(ev.entity))
  {
  }

  /** Same type and room left: the message joins the current block. */
  lemma StepSame(w: Writer, done: seq<seq<Event>>, cur: seq<Event>, ev: Event)
    requires Inv(w, done, cur) && Fits(ev)
    requires w.blockType == VexCode(TypeOf(ev.entity))
    requires !MustCut(w, EncodeEntity(w.deltas, ev.id, ev.entity).0)
    ensures WriteOneCut(w, ev.id, ev.entity).Ok?
    ensures Inv(WriteOneCut(w, ev.id, ev.entity).value, done, cur + [ev])
  {
    var code := VexCode(TypeOf(ev.entity));
    assert CheckBlockTransition(w, code) == w;
    var enc := EncodeEntity(w.deltas, ev.id, ev.entity);
    DS.WriteAllNoRotation(w.out, enc.0);
    var out := w.out.(buffer := w.out.buffer + enc.0);
    var w' := w.(out := DS.EndMessage(out), deltas := enc.1);
    assert WriteOneCut(w, ev.id, ev.entity) == Ok(w');
    GrowRun(cur, ev);
  }

  /** A run grows by one entity of its own type whose message still fits the block. */
  lemma GrowRun(cur: seq<Event>, ev: Event)
    requires GoodRun(cur) && Fits(ev)
    requires VexCode(TypeOf(ev.entity)) == RunCode(cur)
    requires |EncodeRun(ZERO, cur).0| + |EncodeEntity(EncodeRun(ZERO, cur).1, ev.id, ev.entity).0| <= DS.BUFFER_SIZE
    ensures GoodRun(cur + [ev])
    ensures RunCode(cur + [ev]) == RunCode(cur)
    ensures EncodeRun(ZERO, cur + [ev]).0 == EncodeRun(ZERO, cur).0 + EncodeEntity(EncodeRun(ZERO, cur).1, ev.id, ev.entity).0
    ensures EncodeRun(ZERO, cur + [ev]).1 == EncodeEntity(EncodeRun(ZERO, cur).1, ev.id, ev.entity).1
  {
    EncodeRunSnoc(ZERO, cur, ev);
    VexCodeInjective(TypeOf(cur[0].entity), TypeOf(ev.entity));
    var cur' := cur + [ev];
    assert cur'[0] == cur[0];
    assert SameType(cur', TypeOf(cur'[0].entity)) by {
      forall i | 0 <= i < |cur'| ensures TypeOf(cur'[i].entity) == TypeOf(cur[0].entity) {
        if i < |cur| { assert cur'[i] == cur[i]; }
      }
    }
  }

  /** Same type but no room: the corrected writer hands off the block and starts the message afresh. */
  lemma StepCut(w: Writer, done: seq<seq<Event>>, cur: seq<Event>, ev: Event)
    requires Inv(w, done, cur) && Fits(ev)
    requires w.blockType == VexCode(TypeOf(ev.entity))
    requires MustCut(w, EncodeEntity(w.deltas, ev.id, ev.entity).0)
    ensures WriteOneCut(w, ev.id, ev.entity).Ok?
    ensures GoodRuns(done + [cur])
    ensures Inv(WriteOneCut(w, ev.id, ev.entity).value, done + [cur], [ev])
  {
    var code := VexCode(TypeOf(ev.entity));
    assert CheckBlockTransition(w, code) == w;
    CutBlock(w, done, cur, code);
    FreshBlockMessage(BeginBlock(w.(out := DS.EndBlock(w.out)), code), ev);
  }

  /** A cut hands off the current run and opens an empty block of the same type with zeroed deltas. */
  lemma CutBlock(w: Writer, done: seq<seq<Event>>, cur: seq<Event>, code: int)
    requires Inv(w, done, cur) && w.blockType == code && code != VEX_NONE
    ensures GoodRuns(done + [cur])
    ensures var out := BeginBlock(w.(out := DS.EndBlock(w.out)), code).out;
            && out.handed == StreamBlocks(done + [cur])
            && out.buffer == [] && out.count == 0 && out.nMessages == 0 && out.header == BlockTag(code)
            && BeginBlock(w.(out := DS.EndBlock(w.out)), code).deltas == ZERO
            && BeginBlock(w.(out := DS.EndBlock(w.out)), code).blockType == code
  {
    assert w.out.buffer[..w.out.count] == w.out.buffer;
    assert DS.EndBlock(w.out).handed == w.out.handed + [StreamBlock(cur)];
    StreamBlocksSnoc(done, cur);
  }

  /** A change of type: the current block (if any) is handed off and a block of the new type begins. */
  lemma StepNewType(w: Writer, done: seq<seq<Event>>, cur: seq<Event>, ev: Event)
    requires Inv(w, done, cur) && Fits(ev)
    requires w.blockType != VexCode(TypeOf(ev.entity))
    ensures WriteOneCut(w, ev.id, ev.entity).Ok?
    ensures GoodRuns(done + [cur]) || (done == [] && cur == [])
    ensures var done' := if w.blockType == VEX_NONE then done else done + [cur];
            GoodRuns(done') && Inv(WriteOneCut(w, ev.id, ev.entity).value, done', [ev])
  {
    NewTypeBlock(w, done, cur, VexCode(TypeOf(ev.entity)));
    FreshBlockMessage(CheckBlockTransition(w, VexCode(TypeOf(ev.entity))), ev);
  }

  /** On a change of type the layout gains the current run (if any) and an empty block of the new type opens. */
  lemma NewTypeBlock(w: Writer, done: seq<seq<Event>>, cur: seq<Event>, code: int)
    requires Inv(w, done, cur) && w.blockType != code
    ensures GoodRuns(done + [cur]) || (done == [] && cur == [])
    ensures var done' := if w.blockType == VEX_NONE then done else done + [cur];
            var out := CheckBlockTransition(w, code).out;
            && GoodRuns(done') && out.handed == StreamBlocks(done')
            && out.buffer == [] && out.count == 0 && out.nMessages == 0 && out.header == BlockTag(code)
            && CheckBlockTransition(w, code).deltas == ZERO
  {
    if w.blockType != VEX_NONE {
      assert w.out.buffer[..w.out.count] == w.out.buffer;
      assert DS.EndBlock(w.out).handed == w.out.handed + [StreamBlock(cur)];
      StreamBlocksSnoc(done, cur);
    }
  }

  /** One corrected `write…` call keeps the layout invariant and appends the entity to what the layout holds. */
  lemma Step(w: Writer, done: seq<seq<Event>>, cur: seq<Event>, ev: Event) returns (done': seq<seq<Event>>, cur': seq<Event>)
    requires Inv(w, done, cur) && Fits(ev)
    ensures WriteOneCut(w, ev.id, ev.entity).Ok?
    ensures Inv(WriteOneCut(w, ev.id, ev.entity).value, done', cur')
    ensures Flatten(done') + cur' == Flatten(done) + cur + [ev]
  {
    var code := VexCode(TypeOf(ev.entity));
    if w.blockType == code {
      if MustCut(w, EncodeEntity(w.deltas, ev.id, ev.entity).0) {
        StepCut(w, done, cur, ev);
        done', cur' := done + [cur], [ev];
        FlattenSnoc(done, cur);
      } else {
        StepSame(w, done, cur, ev);
        done', cur' := done, cur + [ev];
        AppendAssoc(Flatten(done), cur, [ev]);
      }
    } else {
      StepNewType(w, done, cur, ev);
      if w.blockType == VEX_NONE {
        done', cur' := done, [ev];
      } else {
        done', cur' := done + [cur], [ev];
        FlattenSnoc(done, cur);
      }
    }
  }

  predicate AllFit(evs: seq<Event>) {
    forall i :: 0 <= i < |evs| ==> Fits(evs[i])
  }

  lemma FitsEntities(evs: seq<Event>)
    requires AllFit(evs)
    ensures Entities(evs)
  {
    forall i | 0 <= i < |evs| ensures evs[i].WriteEntity? && Representable(evs[i].entity) {
      assert Fits(evs[i]);
    }
  }

  lemma AllFitTail(evs: seq<Event>)
    requires AllFit(evs) && |evs| > 0
    ensures Fits(evs[0]) && AllFit(evs[1..]) && Entities(evs[1..])
  {
    assert AllFit(evs[1..]) by {
      forall i | 0 <= i < |evs[1..]| ensures Fits(evs[1..][i]) { assert evs[1..][i] == evs[i + 1]; }
    }
    FitsEntities(evs[1..]);
  }

  /** A sequence of corrected `write…` calls keeps the invariant and lays out every entity in order. */
  lemma {:induction false} Steps(w: Writer, done: seq<seq<Event>>, cur: seq<Event>, evs: seq<Event>)
    returns (done': seq<seq<Event>>, cur': seq<Event>)
    requires Inv(w, done, cur) && AllFit(evs)
    ensures Entities(evs) && WriteEntitiesCut(w, evs).Ok?
    ensures Inv(WriteEntitiesCut(w, evs).value, done', cur')
    ensures Flatten(done') + cur' == Flatten(done) + cur + evs
    decreases |evs|
  {
    FitsEntities(evs);
    if |evs| == 0 {
      done', cur' := done, cur;
      assert WriteEntitiesCut(w, evs) == Ok(w);
      assert Flatten(done) + cur + evs == Flatten(done) + cur;
    } else {
      AllFitTail(evs);
      var d1, c1 := Step(w, done, cur, evs[0]);
      WriteEntitiesCutFirst(w, evs);
      done', cur' := Steps(WriteOneCut(w, evs[0].id, evs[0].entity).value, d1, c1, evs[1..]);
      HeadThenTail(Flatten(done) + cur, evs);
    }
  }

  lemma WriteEntitiesCutFirst(w: Writer, evs: seq<Event>)
    requires Between(w) && Entities(evs) && |evs| > 0
    requires WriteOneCut(w, evs[0].id, evs[0].entity).Ok?
    ensures Entities(evs[1..])
    ensures WriteEntitiesCut(w, evs) == WriteEntitiesCut(WriteOneCut(w, evs[0].id, evs[0].entity).value, evs[1..])
  {
  }

  lemma HeadThenTail(p: seq<Event>, evs: seq<Event>)
    requires |evs| > 0
    ensures p + [evs[0]] + evs[1..] == p + evs
  {
    AppendAssoc(p, [evs[0]], evs[1..]);
    assert [evs[0]] + evs[1..] == evs;
  }

  /** `writeEnd` hands off the run still in the buffer, if there is one. */
  lemma FinishRuns(w: Writer, done: seq<seq<Event>>, cur: seq<Event>) returns (runs: seq<seq<Event>>)
    requires Inv(w, done, cur)
    ensures GoodRuns(runs) && Finish(w) == StreamBlocks(runs)
    ensures Flatten(runs) == Flatten(done) + cur
  {
    if w.blockType == VEX_NONE {
      runs := done;
      assert Flatten(done) + cur == Flatten(done);
    } else {
      runs := done + [cur];
      assert w.out.buffer[..w.out.count] == w.out.buffer;
      StreamBlocksSnoc(done, cur);
      FlattenSnoc(done, cur);
    }
  }

  /** With a block open, `writeEnd` hands off its run as the last block. */
  lemma FinishOpen(w: Writer, done: seq<seq<Event>>, cur: seq<Event>)
    requires Inv(w, done, cur) && w.blockType != VEX_NONE
    ensures GoodRuns(done + [cur]) && Finish(w) == StreamBlocks(done + [cur])
  {
    assert w.out.buffer[..w.out.count] == w.out.buffer;
    StreamBlocksSnoc(done, cur);
  }

  /** The corrected writer's output is the framed layout of runs that together hold the entities in order. */
  lemma CutLayout(evs: seq<Event>) returns (runs: seq<seq<Event>>)
    requires AllFit(evs)
    ensures Entities(evs) && GoodRuns(runs)
    ensures WriteCut(evs) == Ok(Downstream(StreamBlocks(runs)))
    ensures Flatten(runs) == evs
  {
    InvBegin();
    var done, cur := Steps(BEGIN, [], [], evs);
    var w := WriteEntitiesCut(BEGIN, evs).value;
    runs := FinishRuns(w, done, cur);
    assert Flatten([]) + [] == [];
  }

  /**
   * Round trip of the corrected writer: every sequence of entities that each
   * fit a block on their own is written without error and read back as
   * `writeBegin`, the same entities in the same order, `writeEnd`.
   */
  lemma CutRoundTrip(evs: seq<Event>)
    requires AllFit(evs)
    ensures Entities(evs) && WriteCut(evs).Ok?
    ensures Read(WriteCut(evs).value) == Ok([WriteBegin] + evs + [WriteEnd])
  {
    var runs := CutLayout(evs);
    LayoutRoundTrip(runs);
  }

  /* ---------------- the writer as written ---------------- */

  /**
   * Whether the corrected writer, fed `evs` from `w`, never needs to cut a
   * block for size; a failed write ends the question.
   */
  predicate NoCut(w: Writer, evs: seq<Event>)
    requires Between(w) && Entities(evs)
    decreases |evs|
  {
    |evs| == 0 ||
    (var w1 := CheckBlockTransition(w, VexCode(TypeOf(evs[0].entity)));
     && !MustCut(w1, EncodeEntity(w1.deltas, evs[0].id, evs[0].entity).0)
     && match WriteOneCut(w, evs[0].id, evs[0].entity)
        case Err(_) => true
        case Ok(w2) => NoCut(w2, evs[1..]))
  }

  /** One call on which no block must be cut: both writers do the same. */
  lemma SameWithoutCut(w: Writer, id: int64, e: Entity)
    requires Between(w) && Representable(e)
    requires var w1 := CheckBlockTransition(w, VexCode(TypeOf(e)));
             !MustCut(w1, EncodeEntity(w1.deltas, id, e).0)
    ensures WriteOne(w, id, e) == WriteOneCut(w, id, e)
  {
  }

  /** Where no block must be cut for size, the writer as written and the corrected one agree. */
  lemma {:induction false} AgreeWithoutCut(w: Writer, evs: seq<Event>)
    requires Between(w) && Entities(evs) && NoCut(w, evs)
    ensures WriteEntities(w, evs) == WriteEntitiesCut(w, evs)
    decreases |evs|
  {
    if |evs| > 0 {
      SameWithoutCut(w, evs[0].id, evs[0].entity);
      match WriteOneCut(w, evs[0].id, evs[0].entity)
      case Err(_) =>
      case Ok(w2) =>
        assert Entities(evs[1..]) by {
          forall i | 0 <= i < |evs[1..]| ensures evs[1..][i].WriteEntity? && Representable(evs[1..][i].entity) {
            assert evs[1..][i] == evs[i + 1];
          }
        }
        AgreeWithoutCut(w2, evs[1..]);
    }
  }

  /**
   * The round trip `VexOutput` then `VexInput` holds as written whenever no
   * block outgrows its buffer: same entities, same order.
   */
  lemma RoundTrip(evs: seq<Event>)
    requires AllFit(evs)
    requires Entities(evs) && NoCut(BEGIN, evs)
    ensures Write(evs).Ok?
    ensures Read(Write(evs).value) == Ok([WriteBegin] + evs + [WriteEnd])
  {
    AgreeWithoutCut(BEGIN, evs);
    SameSession(evs);
    CutRoundTrip(evs);
  }

  /** Sessions whose entity writes agree produce the same bytes. */
  lemma SameSession(evs: seq<Event>)
    requires Entities(evs) && WriteEntities(BEGIN, evs) == WriteEntitiesCut(BEGIN, evs)
    ensures Write(evs) == WriteCut(evs)
  {
  }

  /* ---------------- the cut that loses the delta state ---------------- */

  /** Way references that make way 1's message exactly fill a block: 1 + 1 + 3 bytes of header fields plus one byte per reference. */
  const FILL_REFS: nat := 2097147

  /** A way without tags or references, the smallest second way. */
  const SHORT_WAY: Entity := Way([], [])

  predicate AllZero(refs: seq<int64>) {
    forall i :: 0 <= i < |refs| ==> refs[i] == 0
  }

  lemma {:induction false} ZeroRefsLength(refs: seq<int64>)
    requires AllZero(refs)
    ensures |EncodeRefs(0, refs).0| == |refs|
    ensures EncodeRefs(0, refs).1 == 0
    decreases |refs|
  {
    if |refs| > 0 {
      assert AllZero(refs[1..]) by {
        forall i | 0 <= i < |refs[1..]| ensures refs[1..][i] == 0 { assert refs[1..][i] == refs[i + 1]; }
      }
      ZeroRefsLength(refs[1..]);
      Wrap64Id(0);
      assert refs[0] == 0;
      assert VarInt.WriteSInt64(SubLong(refs[0], 0)) == [0];
    }
  }

  /**
   * Way 1 whose message fills a block exactly and leaves the delta fields at
   * id 1 and node 0 (its last reference, if any, is node 0).
   */
  predicate FillsBlock(e: Entity) {
    && e.Way? && Encodable(e)
    && |EncodeEntity(ZERO, 1, e).0| == DS.BUFFER_SIZE
    && EncodeEntity(ZERO, 1, e).1 == Deltas(1, 0, 0, 0)
  }

  /** A way with id 2 that fits a block on its own. */
  predicate SecondWayFits(ev: Event) {
    ev.WriteEntity? && ev.id == 2 && ev.entity.Way? && Fits(ev)
  }

  /** Such sessions exist: `FILL_REFS` references to node 0 fill a block exactly, and the short way fits. */
  lemma LongWayFillsBlock(refs: seq<int64>)
    requires |refs| == FILL_REFS && AllZero(refs)
    ensures FillsBlock(Way([], refs))
    ensures SecondWayFits(WriteEntity(2, SHORT_WAY))
  {
    ZeroRefsLength(refs);
    Wrap64Id(1);
    Wrap64Id(2);
    assert VarInt.WriteSInt64(1) == [2];
    assert EncodeTags([]) == [0];
    assert |VarInt.EncodeVarint(FILL_REFS)| == 3 by {
      assert VarInt.EncodeVarint(FILL_REFS) == [128 + FILL_REFS % 128] + VarInt.EncodeVarint(FILL_REFS / 128);
      assert FILL_REFS / 128 == 16383;
      assert VarInt.EncodeVarint(16383) == [128 + 16383 % 128] + VarInt.EncodeVarint(127);
    }
  }

  /**
   * Way 2 coded after way 1 (fields at id 1 and node 0) has the bytes of the
   * same way with id 1 coded from zeroed fields.
   */
  lemma SecondWayBytes(e: Entity)
    requires e.Way? && Representable(e)
    ensures EncodeEntity(Deltas(1, 0, 0, 0), 2, e).0 == EncodeEntity(ZERO, 1, e).0
    ensures |EncodeEntity(ZERO, 1, e).0| == |EncodeEntity(ZERO, 2, e).0| > 0
  {
    Wrap64Id(1);
    Wrap64Id(2);
    assert VarInt.WriteSInt64(1) == [2];
    assert VarInt.WriteSInt64(2) == [4];
  }

  /** The event the reader reports for way 2: the same way with id 1. */
  function Misread(ev: Event): (r: Event)
    requires ev.WriteEntity?
    ensures r.WriteEntity? && r.entity == ev.entity && r.id == 1
  {
    WriteEntity(1, ev.entity)
  }

  lemma Session2(a: Event, b: Event)
    ensures [WriteBegin] + [a, b] + [WriteEnd] == [WriteBegin, a, b, WriteEnd]
  {
  }

  /**
   * As written, a way whose message fills the buffer exactly (id 1, last
   * reference node 0), followed by any second way (id 2), is read back with
   * the second way's id wrong: the stream cuts the block when way 2's first
   * byte arrives, so way 2 opens a block while still coded against way 1,
   * and the reader, starting from zero, sees id 1.
   */
  lemma CutLosesId(ev1: Event, ev2: Event)
    requires ev1.WriteEntity? && ev1.id == 1 && FillsBlock(ev1.entity)
    requires SecondWayFits(ev2)
    ensures Entities([ev1, ev2]) && Write([ev1, ev2]).Ok?
    ensures Read(Write([ev1, ev2]).value) == Ok([WriteBegin, ev1, Misread(ev2), WriteEnd])
  {
    InvBegin();
    LosesIdFrom(BEGIN, ev1, ev2);
  }

  /** The same session from any writer that has not begun a block. */
  lemma LosesIdFrom(w0: Writer, ev1: Event, ev2: Event)
    requires Inv(w0, [], [])
    requires ev1.WriteEntity? && ev1.id == 1 && FillsBlock(ev1.entity)
    requires SecondWayFits(ev2)
    ensures Entities([ev1, ev2]) && WriteEntities(w0, [ev1, ev2]).Ok?
    ensures Read(Downstream(Finish(WriteEntities(w0, [ev1, ev2]).value)))
         == Ok([WriteBegin, ev1, Misread(ev2), WriteEnd])
  {
    FirstWay(w0, ev1);
    SameWithoutCut(w0, 1, ev1.entity);
    SecondWay(WriteOneCut(w0, 1, ev1.entity).value, ev1, ev2);
    TwoWrites(w0, ev1, ev2);
    SessionRead(WriteOneCut(WriteOneCut(w0, 1, ev1.entity).value, 1, ev2.entity).value, ev1, Misread(ev2));
  }

  lemma EntitiesPair(a: Event, b: Event)
    requires a.WriteEntity? && b.WriteEntity? && Representable(a.entity) && Representable(b.entity)
    ensures Entities([a, b])
  {
    forall i | 0 <= i < 2 ensures [a, b][i].WriteEntity? && Representable([a, b][i].entity) {
      if i == 0 { assert [a, b][i] == a; } else { assert [a, b][i] == b; }
    }
  }

  /** Two `write…` calls as written. */
  lemma TwoWrites(w0: Writer, ev1: Event, ev2: Event)
    requires Between(w0) && ev1.WriteEntity? && ev2.WriteEntity?
    requires Representable(ev1.entity) && Representable(ev2.entity)
    requires WriteOne(w0, ev1.id, ev1.entity).Ok?
    requires WriteOne(WriteOne(w0, ev1.id, ev1.entity).value, ev2.id, ev2.entity).Ok?
    ensures Entities([ev1, ev2])
    ensures WriteEntities(w0, [ev1, ev2]) == WriteOne(WriteOne(w0, ev1.id, ev1.entity).value, ev2.id, ev2.entity)
  {
    EntitiesPair(ev1, ev2);
    assert [ev1, ev2][1..] == [ev2];
    WriteEntitiesFirst(w0, [ev1, ev2]);
    WriteEntitiesLast(WriteOne(w0, ev1.id, ev1.entity).value, ev2);
  }

  /** Writing a non-empty list writes its head, then the rest. */
  lemma WriteEntitiesFirst(w: Writer, evs: seq<Event>)
    requires Between(w) && Entities(evs) && |evs| > 0
    requires WriteOne(w, evs[0].id, evs[0].entity).Ok?
    ensures Entities(evs[1..])
    ensures WriteEntities(w, evs) == WriteEntities(WriteOne(w, evs[0].id, evs[0].entity).value, evs[1..])
  {
  }

  lemma WriteEntitiesLast(w: Writer, ev: Event)
    requires Between(w) && ev.WriteEntity? && Representable(ev.entity) && Entities([ev])
    ensures WriteEntities(w, [ev]) == WriteOne(w, ev.id, ev.entity)
  {
    assert [ev][1..] == [];
  }

  /** Finishing a writer that holds run `b` after handing off run `a` reads back `a` then `b`. */
  lemma SessionRead(w: Writer, a: Event, b: Event)
    requires Inv(w, [[a]], [b])
    ensures Read(Downstream(Finish(w))) == Ok([WriteBegin, a, b, WriteEnd])
  {
    FinishOpen(w, [[a]], [b]);
    assert [[a]] + [[b]] == [[a], [b]];
    ReadTwoRuns(a, b);
  }

  lemma ReadTwoRuns(a: Event, b: Event)
    requires GoodRuns([[a], [b]])
    ensures Read(Downstream(StreamBlocks([[a], [b]]))) == Ok([WriteBegin, a, b, WriteEnd])
  {
    FlattenTwo(a, b);
    LayoutRoundTrip([[a], [b]]);
    Session2(a, b);
  }

  lemma FlattenTwo(a: Event, b: Event)
    ensures Flatten([[a], [b]]) == [a, b]
  {
    FlattenSnoc([[a]], [b]);
    FlattenSnoc([], [a]);
    assert [[a]] + [[b]] == [[a], [b]];
    assert [] + [[a]] == [[a]];
  }

  /** A way that fills a block, written first, is the whole run of a full first block. */
  lemma FirstWay(w0: Writer, ev1: Event)
    requires Inv(w0, [], [])
    requires ev1.WriteEntity? && ev1.id == 1 && FillsBlock(ev1.entity)
    ensures Fits(ev1) && WriteOneCut(w0, 1, ev1.entity).Ok?
    ensures var wA := WriteOneCut(w0, 1, ev1.entity).value;
            && Inv(wA, [], [ev1]) && wA.blockType == VEX_WAY
            && wA.deltas == Deltas(1, 0, 0, 0) && |wA.out.buffer| == DS.BUFFER_SIZE
  {
    assert Fits(ev1);
    StepNewType(w0, [], [], ev1);
    RunOne(ev1);
  }

  lemma RunOne(ev: Event)
    requires ev.WriteEntity? && Encodable(ev.entity)
    ensures EncodableRun([ev]) && EncodeRun(ZERO, [ev]) == EncodeEntity(ZERO, ev.id, ev.entity)
  {
    EncodableRunOne(ev);
    EncodeRunSnoc(ZERO, [], ev);
    assert [] + [ev] == [ev];
    var enc := EncodeEntity(ZERO, ev.id, ev.entity);
    assert [] + enc.0 == enc.0;
  }

  /**
   * Way 2 after a full block: the writer as written and the corrected one
   * fed the misread way end with the same stream, the corrected one having
   * laid out the misread way as a block of its own.
   */
  lemma SecondWay(wA: Writer, ev1: Event, ev2: Event)
    requires Fits(ev1) && Inv(wA, [], [ev1]) && wA.blockType == VEX_WAY
    requires wA.deltas == Deltas(1, 0, 0, 0) && |wA.out.buffer| == DS.BUFFER_SIZE
    requires SecondWayFits(ev2)
    ensures WriteOne(wA, 2, ev2.entity).Ok? && WriteOneCut(wA, 1, ev2.entity).Ok?
    ensures var wB, wC := WriteOne(wA, 2, ev2.entity).value, WriteOneCut(wA, 1, ev2.entity).value;
            && wB.out == wC.out && Finish(wB) == Finish(wC)
            && Inv(wC, [[ev1]], [Misread(ev2)])
  {
    var misread := Misread(ev2);
    SecondWayBytes(ev2.entity);
    assert Fits(misread);
    assert MustCut(wA, EncodeEntity(wA.deltas, 1, ev2.entity).0);
    StepCut(wA, [], [ev1], misread);
    assert [] + [[ev1]] == [[ev1]];
    DS.WriteAllFull(wA.out, EncodeEntity(ZERO, 1, ev2.entity).0);
    assert DS.EndBlock(wA.out).header == BlockTag(VEX_WAY);
  }

  /** The corrected writer reads the same two ways back unchanged. */
  lemma CutKeepsId(ev1: Event, ev2: Event)
    requires ev1.WriteEntity? && ev1.id == 1 && FillsBlock(ev1.entity)
    requires SecondWayFits(ev2)
    ensures Entities([ev1, ev2]) && WriteCut([ev1, ev2]).Ok?
    ensures Read(WriteCut([ev1, ev2]).value) == Ok([WriteBegin, ev1, ev2, WriteEnd])
  {
    assert Fits(ev1);
    Session2(ev1, ev2);
    CutRoundTrip([ev1, ev2]);
  }
}

=== FILE: wayserializer.dfy ===
/**
 * `serializer.WaySerializer`, the MapDB value format of a way: the node
 * count, the node references as ZigZag deltas, then the tags. Unlike a VEX
 * block, the running reference starts from 0 for every way, so each record
 * stands alone.
 *
 * The tag layout of `serializer.VarInt.writeTags`/`readTags` is assumed to
 * be the count followed by key and value of each tag (the same layout as
 * VEX), with no limit on the count when reading.
 */
module WaySerializer {
  import opened Wrappers
  import opened Bytes
  import opened Errors
  import opened VarInt
  import opened Osm
  import opened VexCodec

  /** A way that can be serialized: every count and string length fits a Java int. */
  predicate Serializable(w: Entity) {
    w.Way? && Representable(w)
  }

  /** `serialize`: the node count, reference deltas from 0, then the tags. */
  function Serialize(w: Entity): seq<byte>
    requires Serializable(w)
  {
    WriteUInt32(|w.nodes|) + EncodeRefs(0, w.nodes).0 + EncodeTags(w.tags)
  }

  /** `VarInt.readTags`: a count, then that many key/value pairs (none for a negative count). */
  function ReadTags(s: seq<byte>): Result<(seq<Tag>, seq<byte>), Error>
  {
    var n :- ReadUInt32(s);
    DecodeTagPairs(n.0, n.1)
  }

  /**
   * `deserialize`: the count sizes the `long[]` (a negative count is
   * `NegativeArraySizeException`), each reference is the previous one plus
   * the next delta, then the tags.
   */
  function Deserialize(s: seq<byte>): (r: Result<(Entity, seq<byte>), Error>)
    ensures r.Ok? ==> r.value.0.Way? && ReadUInt32(s).Ok? && |r.value.0.nodes| == ReadUInt32(s).value.0
    ensures ReadUInt32(s).Ok? && ReadUInt32(s).value.0 < 0 ==> r == Err(NegativeArraySize(ReadUInt32(s).value.0))
  {
    var n :- ReadUInt32(s);
    if n.0 < 0 then Err(NegativeArraySize(n.0))
    else
      var refs :- DecodeRefs(0, n.0, n.1);
      RefsLength(0, n.0, n.1);
      var tags :- ReadTags(refs.2);
      Ok((Way(tags.0, refs.0), tags.1))
  }

  /** The decoder fills exactly as many references as it was asked for. */
  lemma {:induction false} RefsLength(prev: int64, n: int, s: seq<byte>)
    requires n >= 0
    ensures DecodeRefs(prev, n, s).Ok? ==> |DecodeRefs(prev, n, s).value.0| == n
    decreases n
  {
    if n > 0 {
      match ReadSInt64(s)
      case Err(_) =>
      case Ok(delta) =>
        RefsLength(AddLong(prev, delta.0), n - 1, delta.1);
    }
  }

  /** Tags written by `writeTags` read back in order. */
  lemma TagsRead(tags: seq<Tag>, rest: seq<byte>)
    requires WritableTags(tags)
    ensures ReadTags(EncodeTags(tags) + rest) == Ok((tags, rest))
  {
    assert EncodeTags(tags) + rest == WriteUInt32(|tags|) + (EncodeTagPairs(tags) + rest);
    UInt32RoundTrip(|tags|, EncodeTagPairs(tags) + rest);
    TagPairsRoundTrip(tags, rest);
  }

  /** The decoder's steps, over abstract bytes. */
  lemma DeserializeStep(s: seq<byte>, n: int32, s1: seq<byte>, refs: seq<int64>, last: int64, s2: seq<byte>,
                        tags: seq<Tag>, rest: seq<byte>)
    requires n >= 0
    requires ReadUInt32(s) == Ok((n, s1))
    requires DecodeRefs(0, n, s1) == Ok((refs, last, s2))
    requires ReadTags(s2) == Ok((tags, rest))
    ensures Deserialize(s) == Ok((Way(tags, refs), rest))
  {
  }

  /**
   * Round trip: a serialized way reads back with the same references in the
   * same order, whether they rise, fall or repeat, and the same tags.
   */
  lemma RoundTrip(w: Entity, rest: seq<byte>)
    requires Serializable(w)
    ensures Deserialize(Serialize(w) + rest) == Ok((w, rest))
  {
    var a := WriteUInt32(|w.nodes|);
    var b := EncodeRefs(0, w.nodes);
    var c := EncodeTags(w.tags);
    assert Serialize(w) + rest == a + (b.0 + (c + rest)) by {
      AppendAssoc(a + b.0, c, rest);
      AppendAssoc(a, b.0, c + rest);
    }
    UInt32RoundTrip(|w.nodes|, b.0 + (c + rest));
    RefsRoundTrip(0, w.nodes, c + rest);
    TagsRead(w.tags, rest);
    DeserializeStep(Serialize(w) + rest, |w.nodes|, b.0 + (c + rest), w.nodes, b.1, c + rest, w.tags, rest);
  }

  predicate AllSerializable(ws: seq<Entity>) {
    forall i :: 0 <= i < |ws| ==> Serializable(ws[i])
  }

  lemma SerializableTail(ws: seq<Entity>)
    requires |ws| > 0 && AllSerializable(ws)
    ensures Serializable(ws[0]) && AllSerializable(ws[1..])
  {
    forall i | 0 <= i < |ws[1..]| ensures Serializable(ws[1..][i]) {
      assert ws[1..][i] == ws[i + 1];
    }
  }

  /** Ways stored one after another, each serialized on its own. */
  function SerializeAll(ws: seq<Entity>): seq<byte>
    requires AllSerializable(ws)
  {
    if |ws| == 0 then []
    else
      SerializableTail(ws);
      Serialize(ws[0]) + SerializeAll(ws[1..])
  }

  /** `n` ways deserialized one after another. */
  function DeserializeAll(n: nat, s: seq<byte>): Result<(seq<Entity>, seq<byte>), Error>
  {
    if n == 0 then Ok(([], s))
    else
      var w :- Deserialize(s);
      var rest :- DeserializeAll(n - 1, w.1);
      Ok(([w.0] + rest.0, rest.1))
  }

  lemma AllStep(n: nat, s: seq<byte>, w: Entity, s1: seq<byte>, ws: seq<Entity>, rest: seq<byte>)
    requires n > 0 && Deserialize(s) == Ok((w, s1)) && DeserializeAll(n - 1, s1) == Ok((ws, rest))
    ensures DeserializeAll(n, s) == Ok(([w] + ws, rest))
  {
  }

  /** A serialized way in front of records that read back is read first, then those. */
  lemma RecordAt(w: Entity, ws: seq<Entity>, tail: seq<byte>, rest: seq<byte>)
    requires Serializable(w) && DeserializeAll(|ws|, tail) == Ok((ws, rest))
    ensures DeserializeAll(|ws| + 1, Serialize(w) + tail) == Ok(([w] + ws, rest))
  {
    RoundTrip(w, tail);
    AllStep(|ws| + 1, Serialize(w) + tail, w, tail, ws, rest);
  }

  /**
   * Since the running reference restarts at 0 for every way, a record reads
   * back the same whatever was written before it: a sequence of serialized
   * ways reads back as those ways.
   */
  lemma {:induction false} AllRoundTrip(ws: seq<Entity>, rest: seq<byte>)
    requires AllSerializable(ws)
    ensures DeserializeAll(|ws|, SerializeAll(ws) + rest) == Ok((ws, rest))
    decreases |ws|
  {
    if |ws| == 0 {
      assert SerializeAll(ws) + rest == rest;
    } else {
      SerializableTail(ws);
      var tail := SerializeAll(ws[1..]);
      AllRoundTrip(ws[1..], rest);
      AppendAssoc(Serialize(ws[0]), tail, rest);
      RecordAt(ws[0], ws[1..], tail + rest, rest);
      assert [ws[0]] + ws[1..] == ws;
    }
  }
}

=== FILE: wrappers.dfy ===
/** Failure-compatible wrappers shared by every module of the model. */
module Wrappers {

  /** An optional value; stands for a Java reference that may be null. */
  datatype Option<+T> = None | Some(value: T)

  /** The outcome of an operation that may throw: a value, or the error it raised. */
  datatype Result<+T, +E> = Ok(value: T) | Err(error: E) {

    predicate IsFailure() {
      Err?
    }

    function PropagateFailure<U>(): Result<U, E>
      requires Err?
    {
      Err(error)
    }

    function Extract(): T
      requires Ok?
    {
      value
    }
  }
}
